=== FILE: README.md ===
# FreeFlightSequencer serial protocol, modelled in Dafny

FreeFlightSequencer pairs Arduino firmware for free-flight model aircraft with host
programs that talk to it over a serial line: a desktop tkinter application with one tab
per firmware application (FlightSequencer, GpsAutopilot, DeviceTest) and a Kivy mobile
application. This project models both ends of that text protocol and proves what the
code promises about it.

One Dafny module models each source file. Where the source changes state step by step,
the module uses a `class` whose methods modify its fields. Where the source only
computes, the module uses datatypes, functions and lemmas.

## Host side (Python)

- `PyText` (pytext.dfy) holds the Python `str` primitives the host code relies on:
  - whitespace as `str.isspace` defines it;
  - `strip`, `split` on one character, `join`, `lower` and `upper` (ASCII case folding);
  - `int(...)`, `float(...)` and `str(int)`;
  - the truncation `int(float(...))` performs.
- `Regex` (regex.dfy) is a small backtracking matcher for the fragment of `re` the parsers
  use. It explores alternatives in `re.search` order: leftmost start, top-level
  alternatives left to right, greedy runs longest first, lazy runs shortest first. It
  also has lemmas that turn patterns such as `a.*b` or `a.*b|w` into plain statements
  about words in the line.
- `ParameterMonitoring` (parameter_monitor.py) models line reassembly across reads. It
  also models the detection chain, where FlightSequencer wins over GpsAutopilot, which
  wins over DeviceTest. The typed parameter table runs as an ordered list of rules,
  last write wins. The pattern `ESC.*(armed|disarmed)` stores ARMED even for a
  "disarmed" line (`EscArmedAlwaysArmed`).
- `TabManagement` (tab_manager.py) models the detector with its two-second debounce and
  its ordered pattern table, and the routing of every message to every handler. Because
  of the alternation in `Test.*PASS|FAIL`, any line containing "fail" that matches no
  earlier pattern is detected as DeviceTest (`AnyFailIsDeviceTest`).
- `CsvFix` (gui/test_csv_fix.py and its byte-identical copy gui/test/test_csv_fix.py)
  covers the flight-record repair script. It normalises line endings and walks the lines
  with steps of one or two, merging a GPS record split over two lines. It then parses the
  HEADER and GPS records; a record whose conversion raises is skipped.
- `SerialComm` (gui/mobile_gui/src/serial_comm.py) covers the mobile serial link: the
  write queue, the read loop's line splitting and delivery, and the connect/disconnect
  flags.
- `MobileFlightSequencer` and `MobileGpsAutopilot` model the two mobile tabs:
  - the range-checked one-letter commands;
  - phase detection by first matching substring, under which "DISARMED" reads as ARMED;
  - fix texts found by plain substring tests, which look for "fix.*true" literally.
- `DesktopFlightSequencer` (flight_sequencer_tab.py) models the three setters, which send
  the operator's text verbatim. It also models the profiles and the status parser. A
  "Total Flight Time: N" reply sets the flight count (`FlightTimeReplySetsCount`).
- `GpsAutopilotTab` (gps_autopilot_tab.py) models:
  - the eight range-checked setters;
  - the navigation, control and servo parsers;
  - the display refresh, limited to ten per second.

  "armed" is checked before "disarmed", so the control mode never becomes DISARMED.
- `DeviceTestTab` (device_test_tab.py) models the tab as written. Its number and result
  patterns are raw strings with doubled backslashes (`r'satellite.*?(\\d+)'`). To `re`
  they ask for a literal backslash, so:
  - the satellite count, servo position and ESC speed never change (`NumbersNeverChange`);
  - the LED never gets a colour name (`LedNeverNamed`);
  - the results table ignores every line without a backslash (`NoBackslashNoResults`);
  - since "esc ... disarmed" also matches "esc ... armed", the Disarmed status is
    unreachable (`DisarmedUnreachable`).
- `ParameterPanelWidget` (parameter_panel.py) models:
  - the validation rules;
  - the text and check-box variables;
  - the `SET <NAME> <value>` command;
  - the stores and lookups on known group/parameter pairs.

## Device side (Arduino C++, GpsAutopilot)

- `CText` (ctext.dfy) holds the C and Arduino text primitives the firmware relies on:
  `isspace`, `String::trim`, NUL-terminated buffers, `strtok` over one delimiter (ISO C11
  section 7.24.5.8: empty fields vanish), and `atoi`/`atof`.
- `Config` holds the constants of config.h.
- `MathUtils` covers:
  - saturation, dead band, rate limiting and the hysteresis latch;
  - the running statistics;
  - the 32-slot circular buffer, whose running sum is proved to equal the sum of its slots;
  - the one-dimensional lookup table;
  - 32-bit wrap-around of `millis()` differences.
- `Control` covers:
  - the `Control_Step` gating and the safety check;
  - the PI roll controller with its integral clamp;
  - the piecewise motor command, command validation and the roll-rate limit;
  - the mode and override setters.
- `Communications` covers:
  - the command dispatcher (trim, upper-case, dispatch on the first character, `SERVO `
    sub-commands);
  - the three parameter validators;
  - the logging gate.

  What the command handler prints (its replies, the status report and the log records) is
  kept as a sequence of events. The firmware's other prints are listed under "## Left out".
- `Navigation` covers:
  - NMEA sentence assembly in the 128-byte buffer;
  - GGA and RMC dispatch on the first six characters, tokenising and acceptance (NMEA 0183
    sentence definitions);
  - degree-minute conversion and the position checks.
- `HardwareHal` covers:
  - the 50 Hz loop clock;
  - the GPS read into a NUL-terminated buffer;
  - the roll-servo pulse mapping, button polarity, the error latch and the baud selection.

Time (`time.time()`, `millis()`) is an argument. Message boxes are recorded as the texts
they show. A confirmation dialog is a boolean argument. The serial link of a desktop tab
is its `isConnected` flag and the log of lines it sent.

The two parsers of the motor run time differ, and the model keeps both as written.
`ParameterMonitor` (gui/src/core/parameter_monitor.py:29) uses
`Motor Run Time:\s*(\d+)\s*seconds?`, so it does not read a reply written
"Motor Run Time = 12". The mobile FlightSequencer tab
(gui/mobile_gui/src/tabs/flight_sequencer.py:302) uses `Motor Run Time[:\s=]+(\d+)`,
so it does read that reply.

## Model

| member | source | states |
|---|---|---|
| PyText.Strip | gui/src/core/parameter_monitor.py:82 | the result is the text with its leading and trailing whitespace removed: empty, or beginning and ending with a non-space |
| PyText.StripEmptyIff | gui/src/core/parameter_monitor.py:82-83 | a stripped line is empty exactly when every character of it is whitespace |
| PyText.StripIdempotent | gui/src/core/parameter_monitor.py:82 | stripping twice is the same as stripping once |
| PyText.Split | gui/src/core/parameter_monitor.py:75 | there is at least one part; no part holds the separator; joining the parts with the separator gives back the text; there is one part exactly when the text has no separator |
| PyText.IntToStrRoundTrip | gui/src/tabs/device_test_tab.py:319-320 | int() reads back the decimal text of any integer |
| Regex.SearchLeftmost | gui/src/core/parameter_monitor.py:112 | re.search finds a match exactly when the pattern matches at some position, and reports the match at the leftmost such position |
| Regex.LiteralSearch | gui/src/core/tab_manager.py:102 | a pattern that is a plain word matches exactly when the word occurs in the text (case folded under IGNORECASE) |
| Regex.GapSearch | gui/src/core/parameter_monitor.py:90 | `a.*b` matches exactly when b follows a on the same line |
| Regex.GapOrWordSearch | gui/src/tabs/device_test_tab.py:402 | `a.*b|w` matches exactly when b follows a on one line or w occurs anywhere |
| ParameterMonitoring.Convert | gui/src/core/parameter_monitor.py:111-145 | a stored value is filed under the parameter's own name and is never the nested test-results map; without a first capture nothing is stored; a test result is produced exactly for `test_result` with both captures, upper-cased |
| ParameterMonitoring.GpsFixStored | gui/src/core/parameter_monitor.py:116-118 | after a matching line `gps_fix` holds a boolean that is true exactly when the lower-cased capture is "true", "ok" or "valid" |
| ParameterMonitoring.NameRuleStored | gui/src/core/parameter_monitor.py:119-122 | after a matching line a phase, mode, status, button or ESC key holds its capture upper-cased |
| ParameterMonitoring.FlightTimerStored | gui/src/core/parameter_monitor.py:123-126 | after a matching line `flight_timer` holds the two captures joined as "minutes:seconds" |
| ParameterMonitoring.NumberRuleStored | gui/src/core/parameter_monitor.py:136-141 | any other key holds its capture as a float when it contains '.', otherwise as an int, whenever the conversion succeeds |
| ParameterMonitoring.ApplyRulesKeepResults | gui/src/core/parameter_monitor.py:127-135 | rules other than `test_result` leave the nested results table as it was |
| ParameterMonitoring.TestResultStored | gui/src/core/parameter_monitor.py:127-135 | after a matching line the nested `test_results` table files the upper-cased outcome under the upper-cased test name |
| ParameterMonitoring.ApplyRules | gui/src/core/parameter_monitor.py:111-145 | applying a table keeps the parameter map well formed: "test_results" holds the nested map and nothing else does |
| ParameterMonitoring.CheckLine | gui/src/core/parameter_monitor.py:104-145 | checking a line keeps the parameter map well formed |
| ParameterMonitoring.Detect | gui/src/core/parameter_monitor.py:87-102 | FlightSequencer exactly when its signs match; GpsAutopilot exactly when its signs match and the FlightSequencer ones do not; DeviceTest exactly when only its signs match |
| ParameterMonitoring.SwitchTo | gui/src/core/parameter_monitor.py:64-69 | the application type becomes the requested one; the parameters are kept when it was already that type and cleared otherwise |
| ParameterMonitoring.ProcessLines | gui/src/core/parameter_monitor.py:80-85 | processing lines keeps the parameter map well formed |
| ParameterMonitoring.ParameterMonitor.constructor | gui/src/core/parameter_monitor.py:21-24 | no parameters, an empty buffer and an unknown application |
| ParameterMonitoring.ParameterMonitor.SetApplicationType | gui/src/core/parameter_monitor.py:64-69 | the state becomes SwitchTo of the old state; the buffer is untouched |
| ParameterMonitoring.ParameterMonitor.ProcessSerialData | gui/src/core/parameter_monitor.py:71-85 | the buffer keeps the text after the last newline, which holds no newline; the old buffer and the data are exactly the complete lines, each with its newline, followed by the new buffer; the state is the reference processing of those lines |
| ParameterMonitoring.ParameterMonitor.HandleLines | gui/src/core/parameter_monitor.py:81-85 | the loop over the complete lines leaves the reference processing of them, in order, and the buffer untouched |
| ParameterMonitoring.ParameterMonitor.HandleLine | gui/src/core/parameter_monitor.py:82-85 | a blank line changes nothing; any other line is read for parameters under the current application and then checked for an announcement, as the reference step does |
| ParameterMonitoring.ParameterMonitor.AutoDetectAppType | gui/src/core/parameter_monitor.py:87-102 | an announced application is switched to; a line announcing none changes nothing |
| ParameterMonitoring.ParameterMonitor.CheckForParameters | gui/src/core/parameter_monitor.py:104-145 | the parameters become CheckLine of the old ones under the current application; type and buffer are untouched |
| ParameterMonitoring.ParameterMonitor.ApplyTable | gui/src/core/parameter_monitor.py:109-145 | the loop over a table of patterns computes ApplyRules |
| ParameterMonitoring.ParameterMonitor.ApplyEntry | gui/src/core/parameter_monitor.py:112-145 | one pattern tried on the line leaves the map as ApplyRule says, still well formed: a converted value is stored under its key, a test result goes into the nested results table, and a failed conversion changes nothing |
| ParameterMonitoring.ParameterMonitor.GetParameters | gui/src/core/parameter_monitor.py:147-149 | returns the current parameters |
| ParameterMonitoring.ParameterMonitor.GetParameter | gui/src/core/parameter_monitor.py:151-153 | returns the stored value when the name is present and None otherwise |
| ParameterMonitoring.ParameterMonitor.ClearParameters | gui/src/core/parameter_monitor.py:155-158 | no parameters and an empty buffer; the application type is kept |
| ParameterMonitoring.LineReassembly | gui/src/core/parameter_monitor.py:74-81 | text is exactly its complete lines, each with a newline, followed by a tail without a newline |
| ParameterMonitoring.ReassemblyAcrossReads | gui/src/core/parameter_monitor.py:74-81 | reading a then b yields the same complete lines and the same leftover as reading a + b at once: chunking does not matter |
| ParameterMonitoring.BlankLineIgnored | gui/src/core/parameter_monitor.py:82-85 | a blank line changes nothing |
| ParameterMonitoring.SwitchingLineLeavesEmptyMap | gui/src/core/parameter_monitor.py:84-85 | a line that announces another application leaves an empty map, even if it carried parameters, because they are read before the switch clears them |
| ParameterMonitoring.NoAnnouncementKeepsType | gui/src/core/parameter_monitor.py:87-102 | a line that announces no application keeps the type |
| ParameterMonitoring.UnknownReadsNothing | gui/src/core/parameter_monitor.py:106-107 | while the type is unknown and no line announces one, nothing is recorded |
| ParameterMonitoring.ApplyRulesFrame | gui/src/core/parameter_monitor.py:111-145 | a name no rule in the table carries keeps its presence and value |
| ParameterMonitoring.RuleNamesDistinct | gui/src/core/parameter_monitor.py:27-62 | each application's table names every parameter once |
| ParameterMonitoring.MatchedRuleStored | gui/src/core/parameter_monitor.py:111-143 | a rule whose pattern matches and whose value converts leaves that value under its name after the line |
| ParameterMonitoring.ArmedInsideDisarmed | gui/src/core/parameter_monitor.py:60 | "disarmed" contains "armed" three characters in |
| ParameterMonitoring.EscTailCapturesArmed | gui/src/core/parameter_monitor.py:60 | after the greedy `.*`, the group always captures "armed" |
| ParameterMonitoring.EscArmedAlwaysArmed | gui/src/core/parameter_monitor.py:60 | every ESC line the pattern matches stores "ARMED", including "ESC disarmed" |
| TabManagement.KeyIndex | gui/src/core/tab_manager.py:68-70 | the position of an application's handler is the first entry with that application, or the end when none has it |
| TabManagement.TabManager.constructor | gui/src/core/tab_manager.py:22-66 | no active application, the detection timer at 0, no handlers and no callback |
| TabManagement.TabManager.RegisterTab | gui/src/core/tab_manager.py:68-70 | registering replaces the handler of an application already present in place and appends a new one otherwise; nothing else changes |
| TabManagement.TabManager.SetDetectionCallback | gui/src/core/tab_manager.py:72-74 | a callback is installed; nothing else changes |
| TabManagement.TabManager.DetectApplication | gui/src/core/tab_manager.py:93-106 | the result and the new timer are the reference detection: debounce first, then the first family in table order with a matching pattern |
| TabManagement.FindFamily | gui/src/core/tab_manager.py:100-104 | the scan stops at the first family with a matching pattern, whose application is the reference detection; when it runs off the end, the reference detection is unknown |
| TabManagement.TabManager.RouteMessage | gui/src/core/tab_manager.py:76-91 | the active application changes only to a detected type, and the callback fires only when that type differs from the active one; every handler receives the message in registration order, and a failing handler is logged without stopping the others |
| TabManagement.TabManager.Dispatch | gui/src/core/tab_manager.py:86-91 | every handler receives the message, and every failing one is logged |
| TabManagement.TabManager.ForceApplicationType | gui/src/core/tab_manager.py:121-126 | the type becomes the requested one and the callback fires only when it changed; the debounce timer is untouched |
| TabManagement.TabManager.ResetDetection | gui/src/core/tab_manager.py:128-131 | unknown application and timer 0; handlers and callback kept |
| TabManagement.DebounceSuppresses | gui/src/core/tab_manager.py:96-98 | within 2 seconds of the last detection nothing is detected and the timer does not move |
| TabManagement.FirstFromIsFirst | gui/src/core/tab_manager.py:100-106 | the detected family has a matching pattern and no earlier family has one; with no match the result is unknown |
| TabManagement.TableOrder | gui/src/core/tab_manager.py:28-66 | FlightSequencer wins over GpsAutopilot, which wins over DeviceTest; a detection restarts the timer and no match leaves it |
| TabManagement.AnyFailIsDeviceTest | gui/src/core/tab_manager.py:63 | because the alternation splits `Test.*PASS\|FAIL` at the bar, any line containing "fail" in any case that no earlier family matches is detected as DeviceTest |
| CsvFix.ReplaceCr | gui/test_csv_fix.py:19 | the second replacement turns every carriage return into a newline and keeps every other character in place |
| CsvFix.NormaliseRemovesCr | gui/test_csv_fix.py:19 | after line-ending normalisation no carriage return is left |
| CsvFix.NormaliseKeepsPlainText | gui/test_csv_fix.py:19 | text without carriage returns is left unchanged |
| CsvFix.CrLfBreak | gui/test_csv_fix.py:19 | a CR LF pair becomes a single newline |
| CsvFix.CrBreak | gui/test_csv_fix.py:19 | a lone CR (not followed by LF) becomes a single newline |
| CsvFix.LoneCrKept | gui/test_csv_fix.py:19 | the first replacement leaves a lone CR alone; only the second one turns it into a newline |
| CsvFix.Classify | gui/test_csv_fix.py:30-58 | a line is dropped exactly when it is empty or starts with '[' or "DEBUG"; it is broken exactly when it is a kept GPS line with fewer than six fields or an empty or bare '-' coordinate |
| CsvFix.WalkLength | gui/test_csv_fix.py:26-81 | the repaired list never has more lines than the input |
| CsvFix.MergedNotSkipped | gui/test_csv_fix.py:60-66 | a merged GPS line is never one that would be skipped |
| CsvFix.WalkClean | gui/test_csv_fix.py:26-81 | no repaired line is empty, a control marker or a DEBUG line |
| CsvFix.IncompleteLastLineKept | gui/test_csv_fix.py:67-71 | a broken GPS record on the last line is kept as it is |
| CsvFix.ContinuationNotFiltered | gui/test_csv_fix.py:58-66 | a broken GPS record is joined with the next line, stripped, whatever that line holds, and both are consumed |
| CsvFix.ProcessTestData | gui/test_csv_fix.py:16-122 | the result is the header and records parsed from the repaired lines of the normalised text |
| CsvFix.IsIncomplete | gui/test/test_csv_fix.py:38-56 | the imperative check agrees with the incompleteness definition |
| CsvFix.ClassifyLine | gui/test_csv_fix.py:30-81 | the imperative classification agrees with Classify |
| CsvFix.RepairLines | gui/test/test_csv_fix.py:22-81 | the repair loop computes the reference walk over the lines |
| CsvFix.ParseRecords | gui/test/test_csv_fix.py:83-122 | the parse loop computes the reference parse, including the ValueError a bad header raises |
| CsvFix.RaisedSticks | gui/test_csv_fix.py:86-101 | once a header raises, the whole parse raises, whatever follows |
| CsvFix.MalformedGpsSkipped | gui/test/test_csv_fix.py:103-119 | a GPS line with too few fields or an unparsable number adds no record and changes nothing |
| CsvFix.LaterHeaderWins | gui/test_csv_fix.py:87-102 | a later good header replaces the earlier one and keeps the records |
| CsvFix.GpsAvailableIff | gui/test_csv_fix.py:94 | gps_available is true exactly when the fourth field is "true" |
| CsvFix.RecordsBounded | gui/test_csv_fix.py:86-119 | there are never more records than lines |
| CsvFix.BrokenRecordFields | gui/test_csv_fix.py:11 | a record split after the longitude's minus sign has six fields, the last being "-" |
| CsvFix.MergedRecordFields | gui/test_csv_fix.py:11-12 | joining the continuation puts it after the minus sign in the sixth field |
| CsvFix.BrokenRecordMerged | gui/test_csv_fix.py:58-66 | a record broken after the minus sign and its continuation come out as one line |
| CsvFix.BrokenRecordRepaired | gui/test/test_csv_fix.py:132-147 | such a record parses into one GPS record whose longitude is the negated continuation |
| CsvFix.GpsLineParsed | gui/test_csv_fix.py:103-116 | a well-formed GPS line on its own gives exactly its record and no header |
| SerialComm.Deliver | gui/mobile_gui/src/serial_comm.py:121-126 | one line goes to every callback, once each, in registration order |
| SerialComm.DeliveredLinesStripped | gui/mobile_gui/src/serial_comm.py:116-120 | no delivered line is empty, and every delivered line is already stripped |
| SerialComm.LinesOfTerminated | gui/mobile_gui/src/serial_comm.py:116-118 | splitting lines each followed by a newline, plus a tail without one, gives back those lines and that tail |
| SerialComm.DeliveriesAppend | gui/mobile_gui/src/serial_comm.py:116-126 | delivering two runs of lines is delivering their concatenation |
| SerialComm.ChunkingInvisible | gui/mobile_gui/src/serial_comm.py:110-126 | receiving a then b delivers the same calls, in the same order, and leaves the same tail as receiving a + b at once |
| SerialComm.MobileSerialMonitor.constructor | gui/mobile_gui/src/serial_comm.py:16-27 | not connected or running, no port, 9600 baud, no error, empty queue, no callbacks |
| SerialComm.MobileSerialMonitor.Connect | gui/mobile_gui/src/serial_comm.py:29-59 | success exactly when the port opens; then connected and running on that port and baud with a fresh line buffer; a failure records the error and changes nothing else |
| SerialComm.MobileSerialMonitor.Disconnect | gui/mobile_gui/src/serial_comm.py:61-76 | not running, not connected, and no port |
| SerialComm.MobileSerialMonitor.SendLine | gui/mobile_gui/src/serial_comm.py:78-88 | while connected the line plus a newline is queued; otherwise nothing happens |
| SerialComm.MobileSerialMonitor.AddReceiveCallback | gui/mobile_gui/src/serial_comm.py:90-97 | the callback is appended to the list |
| SerialComm.MobileSerialMonitor.ReadIteration | gui/mobile_gui/src/serial_comm.py:103-126 | one pass of the read loop writes the whole queue in FIFO order, then keeps the text after the last newline as the buffer and delivers every complete line in order |
| SerialComm.MobileSerialMonitor.DrainWrites | gui/mobile_gui/src/serial_comm.py:106-108 | the queue is emptied and its items are written in order |
| SerialComm.MobileSerialMonitor.ReceiveChunk | gui/mobile_gui/src/serial_comm.py:111-126 | the chunk is appended; the buffer keeps exactly the unterminated tail, and the complete lines are delivered in arrival order |
| SerialComm.MobileSerialMonitor.CutLines | gui/mobile_gui/src/serial_comm.py:116-126 | the inner loop cuts every complete line off the buffer and delivers it |
| SerialComm.MobileSerialMonitor.CutFirstLine | gui/mobile_gui/src/serial_comm.py:117-126 | one cut returns the text before the first newline, removes it and the newline from the buffer, and delivers the stripped line when it is not empty |
| SerialComm.MobileSerialMonitor.CallBack | gui/mobile_gui/src/serial_comm.py:122-126 | every callback is called with the line, failing or not |
| MobileFlightSequencer.SetterOutcome | gui/mobile_gui/src/tabs/flight_sequencer.py:207-271 | text float() rejects shows the "Invalid" error; a command is sent exactly when int(float(text)) lies in the setting's inclusive range (M 1-300, T 10-600, S 95-200, DR and DD 950-2050, DW 1-60); otherwise the range error is shown |
| MobileFlightSequencer.SetterCommandReadsBack | gui/mobile_gui/src/tabs/flight_sequencer.py:207-271 | a sent command is the setting's letters, a space and the truncated value, which parses back to that in-range value |
| MobileFlightSequencer.LabelledValueRead | gui/mobile_gui/src/tabs/flight_sequencer.py:302-327 | a label followed by separators from `[:\s=]` and digits reads as the value of those digits |
| MobileFlightSequencer.UnmatchedFieldKept | gui/mobile_gui/src/tabs/flight_sequencer.py:302-305 | a field whose label is not matched keeps its value |
| MobileFlightSequencer.DisarmedReadsArmed | gui/mobile_gui/src/tabs/flight_sequencer.py:330-333 | a line containing "DISARMED" and no "READY" sets the phase to ARMED, since the substring tests run in order |
| MobileFlightSequencer.PhaseKeptWithoutKeyword | gui/mobile_gui/src/tabs/flight_sequencer.py:330-339 | a line with none of the five phase words keeps the phase |
| MobileFlightSequencer.SyncedShowsStore | gui/mobile_gui/src/tabs/flight_sequencer.py:341-361 | a row shows the stored value when there is one and keeps its text otherwise; syncing twice is the same as once |
| MobileFlightSequencer.FlightSequencerTab.constructor | gui/mobile_gui/src/tabs/flight_sequencer.py:80-99 | the tab registers its handler with the link; all six parameters are None and the phase is UNKNOWN |
| MobileFlightSequencer.FlightSequencerTab.SendCommand | gui/mobile_gui/src/tabs/flight_sequencer.py:199-205 | connected: the command is queued and the status kept; disconnected: nothing is queued and the status reads "Not Connected"; the G and R buttons go through here |
| MobileFlightSequencer.FlightSequencerTab.Set | gui/mobile_gui/src/tabs/flight_sequencer.py:207-271 | a rejected value sends nothing and shows its error; an accepted one is sent as SendCommand does |
| MobileFlightSequencer.FlightSequencerTab.DownloadData | gui/mobile_gui/src/tabs/flight_sequencer.py:281-284 | "D J" is queued when connected, and the status shows the download in either case |
| MobileFlightSequencer.FlightSequencerTab.EmergencyStop | gui/mobile_gui/src/tabs/flight_sequencer.py:286-289 | "STOP" is queued when connected, and the status shows the stop in either case |
| MobileFlightSequencer.FlightSequencerTab.ParseParameters | gui/mobile_gui/src/tabs/flight_sequencer.py:299-339 | the parameter store becomes ParseLine of the old store and the line |
| MobileFlightSequencer.FlightSequencerTab.SyncGui | gui/mobile_gui/src/tabs/flight_sequencer.py:341-369 | the rows show the store, the phase label shows the phase, and the status reads Connected while connected |
| MobileFlightSequencer.FlightSequencerTab.HandleSerialData | gui/mobile_gui/src/tabs/flight_sequencer.py:291-297 | the parameters become ParseLine of the old ones and the line; the rows follow Synced, the phase label shows the phase, and the status reads Connected while the monitor is connected and is kept otherwise |
| MobileGpsAutopilot.FixNeedsLiteralStar | gui/mobile_gui/src/tabs/gps_autopilot.py:139-143 | "fix.*true" and "fix.*false" are plain substring tests, so in a line without '*' only "Fix OK" and then "No Fix" change the fix text |
| MobileGpsAutopilot.FixOkFirst | gui/mobile_gui/src/tabs/gps_autopilot.py:140-141 | any line containing "Fix OK" reads as Fix OK, even one that also says "No Fix" |
| MobileGpsAutopilot.PositionMovesTogether | gui/mobile_gui/src/tabs/gps_autopilot.py:150-156 | the three position components either all keep their values or all take the numbers the pattern captured |
| MobileGpsAutopilot.SatellitesLineSets | gui/mobile_gui/src/tabs/gps_autopilot.py:145-149 | "Satellites:", blanks and a digit run set the count to the value of those digits |
| MobileGpsAutopilot.AutopilotTab.constructor | gui/mobile_gui/src/tabs/gps_autopilot.py:17-58 | the readout starts at No Fix, 0 satellites and zero position, range and bearing; the labels read "GPS: No Fix" and "Satellites: 0"; and the tab's handler is appended to the link's receive callbacks |
| MobileGpsAutopilot.AutopilotTab.Press | gui/mobile_gui/src/tabs/gps_autopilot.py:105-133 | connected: the button's command plus a newline is queued; disconnected: nothing is queued |
| MobileGpsAutopilot.AutopilotTab.HandleSerialData | gui/mobile_gui/src/tabs/gps_autopilot.py:135-175 | the readout becomes Step of the old readout and the line, and the GPS and satellite labels show the new readout |
| DesktopFlightSequencer.SetterOutcome | gui/src/tabs/flight_sequencer_tab.py:232-269 | a command is sent exactly when int() of the stripped text succeeds and lies in the field's inclusive range (M 1-300, T 10-600, S 95-200); text int() refuses gives the integer error, an out-of-range value its range message |
| DesktopFlightSequencer.SetterSendsTextVerbatim | gui/src/tabs/flight_sequencer_tab.py:232-243 | the command is the letter, a space and the stripped text as typed (so "020" sends "M 020"), which reads back as the checked value |
| DesktopFlightSequencer.DecimalPointRefused | gui/src/tabs/flight_sequencer_tab.py:232-243 | text with a decimal point, such as "12.5", is never sent |
| DesktopFlightSequencer.CustomProfiles | gui/src/tabs/flight_sequencer_tab.py:215-217 | the saved profiles are exactly those not named like a built-in, with their values |
| DesktopFlightSequencer.SaveLoadRoundTrip | gui/src/tabs/flight_sequencer_tab.py:197-222 | loading what was saved on top of the built-ins gives back the profile table, as long as the built-ins were not overwritten |
| DesktopFlightSequencer.PhaseRead | gui/src/tabs/flight_sequencer_tab.py:329-333 | after the first "Phase" (any case), the first run of letters and underscores becomes the phase display |
| DesktopFlightSequencer.FlightCountRead | gui/src/tabs/flight_sequencer_tab.py:341-344 | after the first "Flight" (any case), the first run of digits becomes the flight count display |
| DesktopFlightSequencer.FlightTimeReplySetsCount | gui/src/tabs/flight_sequencer_tab.py:341-344 | a "Total Flight Time: N" reply sets the flight count display to N |
| DesktopFlightSequencer.TimerNeedsCapitalT | gui/src/tabs/flight_sequencer_tab.py:335-339 | the timer match is case-sensitive: a line without a capital T never changes the timer |
| DesktopFlightSequencer.FlightSequencerTab.constructor | gui/src/tabs/flight_sequencer_tab.py:26-47 | the profiles are the built-ins updated with the saved ones, the parameter monitor is fresh, the three entries start at "20", "120" and "150", and nothing has been sent or shown |
| DesktopFlightSequencer.FlightSequencerTab.SendCommand | gui/src/tabs/flight_sequencer_tab.py:224-230 | connected: the command is sent; otherwise nothing is sent and the user is asked to connect |
| DesktopFlightSequencer.FlightSequencerTab.Set | gui/src/tabs/flight_sequencer_tab.py:232-269 | an accepted entry is sent as SendCommand does; a rejected one sends nothing and shows its error |
| DesktopFlightSequencer.FlightSequencerTab.LoadProfile | gui/src/tabs/flight_sequencer_tab.py:165-172 | a known profile fills the three entries; an unknown name such as "Custom" changes nothing |
| DesktopFlightSequencer.FlightSequencerTab.SaveCustomProfile | gui/src/tabs/flight_sequencer_tab.py:174-183 | an empty name does nothing; otherwise the entries are stored under the name and the file holds the custom profiles |
| DesktopFlightSequencer.FlightSequencerTab.GetParameters | gui/src/tabs/flight_sequencer_tab.py:271-273 | "G" is sent exactly when connected; disconnected, the warning "Please connect to Arduino first" is shown instead, and connected no message is added |
| DesktopFlightSequencer.FlightSequencerTab.ResetParameters | gui/src/tabs/flight_sequencer_tab.py:275-279 | "R" is sent exactly when confirmed and connected; the warning "Please connect to Arduino first" is shown exactly when confirmed and disconnected, and unconfirmed nothing is sent or shown |
| DesktopFlightSequencer.FlightSequencerTab.EmergencyStop | gui/src/tabs/flight_sequencer_tab.py:281-286 | "STOP" is sent exactly when confirmed and connected; the warning "Please connect to Arduino first" is shown exactly when confirmed and disconnected, and unconfirmed nothing is sent or shown |
| DesktopFlightSequencer.FlightSequencerTab.UpdateFlightStatus | gui/src/tabs/flight_sequencer_tab.py:326-344 | the status display follows UpdateStatus |
| DesktopFlightSequencer.FlightSequencerTab.HandleSerialData | gui/src/tabs/flight_sequencer_tab.py:288-300 | the parameter monitor processes the data and the status display follows UpdateStatus |
| GpsAutopilotTab.SetterOutcome | gui/src/tabs/gps_autopilot_tab.py:317-420 | a command is sent exactly when float() accepts the entry and the value lies in the inclusive range (radius 20-500, airspeed 5-25, orbit Kp 0.001-1, track Kp 0.1-10, track Ki 0-2, roll Kp 0.1-5, servo centre 1400-1600, range 200-600), and it carries that value; text float() refuses gives the conversion error |
| GpsAutopilotTab.DirectionCommand | gui/src/tabs/gps_autopilot_tab.py:396-400 | the direction command ends in 1 exactly when the selection is "Inverted", and in 0 otherwise |
| GpsAutopilotTab.ParseServo | gui/src/tabs/gps_autopilot_tab.py:559-582 | a line without "[SERVO]" changes nothing; a line with it marks the configuration updated |
| GpsAutopilotTab.ServoDirectionPriority | gui/src/tabs/gps_autopilot_tab.py:576-580 | "inverted" (any case) wins over "normal"; with neither the direction is kept |
| GpsAutopilotTab.ControlModeNeverBecomesDisarmed | gui/src/tabs/gps_autopilot_tab.py:554-557 | since "armed" is checked first and "disarmed" contains it, a line never sets DISARMED, and a "disarmed" line sets ARMED |
| GpsAutopilotTab.FixOkAnywhere | gui/src/tabs/gps_autopilot_tab.py:497-500 | when the fix pattern matches and "[OK]" appears anywhere in the line, the fix is true |
| GpsAutopilotTab.LowercaseOkMeansNoFix | gui/src/tabs/gps_autopilot_tab.py:497-504 | a matching line without the exact "[OK]" and without a 'g' sets the fix false, because the "Fix Status" branch captures no group |
| GpsAutopilotTab.SatellitesLineRead | gui/src/tabs/gps_autopilot_tab.py:507-512 | "Satellites:", blanks and digits set the count to those digits, taken from the first group |
| GpsAutopilotTab.AutopilotTab.constructor | gui/src/tabs/gps_autopilot_tab.py:25-57 | the records hold their initial values, nothing was sent, the refresh timer is 0 and the widgets show their initial texts (the arm button reads ARM) |
| GpsAutopilotTab.AutopilotTab.SendCommand | gui/src/tabs/gps_autopilot_tab.py:309-316 | connected: the command is sent; otherwise nothing is sent and the user is asked to connect; the fixed-command buttons go through here |
| GpsAutopilotTab.AutopilotTab.Set | gui/src/tabs/gps_autopilot_tab.py:317-420 | an accepted entry is sent as SendCommand does; a rejected one sends nothing and shows its error text |
| GpsAutopilotTab.AutopilotTab.SetServoDirection | gui/src/tabs/gps_autopilot_tab.py:396-400 | the direction command is sent exactly when connected; otherwise the warning "Please connect to Arduino first" is shown and nothing is sent |
| GpsAutopilotTab.AutopilotTab.ToggleArmDisarm | gui/src/tabs/gps_autopilot_tab.py:442-454 | unconfirmed nothing is sent, shown or relabelled; confirmed, the button flips between ARM and DISARM, every other widget is kept, and the matching CTRL command is sent when connected, the warning "Please connect to Arduino first" shown otherwise |
| GpsAutopilotTab.AutopilotTab.EmergencyStop | gui/src/tabs/gps_autopilot_tab.py:456-462 | confirmed, the button returns to ARM, every other widget kept, and "SYS EMERGENCY" is sent when connected, the warning "Please connect to Arduino first" shown otherwise; unconfirmed nothing is sent, shown or relabelled |
| GpsAutopilotTab.AutopilotTab.ParseNavigationData | gui/src/tabs/gps_autopilot_tab.py:493-534 | the navigation record becomes ParseNav of the old record and the line |
| GpsAutopilotTab.AutopilotTab.ParseControlData | gui/src/tabs/gps_autopilot_tab.py:536-557 | the control record becomes ParseControl of the old record and the line |
| GpsAutopilotTab.AutopilotTab.ParseServoData | gui/src/tabs/gps_autopilot_tab.py:559-582 | the servo record becomes ParseServo of the old record and the line |
| GpsAutopilotTab.Relabelled | gui/src/tabs/gps_autopilot_tab.py:584-618 | the arm button follows an ARMED or DISARMED mode and is otherwise kept; GPS, satellite, flight-mode and nav-mode labels show the records; the servo entries are kept |
| GpsAutopilotTab.WithServo | gui/src/tabs/gps_autopilot_tab.py:619-643 | an updated servo record is copied into the three entries and the summary line; otherwise nothing changes; the labels are always kept |
| GpsAutopilotTab.Refreshed | gui/src/tabs/gps_autopilot_tab.py:584-643 | after a refresh every label shows the records, and the servo entries and summary follow the servo record exactly when it was updated |
| GpsAutopilotTab.AutopilotTab.RefreshLabels | gui/src/tabs/gps_autopilot_tab.py:584-618 | the display becomes Relabelled of the old display and the records |
| GpsAutopilotTab.AutopilotTab.RefreshServoEntries | gui/src/tabs/gps_autopilot_tab.py:619-643 | the display becomes WithServo of the old display and the old servo record, and the update flag is cleared |
| GpsAutopilotTab.AutopilotTab.ParseAll | gui/src/tabs/gps_autopilot_tab.py:470-477 | navigation, control and servo parsers each run on the line |
| GpsAutopilotTab.AutopilotTab.RefreshIfDue | gui/src/tabs/gps_autopilot_tab.py:479-484 | within 0.1 s of the last refresh the display, the servo record and the timer are unchanged; otherwise the display becomes Refreshed of the old display and the records, the servo flag is cleared and the timer becomes now |
| GpsAutopilotTab.AutopilotTab.HandleSerialData | gui/src/tabs/gps_autopilot_tab.py:464-491 | every line is parsed into the records; within 0.1 s of the last refresh the display and the timer are unchanged, otherwise the display becomes Refreshed with the parsed records, the servo flag is cleared and the timer becomes now |
| DeviceTestTab.TestCommandReadsBack | gui/src/tabs/device_test_tab.py:317-321 | every test command starts "TEST " and names its test; the system test's command is "TEST ALL " followed by text that int() reads back as the chosen duration |
| DeviceTestTab.ButtonPriority | gui/src/tabs/device_test_tab.py:396-405 | "press" after "button" gives Pressed; otherwise "release" after "button" gives Released; otherwise "pass" anywhere on the line gives OK, even without "button"; a line with none of these keeps the button reading |
| DeviceTestTab.GpsFixAfter | gui/src/tabs/device_test_tab.py:407-411 | a fix reading keeps the fix flag in step with the "Fix OK" text and touches neither the ESC nor the button |
| DeviceTestTab.LedColorOfButtons | gui/src/tabs/device_test_tab.py:419-433 | the colour buttons' values read back as Red, Green, Blue, White and Off; Yellow's 255,255,0 reads back as RGB(255,255,0) |
| DeviceTestTab.DisarmedUnreachable | gui/src/tabs/device_test_tab.py:452-459 | a line that says "disarmed" after "esc" also says "armed" after it, so the "Disarmed" branch never runs and the status is never set to Disarmed |
| DeviceTestTab.ReadingsAfter | gui/src/tabs/device_test_tab.py:413-449 | the satellite, LED, servo and speed readings never change the button, the fix or the arming |
| DeviceTestTab.ButtonSurvivesRaise | gui/src/tabs/device_test_tab.py:391-405 | the button reading is taken first, so it stands even when a later int() raises |
| DeviceTestTab.StatusAfterConsistent | gui/src/tabs/device_test_tab.py:391-459 | a status line keeps the fix and armed flags in step with their texts, and the ESC never shows Disarmed |
| DeviceTestTab.NumberPrefixesPlain | gui/src/tabs/device_test_tab.py:413-447 | the words before each number group ("satellite", "led color", "servo position", "esc speed") can only match characters other than a backslash |
| DeviceTestTab.NumberGroupNeverParses | gui/src/tabs/device_test_tab.py:413-449 | a group written `(\\d+)` in a raw string needs a backslash, so int() of it never gives a number |
| DeviceTestTab.NumbersNeverChange | gui/src/tabs/device_test_tab.py:413-449 | no line changes the satellite count, the servo position or the ESC speed |
| DeviceTestTab.LedNeverNamed | gui/src/tabs/device_test_tab.py:419-436 | a status line never gives the LED one of the names Off, Red, Green, Blue or White, because the captured text starts with a backslash |
| DeviceTestTab.NoBackslashNoNumbers | gui/src/tabs/device_test_tab.py:413-449 | a line without a backslash raises nothing and leaves the satellites, LED, servo, position and speed readings unchanged |
| DeviceTestTab.NoEscapedMatch | gui/src/tabs/device_test_tab.py:413 | a pattern ending in an escaped group finds no group in a line without a backslash |
| DeviceTestTab.NoBackslashNoResults | gui/src/tabs/device_test_tab.py:476-480 | the `(\\w+)` result pattern needs a backslash, so a line without one leaves the results table unchanged |
| DeviceTestTab.TestEndingWords | gui/src/tabs/device_test_tab.py:463-472 | "finished" anywhere, or "complete" after "test", completes a running test; otherwise "fail" after "test" fails it; otherwise the test goes on |
| DeviceTestTab.NeverReadShowsUnknown | gui/src/tabs/device_test_tab.py:486-545 | before any reading, every device shows as unknown and the satellite count as 0, at any time |
| DeviceTestTab.ButtonShownWhileFresh | gui/src/tabs/device_test_tab.py:486-500 | a button press shows as Pressed when it is read, and as unknown again five seconds later |
| DeviceTestTab.DeviceTestTab.constructor | gui/src/tabs/device_test_tab.py:26-53 | no test is running and none has a start time, the status reads "No test running", the results are empty, every device is Unknown with last update 0, and nothing has been sent |
| DeviceTestTab.DeviceTestTab.SendCommand | gui/src/tabs/device_test_tab.py:291-297 | connected: the command is sent; otherwise a warning is shown and nothing is sent |
| DeviceTestTab.DeviceTestTab.RunTest | gui/src/tabs/device_test_tab.py:299-325 | while a test runs, a new one is refused with a warning and nothing else changes; otherwise the test becomes current, its start time is now, the status reads "Running ... test...", and its command is sent when connected, the warning "Please connect to Arduino first" shown otherwise |
| DeviceTestTab.DeviceTestTab.TestCompleted | gui/src/tabs/device_test_tab.py:333-346 | no test is current, the start time is cleared and the status reads "Test completed: " with the result |
| DeviceTestTab.DeviceTestTab.StopTest | gui/src/tabs/device_test_tab.py:327-331 | with no test running nothing is sent or shown; otherwise the test ends "stopped by user", and "TEST STOP" is sent when connected, the warning "Please connect to Arduino first" shown otherwise |
| DeviceTestTab.DeviceTestTab.SetLedColor | gui/src/tabs/device_test_tab.py:349-351 | "LED COLOR" with the chosen values is sent when connected; otherwise the warning "Please connect to Arduino first" is shown |
| DeviceTestTab.DeviceTestTab.SetServoPosition | gui/src/tabs/device_test_tab.py:353-356 | "SERVO POS" with the slider value truncated toward zero is sent when connected; otherwise the warning "Please connect to Arduino first" is shown |
| DeviceTestTab.DeviceTestTab.ArmEsc | gui/src/tabs/device_test_tab.py:358-361 | "ESC ARM" is sent only when confirmed and connected; the warning "Please connect to Arduino first" is shown exactly when confirmed and disconnected |
| DeviceTestTab.DeviceTestTab.DisarmEsc | gui/src/tabs/device_test_tab.py:363-365 | "ESC DISARM" is sent when connected, with no confirmation; otherwise the warning "Please connect to Arduino first" is shown |
| DeviceTestTab.DeviceTestTab.SetEscSpeed | gui/src/tabs/device_test_tab.py:367-375 | the truncated speed is sent when connected, and a positive speed only after confirmation; the warning "Please connect to Arduino first" is shown exactly when the speed would go out but the link is down |
| DeviceTestTab.DeviceTestTab.ParseDeviceStatus | gui/src/tabs/device_test_tab.py:391-459 | the device statuses become StatusAfter of the old statuses and the line, and the method reports whether int() raised |
| DeviceTestTab.DeviceTestTab.ParseReadings | gui/src/tabs/device_test_tab.py:413-449 | the statuses become ReadingsAfter of the old statuses, the readings in source order, and a raise stops after the earlier updates |
| DeviceTestTab.DeviceTestTab.ParseTestResults | gui/src/tabs/device_test_tab.py:461-484 | a running test ends COMPLETED or FAILED as TestEnding says, and otherwise nothing changes; the results table becomes ResultsAfter of the old table and the line |
| DeviceTestTab.DeviceTestTab.UpdateStatusDisplays | gui/src/tabs/device_test_tab.py:486-545 | the labels become Displayed of the statuses at the given time |
| DeviceTestTab.DeviceTestTab.HandleSerialData | gui/src/tabs/device_test_tab.py:377-389 | the statuses are parsed first; when int() raises, the test, its start time, its status text, the results and the labels stay as they were; otherwise the results are parsed and the labels refreshed, a running test ends on an ending line (no test, no start time, status "Test completed: " and the outcome), and without one the test, start time and status are kept |
| ParameterPanelWidget.ValidRules | gui/src/widgets/parameter_panel.py:191-214 | a missing type counts as float; an int or float value must convert and lie in the inclusive range when one is given; a choice must be listed; a bool must be a boolean; any other type passes; each case both ways |
| ParameterPanelWidget.RangeOnlyForNumbers | gui/src/widgets/parameter_panel.py:205-210 | the range changes the verdict only for int and float parameters |
| ParameterPanelWidget.IntRangeInclusive | gui/src/widgets/parameter_panel.py:196-210 | both ends of an int range are accepted and the integers just outside it are refused |
| ParameterPanelWidget.UnparsableIntRefused | gui/src/widgets/parameter_panel.py:191-214 | text that int() rejects is refused, and nothing is raised |
| ParameterPanelWidget.InitialVar | gui/src/widgets/parameter_panel.py:95-110 | a parameter gets a check box exactly when its type is bool |
| ParameterPanelWidget.NewGroup | gui/src/widgets/parameter_panel.py:49-52 | the new group has one variable per parameter, and a check box exactly for the bool ones |
| ParameterPanelWidget.StoreThenLookup | gui/src/widgets/parameter_panel.py:216-227 | an unknown group or parameter is ignored; a text variable reads back the stored text; a check box reads back the boolean the text names, and raises on text that names none |
| ParameterPanelWidget.StoreKeepsOthers | gui/src/widgets/parameter_panel.py:216-221 | a store keeps the groups well formed and leaves every other variable unchanged |
| ParameterPanelWidget.CheckBoxAlwaysValid | gui/src/widgets/parameter_panel.py:202-203 | a check box's value always passes validation |
| ParameterPanelWidget.SetCommandParts | gui/src/widgets/parameter_panel.py:187-188 | the command is "SET ", the upper-cased name, a blank and the value's text, and splits back into them |
| ParameterPanelWidget.ParameterPanel.constructor | gui/src/widgets/parameter_panel.py:23-28 | no groups, no callbacks, nothing sent |
| ParameterPanelWidget.ParameterPanel.AddParameterGroup | gui/src/widgets/parameter_panel.py:49-52 | the group is filed under its name, replacing any earlier one, and the groups stay well formed |
| ParameterPanelWidget.ParameterPanel.SetSendCallback | gui/src/widgets/parameter_panel.py:251-253 | a send callback is installed |
| ParameterPanelWidget.ParameterPanel.SetUpdateCallback | gui/src/widgets/parameter_panel.py:255-257 | an update callback is installed |
| ParameterPanelWidget.ParameterPanel.SetParameter | gui/src/widgets/parameter_panel.py:171-189 | with no send callback a warning is shown; otherwise a valid value is sent as its SET command and an invalid one is reported with its name and value, and nothing is sent |
| ParameterPanelWidget.ParameterPanel.UpdateParameterValue | gui/src/widgets/parameter_panel.py:216-221 | the groups become the result of the store; the update callback is called only after a store succeeds; a check box given text that names no boolean raises |
| ParameterPanelWidget.ParameterPanel.GetAllParameters | gui/src/widgets/parameter_panel.py:229-232 | "GET ALL" is sent when a send callback is installed |
| ParameterPanelWidget.ParameterPanel.ResetAllParameters | gui/src/widgets/parameter_panel.py:234-239 | "RESET ALL" is sent only when confirmed and a callback is installed |
| ParameterPanelWidget.ParameterPanel.SaveProfile | gui/src/widgets/parameter_panel.py:241-244 | only the "not yet implemented" message is shown |
| ParameterPanelWidget.ParameterPanel.LoadProfile | gui/src/widgets/parameter_panel.py:246-249 | only the "not yet implemented" message is shown |
| CText.Trim | applications/GpsAutopilot/communications.cpp:158 | the trimmed command neither starts nor ends with whitespace |
| CText.TrimRemovesPadding | applications/GpsAutopilot/communications.cpp:158 | trimming removes exactly the surrounding whitespace and keeps the text between |
| CText.CStr | applications/GpsAutopilot/navigation.cpp:36-39 | the C string held by a buffer is its prefix before the first NUL, and the whole text when it holds none |
| CText.Tokens | applications/GpsAutopilot/navigation.cpp:145-149 | every token strtok returns is non-empty and free of the delimiter |
| CText.TokensSkipEmptyFields | applications/GpsAutopilot/navigation.cpp:145-149 | strtok yields the comma-separated fields with the empty ones dropped, so an empty NMEA field shifts the later ones |
| CText.LeadingDelimiters | applications/GpsAutopilot/navigation.cpp:145 | delimiters at the start of the text contribute no token |
| CText.StrtokNext | applications/GpsAutopilot/navigation.cpp:145-148 | one strtok call returns nothing exactly when no token is left, and otherwise the first token, leaving a shorter rest that holds the remaining tokens |
| CText.Tokenize | applications/GpsAutopilot/navigation.cpp:144-149 | the tokenising loop collects the first maxTokens tokens, or all of them when there are fewer |
| CText.Atoi | applications/GpsAutopilot/navigation.cpp:171-172 | atoi is non-positive after a minus sign and non-negative otherwise |
| CText.Atof | applications/GpsAutopilot/navigation.cpp:156-173 | atof is non-positive after a minus sign and non-negative otherwise |
| CText.AtoiOfNatToStr | applications/GpsAutopilot/navigation.cpp:171-172 | atoi reads a written natural number back exactly |
| CText.AtofFixedPoint | applications/GpsAutopilot/navigation.cpp:156 | on digits, a point and digits, atof gives the exact decimal value |
| CText.AtofNegated | applications/GpsAutopilot/navigation.cpp:156 | a leading minus sign negates the value atof reads |
| HardwareHal.BaudRateFor | applications/GpsAutopilot/hardware_hal.cpp:261-274 | GPS baud index 1 opens 19200 baud, index 2 opens 38400, and any other index opens 9600 |
| HardwareHal.ReadButton | applications/GpsAutopilot/hardware_hal.cpp:156-159 | the reported press differs from the pin level exactly when the button is configured inverted |
| HardwareHal.RollPulse | applications/GpsAutopilot/hardware_hal.cpp:98-120 | with ordered pulse limits the pulse lies within them or is the centre; it is either the centre or at least the deadband away from it |
| HardwareHal.ScaledPulse | applications/GpsAutopilot/hardware_hal.cpp:104-113 | the constrained pulse lies within the minimum and maximum pulse |
| HardwareHal.SnapToCenter | applications/GpsAutopilot/hardware_hal.cpp:115-119 | inside the deadband the pulse snaps to the centre; otherwise it is unchanged, and then at least the deadband away |
| HardwareHal.ReversalMirrors | applications/GpsAutopilot/hardware_hal.cpp:99-100 | a reversed servo given -c produces the same pulse as a normal servo given c |
| HardwareHal.ZeroCommandCentres | applications/GpsAutopilot/hardware_hal.cpp:98-120 | a zero roll command gives the centre pulse when the centre lies within the limits |
| HardwareHal.Hal.constructor | applications/GpsAutopilot/hardware_hal.cpp:34-59 | the default configuration is installed, the loop timer starts now, the counters are zero and no error is recorded |
| HardwareHal.Hal.ClockMainLoop | applications/GpsAutopilot/hardware_hal.cpp:189-210 | a tick happens exactly when at least 20 ms (with 32-bit wrap-around) have passed; it yields the elapsed seconds, restarts the timer and counts the loop; every 50th loop the CPU usage is computed from the 32-bit accumulator, which is then cleared; without a tick nothing changes |
| HardwareHal.Hal.SetRollServo | applications/GpsAutopilot/hardware_hal.cpp:98-123 | the servo receives the pulse computed by RollPulse, truncated to an integer |
| HardwareHal.Hal.SetConfig | applications/GpsAutopilot/hardware_hal.cpp:261-274 | the configuration is copied and the GPS port is reopened at the baud rate the index selects |
| HardwareHal.Hal.SetErrorCallback | applications/GpsAutopilot/hardware_hal.cpp:437-439 | the callback is installed or removed |
| HardwareHal.Hal.ReportError | applications/GpsAutopilot/hardware_hal.cpp:442-447 | the error becomes the last error, and reaches the callback exactly when one is installed |
| HardwareHal.Hal.GetLastError | applications/GpsAutopilot/hardware_hal.cpp:429-431 | returns the last error reported |
| HardwareHal.Hal.ClearError | applications/GpsAutopilot/hardware_hal.cpp:433-435 | the last error becomes "none" |
| HardwareHal.ReadGps | applications/GpsAutopilot/hardware_hal.cpp:62-72 | reads the pending bytes up to maxBytes - 1, copies them in order, NUL-terminates them and touches no other byte |
| MathUtils.Abs | applications/GpsAutopilot/math_utils.cpp:106 | the magnitude is non-negative and equals x or -x |
| MathUtils.Saturate | applications/GpsAutopilot/math_utils.cpp:115-124 | the result lies between the limits when they are ordered, equals the input inside them, the minimum below and the maximum above |
| MathUtils.SaturateIdempotent | applications/GpsAutopilot/math_utils.cpp:115-124 | saturating twice is the same as saturating once |
| MathUtils.DeadBand | applications/GpsAutopilot/math_utils.cpp:104-113 | inside the band the output is zero; outside, it keeps the sign and its magnitude shrinks by exactly the band |
| MathUtils.RateLimitFilter | applications/GpsAutopilot/math_utils.cpp:85-101 | with no positive rate or time step the desired value passes; otherwise the output moves at most rate times dt from the current value, reaches the desired value when that is close enough, and never overshoots it |
| MathUtils.NextLatch | applications/GpsAutopilot/math_utils.cpp:126-135 | the latch turns on only above the threshold and off only below its negation, and always does so there |
| MathUtils.LatchHoldsInBand | applications/GpsAutopilot/math_utils.cpp:126-135 | between -threshold and threshold the latch keeps its state |
| MathUtils.InterpBetween | applications/GpsAutopilot/math_utils.cpp:246-251 | interpolating inside [x1, x2] gives a value between y1 and y2 |
| MathUtils.FirstBracket | applications/GpsAutopilot/math_utils.cpp:409-414 | the search stops at the first interval that brackets the input, or at the last index when none does |
| MathUtils.LookupTable1D | applications/GpsAutopilot/math_utils.cpp:395-417 | fewer than two entries give 0 or table[0]; inputs at or below the first breakpoint give the first entry, at or above the last the last entry; in between, the interpolation on the first bracketing interval |
| MathUtils.LookupInsideInterpolates | applications/GpsAutopilot/math_utils.cpp:395-417 | with sorted breakpoints an interior input always finds a bracketing interval, and the result lies between that interval's table values |
| MathUtils.TotalUpdate | applications/GpsAutopilot/math_utils.cpp:306-320 | overwriting one buffer slot changes the total by the new value minus the old one, which is how the running sum is kept |
| MathUtils.OnePassVariance | applications/GpsAutopilot/math_utils.cpp:283 | the sum of squared deviations from the mean equals the sum of squares minus the sum times the mean |
| MathUtils.Latch.Hysteresis | applications/GpsAutopilot/math_utils.cpp:126-135 | the state steps as NextLatch says, and the output is 1 when on and 0 when off |
| MathUtils.Elapsed | applications/GpsAutopilot/hardware_hal.cpp:191 | the unsigned 32-bit difference of two clock readings is below 2^32 |
| MathUtils.ElapsedAcrossWrap | applications/GpsAutopilot/hardware_hal.cpp:191 | the difference recovers the true gap even when the millisecond clock wraps between the two readings |
| MathUtils.Statistics.constructor | applications/GpsAutopilot/math_utils.cpp:261-268 | no samples, and mean, variance and deviation are zero |
| MathUtils.Statistics.Reset | applications/GpsAutopilot/math_utils.cpp:290-292 | back to the state after initialisation |
| MathUtils.Statistics.AddSample | applications/GpsAutopilot/math_utils.cpp:270-274 | the sample joins the accumulated ones; the published statistics are unchanged until computed |
| MathUtils.Statistics.Compute | applications/GpsAutopilot/math_utils.cpp:276-288 | nothing changes without samples; the mean is the sum over the count; one sample gives zero variance; more give the one-pass sample variance, which equals the sum of squared deviations over count - 1 |
| MathUtils.SampleVariance | applications/GpsAutopilot/math_utils.cpp:283 | the one-pass formula equals the textbook sample variance |
| MathUtils.CircularBuffer.Init | applications/GpsAutopilot/math_utils.cpp:295-304 | empty, index 0, sum 0, not full, every slot zero |
| MathUtils.CircularBuffer.Add | applications/GpsAutopilot/math_utils.cpp:306-320 | the value overwrites the slot at the index, the index advances modulo the size, and the count grows until the buffer is full; the running sum stays the total of the live slots |
| MathUtils.CircularBuffer.Mean | applications/GpsAutopilot/math_utils.cpp:322-327 | zero when empty, otherwise the average of the live slots |
| MathUtils.CircularBuffer.Variance | applications/GpsAutopilot/math_utils.cpp:329-343 | zero with fewer than two values, otherwise the squared deviations from the mean over count - 1 |
| MathUtils.CircularBuffer.constructor | applications/GpsAutopilot/math_utils.cpp:295-304 | a new buffer holds nothing and its running sum is zero |
| Control.CheckSafetyConditions | applications/GpsAutopilot/control.cpp:220-245 | the aircraft is safe exactly when it is within the safety radius, has a GPS fix and a datum |
| Control.AltitudeIgnored | applications/GpsAutopilot/control.cpp:238-244 | the altitude check has no effect on the verdict |
| Control.ComputeOrbitError | applications/GpsAutopilot/control.cpp:114-117 | the orbit error is positive exactly outside the orbit and zero exactly on it |
| Control.ComputeDesiredTrack | applications/GpsAutopilot/control.cpp:119-133 | with no orbit error the desired track is the tangent, the bearing to the datum plus 90 degrees, wrapped by the angle wrap |
| Control.ComputeTrackError | applications/GpsAutopilot/control.cpp:135-139 | flying the desired track gives the wrapped zero angle as the error |
| Control.OnOrbitFliesTangent | applications/GpsAutopilot/control.cpp:114-133 | exactly on the orbit radius, the orbit error adds no correction and the desired track is the wrapped tangent |
| Control.TrackErrorAntisymmetric | applications/GpsAutopilot/control.cpp:135-139 | when the angle wrap is odd on the difference, swapping current and desired track negates the error |
| Control.ComputeMotorCommand | applications/GpsAutopilot/control.cpp:166-180 | 0.4 inside half the orbit radius, 0.8 beyond 1.5 times it, 0.6 in between; always within [0, max motor] |
| Control.MotorCommandMonotone | applications/GpsAutopilot/control.cpp:166-180 | with a non-negative orbit radius, a larger range never gives less power |
| Control.ClampIntegral | applications/GpsAutopilot/control.cpp:148-152 | with a positive Ki the track integral stays within ±1/Ki and is kept unchanged when already inside |
| Control.PiRoll | applications/GpsAutopilot/control.cpp:144-163 | the PI roll command always lies within ±max roll |
| Control.ControlState.constructor | applications/GpsAutopilot/control.cpp:88-103 | a fresh control state has zero commands and integrals and is not autonomous |
| Control.ControlState.Reset | applications/GpsAutopilot/control.cpp:88-103 | every command, error and integral is zero, autonomy is off and the update time is now |
| Control.ControlState.SetAutonomousMode | applications/GpsAutopilot/control.cpp:105-112 | the mode becomes the requested one; disabling clears both integrals, enabling keeps them |
| Control.ControlState.SetManualOverride | applications/GpsAutopilot/control.cpp:247-256 | autonomy off and integrals cleared; the commands are the requested ones when in range and always clamped into range |
| Control.ControlState.ClearManualOverride | applications/GpsAutopilot/control.cpp:258-267 | autonomy off, both commands and both integrals zero |
| Control.ControlState.ValidateCommands | applications/GpsAutopilot/control.cpp:182-199 | true exactly when both commands were already in range; afterwards each command is the old one clamped into its range, so an in-range command is left unchanged |
| Control.Controller.constructor | applications/GpsAutopilot/control.cpp:12-22 | the controller holds the given parameters and the rate limiter starts at zero |
| Control.Controller.ComputeRollCommand | applications/GpsAutopilot/control.cpp:141-164 | the integral is accumulated and clamped to ±1/Ki; the roll command is the clamped PI sum and lies within ±max roll |
| Control.Controller.ApplySafetyLimits | applications/GpsAutopilot/control.cpp:201-218 | the roll command moves at most 0.5 per second from the previous one, is unchanged when within that rate, and is remembered; the motor command is clamped into [0, 0.9] |
| Control.Controller.Step | applications/GpsAutopilot/control.cpp:24-86 | without fix or datum: manual, roll 0, motor 0.5, every other field and the rate limiter untouched; outside the safety radius: manual, both commands 0, everything else untouched; otherwise the state becomes EngagedValues and the rate limiter EngagedRoll, with both commands within their safe limits |
| Control.Controller.Engage | applications/GpsAutopilot/control.cpp:41-71 | the state becomes EngagedValues of the old state and the rate limiter EngagedRoll; the roll error and roll integral are untouched |
| Control.Controller.Guide | applications/GpsAutopilot/control.cpp:41-64 | autonomous; range error, desired track and range, track error, the accumulated and clamped track integral, the PI roll command and the motor schedule are stored; nothing else changes |
| Control.Controller.Limit | applications/GpsAutopilot/control.cpp:66-71 | the roll command is rate-limited against the previous one, remembered, then clamped to ±1; the motor command is clamped to [0, 0.9] then [0, 1]; the update time is now; nothing else changes |
| Control.LimitRoll | applications/GpsAutopilot/control.cpp:201-213 | the result is at most 0.5 per second away from the previous command, lies between the previous and the requested command, and is the requested one when within that rate |
| Control.EngagedRoll | applications/GpsAutopilot/control.cpp:141-164 | the remembered roll command moves at most the rate limit per loop |
| Control.EngagedValues | applications/GpsAutopilot/control.cpp:41-71 | an engaged state is autonomous, holds the orbit radius as desired range and the given update time, keeps the roll error and integral, and has both commands within their safe limits |
| Communications.UpdateNavigationParams | applications/GpsAutopilot/communications.cpp:94-108 | a navigation record is accepted exactly when Ktrack lies in [0.1, 5] and the nominal airspeed in [5, 20] |
| Communications.UpdateControlParams | applications/GpsAutopilot/communications.cpp:110-124 | a control record is accepted exactly when the orbit radius lies in [20, 500] m and the safety radius is at least 1.5 times it |
| Communications.UpdateActuatorParams | applications/GpsAutopilot/communications.cpp:126-150 | an actuator record is accepted exactly when centre, range, minimum and maximum pulse each lie in their window |
| Communications.AcceptedControlNestsOrbit | applications/GpsAutopilot/communications.cpp:110-124 | an accepted control record puts the orbit strictly inside the safety radius, and the safety radius is at least 30 m |
| Communications.AcceptedActuatorBoundsPulse | applications/GpsAutopilot/communications.cpp:126-150 | with an accepted actuator record, every roll pulse the HAL can compute lies between 800 and 2200 us |
| Communications.Classify | applications/GpsAutopilot/communications.cpp:161-208 | an empty line is ignored; a line starting "SERVO " goes to the servo handler whole; otherwise the first letter S, L, P or M picks status, logging toggle, parameters or memory |
| Communications.BareServoIsStatus | applications/GpsAutopilot/communications.cpp:166-176 | "SERVO" without the trailing space is not a servo command but a status request, since it begins with 'S' |
| Communications.NormalizedServo | applications/GpsAutopilot/communications.cpp:157-167 | surrounding whitespace and letter case do not matter: the trimmed upper-cased line reaches the servo handler |
| Communications.ServoStep | applications/GpsAutopilot/communications.cpp:268-343 | a servo command changes at most one field; a new centre lies in [1400, 1600], a new range in [200, 600]; rejections, GET and unknown commands change nothing |
| Communications.ServoSetDirection | applications/GpsAutopilot/communications.cpp:283-291 | `SERVO SET DIRECTION v` sets the reversed flag to v > 0.5 and changes nothing else |
| Communications.ServoSetCenter | applications/GpsAutopilot/communications.cpp:292-302 | `SERVO SET CENTER v` takes v exactly when it lies in [1400, 1600] and otherwise changes nothing and reports the rejection |
| Communications.ServoSetRange | applications/GpsAutopilot/communications.cpp:303-313 | `SERVO SET RANGE v` takes v exactly when it lies in [200, 600] and otherwise changes nothing and reports the rejection |
| Communications.ServoStepKeepsBounds | applications/GpsAutopilot/communications.cpp:270-318 | every servo command keeps the static servo configuration inside its bounds |
| Communications.ServoConfigAlwaysAccepted | applications/GpsAutopilot/communications.cpp:126-150 | the initial servo configuration is in bounds, and any in-bounds configuration passes the actuator validation |
| Communications.StatusEvent | applications/GpsAutopilot/communications.cpp:211-227 | the status report gives the uptime in whole seconds, rounded down from the 32-bit millisecond clock, so it never exceeds 4294967 |
| Communications.CommandStep | applications/GpsAutopilot/communications.cpp:152-209 | an empty line does nothing; only servo commands touch the servo configuration; only 'L' flips logging and reports the new state; every other line prints exactly one answer |
| Communications.ToggleTwiceRestores | applications/GpsAutopilot/communications.cpp:186-192 | two logging toggles restore the logging flag |
| Communications.LogEvent | applications/GpsAutopilot/communications.cpp:42-80 | nothing is logged while logging is off; otherwise one record stamped with the current time and the message type; types other than navigation and control log "Unknown message type" |
| Communications.SystemStatusLogsUnknownType | applications/GpsAutopilot/communications.cpp:90-92 | logging the system status always prints "Unknown message type", since the switch has no case for it |
| Communications.Coms.constructor | applications/GpsAutopilot/communications.cpp:10-21 | after initialisation logging is off, the servo configuration is the initial one and both timers read the start time |
| Communications.Coms.ProcessSerialCommand | applications/GpsAutopilot/communications.cpp:152-209 | with no input nothing changes; otherwise state and output follow CommandStep |
| Communications.Coms.ProcessServoCommand | applications/GpsAutopilot/communications.cpp:268-343 | the servo configuration and output follow ServoStep |
| Communications.Coms.SendStatus | applications/GpsAutopilot/communications.cpp:211-227 | appends one status report |
| Communications.Coms.LogData | applications/GpsAutopilot/communications.cpp:42-80 | appends what LogEvent gives |
| Communications.Coms.Step | applications/GpsAutopilot/communications.cpp:23-40 | handles one line, then reports status when more than 5000 ms have passed (with 32-bit wrap-around) and restarts that timer; the log timer restarts after 1000 ms only while logging |
| Navigation.DMToDDSplitsDegrees | applications/GpsAutopilot/navigation.cpp:242-248 | for a non-negative DDDMM.MMMM value the degrees are the hundreds and the rest are minutes divided by 60 |
| Navigation.DMToDDOdd | applications/GpsAutopilot/navigation.cpp:242-248 | the conversion is odd: negating the input negates the result, because the cast to int truncates toward zero |
| Navigation.ConvertToMeters | applications/GpsAutopilot/navigation.cpp:231-240 | a position equal to the datum is at zero north and zero east |
| Navigation.ApplyGga | applications/GpsAutopilot/navigation.cpp:151-191 | a GGA sentence is accepted exactly when it has at least 10 tokens and quality, satellites and HDOP pass; a rejection changes nothing; an acceptance writes the position and altitude, and with a datum set the local offset becomes zero since the datum fields were just overwritten with the position; nothing else changes |
| Navigation.ParseGga | applications/GpsAutopilot/navigation.cpp:134-191 | copying into the 128-byte buffer, tokenising at most 15 tokens and applying them gives the reference GGA step; an accepted sentence had at least 10 tokens |
| Navigation.ApplyRmcAsWritten | applications/GpsAutopilot/navigation.cpp:210-228 | as written, the sentence is accepted exactly when the guard (at least 8 tokens, status 'A') passes, and a rejection changes nothing |
| Navigation.RmcGuardAdmitsEightTokens | applications/GpsAutopilot/navigation.cpp:210-224 | an RMC sentence with exactly 8 fields and status 'A' passes the guard, and the track is then read from a ninth token that does not exist |
| Navigation.RmcEightTokenWitness | applications/GpsAutopilot/navigation.cpp:210-224 | the concrete sentence `$GPRMC,123519,A,4807.038,N,01131.000,E,022.4` passes the guard with 8 tokens |
| Navigation.ApplyRmc | applications/GpsAutopilot/navigation.cpp:210-228 | corrected guard: accepted exactly when status is 'A' and a ninth token exists; then ground speed is knots times 0.514444, and track and heading are degrees in radians; nothing else changes |
| Navigation.RmcCorrectionAgrees | applications/GpsAutopilot/navigation.cpp:210-228 | wherever the original guard does not read past its tokens, the corrected parser does the same as the written one |
| Navigation.ParseRmc | applications/GpsAutopilot/navigation.cpp:193-229 | the buffer copy, tokenising at most 12 tokens and applying them gives the corrected RMC step; an accepted sentence had at least 9 tokens |
| Navigation.Classify | applications/GpsAutopilot/navigation.cpp:123-132 | a sentence is GGA exactly when it starts "$GPGGA" or "$GNGGA", and RMC exactly when it is not GGA and starts "$GPRMC" or "$GNRMC" |
| Navigation.ClassifyByPrefix | applications/GpsAutopilot/navigation.cpp:123-132 | only the first six characters decide the sentence type |
| Navigation.NmeaStep | applications/GpsAutopilot/navigation.cpp:123-132 | other sentences are rejected, and a rejected sentence leaves the state unchanged |
| Navigation.ParseNmea | applications/GpsAutopilot/navigation.cpp:123-132 | the dispatch method computes the reference step |
| Navigation.ValidateGpsFix | applications/GpsAutopilot/navigation.cpp:274-277 | the fix is recent exactly when less than the timeout has passed since the last update, with 32-bit wrap-around |
| Navigation.ValidatePosition | applications/GpsAutopilot/navigation.cpp:279-287 | without a datum every position is accepted; with one, exactly those within 10 km |
| Navigation.SetDatum | applications/GpsAutopilot/navigation.cpp:72-87 | with a valid fix the datum altitude becomes the altitude and the datum is set, the latitude and longitude assignments being self-assignments; without a fix nothing changes |
| Navigation.FeedChar | applications/GpsAutopilot/navigation.cpp:31-50 | the buffer never exceeds 127 characters; a terminator on an empty buffer does nothing and otherwise empties it; any other character is appended while there is room and dropped when full, without touching the state |
| Navigation.FeedAllAppend | applications/GpsAutopilot/navigation.cpp:31-50 | feeding two pieces one after the other is the same as feeding them joined: how the bytes arrive does not matter |
| Navigation.FeedWithoutTerminator | applications/GpsAutopilot/navigation.cpp:47-49 | without a terminator the bytes only accumulate, truncated to 127 |
| Navigation.OneSentence | applications/GpsAutopilot/navigation.cpp:34-46 | one line and its newline are parsed as one sentence (its first 127 characters), the update time is stamped only on success, and the buffer is emptied |
| Navigation.TimeoutCheck | applications/GpsAutopilot/navigation.cpp:52-55 | the fix stays valid only while no more than the timeout has passed; nothing else changes |
| Navigation.GpsReceiver.constructor | applications/GpsAutopilot/navigation.cpp:16-25 | the parameters are copied and the buffer is empty and zeroed |
| Navigation.GpsReceiver.FeedOne | applications/GpsAutopilot/navigation.cpp:32-49 | one byte into the array buffer does what FeedChar says |
| Navigation.GpsReceiver.UpdateGps | applications/GpsAutopilot/navigation.cpp:27-58 | the loop over the available bytes gives FeedAll, and then the timeout check |
| Navigation.CStrAtNul | applications/GpsAutopilot/navigation.cpp:36 | the NUL written after the sentence ends the text the parsers see |

## Left out

- Serial transport and threads: pyserial, the reader thread and UTF-8 decoding are left out. The desktop link in gui/src/communication/simple_serial.py is not part of this model. A desktop tab's link is its `isConnected` flag and a log of lines sent. A mobile `Connect` is told whether the port opened.
- tkinter and Kivy widgets, layout, colours, tooltips, progress bars and the serial-monitor log widget are left out. Labels are kept as the texts they show. Message boxes are kept as their texts, with wording approximated where it is built from exception objects. `after(0, ...)` deferrals run at once.
- Clocks are parameters: `time.time()` and `millis()` are the argument `now`. `millis()` keeps one value for the whole of one call. Where `now` stands for `millis()`, it is required to lie below 2^32, as the firmware's `unsigned long` does.
- Floating point: IEEE single and double values are modelled as exact reals. The Python `float('inf')`/`nan` spellings and the C exponent, hex and `inf` forms of `atof` are not accepted. `atoi` overflow is not modelled.
- Number formatting is left out: `:.1f`/`:.0f`, the `repr` of a float inside an f-string command, and `snprintf` (`Coms_FormatNavData`, `Coms_FormatControlData`). Float-valued commands are kept as a command head paired with a number.
- Firmware diagnostic prints are left out. Only the command handler's replies, the status report and the log records are kept as output events. Not kept:
  - the `Coms_Init` banners (communications.cpp:16-17), so `Communications.Coms.constructor` starts with empty output;
  - the validators' reason lines, such as "[COMS] Invalid Ktrack parameter" (communications.cpp:97-103 and the checks after them);
  - the control messages (control.cpp:18-21, 38, 75-84 and 102);
  - the navigation messages (navigation.cpp:24 and 80-85);
  - the HAL messages (hardware_hal.cpp:58, 124-129, 273 and 450-468).
- Regex: `\d`, `\w`, `[A-Z_]` and IGNORECASE case folding are modelled on ASCII only. Python 3 `str` patterns use Unicode classes and Unicode case folding, so non-ASCII digits, letters and case pairs that the code would match are not matched by the model.
- Python `int()` is modelled on ASCII digits with an optional sign and surrounding whitespace. Digit-group underscores and non-ASCII digits are not accepted. The same holds for `float()` (`PyText.ParseFloat`): Python reads `float("1_0")` as 10.0, where the model refuses it, so the GUI setters and the panel validation reject such text where the code accepts it. `str.upper`/`str.lower` fold ASCII letters only.
- Trigonometry is left out: `Nav_Step`, range and bearing, `GreatCircle*`, `ModAngle`, coordinated turns, the low- and high-pass filters, vectors, geodetic conversions, the `Fast*` approximations, the 2D lookup and the battery voltage. `ModAngle`, `sqrt` and `cos` appear as function parameters where control or navigation needs them.
- Control.ClampIntegral: with a zero integral gain the C code divides by zero and clamps to an infinite bound. The model leaves the integral unchanged, which gives the same value.
- HardwareHal.ReadGps: requires `maxBytes >= 1`, because `maxBytes - 1` underflows an unsigned count at 0.
- Servo, NeoPixel and motor writes other than the roll-servo pulse are left out. So are the `delay` loops of the self tests, the system reset and the low-power stubs.
- `NavigationState` travels by value. Each parser returns the updated state instead of writing through a pointer.
- The concrete sample record 99001 is not checked as a literal: `CsvFix.BrokenRecordRepaired` proves the split-record repair for every record of that shape, that sample included.
- TabManager `send_identification_query` is left out. It needs the desktop serial monitor and a sleep, and neither is part of this model.
- `_update_current_params` in the desktop FlightSequencer tab only formats display text and is left out.
- GpsAutopilotTab: the navigation-data fields that no parser writes are kept at their initial values. The fixed-command buttons (GPS rate, set and clear datum, servo get and test, get all and reset all) are `SendCommand` with their fixed line; their confirmation dialogs are not modelled separately.
- DeviceTestTab: the duration combobox is a natural number, and the scales are reals truncated as `int(float(...))` does. Enabling and disabling widgets is left out.
- ParameterPanelWidget: a check box reads text the way Tcl does only for decimal digits and the words true/yes/on and false/no/off; other Tcl spellings are not modelled. `ParameterGroup` is held by value. The two callbacks are flags, with logs of what they were given. A bool parameter whose default names no boolean starts unchecked in the model. In the code, `tk.BooleanVar(value=...)` (parameter_panel.py:105) passes the default through `getboolean`, which raises `TclError` on such a default.
- Profile files (the desktop FlightSequencer's JSON) are a map argument. File I/O is left out.

## Findings

| source | as written | input that shows it | evidently intended | confidence | as-written member | corrected member |
|---|---|---|---|---|---|---|
| applications/GpsAutopilot/navigation.cpp:210-225 | the RMC guard `tokenCount < 8` admits a sentence of exactly 8 tokens, which then reads the unset `tokens[8]` (the track angle) | `$GPRMC,123519,A,4807.038,N,01131.000,E,022.4` (8 tokens) | require at least 9 tokens before reading `tokens[8]` | not executed | Navigation.ApplyRmcAsWritten | Navigation.ApplyRmc |

=== FILE: communications.dfy ===
/** The autopilot's serial command interface: one line is trimmed,
    upper-cased and dispatched (`S`tatus, `P`arameters, `L`ogging toggle,
    `M`emory, `SERVO SET|GET ...`), the parameter records are range
    checked, and log records are gated by the logging flag. What the
    firmware prints is recorded as a sequence of events; `millis()` is the
    parameter `now`. */
module Communications {
  import opened PyText
  import opened CText
  import opened Config
  import opened MathUtils
  import HardwareHal

  const StatusPeriodMs: nat := 5000
  const LogPeriodMs: nat := 1000
  /** `Coms_GetFreeMemory`'s fixed estimate. */
  const FreeMemoryEstimate: nat := 16384
  /** `Coms_GetBatteryVoltage`'s placeholder. */
  const BatteryPlaceholder: real := 3.7

  /** The function-static servo configuration `Coms_ProcessServoCommand`
      starts from; the members its initialiser omits are zero. */
  const InitialServo: ActuatorParams :=
    ActuatorParams(1500.0, 400.0, 120.0, false, 1000.0, 2000.0, 10.0, 0.0, 1.0, 1, 0.0, 0.0, 0, false)

  /** `MessageType_t`. */
  datatype MessageType = NavStateMsg | ControlStateMsg | GpsRawMsg | SystemStatusMsg | ParameterUpdateMsg

  /** What follows the `[LOG] <time>,<type>,` prefix: a formatted record,
      nothing (a size mismatch), or the unknown-type notice. */
  datatype LogBody = NavRecord | ControlRecord | NoRecord | UnknownType

  /** A line (or block of lines) the firmware prints. */
  datatype ComsEvent =
    | StatusReport(uptimeSeconds: nat, freeMemory: nat, batteryVoltage: real)
    | ParametersNotice
    | LoggingSet(enabled: bool)
    | FreeMemoryReport(bytes: nat)
    | UnknownCommand(c: char)
    | DirectionSet(inverted: bool)
    | CenterSet(center: real)
    | CenterRejected
    | RangeSet(range: real)
    | RangeRejected
    | UnknownSetCommand
    | ServoConfiguration(p: ActuatorParams)
    | UnknownServoCommand
    | LogRecord(timestamp: nat, msgType: MessageType, body: LogBody)

  // ---------------------------------------------------------------------
  // Parameter validation

  /** `Coms_UpdateNavigationParams`: accepts iff `Ktrack` is in [0.1, 5]
      and `Vias_nom` in [5, 20]; nothing is stored. */
  function UpdateNavigationParams(p: NavigationParams): (ok: bool)
    ensures ok <==> 0.1 <= p.Ktrack <= 5.0 && 5.0 <= p.ViasNom <= 20.0
  {
    if p.Ktrack < 0.1 || p.Ktrack > 5.0 then false
    else if p.ViasNom < 5.0 || p.ViasNom > 20.0 then false
    else true
  }

  /** `Coms_UpdateControlParams`: the orbit radius in [20, 500] and the
      safety radius at least one and a half orbits. */
  function UpdateControlParams(p: ControlParams): (ok: bool)
    ensures ok <==> 20.0 <= p.OrbitRadius <= 500.0 && p.SafetyRadius >= p.OrbitRadius * 1.5
  {
    if p.OrbitRadius < 20.0 || p.OrbitRadius > 500.0 then false
    else if p.SafetyRadius < p.OrbitRadius * 1.5 then false
    else true
  }

  /** `Coms_UpdateActuatorParams`: centre, range and the two pulse limits
      each within their bounds. */
  function UpdateActuatorParams(p: ActuatorParams): (ok: bool)
    ensures ok <==>
      (1000.0 <= p.RollServoCenter <= 2000.0 && 200.0 <= p.RollServoRange <= 800.0
       && 800.0 <= p.RollServoMinPulse <= 1200.0 && 1800.0 <= p.RollServoMaxPulse <= 2200.0)
  {
    if p.RollServoCenter < 1000.0 || p.RollServoCenter > 2000.0 then false
    else if p.RollServoRange < 200.0 || p.RollServoRange > 800.0 then false
    else if p.RollServoMinPulse < 800.0 || p.RollServoMinPulse > 1200.0 then false
    else if p.RollServoMaxPulse < 1800.0 || p.RollServoMaxPulse > 2200.0 then false
    else true
  }

  /** An accepted control record leaves room for the orbit inside the
      safety radius: the whole 1.5 R band where the motor is boosted lies
      within it. */
  lemma AcceptedControlNestsOrbit(p: ControlParams)
    requires UpdateControlParams(p)
    ensures 0.0 < p.OrbitRadius < p.OrbitRadius * 1.5 <= p.SafetyRadius
    ensures p.SafetyRadius >= 30.0
  {
  }

  /** An accepted actuator record keeps every servo pulse between 800 and
      2200 us: the mapping stays within the limits or at the centre. */
  lemma AcceptedActuatorBoundsPulse(p: ActuatorParams, rollCommand: real)
    requires UpdateActuatorParams(p)
    ensures 800.0 <= HardwareHal.RollPulse(rollCommand, p) <= 2200.0
  {
  }

  // ---------------------------------------------------------------------
  // Command dispatch

  /** What one received line asks for. */
  datatype Command = Ignored | Servo(text: string) | Status | Parameters | ToggleLogging | Memory | Unknown(c: char)

  /** `command.trim(); command.toUpperCase();` */
  function Normalize(raw: string): string
  {
    Upper(Trim(raw))
  }

  /** The dispatch of `Coms_ProcessSerialCommand` on a normalised line:
      empty is ignored, `SERVO ` with its space goes to the servo handler,
      anything else is decided by its first character. */
  function Classify(command: string): (k: Command)
    ensures k == Ignored <==> command == []
    ensures k.Servo? <==> StartsWith(command, "SERVO ")
    ensures k.Servo? ==> k.text == command
    ensures !k.Servo? && k != Ignored ==>
      (k == Status <==> command[0] == 'S') && (k == ToggleLogging <==> command[0] == 'L')
      && (k == Parameters <==> command[0] == 'P') && (k == Memory <==> command[0] == 'M')
  {
    if |command| == 0 then Ignored
    else if StartsWith(command, "SERVO ") then Servo(command)
    else if command[0] == 'S' then Status
    else if command[0] == 'P' then Parameters
    else if command[0] == 'L' then ToggleLogging
    else if command[0] == 'M' then Memory
    else Unknown(command[0])
  }

  /** A bare `SERVO`, without the space, is a status request, like any
      other word starting with `S`. */
  lemma BareServoIsStatus()
    ensures Classify("SERVO") == Status
    ensures Classify("STATUS") == Status
  {
    assert "STATUS"[..6][2] != "SERVO "[2];
  }

  /** Case and surrounding whitespace do not matter: `" servo get "` is
      the servo command `SERVO GET`. */
  lemma NormalizedServo(pre: string, word: string, post: string)
    requires forall j :: 0 <= j < |pre| ==> CIsSpace(pre[j])
    requires forall j :: 0 <= j < |post| ==> CIsSpace(post[j])
    requires |word| > 6 && Upper(word)[..6] == "SERVO " && !CIsSpace(word[|word| - 1])
    ensures Classify(Normalize(pre + word + post)) == Servo(Upper(word))
  {
    assert !CIsSpace(word[0]) by {
      assert Upper(word)[0] == UpperChar(word[0]);
    }
    TrimRemovesPadding(pre, word, post);
  }

  /** `Coms_ProcessServoCommand` on the static configuration: the new
      configuration and what is printed. */
  function ServoStep(p: ActuatorParams, command: string): (r: (ActuatorParams, ComsEvent))
    ensures r.0 == p || r.0 == p.(RollServoReversed := r.0.RollServoReversed)
      || r.0 == p.(RollServoCenter := r.0.RollServoCenter) || r.0 == p.(RollServoRange := r.0.RollServoRange)
    ensures r.0.RollServoCenter != p.RollServoCenter ==> 1400.0 <= r.0.RollServoCenter <= 1600.0
    ensures r.0.RollServoRange != p.RollServoRange ==> 200.0 <= r.0.RollServoRange <= 600.0
    ensures (r.1 == UnknownSetCommand || r.1 == UnknownServoCommand || r.1.ServoConfiguration?
             || r.1 == CenterRejected || r.1 == RangeRejected) ==> r.0 == p
    ensures !StartsWith(command, "SERVO SET ") ==> r.0 == p
  {
    if StartsWith(command, "SERVO SET ") then
      var sub := command[10..];
      if StartsWith(sub, "DIRECTION ") then
        var inverted := Atof(sub[10..]) > 0.5;
        (p.(RollServoReversed := inverted), DirectionSet(inverted))
      else if StartsWith(sub, "CENTER ") then
        var value := Atof(sub[7..]);
        if 1400.0 <= value <= 1600.0 then (p.(RollServoCenter := value), CenterSet(value))
        else (p, CenterRejected)
      else if StartsWith(sub, "RANGE ") then
        var value := Atof(sub[6..]);
        if 200.0 <= value <= 600.0 then (p.(RollServoRange := value), RangeSet(value))
        else (p, RangeRejected)
      else (p, UnknownSetCommand)
    else if StartsWith(command, "SERVO GET") then (p, ServoConfiguration(p))
    else (p, UnknownServoCommand)
  }

  /** A line that starts with `a + b` starts with `a`, and what follows
      `a` starts with `b`. */
  lemma PrefixParts(s: string, a: string, b: string)
    requires StartsWith(s, a + b)
    ensures StartsWith(s, a) && StartsWith(s[|a|..], b) && s[|a|..][|b|..] == s[|a| + |b|..]
  {
    assert s[..|a|] == (a + b)[..|a|] == a;
    assert s[|a|..][..|b|] == (a + b)[|a|..] == b;
  }

  /** `SERVO SET DIRECTION v` inverts the servo exactly when `v` exceeds
      0.5, and changes nothing else. */
  lemma ServoSetDirection(p: ActuatorParams, command: string)
    requires StartsWith(command, "SERVO SET DIRECTION ")
    ensures var inverted := Atof(command[20..]) > 0.5;
            ServoStep(p, command) == (p.(RollServoReversed := inverted), DirectionSet(inverted))
  {
    assert "SERVO SET DIRECTION " == "SERVO SET " + "DIRECTION ";
    PrefixParts(command, "SERVO SET ", "DIRECTION ");
  }

  /** `SERVO SET CENTER v` takes `v` only inside [1400, 1600] and otherwise
      changes nothing. */
  lemma ServoSetCenter(p: ActuatorParams, command: string)
    requires StartsWith(command, "SERVO SET CENTER ")
    ensures var value := Atof(command[17..]);
            ServoStep(p, command) == if 1400.0 <= value <= 1600.0 then (p.(RollServoCenter := value), CenterSet(value))
                                     else (p, CenterRejected)
  {
    assert "SERVO SET CENTER " == "SERVO SET " + "CENTER ";
    PrefixParts(command, "SERVO SET ", "CENTER ");
    var sub := command[10..];
    assert !StartsWith(sub, "DIRECTION ") by {
      assert sub[..7] == "CENTER ";
      if |sub| >= 10 {
        assert sub[..10][0] == sub[..7][0];
      }
    }
  }

  /** `SERVO SET RANGE v` takes `v` only inside [200, 600] and otherwise
      changes nothing. */
  lemma ServoSetRange(p: ActuatorParams, command: string)
    requires StartsWith(command, "SERVO SET RANGE ")
    ensures var value := Atof(command[16..]);
            ServoStep(p, command) == if 200.0 <= value <= 600.0 then (p.(RollServoRange := value), RangeSet(value))
                                     else (p, RangeRejected)
  {
    assert "SERVO SET RANGE " == "SERVO SET " + "RANGE ";
    PrefixParts(command, "SERVO SET ", "RANGE ");
    var sub := command[10..];
    assert !StartsWith(sub, "DIRECTION ") && !StartsWith(sub, "CENTER ") by {
      assert sub[..6] == "RANGE ";
      if |sub| >= 7 {
        assert sub[..7][0] == sub[..6][0];
      }
      if |sub| >= 10 {
        assert sub[..10][0] == sub[..6][0];
      }
    }
  }

  /** The servo configuration `SERVO SET` can reach: centre and range in
      their `SET` bounds, pulse limits as initialised. */
  predicate ServoConfigInBounds(p: ActuatorParams) {
    1400.0 <= p.RollServoCenter <= 1600.0 && 200.0 <= p.RollServoRange <= 600.0
    && p.RollServoMinPulse == 1000.0 && p.RollServoMaxPulse == 2000.0
  }

  /** Every servo command keeps the configuration in bounds ... */
  lemma ServoStepKeepsBounds(p: ActuatorParams, command: string)
    requires ServoConfigInBounds(p)
    ensures ServoConfigInBounds(ServoStep(p, command).0)
  {
  }

  /** ... it starts in bounds, and a configuration in bounds always
      passes `Coms_UpdateActuatorParams`. */
  lemma ServoConfigAlwaysAccepted(p: ActuatorParams)
    requires ServoConfigInBounds(p)
    ensures ServoConfigInBounds(InitialServo)
    ensures UpdateActuatorParams(p)
  {
  }

  /** The firmware state the command handler touches. */
  datatype ComsState = ComsState(loggingEnabled: bool, servo: ActuatorParams)

  /** `Coms_SendStatus`: uptime in whole seconds, the fixed memory estimate
      and the placeholder battery voltage. */
  function StatusEvent(now: nat): (e: ComsEvent)
    requires now < Uint32Modulus
    ensures e.StatusReport? && e.uptimeSeconds * 1000 <= now < (e.uptimeSeconds + 1) * 1000
    ensures e.uptimeSeconds <= (Uint32Modulus - 1) / 1000
  {
    StatusReport(now / 1000, FreeMemoryEstimate, BatteryPlaceholder)
  }

  /** One received line: the new state and what is printed. */
  function CommandStep(st: ComsState, raw: string, now: nat): (r: (ComsState, seq<ComsEvent>))
    requires now < Uint32Modulus
    ensures Classify(Normalize(raw)) == Ignored ==> r == (st, [])
    ensures !Classify(Normalize(raw)).Servo? ==> r.0.servo == st.servo
    ensures Classify(Normalize(raw)) != ToggleLogging ==> r.0.loggingEnabled == st.loggingEnabled
    ensures Classify(Normalize(raw)) == ToggleLogging ==>
      r.0.loggingEnabled == !st.loggingEnabled && r.1 == [LoggingSet(r.0.loggingEnabled)]
    ensures Classify(Normalize(raw)) != Ignored ==> |r.1| == 1
  {
    match Classify(Normalize(raw))
    case Ignored => (st, [])
    case Servo(text) =>
      var sr := ServoStep(st.servo, text);
      (st.(servo := sr.0), [sr.1])
    case Status => (st, [StatusEvent(now)])
    case Parameters => (st, [ParametersNotice])
    case ToggleLogging => (st.(loggingEnabled := !st.loggingEnabled), [LoggingSet(!st.loggingEnabled)])
    case Memory => (st, [FreeMemoryReport(FreeMemoryEstimate)])
    case Unknown(c) => (st, [UnknownCommand(c)])
  }

  /** Two logging toggles restore the flag, whatever the letters after the
      `L` and whatever came in between that was not a toggle. */
  lemma ToggleTwiceRestores(st: ComsState, a: string, b: string, now1: nat, now2: nat)
    requires now1 < Uint32Modulus && now2 < Uint32Modulus
    requires Classify(Normalize(a)) == ToggleLogging && Classify(Normalize(b)) == ToggleLogging
    ensures CommandStep(CommandStep(st, a, now1).0, b, now2).0.loggingEnabled == st.loggingEnabled
  {
  }

  /** `Coms_LogData`: nothing while logging is off; otherwise a record
      whose body depends on the type and on the payload size check. */
  function LogEvent(loggingEnabled: bool, msgType: MessageType, sizeMatches: bool, now: nat): (events: seq<ComsEvent>)
    ensures !loggingEnabled <==> events == []
    ensures loggingEnabled ==>
      |events| == 1 && events[0].LogRecord? && events[0].timestamp == now && events[0].msgType == msgType
    ensures loggingEnabled && msgType !in {NavStateMsg, ControlStateMsg} ==> events[0].body == UnknownType
  {
    if !loggingEnabled then []
    else
      var body := match msgType
        case NavStateMsg => if sizeMatches then NavRecord else NoRecord
        case ControlStateMsg => if sizeMatches then ControlRecord else NoRecord
        case _ => UnknownType;
      [LogRecord(now, msgType, body)]
  }

  /** `Coms_LogSystemStatus` passes `MSG_SYSTEM_STATUS`, which the switch
      does not handle: it logs the unknown-type notice. */
  lemma SystemStatusLogsUnknownType(now: nat)
    ensures LogEvent(true, SystemStatusMsg, true, now) == [LogRecord(now, SystemStatusMsg, UnknownType)]
  {
  }

  /** The statics of communications.cpp, with the printed output. */
  class Coms {
    var loggingEnabled: bool
    var lastStatusUpdate: nat
    var lastDataLog: nat
    var servo: ActuatorParams
    var output: seq<ComsEvent>

    function State(): ComsState
      reads this
    {
      ComsState(loggingEnabled, servo)
    }

    /** Program start followed by `Coms_Init` at time `now`. */
    constructor (now: nat)
      requires now < Uint32Modulus
      ensures !loggingEnabled && servo == InitialServo && output == []
      ensures lastStatusUpdate == now && lastDataLog == now
    {
      loggingEnabled := false;
      servo := InitialServo;
      output := [];
      lastStatusUpdate := now;
      lastDataLog := now;
    }

    /** `Coms_ProcessSerialCommand`; `input` is `None` when no byte is
        available, else the text `readStringUntil('\n')` returns. */
    method ProcessSerialCommand(input: Option<string>, now: nat)
      requires now < Uint32Modulus
      modifies this`loggingEnabled, this`servo, this`output
      ensures input.None? ==> State() == old(State()) && output == old(output)
      ensures input.Some? ==>
        var r := CommandStep(old(State()), input.value, now);
        State() == r.0 && output == old(output) + r.1
    {
      if input.None? {
        return;
      }
      var command := Trim(input.value);
      command := Upper(command);
      if |command| == 0 {
        return;
      }
      if StartsWith(command, "SERVO ") {
        ProcessServoCommand(command);
        return;
      }
      var cmd := command[0];
      if cmd == 'S' {
        SendStatus(now);
      } else if cmd == 'P' {
        output := output + [ParametersNotice];
      } else if cmd == 'L' {
        loggingEnabled := !loggingEnabled;
        output := output + [LoggingSet(loggingEnabled)];
      } else if cmd == 'M' {
        output := output + [FreeMemoryReport(FreeMemoryEstimate)];
      } else {
        output := output + [UnknownCommand(cmd)];
      }
    }

    /** `Coms_ProcessServoCommand`. */
    method ProcessServoCommand(command: string)
      modifies this`servo, this`output
      ensures servo == ServoStep(old(servo), command).0
      ensures output == old(output) + [ServoStep(old(servo), command).1]
    {
      if StartsWith(command, "SERVO SET ") {
        var subCommand := command[10..];
        if StartsWith(subCommand, "DIRECTION ") {
          var value := Atof(subCommand[10..]);
          servo := servo.(RollServoReversed := value > 0.5);
          output := output + [DirectionSet(servo.RollServoReversed)];
        } else if StartsWith(subCommand, "CENTER ") {
          var value := Atof(subCommand[7..]);
          if value >= 1400.0 && value <= 1600.0 {
            servo := servo.(RollServoCenter := value);
            output := output + [CenterSet(value)];
          } else {
            output := output + [CenterRejected];
          }
        } else if StartsWith(subCommand, "RANGE ") {
          var value := Atof(subCommand[6..]);
          if value >= 200.0 && value <= 600.0 {
            servo := servo.(RollServoRange := value);
            output := output + [RangeSet(value)];
          } else {
            output := output + [RangeRejected];
          }
        } else {
          output := output + [UnknownSetCommand];
        }
      } else if StartsWith(command, "SERVO GET") {
        output := output + [ServoConfiguration(servo)];
      } else {
        output := output + [UnknownServoCommand];
      }
    }

    /** `Coms_SendStatus`. */
    method SendStatus(now: nat)
      requires now < Uint32Modulus
      modifies this`output
      ensures output == old(output) + [StatusEvent(now)]
    {
      output := output + [StatusReport(now / 1000, FreeMemoryEstimate, BatteryPlaceholder)];
    }

    /** `Coms_LogData`. */
    method LogData(msgType: MessageType, sizeMatches: bool, now: nat)
      requires now < Uint32Modulus
      modifies this`output
      ensures output == old(output) + LogEvent(loggingEnabled, msgType, sizeMatches, now)
    {
      if !loggingEnabled {
        return;
      }
      var body := NoRecord;
      if msgType == NavStateMsg {
        if sizeMatches {
          body := NavRecord;
        }
      } else if msgType == ControlStateMsg {
        if sizeMatches {
          body := ControlRecord;
        }
      } else {
        body := UnknownType;
      }
      output := output + [LogRecord(now, msgType, body)];
    }

    /** `Coms_Step`: handle a line, then a status report when more than
        5 s (modulo 2^32 ms) have passed, and move the logging timer when
        logging is on and more than 1 s has passed. */
    method Step(input: Option<string>, now: nat)
      requires now < Uint32Modulus
      modifies this
      ensures var r := if input.None? then (old(State()), []) else CommandStep(old(State()), input.value, now);
        State() == r.0
        && output == old(output) + r.1
           + (if Elapsed(old(lastStatusUpdate), now) > StatusPeriodMs then [StatusEvent(now)] else [])
      ensures lastStatusUpdate == if Elapsed(old(lastStatusUpdate), now) > StatusPeriodMs then now else old(lastStatusUpdate)
      ensures lastDataLog == if loggingEnabled && Elapsed(old(lastDataLog), now) > LogPeriodMs then now else old(lastDataLog)
    {
      ProcessSerialCommand(input, now);
      if Elapsed(lastStatusUpdate, now) > StatusPeriodMs {
        SendStatus(now);
        lastStatusUpdate := now;
      }
      if loggingEnabled && Elapsed(lastDataLog, now) > LogPeriodMs {
        lastDataLog := now;
      }
    }
  }
}

=== FILE: config.dfy ===
/** The autopilot's configuration records and fixed constants. */
module Config {
  const Pi: real := 3.14159265358979323846
  /** `CONTROL_LOOP_DT`: one tick of the 50 Hz loop, in seconds. */
  const LoopDt: real := 1.0 / 50.0
  const GpsMinSatellites: int := 4
  const GpsMaxHdop: real := 3.0
  const MaxRollCommand: real := 1.0
  const MaxMotorCommand: real := 1.0

  /** `NavigationParams_t`. */
  datatype NavigationParams = NavigationParams(Ktrack: real, ViasNom: real, GpsFilterTau: real, GpsUpdateHz: nat)

  /** `ControlParams_t`. */
  datatype ControlParams = ControlParams(
    KpOrbit: real, KpTrk: real, KiTrk: real, KpRoll: real, KiRoll: real,
    OrbitRadius: real, LaunchDelay: real, SafetyRadius: real)

  /** `ActuatorParams_t`. */
  datatype ActuatorParams = ActuatorParams(
    RollServoCenter: real, RollServoRange: real, RollServoRate: real, RollServoReversed: bool,
    RollServoMinPulse: real, RollServoMaxPulse: real, RollServoDeadband: real,
    MotorMin: real, MotorMax: real, MotorType: nat,
    FailsafeRollCommand: real, FailsafeMotorCommand: real, GpsTimeoutMs: nat, FailsafeCircleLeft: bool)
}

=== FILE: control.dfy ===
/** The autopilot's orbit controller: gating on GPS and datum, the safety
    check, the PI track controller with integral clamping, the piecewise
    motor command, command validation, the roll-rate limiter and the
    manual-override setters. Angle wrapping (`ModAngle`) is a parameter. */
module Control {
  import opened MathUtils
  import opened Config

  /** The roll limiter's largest change per second. */
  const MaxRollRate: real := 0.5
  /** The motor ceiling the safety limiter applies. */
  const SafeMotorCeiling: real := 0.9

  /** The fields of `NavigationState_t` the controller reads. */
  datatype NavState = NavState(
    rangeFromDatum: real, bearingToDatum: real, groundTrack: real, altitude: real,
    gpsValid: bool, datumSet: bool)

  /** `Control_CheckSafetyConditions`: inside the safety radius, with a
      valid fix and a datum. The altitude test has no effect. */
  function CheckSafetyConditions(nav: NavState, params: ControlParams): (ok: bool)
    ensures ok ==> nav.gpsValid && nav.datumSet && nav.rangeFromDatum <= params.SafetyRadius
    ensures !ok ==> !nav.gpsValid || !nav.datumSet || nav.rangeFromDatum > params.SafetyRadius
  {
    if nav.rangeFromDatum > params.SafetyRadius then false
    else if !nav.gpsValid then false
    else if !nav.datumSet then false
    else true
  }

  /** Altitude never decides the safety check. */
  lemma AltitudeIgnored(nav: NavState, params: ControlParams, alt: real)
    ensures CheckSafetyConditions(nav.(altitude := alt), params) == CheckSafetyConditions(nav, params)
  {
  }

  /** `Control_ComputeOrbitError`: positive outside the orbit. */
  function ComputeOrbitError(nav: NavState, desiredRadius: real): (e: real)
    ensures e > 0.0 <==> nav.rangeFromDatum > desiredRadius
    ensures e == 0.0 <==> nav.rangeFromDatum == desiredRadius
  {
    nav.rangeFromDatum - desiredRadius
  }

  /** `Control_ComputeDesiredTrack`: tangent to the circle plus a
      correction proportional to the range error, wrapped. */
  function ComputeDesiredTrack(nav: NavState, orbitError: real, params: ControlParams, modAngle: real -> real): (t: real)
    ensures orbitError == 0.0 ==> t == modAngle(nav.bearingToDatum + Pi / 2.0)
  {
    modAngle(nav.bearingToDatum + Pi / 2.0 + params.KpOrbit * orbitError)
  }

  /** `Control_ComputeTrackError`. */
  function ComputeTrackError(currentTrack: real, desiredTrack: real, modAngle: real -> real): (e: real)
    ensures currentTrack == desiredTrack ==> e == modAngle(0.0)
  {
    modAngle(desiredTrack - currentTrack)
  }

  /** On the orbit the desired track is the tangent, 90 degrees ahead of
      the bearing to the datum. */
  lemma OnOrbitFliesTangent(nav: NavState, params: ControlParams, modAngle: real -> real)
    requires nav.rangeFromDatum == params.OrbitRadius
    ensures ComputeDesiredTrack(nav, ComputeOrbitError(nav, params.OrbitRadius), params, modAngle)
            == modAngle(nav.bearingToDatum + Pi / 2.0)
  {
  }

  /** With an odd angle wrap, swapping the two tracks negates the error. */
  lemma TrackErrorAntisymmetric(a: real, b: real, modAngle: real -> real)
    requires modAngle(a - b) == -modAngle(b - a)
    ensures ComputeTrackError(a, b, modAngle) == -ComputeTrackError(b, a, modAngle)
  {
  }

  /** `Control_ComputeMotorCommand`: less power inside half the orbit
      radius, more beyond one and a half times it. */
  function ComputeMotorCommand(nav: NavState, params: ControlParams): (m: real)
    ensures nav.rangeFromDatum < params.OrbitRadius * 0.5 ==> m == 0.4
    ensures params.OrbitRadius * 0.5 <= nav.rangeFromDatum && nav.rangeFromDatum > params.OrbitRadius * 1.5 ==> m == 0.8
    ensures params.OrbitRadius * 0.5 <= nav.rangeFromDatum <= params.OrbitRadius * 1.5 ==> m == 0.6
    ensures 0.0 <= m <= MaxMotorCommand
  {
    var base := if nav.rangeFromDatum < params.OrbitRadius * 0.5 then 0.4
                else if nav.rangeFromDatum > params.OrbitRadius * 1.5 then 0.8
                else 0.6;
    Saturate(base, 0.0, MaxMotorCommand)
  }

  /** With a non-negative orbit radius, farther away never means less
      power. */
  lemma MotorCommandMonotone(nav: NavState, range2: real, params: ControlParams)
    requires params.OrbitRadius >= 0.0 && nav.rangeFromDatum <= range2
    ensures ComputeMotorCommand(nav, params) <= ComputeMotorCommand(nav.(rangeFromDatum := range2), params)
  {
  }

  /** One step of the track integral: `integral + error * dt`. */
  function Accumulate(integral: real, error: real, dt: real): (r: real)
    ensures dt == 0.0 ==> r == integral
  {
    integral + error * dt
  }

  /** The integral bound `1 / Ki_trk`. A zero gain gives an infinite bound
      in IEEE arithmetic, so the integral is then not clamped. */
  function ClampIntegral(integral: real, ki: real): (r: real)
    ensures ki > 0.0 ==> -1.0 / ki <= r <= 1.0 / ki
    ensures ki > 0.0 && -1.0 / ki <= integral <= 1.0 / ki ==> r == integral
    ensures ki == 0.0 ==> r == integral
  {
    if ki == 0.0 then integral else Saturate(integral, -(1.0 / ki), 1.0 / ki)
  }

  /** The PI sum `Kp_trk * e + Ki_trk * integral`, clamped to `±1`. */
  function PiRoll(params: ControlParams, trackError: real, integral: real): (roll: real)
    ensures -MaxRollCommand <= roll <= MaxRollCommand
  {
    Saturate(params.KpTrk * trackError + params.KiTrk * integral, -MaxRollCommand, MaxRollCommand)
  }

  /** The roll limiter: the command may move at most `MaxRollRate *
      LoopDt` from the previous one; a larger step is cut to that size in
      the same direction. */
  function LimitRoll(last: real, cmd: real): (r: real)
    ensures Abs(r - last) <= MaxRollRate * LoopDt
    ensures Abs(cmd - last) <= MaxRollRate * LoopDt ==> r == cmd
    ensures (last <= r <= cmd) || (cmd <= r <= last)
  {
    var rollRate := (cmd - last) / LoopDt;
    if Abs(rollRate) > MaxRollRate then
      last + (if rollRate > 0.0 then 1.0 else -1.0) * MaxRollRate * LoopDt
    else cmd
  }

  /** Every field of `ControlState_t` at one moment. */
  datatype ControlValues = ControlValues(
    rollCommand: real, motorCommand: real, rangeError: real, trackError: real, rollError: real,
    trackIntegral: real, rollIntegral: real, desiredTrack: real, desiredRange: real,
    autonomousMode: bool, lastUpdate: nat)

  /** `ControlState_t`, written through a pointer by every routine below. */
  class ControlState {
    var rollCommand: real
    var motorCommand: real
    var rangeError: real
    var trackError: real
    var rollError: real
    var trackIntegral: real
    var rollIntegral: real
    var desiredTrack: real
    var desiredRange: real
    var autonomousMode: bool
    var lastUpdate: nat

    function Values(): ControlValues
      reads this
    {
      ControlValues(rollCommand, motorCommand, rangeError, trackError, rollError,
        trackIntegral, rollIntegral, desiredTrack, desiredRange, autonomousMode, lastUpdate)
    }

    constructor ()
      ensures rollCommand == 0.0 && motorCommand == 0.0 && trackIntegral == 0.0 && rollIntegral == 0.0
      ensures !autonomousMode
    {
      rollCommand, motorCommand := 0.0, 0.0;
      rangeError, trackError, rollError := 0.0, 0.0, 0.0;
      trackIntegral, rollIntegral := 0.0, 0.0;
      desiredTrack, desiredRange := 0.0, 0.0;
      autonomousMode := false;
      lastUpdate := 0;
    }

    /** `Control_Reset`; `now` is `millis()`. */
    method Reset(now: nat)
      modifies this
      ensures rollCommand == 0.0 && motorCommand == 0.0 && rangeError == 0.0 && trackError == 0.0
      ensures rollError == 0.0 && trackIntegral == 0.0 && rollIntegral == 0.0
      ensures desiredTrack == 0.0 && desiredRange == 0.0 && !autonomousMode && lastUpdate == now
    {
      rollCommand, motorCommand := 0.0, 0.0;
      rangeError, trackError, rollError := 0.0, 0.0, 0.0;
      trackIntegral, rollIntegral := 0.0, 0.0;
      desiredTrack, desiredRange := 0.0, 0.0;
      autonomousMode := false;
      lastUpdate := now;
    }

    /** `Control_SetAutonomousMode`: disabling clears both integrals,
        enabling leaves them alone. */
    method SetAutonomousMode(enable: bool)
      modifies this`autonomousMode, this`trackIntegral, this`rollIntegral
      ensures autonomousMode == enable
      ensures !enable ==> trackIntegral == 0.0 && rollIntegral == 0.0
      ensures enable ==> trackIntegral == old(trackIntegral) && rollIntegral == old(rollIntegral)
    {
      autonomousMode := enable;
      if !enable {
        trackIntegral := 0.0;
        rollIntegral := 0.0;
      }
    }

    /** `Control_SetManualOverride`: manual commands, clamped; autonomy off;
        integrals cleared. */
    method SetManualOverride(rollCmd: real, motorCmd: real)
      modifies this`autonomousMode, this`rollCommand, this`motorCommand, this`trackIntegral, this`rollIntegral
      ensures !autonomousMode && trackIntegral == 0.0 && rollIntegral == 0.0
      ensures -MaxRollCommand <= rollCommand <= MaxRollCommand && 0.0 <= motorCommand <= MaxMotorCommand
      ensures -MaxRollCommand <= rollCmd <= MaxRollCommand ==> rollCommand == rollCmd
      ensures 0.0 <= motorCmd <= MaxMotorCommand ==> motorCommand == motorCmd
    {
      autonomousMode := false;
      rollCommand := Saturate(rollCmd, -MaxRollCommand, MaxRollCommand);
      motorCommand := Saturate(motorCmd, 0.0, MaxMotorCommand);
      trackIntegral := 0.0;
      rollIntegral := 0.0;
    }

    /** `Control_ClearManualOverride`. */
    method ClearManualOverride()
      modifies this`autonomousMode, this`rollCommand, this`motorCommand, this`trackIntegral, this`rollIntegral
      ensures !autonomousMode && rollCommand == 0.0 && motorCommand == 0.0
      ensures trackIntegral == 0.0 && rollIntegral == 0.0
    {
      autonomousMode := false;
      rollCommand := 0.0;
      motorCommand := 0.0;
      trackIntegral := 0.0;
      rollIntegral := 0.0;
    }

    /** `Control_ValidateCommands`: true iff both commands were already in
        range; afterwards both are. */
    method ValidateCommands() returns (valid: bool)
      modifies this`rollCommand, this`motorCommand
      ensures valid <==> (Abs(old(rollCommand)) <= MaxRollCommand && 0.0 <= old(motorCommand) <= MaxMotorCommand)
      ensures -MaxRollCommand <= rollCommand <= MaxRollCommand && 0.0 <= motorCommand <= MaxMotorCommand
      ensures Abs(old(rollCommand)) <= MaxRollCommand ==> rollCommand == old(rollCommand)
      ensures 0.0 <= old(motorCommand) <= MaxMotorCommand ==> motorCommand == old(motorCommand)
      ensures rollCommand == Saturate(old(rollCommand), -MaxRollCommand, MaxRollCommand)
      ensures motorCommand == Saturate(old(motorCommand), 0.0, MaxMotorCommand)
    {
      valid := true;
      if Abs(rollCommand) > MaxRollCommand {
        rollCommand := Saturate(rollCommand, -MaxRollCommand, MaxRollCommand);
        valid := false;
      }
      if motorCommand < 0.0 || motorCommand > MaxMotorCommand {
        motorCommand := Saturate(motorCommand, 0.0, MaxMotorCommand);
        valid := false;
      }
    }
  }

  /** The controller module's own statics: the parameters copied by
      `Control_Init` and the limiter's `lastRollCommand`. */
  class Controller {
    var params: ControlParams
    var lastRollCommand: real

    /** `Control_Init`. */
    constructor (p: ControlParams)
      ensures params == p && lastRollCommand == 0.0
    {
      params := p;
      lastRollCommand := 0.0;
    }

    /** `Control_ComputeRollCommand`: PI on the track error, the integral
        clamped to `±1/Ki_trk`, the sum clamped to `±1`. */
    method ComputeRollCommand(trackError: real, cs: ControlState, deltaTime: real) returns (roll: real)
      modifies cs`trackIntegral
      ensures cs.trackIntegral == ClampIntegral(Accumulate(old(cs.trackIntegral), trackError, deltaTime), params.KiTrk)
      ensures params.KiTrk > 0.0 ==> -1.0 / params.KiTrk <= cs.trackIntegral <= 1.0 / params.KiTrk
      ensures -MaxRollCommand <= roll <= MaxRollCommand
      ensures roll == PiRoll(params, trackError, cs.trackIntegral)
    {
      cs.trackIntegral := Accumulate(cs.trackIntegral, trackError, deltaTime);
      cs.trackIntegral := ClampIntegral(cs.trackIntegral, params.KiTrk);
      roll := PiRoll(params, trackError, cs.trackIntegral);
    }

    /** `Control_ApplySafetyLimits`: the roll command moves at most
        `0.5 * CONTROL_LOOP_DT` from the previous call's, and the motor is
        held in `[0, 0.9]`. */
    method ApplySafetyLimits(cs: ControlState)
      modifies this`lastRollCommand, cs`rollCommand, cs`motorCommand
      ensures Abs(cs.rollCommand - old(lastRollCommand)) <= MaxRollRate * LoopDt
      ensures Abs(old(cs.rollCommand) - old(lastRollCommand)) <= MaxRollRate * LoopDt ==> cs.rollCommand == old(cs.rollCommand)
      ensures lastRollCommand == cs.rollCommand
      ensures cs.rollCommand == LimitRoll(old(lastRollCommand), old(cs.rollCommand))
      ensures 0.0 <= cs.motorCommand <= SafeMotorCeiling
      ensures cs.motorCommand == Saturate(old(cs.motorCommand), 0.0, SafeMotorCeiling)
    {
      var rollRate := (cs.rollCommand - lastRollCommand) / LoopDt;
      if Abs(rollRate) > MaxRollRate {
        var sign := if rollRate > 0.0 then 1.0 else -1.0;
        cs.rollCommand := lastRollCommand + sign * MaxRollRate * LoopDt;
      }
      assert cs.rollCommand == LimitRoll(old(lastRollCommand), old(cs.rollCommand));
      lastRollCommand := cs.rollCommand;
      cs.motorCommand := Saturate(cs.motorCommand, 0.0, SafeMotorCeiling);
    }

    /** `Control_Step`: gate on fix and datum, then on the safety check,
        then run orbit, track and motor control and the limiters. */
    method Step(nav: NavState, cs: ControlState, deltaTime: real, now: nat, modAngle: real -> real)
      modifies this`lastRollCommand, cs
      ensures !nav.gpsValid || !nav.datumSet ==>
        && cs.Values() == old(cs.Values()).(autonomousMode := false, rollCommand := 0.0, motorCommand := 0.5)
        && lastRollCommand == old(lastRollCommand)
      ensures nav.gpsValid && nav.datumSet && !CheckSafetyConditions(nav, params) ==>
        && cs.Values() == old(cs.Values()).(autonomousMode := false, rollCommand := 0.0, motorCommand := 0.0)
        && lastRollCommand == old(lastRollCommand)
      ensures CheckSafetyConditions(nav, params) ==>
        && cs.Values() == EngagedValues(nav, params, deltaTime, now, modAngle, old(cs.Values()), old(lastRollCommand))
        && lastRollCommand == EngagedRoll(nav, params, deltaTime, modAngle, old(cs.trackIntegral), old(lastRollCommand))
        && -MaxRollCommand <= cs.rollCommand <= MaxRollCommand
        && 0.0 <= cs.motorCommand <= SafeMotorCeiling
    {
      if !nav.gpsValid || !nav.datumSet {
        cs.autonomousMode := false;
        cs.rollCommand := 0.0;
        cs.motorCommand := 0.5;
        return;
      }
      if !CheckSafetyConditions(nav, params) {
        cs.autonomousMode := false;
        cs.rollCommand := 0.0;
        cs.motorCommand := 0.0;
        return;
      }
      Engage(nav, cs, deltaTime, now, modAngle);
    }

    /** The autonomous half of `Control_Step`. */
    method Engage(nav: NavState, cs: ControlState, deltaTime: real, now: nat, modAngle: real -> real)
      modifies this`lastRollCommand, cs
      ensures cs.Values() == EngagedValues(nav, params, deltaTime, now, modAngle, old(cs.Values()), old(lastRollCommand))
      ensures lastRollCommand == EngagedRoll(nav, params, deltaTime, modAngle, old(cs.trackIntegral), old(lastRollCommand))
      ensures -MaxRollCommand <= cs.rollCommand <= MaxRollCommand
      ensures 0.0 <= cs.motorCommand <= SafeMotorCeiling
    {
      ghost var before, last := cs.Values(), lastRollCommand;
      var orbitError, desiredTrack, trackError := Guide(nav, cs, deltaTime, modAngle);
      ghost var integral := cs.trackIntegral;
      Limit(cs, now);
      MotorWithinLimits(nav, params);
      EngagedUnfold(nav, params, deltaTime, now, modAngle, before, last, orbitError, desiredTrack, trackError,
        integral, lastRollCommand);
    }

    /** Orbit, track and motor control: the guidance fields and the raw
        commands, before any limiter. */
    method Guide(nav: NavState, cs: ControlState, deltaTime: real, modAngle: real -> real)
      returns (orbitError: real, desiredTrack: real, trackError: real)
      modifies cs
      ensures orbitError == ComputeOrbitError(nav, params.OrbitRadius)
      ensures desiredTrack == ComputeDesiredTrack(nav, orbitError, params, modAngle)
      ensures trackError == ComputeTrackError(nav.groundTrack, desiredTrack, modAngle)
      ensures cs.Values() == old(cs.Values()).(
        autonomousMode := true, rangeError := orbitError, desiredTrack := desiredTrack,
        desiredRange := params.OrbitRadius, trackError := trackError,
        trackIntegral := ClampIntegral(Accumulate(old(cs.trackIntegral), trackError, deltaTime), params.KiTrk),
        rollCommand := PiRoll(params, trackError, cs.trackIntegral),
        motorCommand := ComputeMotorCommand(nav, params))
    {
      cs.autonomousMode := true;
      orbitError := ComputeOrbitError(nav, params.OrbitRadius);
      desiredTrack := ComputeDesiredTrack(nav, orbitError, params, modAngle);
      cs.rangeError := orbitError;
      cs.desiredTrack := desiredTrack;
      cs.desiredRange := params.OrbitRadius;
      trackError := ComputeTrackError(nav.groundTrack, desiredTrack, modAngle);
      var rollCommand := ComputeRollCommand(trackError, cs, deltaTime);
      cs.trackError := trackError;
      cs.rollCommand := rollCommand;
      cs.motorCommand := ComputeMotorCommand(nav, params);
    }

    /** The limiters, the validation and the time stamp. */
    method Limit(cs: ControlState, now: nat)
      modifies this`lastRollCommand, cs
      ensures lastRollCommand == LimitRoll(old(lastRollCommand), old(cs.rollCommand))
      ensures cs.Values() == old(cs.Values()).(
        rollCommand := Saturate(lastRollCommand, -MaxRollCommand, MaxRollCommand),
        motorCommand := Saturate(Saturate(old(cs.motorCommand), 0.0, SafeMotorCeiling), 0.0, MaxMotorCommand),
        lastUpdate := now)
    {
      ApplySafetyLimits(cs);
      var _ := cs.ValidateCommands();
      cs.lastUpdate := now;
    }
  }

  /** `EngagedRoll` and `EngagedValues` in terms of the intermediate
      values of one step. */
  lemma EngagedUnfold(nav: NavState, params: ControlParams, deltaTime: real, now: nat, modAngle: real -> real,
                      before: ControlValues, last: real,
                      orbitError: real, desiredTrack: real, trackError: real, integral: real, limited: real)
    requires orbitError == ComputeOrbitError(nav, params.OrbitRadius)
    requires desiredTrack == ComputeDesiredTrack(nav, orbitError, params, modAngle)
    requires trackError == ComputeTrackError(nav.groundTrack, desiredTrack, modAngle)
    requires integral == ClampIntegral(Accumulate(before.trackIntegral, trackError, deltaTime), params.KiTrk)
    requires limited == LimitRoll(last, PiRoll(params, trackError, integral))
    ensures EngagedRoll(nav, params, deltaTime, modAngle, before.trackIntegral, last) == limited
    ensures EngagedValues(nav, params, deltaTime, now, modAngle, before, last) == before.(
      autonomousMode := true, rangeError := orbitError, desiredTrack := desiredTrack,
      desiredRange := params.OrbitRadius, trackError := trackError, trackIntegral := integral,
      rollCommand := Saturate(limited, -MaxRollCommand, MaxRollCommand),
      motorCommand := ComputeMotorCommand(nav, params), lastUpdate := now)
  {
  }

  /** The roll command the limiter lets through in an autonomous step:
      the PI command on the wrapped track error, with the integral
      accumulated and clamped, limited in rate from `last`. */
  function EngagedRoll(nav: NavState, params: ControlParams, deltaTime: real, modAngle: real -> real,
                       trackIntegral: real, last: real): (r: real)
    ensures Abs(r - last) <= MaxRollRate * LoopDt
  {
    var orbitError := ComputeOrbitError(nav, params.OrbitRadius);
    var trackError := ComputeTrackError(nav.groundTrack, ComputeDesiredTrack(nav, orbitError, params, modAngle), modAngle);
    var integral := ClampIntegral(Accumulate(trackIntegral, trackError, deltaTime), params.KiTrk);
    LimitRoll(last, PiRoll(params, trackError, integral))
  }

  /** The control state after an autonomous step from `before`: the orbit
      error, desired track, track error and clamped integral; the roll
      command rate-limited and then validated into `±1`; the piecewise
      motor command, which neither limiter changes; autonomy on, the time
      stamped, and the roll error and integral as they were. */
  function EngagedValues(nav: NavState, params: ControlParams, deltaTime: real, now: nat, modAngle: real -> real,
                         before: ControlValues, last: real): (v: ControlValues)
    ensures v.autonomousMode && v.lastUpdate == now && v.desiredRange == params.OrbitRadius
    ensures v.rollError == before.rollError && v.rollIntegral == before.rollIntegral
    ensures -MaxRollCommand <= v.rollCommand <= MaxRollCommand && 0.0 <= v.motorCommand <= SafeMotorCeiling
  {
    var orbitError := ComputeOrbitError(nav, params.OrbitRadius);
    var desiredTrack := ComputeDesiredTrack(nav, orbitError, params, modAngle);
    var trackError := ComputeTrackError(nav.groundTrack, desiredTrack, modAngle);
    var integral := ClampIntegral(Accumulate(before.trackIntegral, trackError, deltaTime), params.KiTrk);
    var limited := EngagedRoll(nav, params, deltaTime, modAngle, before.trackIntegral, last);
    before.(
      autonomousMode := true, rangeError := orbitError, desiredTrack := desiredTrack,
      desiredRange := params.OrbitRadius, trackError := trackError, trackIntegral := integral,
      rollCommand := Saturate(limited, -MaxRollCommand, MaxRollCommand),
      motorCommand := ComputeMotorCommand(nav, params), lastUpdate := now)
  }

  /** The piecewise motor command is already inside both limiters. */
  lemma MotorWithinLimits(nav: NavState, params: ControlParams)
    ensures var m := ComputeMotorCommand(nav, params);
      && Saturate(m, 0.0, SafeMotorCeiling) == m
      && Saturate(Saturate(m, 0.0, SafeMotorCeiling), 0.0, MaxMotorCommand) == m
  {
  }
}

=== FILE: csv_fix.dfy ===
/** The flight-record repair and parse script: it normalises line endings,
    re-joins GPS records that the transport broke over two lines, and then
    parses `HEADER` and `GPS` records. */
module CsvFix {
  import opened PyText

  // ---------------------------------------------------------------------
  // Line endings

  /** `text.replace('\r\n', '\n')`: left to right, without overlaps. */
  function ReplaceCrLf(text: string): (r: string)
    ensures |r| <= |text|
    decreases |text|
  {
    if |text| >= 2 && text[0] == '\r' && text[1] == '\n' then "\n" + ReplaceCrLf(text[2..])
    else if |text| >= 1 then [text[0]] + ReplaceCrLf(text[1..])
    else ""
  }

  /** `text.replace('\r', '\n')`. */
  function ReplaceCr(text: string): (r: string)
    ensures |r| == |text|
    ensures forall i :: 0 <= i < |text| ==> r[i] == (if text[i] == '\r' then '\n' else text[i])
  {
    seq(|text|, i requires 0 <= i < |text| => if text[i] == '\r' then '\n' else text[i])
  }

  /** Both replacements, in the order the script applies them. */
  function Normalise(raw: string): string
  {
    ReplaceCr(ReplaceCrLf(raw))
  }

  /** After normalisation no carriage return is left. */
  lemma NormaliseRemovesCr(raw: string)
    ensures '\r' !in Normalise(raw)
  {
    var r := Normalise(raw);
    forall i | 0 <= i < |r| ensures r[i] != '\r' {
    }
  }

  /** Text without carriage returns passes through unchanged. */
  lemma {:induction false} NormaliseKeepsPlainText(raw: string)
    requires '\r' !in raw
    ensures Normalise(raw) == raw
  {
    ReplaceCrLfKeeps(raw);
  }

  lemma {:induction false} ReplaceCrLfKeeps(raw: string)
    requires '\r' !in raw
    ensures ReplaceCrLf(raw) == raw
    decreases |raw|
  {
    if |raw| >= 1 {
      assert raw[0] != '\r';
      assert '\r' !in raw[1..];
      ReplaceCrLfKeeps(raw[1..]);
      assert raw == [raw[0]] + raw[1..];
    }
  }

  /** A CR LF pair becomes a single newline, so a Windows line break
      splits exactly once. */
  lemma CrLfBreak(a: string, b: string)
    requires '\r' !in a && '\r' !in b
    ensures Normalise(a + "\r\n" + b) == a + "\n" + b
  {
    assert a + "\r\n" + b == a + ("\r\n" + b);
    CrLfAfterPlain(a, "\r\n" + b);
    assert ("\r\n" + b)[2..] == b;
    ReplaceCrLfKeeps(b);
    assert ReplaceCrLf("\r\n" + b) == "\n" + b;
    assert a + ("\n" + b) == a + "\n" + b;
    ReplaceCrPlain(a + "\n" + b);
  }

  /** A lone CR (old Mac line break) also becomes one newline. */
  lemma CrBreak(a: string, b: string)
    requires '\r' !in a && '\r' !in b
    requires b == [] || b[0] != '\n'
    ensures Normalise(a + "\r" + b) == a + "\n" + b
  {
    assert a + "\r" + b == a + ("\r" + b);
    CrLfAfterPlain(a, "\r" + b);
    LoneCrKept(b);
    assert a + ("\r" + b) == a + "\r" + b;
    LoneCrReplaced(a, b);
  }

  lemma LoneCrKept(b: string)
    requires '\r' !in b
    requires b == [] || b[0] != '\n'
    ensures ReplaceCrLf("\r" + b) == "\r" + b
  {
    assert ("\r" + b)[1..] == b;
    ReplaceCrLfKeeps(b);
  }

  lemma LoneCrReplaced(a: string, b: string)
    requires '\r' !in a && '\r' !in b
    ensures ReplaceCr(a + "\r" + b) == a + "\n" + b
  {
    var t := a + "\r" + b;
    var u := a + "\n" + b;
    forall i | 0 <= i < |t| ensures ReplaceCr(t)[i] == u[i] {
      if i < |a| { assert t[i] == a[i] && u[i] == a[i]; }
      else if i > |a| { assert t[i] == b[i - |a| - 1] && u[i] == b[i - |a| - 1]; }
    }
  }

  lemma {:induction false} CrLfAfterPlain(a: string, rest: string)
    requires '\r' !in a
    ensures ReplaceCrLf(a + rest) == a + ReplaceCrLf(rest)
    decreases |a|
  {
    if |a| >= 1 {
      assert (a + rest)[0] == a[0] && (a + rest)[1..] == a[1..] + rest;
      assert a[0] != '\r';
      assert '\r' !in a[1..];
      CrLfAfterPlain(a[1..], rest);
      assert a == [a[0]] + a[1..];
    } else {
      assert a + rest == rest;
    }
  }

  lemma ReplaceCrPlain(t: string)
    requires '\r' !in t
    ensures ReplaceCr(t) == t
  {
  }

  // ---------------------------------------------------------------------
  // The repair walk

  /** Lines the walk drops: blank ones and control markers. */
  predicate Skipped(line: string)
  {
    line == "" || StartsWith(line, "[") || StartsWith(line, "DEBUG")
  }

  /** A GPS record needs six comma fields with a latitude and longitude that
      are neither empty nor a lone minus sign. */
  predicate Incomplete(line: string)
  {
    var parts := Split(line, ',');
    |parts| < 6 || parts[4] in ["-", ""] || parts[5] in ["-", ""]
  }

  /** What the walk does with one stripped line. */
  datatype Kind = Drop | Broken | Keep

  function Classify(line: string): (k: Kind)
    ensures k == Drop <==> Skipped(line)
    ensures k == Broken <==> !Skipped(line) && StartsWith(line, "GPS,") && Incomplete(line)
  {
    if Skipped(line) then Drop
    else if StartsWith(line, "GPS,") && Incomplete(line) then Broken
    else Keep
  }

  /** The records the walk keeps from position `i` on: a dropped line is
      skipped; a broken GPS record absorbs the next line, stripped, when
      there is one; any other line is kept stripped. */
  function Walk(lines: seq<string>, i: nat): seq<string>
    decreases |lines| - i
  {
    if i >= |lines| then []
    else
      var line := Strip(lines[i]);
      match Classify(line)
      case Drop => Walk(lines, i + 1)
      case Broken =>
        if i + 1 < |lines| then [line + Strip(lines[i + 1])] + Walk(lines, i + 2)
        else [line] + Walk(lines, i + 1)
      case Keep => [line] + Walk(lines, i + 1)
  }

  /** The walk keeps at most one record per raw line. */
  lemma {:induction false} WalkLength(lines: seq<string>, i: nat)
    requires i <= |lines|
    ensures |Walk(lines, i)| <= |lines| - i
    decreases |lines| - i
  {
    if i < |lines| {
      match Classify(Strip(lines[i]))
      case Drop => WalkLength(lines, i + 1);
      case Broken =>
        if i + 1 < |lines| { WalkLength(lines, i + 2); } else { WalkLength(lines, i + 1); }
      case Keep => WalkLength(lines, i + 1);
    }
  }

  /** A merged record starts with the broken record's own `GPS,` and so is
      never dropped. */
  lemma MergedNotSkipped(line: string, next: string)
    requires StartsWith(line, "GPS,")
    ensures !Skipped(line + next)
  {
    var merged := line + next;
    assert merged[0] == line[0] == 'G';
    assert !StartsWith(merged, "DEBUG") by {
      if |merged| >= 5 { assert merged[..5][0] == 'G'; }
    }
  }

  predicate AllKept(records: seq<string>)
  {
    forall k :: 0 <= k < |records| ==> !Skipped(records[k])
  }

  /** Every kept record is non-blank and not a control marker. */
  lemma {:induction false} WalkClean(lines: seq<string>, i: nat)
    ensures AllKept(Walk(lines, i))
    decreases |lines| - i
  {
    if i < |lines| {
      var line := Strip(lines[i]);
      match Classify(line)
      case Drop =>
        WalkClean(lines, i + 1);
      case Broken =>
        if i + 1 < |lines| {
          WalkClean(lines, i + 2);
          MergedNotSkipped(line, Strip(lines[i + 1]));
          KeptCons(line + Strip(lines[i + 1]), Walk(lines, i + 2));
        } else {
          WalkClean(lines, i + 1);
          KeptCons(line, Walk(lines, i + 1));
        }
      case Keep =>
        WalkClean(lines, i + 1);
        KeptCons(line, Walk(lines, i + 1));
    }
  }

  lemma KeptCons(line: string, rest: seq<string>)
    requires !Skipped(line) && AllKept(rest)
    ensures AllKept([line] + rest)
  {
    var w := [line] + rest;
    forall k | 0 <= k < |w| ensures !Skipped(w[k]) {
      if k > 0 { assert w[k] == rest[k - 1]; }
    }
  }

  /** An incomplete record on the last line cannot be merged and is kept
      as it is. */
  lemma IncompleteLastLineKept(lines: seq<string>)
    requires |lines| >= 1
    requires var line := Strip(lines[|lines| - 1]); !Skipped(line) && StartsWith(line, "GPS,") && Incomplete(line)
    ensures Walk(lines, |lines| - 1) == [Strip(lines[|lines| - 1])]
  {
    assert Classify(Strip(lines[|lines| - 1])) == Broken;
  }

  /** The line after an incomplete record is consumed as its continuation
      even when it is blank or a control marker. */
  lemma ContinuationNotFiltered(lines: seq<string>, i: nat)
    requires i + 1 < |lines|
    requires var line := Strip(lines[i]); !Skipped(line) && StartsWith(line, "GPS,") && Incomplete(line)
    ensures Walk(lines, i) == [Strip(lines[i]) + Strip(lines[i + 1])] + Walk(lines, i + 2)
  {
    assert Classify(Strip(lines[i])) == Broken;
  }

  // ---------------------------------------------------------------------
  // Parsing

  datatype Header = Header(
    flightId: string, durationMs: int, gpsAvailable: bool, positionCount: int,
    motorRunTime: int, totalFlightTime: int, motorSpeed: int)

  datatype GpsRecord = GpsRecord(timestampMs: int, flightState: int, stateName: string, latitude: real, longitude: real)

  /** What the script returns, or `Raised` when a header's integer field
      raises a ValueError that nothing catches. */
  datatype Outcome = Parsed(header: Option<Header>, records: seq<GpsRecord>) | Raised

  /** The header in a `HEADER,` line of at least eight fields; `None` when an
      integer field does not parse. */
  function ParseHeader(parts: seq<string>): Option<Header>
    requires |parts| >= 8
  {
    var d := ParseInt(parts[2]);
    var c := ParseInt(parts[4]);
    var m := ParseInt(parts[5]);
    var t := ParseInt(parts[6]);
    var s := ParseInt(parts[7]);
    if d.None? || c.None? || m.None? || t.None? || s.None? then None
    else Some(Header(parts[1], d.value, parts[3] == "true", c.value, m.value, t.value, s.value))
  }

  /** The record in a `GPS,` line of at least six fields; `None` when a
      number does not parse. */
  function ParseGps(parts: seq<string>): Option<GpsRecord>
    requires |parts| >= 6
  {
    var ts := ParseInt(parts[1]);
    var st := ParseInt(parts[2]);
    var lat := ParseFloat(parts[4]);
    var lon := ParseFloat(parts[5]);
    if ts.None? || st.None? || lat.None? || lon.None? then None
    else Some(GpsRecord(ts.value, st.value, parts[3], lat.value, lon.value))
  }

  /** The effect of one processed line on the result so far. */
  function ParseStep(acc: Outcome, line: string): Outcome
    requires acc.Parsed?
  {
    if StartsWith(line, "HEADER,") then HeaderStep(acc, Split(line, ','))
    else if StartsWith(line, "GPS,") then GpsStep(acc, Split(line, ','))
    else acc
  }

  /** A header of eight or more fields replaces the previous one, or
      raises when one of its integers does not parse. */
  function HeaderStep(acc: Outcome, parts: seq<string>): Outcome
    requires acc.Parsed?
  {
    if |parts| < 8 then acc
    else
      var h := ParseHeader(parts);
      if h.None? then Raised else Parsed(h, acc.records)
  }

  /** A GPS record of six or more fields that parses is appended; any other
      is skipped. */
  function GpsStep(acc: Outcome, parts: seq<string>): Outcome
    requires acc.Parsed?
  {
    if |parts| < 6 then acc
    else
      var g := ParseGps(parts);
      if g.None? then acc else Parsed(acc.header, acc.records + [g.value])
  }

  function ParseLines(lines: seq<string>): Outcome
  {
    if lines == [] then Parsed(None, [])
    else
      var before := ParseLines(lines[..|lines| - 1]);
      if before.Raised? then Raised else ParseStep(before, lines[|lines| - 1])
  }

  /** `process_test_data`: normalise, split into lines, repair, parse. */
  method ProcessTestData(raw: string) returns (out: Outcome)
    ensures out == ParseLines(Walk(Split(Normalise(raw), '\n'), 0))
  {
    var text := Normalise(raw);
    var lines := Split(text, '\n');
    var processed := RepairLines(lines);
    out := ParseRecords(processed);
  }

  /** Whether a `GPS,` line lacks a usable position, as the walk decides it. */
  method IsIncomplete(line: string) returns (incomplete: bool)
    ensures incomplete == Incomplete(line)
  {
    var parts := Split(line, ',');
    incomplete := false;
    if |parts| < 6 {
      incomplete := true;
    } else {
      var lat := parts[4];
      var lon := parts[5];
      if lat in ["-", ""] || lon in ["-", ""] {
        incomplete := true;
      }
    }
  }

  /** The tests the walk applies to one stripped line. */
  method ClassifyLine(line: string) returns (kind: Kind)
    ensures kind == Classify(line)
  {
    if line == "" || StartsWith(line, "[") || StartsWith(line, "DEBUG") {
      return Drop;
    }
    var incomplete := false;
    if StartsWith(line, "GPS,") {
      incomplete := IsIncomplete(line);
    }
    kind := if incomplete then Broken else Keep;
  }

  /** The repair walk over the raw lines. */
  method RepairLines(lines: seq<string>) returns (processed: seq<string>)
    ensures processed == Walk(lines, 0)
  {
    processed := [];
    var i := 0;
    while i < |lines|
      invariant i <= |lines|
      invariant processed + Walk(lines, i) == Walk(lines, 0)
      decreases |lines| - i
    {
      var line := Strip(lines[i]);
      var kind := ClassifyLine(line);
      if kind == Drop {
        WalkDrop(lines, i);
        i := i + 1;
      } else if kind == Broken && i + 1 < |lines| {
        var next := Strip(lines[i + 1]);
        WalkMerge(lines, i, processed);
        processed := processed + [line + next];
        i := i + 2;
      } else {
        WalkKeep(lines, i, processed);
        processed := processed + [line];
        i := i + 1;
      }
    }
    assert processed + [] == processed;
  }

  lemma WalkDrop(lines: seq<string>, i: nat)
    requires i < |lines| && Classify(Strip(lines[i])) == Drop
    ensures Walk(lines, i) == Walk(lines, i + 1)
  {
  }

  lemma WalkMerge(lines: seq<string>, i: nat, done: seq<string>)
    requires i + 1 < |lines| && Classify(Strip(lines[i])) == Broken
    ensures done + Walk(lines, i) == (done + [Strip(lines[i]) + Strip(lines[i + 1])]) + Walk(lines, i + 2)
  {
  }

  lemma WalkKeep(lines: seq<string>, i: nat, done: seq<string>)
    requires i < |lines|
    requires Classify(Strip(lines[i])) == Keep || (Classify(Strip(lines[i])) == Broken && i + 1 == |lines|)
    ensures done + Walk(lines, i) == (done + [Strip(lines[i])]) + Walk(lines, i + 1)
  {
  }

  /** The parse loop over the repaired lines. */
  method ParseRecords(processed: seq<string>) returns (out: Outcome)
    ensures out == ParseLines(processed)
  {
    var header: Option<Header> := None;
    var records: seq<GpsRecord> := [];
    for k := 0 to |processed|
      invariant ParseLines(processed[..k]) == Parsed(header, records)
    {
      assert processed[..k + 1][..k] == processed[..k];
      var line := processed[k];
      if StartsWith(line, "HEADER,") {
        var parts := Split(line, ',');
        if |parts| >= 8 {
          var h := ParseHeader(parts);
          if h.None? {
            assert ParseLines(processed[..k + 1]) == Raised;
            RaisedSticks(processed, k + 1);
            return Raised;
          }
          header := h;
        }
      } else if StartsWith(line, "GPS,") {
        var parts := Split(line, ',');
        if |parts| >= 6 {
          var g := ParseGps(parts);
          if g.Some? {
            records := records + [g.value];
          }
        }
      }
    }
    assert processed[..|processed|] == processed;
    return Parsed(header, records);
  }

  /** Once a header has raised, the whole parse has raised. */
  lemma {:induction false} RaisedSticks(lines: seq<string>, k: nat)
    requires k <= |lines| && ParseLines(lines[..k]).Raised?
    ensures ParseLines(lines).Raised?
    decreases |lines| - k
  {
    if k < |lines| {
      assert lines[..k + 1][..k] == lines[..k];
      RaisedSticks(lines, k + 1);
    } else {
      assert lines[..k] == lines;
    }
  }

  /** A malformed GPS record is skipped and the parse goes on. */
  lemma MalformedGpsSkipped(lines: seq<string>, line: string)
    requires ParseLines(lines).Parsed?
    requires StartsWith(line, "GPS,") && !StartsWith(line, "HEADER,")
    requires |Split(line, ',')| < 6 || ParseGps(Split(line, ',')).None?
    ensures ParseLines(lines + [line]) == ParseLines(lines)
  {
    assert (lines + [line])[..|lines|] == lines;
  }

  /** A later well-formed header replaces any earlier one and keeps the
      records. */
  lemma LaterHeaderWins(lines: seq<string>, line: string)
    requires ParseLines(lines).Parsed?
    requires StartsWith(line, "HEADER,") && |Split(line, ',')| >= 8
    requires ParseHeader(Split(line, ',')).Some?
    ensures ParseLines(lines + [line]) == Parsed(ParseHeader(Split(line, ',')), ParseLines(lines).records)
  {
    assert (lines + [line])[..|lines|] == lines;
  }

  /** `gps_available` is set exactly when field 3 reads `true`. */
  lemma GpsAvailableIff(parts: seq<string>)
    requires |parts| >= 8 && ParseHeader(parts).Some?
    ensures ParseHeader(parts).value.gpsAvailable <==> parts[3] == "true"
  {
  }

  /** At most one GPS record per processed line. */
  lemma {:induction false} RecordsBounded(lines: seq<string>)
    ensures ParseLines(lines).Parsed? ==> |ParseLines(lines).records| <= |lines|
  {
    if lines != [] {
      RecordsBounded(lines[..|lines| - 1]);
    }
  }

  // ---------------------------------------------------------------------
  // A GPS record cut after its longitude's minus sign

  /** A `GPS` record, cut right after its longitude's minus sign, with
      the timestamp, state, state name and latitude fields given. */
  function BrokenRecord(ts: string, st: string, name: string, lat: string): (r: string)
    ensures |r| > 4 && r[..4] == "GPS," && r[|r| - 1] == '-'
  {
    "GPS" + [','] + ts + [','] + st + [','] + name + [','] + lat + [','] + "-"
  }

  lemma Join6(a: string, b: string, c: string, d: string, e: string, f: string, sep: string)
    ensures Join([a, b, c, d, e, f], sep) == a + sep + b + sep + c + sep + d + sep + e + sep + f
  {
    var p := [a, b, c, d, e, f];
    assert p[1..] == [b, c, d, e, f];
    assert p[1..][1..] == [c, d, e, f];
    assert p[1..][1..][1..] == [d, e, f];
    assert p[1..][1..][1..][1..] == [e, f];
    assert p[1..][1..][1..][1..][1..] == [f];
    assert Join([e, f], sep) == e + sep + f;
    assert Join([d, e, f], sep) == d + sep + (e + sep + f);
    assert Join([c, d, e, f], sep) == c + sep + (d + sep + (e + sep + f));
    assert Join([b, c, d, e, f], sep) == b + sep + (c + sep + (d + sep + (e + sep + f)));
  }

  /** Six comma-free fields joined by commas split back into themselves. */
  lemma Fields6(a: string, b: string, c: string, d: string, e: string, f: string)
    requires ',' !in a && ',' !in b && ',' !in c && ',' !in d && ',' !in e && ',' !in f
    ensures Split(a + [','] + b + [','] + c + [','] + d + [','] + e + [','] + f, ',') == [a, b, c, d, e, f]
  {
    Join6(a, b, c, d, e, f, [',']);
    SplitUnique(a + [','] + b + [','] + c + [','] + d + [','] + e + [','] + f, ',', [a, b, c, d, e, f]);
  }

  /** Fields of a broken record. */
  lemma BrokenRecordFields(ts: string, st: string, name: string, lat: string)
    requires ',' !in ts && ',' !in st && ',' !in name && ',' !in lat
    ensures Split(BrokenRecord(ts, st, name, lat), ',') == ["GPS", ts, st, name, lat, "-"]
  {
    Fields6("GPS", ts, st, name, lat, "-");
  }

  /** Fields of a broken record once the continuation is glued to it: the
      continuation lands in the longitude, after its sign. */
  lemma MergedRecordFields(ts: string, st: string, name: string, lat: string, tail: string)
    requires ',' !in ts && ',' !in st && ',' !in name && ',' !in lat && ',' !in tail
    ensures Split(BrokenRecord(ts, st, name, lat) + tail, ',') == ["GPS", ts, st, name, lat, "-" + tail]
  {
    SignedNoComma(tail);
    var c := [','];
    assert BrokenRecord(ts, st, name, lat) + tail == "GPS" + c + ts + c + st + c + name + c + lat + c + ("-" + tail);
    Fields6("GPS", ts, st, name, lat, "-" + tail);
  }

  lemma SignedNoComma(tail: string)
    requires ',' !in tail
    ensures ',' !in "-" + tail
  {
    var u := "-" + tail;
    forall j | 1 <= j < |u| ensures u[j] != ',' { assert u[j] == tail[j - 1]; }
  }

  /** The walk glues the continuation back on. */
  lemma BrokenRecordMerged(ts: string, st: string, name: string, lat: string, tail: string)
    requires ',' !in ts && ',' !in st && ',' !in name && ',' !in lat && ',' !in tail
    requires |tail| > 0 && !IsSpace(tail[0]) && !IsSpace(tail[|tail| - 1])
    ensures Walk([BrokenRecord(ts, st, name, lat), tail], 0) == [BrokenRecord(ts, st, name, lat) + tail]
  {
    var head := BrokenRecord(ts, st, name, lat);
    BrokenRecordClassified(ts, st, name, lat);
    StripKeepsTrimmed(tail);
    var lines := [head, tail];
    assert lines[0] == head && lines[1] == tail;
    WalkMerge(lines, 0, []);
    assert Walk(lines, 2) == [];
  }

  /** A broken record is already stripped and is classified as broken. */
  lemma BrokenRecordClassified(ts: string, st: string, name: string, lat: string)
    requires ',' !in ts && ',' !in st && ',' !in name && ',' !in lat
    ensures var head := BrokenRecord(ts, st, name, lat);
            Strip(head) == head && Classify(head) == Broken
  {
    var head := BrokenRecord(ts, st, name, lat);
    BrokenRecordFields(ts, st, name, lat);
    assert head[0] == 'G' by { assert head[..4][0] == 'G'; }
    ShortGpsIncomplete(head, Split(head, ','));
    ShortGpsClassified(head);
    StripKeepsTrimmed(head);
  }

  /** Six fields, the last a lone sign: the record is incomplete. */
  lemma ShortGpsIncomplete(head: string, parts: seq<string>)
    requires parts == Split(head, ',') && |parts| == 6 && parts[5] == "-"
    ensures Incomplete(head)
  {
    assert parts[5] in ["-", ""];
  }

  /** An incomplete `GPS,` line is classified as broken. */
  lemma ShortGpsClassified(head: string)
    requires |head| > 4 && head[..4] == "GPS," && Incomplete(head)
    ensures Classify(head) == Broken
  {
    assert head[0] == 'G' by { assert head[..4][0] == 'G'; }
    assert !Skipped(head) by {
      if |head| >= 5 { assert head[..5][0] == 'G'; }
      assert head[..1][0] == 'G';
    }
    assert StartsWith(head, "GPS,");
  }

  /** Parsing the glued record recovers every field, the longitude with
      its sign included. */
  lemma BrokenRecordRepaired(ts: string, st: string, name: string, lat: string, tail: string)
    requires ',' !in ts && ',' !in st && ',' !in name && ',' !in lat && ',' !in tail
    requires |tail| > 0 && !IsSpace(tail[0]) && !IsSpace(tail[|tail| - 1])
    requires ParseInt(ts).Some? && ParseInt(st).Some? && ParseFloat(lat).Some? && ParseFloat("-" + tail).Some?
    ensures ParseLines(Walk([BrokenRecord(ts, st, name, lat), tail], 0))
            == Parsed(None, [GpsRecord(ParseInt(ts).value, ParseInt(st).value, name, ParseFloat(lat).value, ParseFloat("-" + tail).value)])
  {
    BrokenRecordMerged(ts, st, name, lat, tail);
    MergedRecordFields(ts, st, name, lat, tail);
    var head := BrokenRecord(ts, st, name, lat);
    var merged := head + tail;
    var lon := "-" + tail;
    var rec := GpsRecord(ParseInt(ts).value, ParseInt(st).value, name, ParseFloat(lat).value, ParseFloat(lon).value);
    GpsFieldsParsed("GPS", ts, st, name, lat, lon);
    GluedPrefix(head, tail);
    WalkedRecordParsed([head, tail], merged, ["GPS", ts, st, name, lat, lon], rec);
  }

  lemma GluedPrefix(head: string, tail: string)
    requires |head| > 4 && head[..4] == "GPS,"
    ensures |head + tail| >= 4 && (head + tail)[..4] == "GPS,"
  {
    assert (head + tail)[..4] == head[..4];
  }

  /** A walk that leaves one `GPS` line whose fields parse yields its record. */
  lemma WalkedRecordParsed(lines: seq<string>, merged: string, parts: seq<string>, rec: GpsRecord)
    requires Walk(lines, 0) == [merged] && |merged| >= 4 && merged[..4] == "GPS,"
    requires Split(merged, ',') == parts && |parts| >= 6 && ParseGps(parts) == Some(rec)
    ensures ParseLines(Walk(lines, 0)) == Parsed(None, [rec])
  {
    GpsLineParsed(merged, rec);
  }

  /** Six fields whose numbers all convert make a record of them. */
  lemma GpsFieldsParsed(tag: string, ts: string, st: string, name: string, lat: string, lon: string)
    requires ParseInt(ts).Some? && ParseInt(st).Some? && ParseFloat(lat).Some? && ParseFloat(lon).Some?
    ensures ParseGps([tag, ts, st, name, lat, lon])
            == Some(GpsRecord(ParseInt(ts).value, ParseInt(st).value, name, ParseFloat(lat).value, ParseFloat(lon).value))
  {
  }

  /** A lone `GPS` line that parses yields exactly its record. */
  lemma GpsLineParsed(line: string, rec: GpsRecord)
    requires |line| >= 4 && line[..4] == "GPS,"
    requires |Split(line, ',')| >= 6 && ParseGps(Split(line, ',')) == Some(rec)
    ensures ParseLines([line]) == Parsed(None, [rec])
  {
    SingleLine(line);
    GpsDispatch(line);
  }

  lemma SingleLine(line: string)
    ensures ParseLines([line]) == ParseStep(Parsed(None, []), line)
  {
    var none: seq<string> := [];
    assert [line][..0] == none;
  }

  lemma GpsDispatch(line: string)
    requires |line| >= 4 && line[..4] == "GPS,"
    ensures ParseStep(Parsed(None, []), line) == GpsStep(Parsed(None, []), Split(line, ','))
  {
    GpsNotHeader(line);
  }

  lemma GpsNotHeader(line: string)
    requires |line| >= 4 && line[..4] == "GPS,"
    ensures !StartsWith(line, "HEADER,") && StartsWith(line, "GPS,")
  {
    if |line| >= 7 { assert line[..7][0] == line[..4][0]; }
  }
}

=== FILE: ctext.dfy ===
/** The C and Arduino text primitives the firmware relies on: the C
    `isspace` set, Arduino `String::trim`, the NUL terminator of a C
    string, `strtok` over one delimiter, `atoi` and `atof`. */
module CText {
  import opened PyText

  /** C `isspace` in the "C" locale: space, tab, newline, vertical tab,
      form feed and carriage return. */
  predicate CIsSpace(c: char) {
    c == ' ' || ('\t' <= c <= '\r')
  }

  /** The first index at or after `i` that is not C whitespace. */
  function SkipCSpaces(s: string, i: nat): (k: nat)
    requires i <= |s|
    ensures i <= k <= |s|
    ensures k == |s| || !CIsSpace(s[k])
    ensures forall j :: i <= j < k ==> CIsSpace(s[j])
    decreases |s| - i
  {
    if i == |s| || !CIsSpace(s[i]) then i else SkipCSpaces(s, i + 1)
  }

  /** The smallest `k >= lo` such that `s[k..j]` is all C whitespace. */
  function TrimCEnd(s: string, lo: nat, j: nat): (k: nat)
    requires lo <= j <= |s|
    ensures lo <= k <= j
    ensures k == lo || !CIsSpace(s[k - 1])
    ensures forall m :: k <= m < j ==> CIsSpace(s[m])
    decreases j
  {
    if j == lo || !CIsSpace(s[j - 1]) then j else TrimCEnd(s, lo, j - 1)
  }

  /** Arduino `String::trim`: leading and trailing C whitespace removed. */
  function Trim(s: string): (r: string)
    ensures r == [] || (!CIsSpace(r[0]) && !CIsSpace(r[|r| - 1]))
  {
    var a := SkipCSpaces(s, 0);
    s[a..TrimCEnd(s, a, |s|)]
  }

  /** Trimming removes exactly the surrounding whitespace: text that
      neither starts nor ends with whitespace, padded on both sides, trims
      back to itself. */
  lemma TrimRemovesPadding(pre: string, t: string, post: string)
    requires forall j :: 0 <= j < |pre| ==> CIsSpace(pre[j])
    requires forall j :: 0 <= j < |post| ==> CIsSpace(post[j])
    requires |t| > 0 && !CIsSpace(t[0]) && !CIsSpace(t[|t| - 1])
    ensures Trim(pre + t + post) == t
  {
    var s := pre + t + post;
    SkipAcross(s, |pre|);
    assert SkipCSpaces(s, 0) == |pre|;
    TrimAcross(s, |pre|, |pre| + |t|);
    assert s[|pre|..|pre| + |t|] == t;
  }

  lemma SkipAcross(s: string, n: nat)
    requires n < |s| && !CIsSpace(s[n])
    requires forall j :: 0 <= j < n ==> CIsSpace(s[j])
    ensures SkipCSpaces(s, 0) == n
  {
  }

  lemma TrimAcross(s: string, lo: nat, e: nat)
    requires lo < e <= |s| && !CIsSpace(s[e - 1])
    requires forall j :: e <= j < |s| ==> CIsSpace(s[j])
    ensures TrimCEnd(s, lo, |s|) == e
  {
  }

  /** The text a `char` array holds as a C string: everything before the
      first NUL. */
  function CStr(s: string): (r: string)
    ensures '\0' !in r && StartsWith(s, r)
    ensures '\0' !in s ==> r == s
  {
    s[..IndexOf(s, '\0')]
  }

  // ---------------------------------------------------------------------
  // strtok

  /** The tokens successive `strtok` calls return for the delimiter `d`:
      runs of non-delimiter characters, with empty fields skipped. */
  function Tokens(s: string, d: char): (ts: seq<string>)
    ensures forall i :: 0 <= i < |ts| ==> |ts[i]| > 0 && d !in ts[i]
    decreases |s|
  {
    if |s| == 0 then []
    else if s[0] == d then Tokens(s[1..], d)
    else
      var k := IndexOf(s, d);
      [s[..k]] + (if k == |s| then [] else Tokens(s[k + 1..], d))
  }

  /** The fields that are not empty, in order. */
  function NonEmpty(fields: seq<string>): (r: seq<string>)
    ensures forall i :: 0 <= i < |r| ==> |r[i]| > 0
  {
    if |fields| == 0 then []
    else if fields[0] == "" then NonEmpty(fields[1..])
    else [fields[0]] + NonEmpty(fields[1..])
  }

  /** `strtok` returns the fields `split` would give, with the empty ones
      dropped: later fields shift left. */
  lemma {:induction false} TokensSkipEmptyFields(s: string, d: char)
    ensures Tokens(s, d) == NonEmpty(Split(s, d))
    decreases |s|
  {
    var k := IndexOf(s, d);
    if |s| == 0 {
      assert Split(s, d) == [""];
    } else if s[0] == d {
      assert k == 0;
      assert Split(s, d) == [""] + Split(s[1..], d);
      assert NonEmpty(Split(s, d)) == NonEmpty(Split(s[1..], d));
      TokensSkipEmptyFields(s[1..], d);
    } else if k == |s| {
      assert s[..k] == s;
      assert Split(s, d) == [s];
      assert NonEmpty([s]) == [s] + NonEmpty([]);
    } else {
      assert Split(s, d) == [s[..k]] + Split(s[k + 1..], d);
      assert s[..k] != "";
      assert NonEmpty(Split(s, d)) == [s[..k]] + NonEmpty(Split(s[k + 1..], d));
      TokensSkipEmptyFields(s[k + 1..], d);
    }
  }

  /** A leading run of delimiters contributes no token. */
  lemma {:induction false} LeadingDelimiters(s: string, d: char, i: nat)
    requires i <= |s|
    requires forall j :: 0 <= j < i ==> s[j] == d
    ensures Tokens(s, d) == Tokens(s[i..], d)
    decreases i
  {
    if i > 0 {
      assert s[0] == d;
      assert s[1..][i - 1..] == s[i..];
      LeadingDelimiters(s[1..], d, i - 1);
    }
  }

  /** One `strtok` call: skip delimiters, return the run after them and
      the text after the delimiter that ended it. */
  method StrtokNext(rest: string, d: char) returns (token: Option<string>, next: string)
    ensures token.None? <==> Tokens(rest, d) == []
    ensures token.Some? ==> Tokens(rest, d) == [token.value] + Tokens(next, d) && |next| < |rest|
    ensures |next| <= |rest|
  {
    var i := SkipDelimiters(rest, d);
    if i == |rest| {
      assert rest[i..] == [];
      return None, "";
    }
    var j := RunEnd(rest, d, i);
    token := Some(rest[i..j]);
    next := if j < |rest| then rest[j + 1..] else "";
    TokenRun(rest, d, i, j);
  }

  /** The index of the first character that is not a delimiter. */
  method SkipDelimiters(s: string, d: char) returns (i: nat)
    ensures i <= |s| && (i == |s| || s[i] != d)
    ensures Tokens(s, d) == Tokens(s[i..], d)
  {
    i := 0;
    while i < |s| && s[i] == d
      invariant i <= |s|
      invariant forall j :: 0 <= j < i ==> s[j] == d
    {
      i := i + 1;
    }
    LeadingDelimiters(s, d, i);
  }

  /** The end of the run of non-delimiters that starts at `i`. */
  method RunEnd(s: string, d: char, i: nat) returns (j: nat)
    requires i <= |s|
    ensures i <= j <= |s| && (j == |s| || s[j] == d)
    ensures forall m :: i <= m < j ==> s[m] != d
  {
    j := i;
    while j < |s| && s[j] != d
      invariant i <= j <= |s|
      invariant forall m :: i <= m < j ==> s[m] != d
    {
      j := j + 1;
    }
  }

  /** The run `rest[i..j]`, ended by a delimiter or the end of the text,
      is the first token of `rest[i..]`. */
  lemma TokenRun(rest: string, d: char, i: nat, j: nat)
    requires i < j <= |rest|
    requires forall m :: i <= m < j ==> rest[m] != d
    requires j == |rest| || rest[j] == d
    ensures Tokens(rest[i..], d) == [rest[i..j]] + Tokens(if j < |rest| then rest[j + 1..] else "", d)
  {
    var tail := rest[i..];
    assert IndexOf(tail, d) == j - i;
    assert tail[..j - i] == rest[i..j];
    if j < |rest| {
      assert tail[j - i + 1..] == rest[j + 1..];
    }
  }

  /** The first `n` elements, or all of them when there are fewer. */
  function Take<T>(xs: seq<T>, n: nat): (r: seq<T>)
    ensures |r| == if |xs| < n then |xs| else n
    ensures r == xs[..|r|]
  {
    if |xs| < n then xs else xs[..n]
  }

  /** The tokenising loop of the GPS parsers: call `strtok` while it
      returns a token and fewer than `maxTokens` are stored. */
  method Tokenize(s: string, d: char, maxTokens: nat) returns (tokens: seq<string>)
    ensures tokens == Take(Tokens(s, d), maxTokens)
  {
    tokens := [];
    var token, rest := StrtokNext(s, d);
    while token.Some? && |tokens| < maxTokens
      invariant |tokens| <= maxTokens
      invariant token.None? ==> tokens == Tokens(s, d)
      invariant token.Some? ==> tokens + [token.value] + Tokens(rest, d) == Tokens(s, d)
      decreases |rest| + (if token.Some? then 1 else 0)
    {
      tokens := tokens + [token.value];
      ghost var before := rest;
      token, rest := StrtokNext(rest, d);
      assert token.Some? ==> Tokens(before, d) == [token.value] + Tokens(rest, d);
    }
    if token.Some? {
      assert Tokens(s, d)[..maxTokens] == tokens;
    }
  }

  // ---------------------------------------------------------------------
  // atoi and atof

  /** The first index at or after `i` that does not hold a decimal digit. */
  function DigitEnd(s: string, i: nat): (k: nat)
    requires i <= |s|
    ensures i <= k <= |s|
    ensures k == |s| || !IsDigit(s[k])
    ensures AllDigits(s[i..k])
    decreases |s| - i
  {
    if i == |s| || !IsDigit(s[i]) then i else DigitEnd(s, i + 1)
  }

  /** Where the number of `atoi`/`atof` starts: after whitespace and an
      optional sign. */
  function NumberStart(s: string): (b: nat)
    ensures b <= |s|
  {
    var a := SkipCSpaces(s, 0);
    if a < |s| && (s[a] == '+' || s[a] == '-') then a + 1 else a
  }

  /** Whether the sign in front of the number is a minus. */
  predicate NegativeSign(s: string) {
    var a := SkipCSpaces(s, 0);
    a < |s| && s[a] == '-'
  }

  /** C `atoi`: whitespace, an optional sign and the longest run of digits;
      0 when there are none. The `int` overflow of very long inputs is not
      modelled. */
  function Atoi(s: string): (n: int)
    ensures NegativeSign(s) ==> n <= 0
    ensures !NegativeSign(s) ==> n >= 0
  {
    var b := NumberStart(s);
    var m: int := DigitsValue(s[b..DigitEnd(s, b)]);
    if NegativeSign(s) then -m else m
  }

  /** C `atof` for fixed-point text: whitespace, an optional sign, digits
      and an optional fraction after a point; 0 when there are none. */
  function Atof(s: string): (v: real)
    ensures NegativeSign(s) ==> v <= 0.0
    ensures !NegativeSign(s) ==> v >= 0.0
  {
    var m := Magnitude(s, NumberStart(s));
    if NegativeSign(s) then -m else m
  }

  /** The unsigned value of the digits, point and fraction digits that
      start at `b`. */
  function Magnitude(s: string, b: nat): (m: real)
    requires b <= |s|
    ensures m >= 0.0
  {
    var e := DigitEnd(s, b);
    var frac := Fraction(s, e);
    DigitsValue(s[b..e]) as real + DigitsValue(frac) as real / Pow10(|frac|)
  }

  /** The digits after a '.' at `e`, if there is one. */
  function Fraction(s: string, e: nat): string
    requires e <= |s|
  {
    var f := if e < |s| && s[e] == '.' then DigitEnd(s, e + 1) else e;
    if f > e then s[e + 1..f] else ""
  }

  /** `atoi` reads back what `str` writes for a natural number. */
  lemma AtoiOfNatToStr(n: nat)
    ensures Atoi(NatToStr(n)) == n
  {
    var s := NatToStr(n);
    assert !CIsSpace(s[0]) && s[0] != '+' && s[0] != '-' by { assert IsDigit(s[0]); }
    assert SkipCSpaces(s, 0) == 0;
    assert DigitEnd(s, 0) == |s| by { AllDigitsRun(s, 0); }
    assert s[0..|s|] == s;
  }

  lemma {:induction false} AllDigitsRun(s: string, i: nat)
    requires i <= |s| && AllDigits(s)
    ensures DigitEnd(s, i) == |s|
    decreases |s| - i
  {
    if i < |s| {
      assert IsDigit(s[i]);
      AllDigitsRun(s, i + 1);
    }
  }

  /** On `<digits>.<digits>` text `atof` agrees with the exact decimal
      value Python's `float` gives the same digits. */
  lemma AtofFixedPoint(ip: string, fp: string)
    requires |ip| > 0 && AllDigits(ip) && AllDigits(fp)
    ensures Atof(ip + "." + fp) == FixedPoint(ip, fp).value
  {
    var s := ip + "." + fp;
    assert !CIsSpace(s[0]) && s[0] != '+' && s[0] != '-' by { assert IsDigit(s[0]); }
    assert SkipCSpaces(s, 0) == 0;
    assert NumberStart(s) == 0;
    DigitsThenStop(s, 0, |ip|);
    assert s[0..|ip|] == ip;
    assert s[|ip|] == '.';
    DigitsThenStop(s, |ip| + 1, |s|);
    assert s[|ip| + 1..|s|] == fp;
  }

  lemma DigitsThenStop(s: string, i: nat, k: nat)
    requires i <= k <= |s|
    requires forall j :: i <= j < k ==> IsDigit(s[j])
    requires k == |s| || !IsDigit(s[k])
    ensures DigitEnd(s, i) == k
  {
  }

  /** A sign in front of the number negates `atof`. */
  lemma AtofNegated(t: string)
    requires |t| > 0 && IsDigit(t[0])
    ensures Atof("-" + t) == -Atof(t)
  {
    var s := "-" + t;
    assert SkipCSpaces(s, 0) == 0;
    assert SkipCSpaces(t, 0) == 0;
    assert NumberStart(s) == 1 && NegativeSign(s);
    assert NumberStart(t) == 0 && !NegativeSign(t);
    MagnitudeShift(t);
  }

  lemma MagnitudeShift(t: string)
    ensures Magnitude("-" + t, 1) == Magnitude(t, 0)
  {
    var s := "-" + t;
    DigitRunShift(t, 0);
    var e := DigitEnd(t, 0);
    assert s[1..e + 1] == t[0..e];
    FractionShift(t, e);
  }

  lemma FractionShift(t: string, e: nat)
    requires e <= |t|
    ensures Fraction("-" + t, e + 1) == Fraction(t, e)
  {
    var s := "-" + t;
    var point := e < |t| && t[e] == '.';
    assert e < |t| ==> s[e + 1] == t[e];
    if point {
      DigitRunShift(t, e + 1);
      var f := DigitEnd(t, e + 1);
      if f > e {
        assert s[e + 2..f + 1] == t[e + 1..f];
      }
    }
  }

  lemma {:induction false} DigitRunShift(t: string, i: nat)
    requires i <= |t|
    ensures DigitEnd("-" + t, i + 1) == DigitEnd(t, i) + 1
    decreases |t| - i
  {
    var s := "-" + t;
    assert i < |t| ==> s[i + 1] == t[i];
    if i < |t| && IsDigit(t[i]) {
      DigitRunShift(t, i + 1);
    }
  }
}

=== FILE: device_test_tab.dfy ===
/** The desktop DeviceTest tab: it starts and stops hardware tests,
    sends manual LED, servo and ESC commands, and reads device status and
    test results from the lines the board prints.

    The patterns that pick numbers out of a line are raw strings that
    double the backslash (`r'satellite.*?(\\d+)'`), so to `re` they ask for
    a literal backslash followed by the letter `d` (or `w`). The model keeps
    them as written: such a group always starts with a backslash, `int()`
    of it raises, and a line without a backslash never reaches them. */
module DeviceTestTab {
  import opened PyText
  import opened Regex

  // ---------------------------------------------------------------------
  // Tests and the commands that start them

  /** The six test buttons. */
  datatype Test = ButtonTest | LedTest | GpsTest | ServoTest | EscTest | SystemTest

  function TestName(t: Test): string
  {
    match t
    case ButtonTest => "BUTTON"
    case LedTest => "LED"
    case GpsTest => "GPS"
    case ServoTest => "SERVO"
    case EscTest => "ESC"
    case SystemTest => "ALL"
  }

  /** What `_run_test` sends: the system test carries its duration in minutes. */
  function TestCommand(t: Test, duration: nat): string
  {
    if t == SystemTest then "TEST ALL " + IntToStr(duration) else "TEST " + TestName(t)
  }

  /** The command names the test after "TEST ", and the duration of the
      system test reads back as the number chosen. */
  lemma TestCommandReadsBack(t: Test, duration: nat)
    ensures var c := TestCommand(t, duration);
      && c[..5] == "TEST "
      && (t != SystemTest ==> c[5..] == TestName(t))
      && (t == SystemTest ==> c[5..9] == "ALL " && ParseInt(c[9..]) == Some(duration))
  {
    var c := TestCommand(t, duration);
    if t == SystemTest {
      var n := IntToStr(duration);
      assert c == "TEST ALL " + n;
      assert c[..5] == "TEST " && c[5..9] == "ALL " && c[9..] == n;
      IntToStrRoundTrip(duration);
    } else {
      assert c == "TEST " + TestName(t);
    }
  }

  // ---------------------------------------------------------------------
  // The patterns, as `re.search` sees them (all under IGNORECASE)

  const ButtonPress: Pattern := Pattern([Gap("button", "press")], true)
  const ButtonRelease: Pattern := Pattern([Gap("button", "release")], true)
  /** `button.*ok|pass`: the second alternative is "pass" on its own. */
  const ButtonOk: Pattern := Pattern([Gap("button", "ok"), Lit("pass")], true)
  const GpsFixPattern: Pattern :=
    Pattern([Gap("gps", "fix") + [Lazy(AnyChar), Open(1), Words(["true", "false", "ok", "valid"]), Close(1)]], true)

  /** `(\\d+)`: a backslash, then one or more of the letter `d`. */
  const DigitsMid: seq<Node> := [Plus(Chr('d'))]

  /** `<pre>(\\d+)`. */
  function NumberPattern(pre: seq<Node>): Pattern
  {
    Pattern([pre + Escaped(DigitsMid)], true)
  }

  const SatPre: seq<Node> := Lit("satellite") + [Lazy(AnyChar)]
  const ServoPre: seq<Node> := Gap("servo", "position") + [Lazy(AnyChar)]
  const SpeedPre: seq<Node> := Gap("esc", "speed") + [Lazy(AnyChar)]
  const LedPre: seq<Node> := Gap("led", "color") + [Lazy(AnyChar)]
  /** `\\d+,\\d+,\\d+` after the group's opening backslash. */
  const LedMid: seq<Node> :=
    [Plus(Chr('d')), One(Chr(',')), One(Chr('\\')), Plus(Chr('d')), One(Chr(',')), One(Chr('\\')), Plus(Chr('d'))]
  const LedPattern: Pattern := Pattern([LedPre + Escaped(LedMid)], true)

  const EscArmedPattern: Pattern := Pattern([Gap("esc", "armed")], true)
  const EscDisarmedPattern: Pattern := Pattern([Gap("esc", "disarmed")], true)
  /** `test.*complete|finished`: the second alternative is "finished" alone. */
  const CompletePattern: Pattern := Pattern([Gap("test", "complete"), Lit("finished")], true)
  const FailPattern: Pattern := Pattern([Gap("test", "fail")], true)
  /** `(\\w+).*test.*?(pass|fail)`. */
  const ResultPattern: Pattern :=
    Pattern([[Open(1), One(Chr('\\')), Plus(Chr('w')), Close(1), Star(AnyChar)] + Lit("test")
             + [Lazy(AnyChar), Open(2), Words(["pass", "fail"]), Close(2)]], true)

  // ---------------------------------------------------------------------
  // Device status

  /** One entry of `device_status`: its text and when it last changed
      (0 for never). */
  datatype Device = Device(status: string, lastUpdate: real)

  datatype Devices = Devices(
    button: Device, led: Device,
    gps: Device, fix: bool, satellites: int,
    servo: Device, position: int,
    esc: Device, speed: int, armed: bool)

  const Unknown: Device := Device("Unknown", 0.0)

  const InitialDevices: Devices := Devices(Unknown, Unknown, Unknown, false, 0, Unknown, 0, Unknown, 0, false)

  /** The flags agree with the texts, and "Disarmed" is never shown. */
  predicate Consistent(d: Devices)
  {
    && (d.gps.status == "Fix OK") == d.fix
    && (d.esc.status == "Armed") == d.armed
    && d.esc.status != "Disarmed"
  }

  /** The button: press, then release, then `button.*ok|pass`. */
  function ButtonAfter(b: Device, data: string, now: real): Device
  {
    if Matches(ButtonPress, data) then Device("Pressed", now)
    else if Matches(ButtonRelease, data) then Device("Released", now)
    else if Matches(ButtonOk, data) then Device("OK", now)
    else b
  }

  /** The button reading in terms of the words on the line: "press" after
      "button" wins, then "release" after "button", then "ok" after
      "button" or "pass" anywhere, even without the word "button". */
  lemma ButtonPriority(b: Device, data: string, now: real)
    ensures var r := ButtonAfter(b, data, now);
      && ((exists i: nat, j: nat :: Follows("button", "press", data, i, j, true)) ==> r == Device("Pressed", now))
      && (((!exists i: nat, j: nat :: Follows("button", "press", data, i, j, true)) &&
           (exists i: nat, j: nat :: Follows("button", "release", data, i, j, true))) ==> r == Device("Released", now))
      && (((!exists i: nat, j: nat :: Follows("button", "press", data, i, j, true)) &&
           (!exists i: nat, j: nat :: Follows("button", "release", data, i, j, true)) &&
           (exists i: nat :: WordAt("pass", data, i, true))) ==> r == Device("OK", now))
      && (((!exists i: nat, j: nat :: Follows("button", "press", data, i, j, true)) &&
           (!exists i: nat, j: nat :: Follows("button", "release", data, i, j, true)) &&
           (!exists i: nat, j: nat :: Follows("button", "ok", data, i, j, true)) &&
           (!exists i: nat :: WordAt("pass", data, i, true))) ==> r == b)
  {
    GapSearch("button", "press", data, true);
    GapSearch("button", "release", data, true);
    GapOrWordSearch("button", "ok", "pass", data, true);
  }

  /** `gps.*fix.*?(true|false|ok|valid)`: the fix is the captured word
      being one of "true", "ok" or "valid". */
  function GpsFixAfter(d: Devices, data: string, now: real): (r: Devices)
    ensures Consistent(d) ==> Consistent(r)
    ensures r.esc == d.esc && r.armed == d.armed && r.button == d.button
  {
    var g := SearchGroup(GpsFixPattern, data, 1);
    if g.None? then d
    else
      var fix := Lower(g.value) in ["true", "ok", "valid"];
      d.(fix := fix, gps := Device(if fix then "Fix OK" else "No Fix", now))
  }

  /** `int(m.group(1))` of the first match: no match, a number, or the
      ValueError `int()` raises. */
  datatype Reading = Absent | Value(n: int) | Raises

  function IntReading(pat: Pattern, data: string): Reading
  {
    var g := SearchGroup(pat, data, 1);
    if g.None? then Absent
    else
      var k := ParseInt(g.value);
      if k.None? then Raises else Value(k.value)
  }

  /** The colour names of `_parse_device_status`. */
  function LedColor(rgb: string): string
  {
    if rgb == "0,0,0" then "Off"
    else if rgb == "255,0,0" then "Red"
    else if rgb == "0,255,0" then "Green"
    else if rgb == "0,0,255" then "Blue"
    else if rgb == "255,255,255" then "White"
    else "RGB(" + rgb + ")"
  }

  /** The manual colour buttons and the names the status reading gives
      their values: all but Yellow read back as the button's name. */
  lemma LedColorOfButtons()
    ensures LedColor("255,0,0") == "Red" && LedColor("0,255,0") == "Green"
    ensures LedColor("0,0,255") == "Blue" && LedColor("255,255,255") == "White"
    ensures LedColor("0,0,0") == "Off"
    ensures LedColor("255,255,0") == "RGB(255,255,0)"
  {
  }

  function LedAfter(led: Device, data: string, now: real): Device
  {
    var g := SearchGroup(LedPattern, data, 1);
    if g.None? then led else Device(LedColor(g.value), now)
  }

  /** `esc.*armed` is tried before `esc.*disarmed`. */
  function EscArmingAfter(d: Devices, data: string, now: real): Devices
  {
    if Matches(EscArmedPattern, data) then d.(armed := true, esc := Device("Armed", now))
    else if Matches(EscDisarmedPattern, data) then d.(armed := false, esc := Device("Disarmed", now))
    else d
  }

  /** A line that says "esc ... disarmed" also says "esc ... armed", so the
      "Disarmed" branch is never taken. */
  lemma DisarmedUnreachable(d: Devices, data: string, now: real)
    ensures var r := EscArmingAfter(d, data, now);
      r.esc.status == "Disarmed" ==> r == d
  {
    GapSearch("esc", "disarmed", data, true);
    GapSearch("esc", "armed", data, true);
    if Matches(EscDisarmedPattern, data) {
      var i: nat, j: nat :| Follows("esc", "disarmed", data, i, j, true);
      WordAtSuffix("disarmed", 3, data, j, true);
      assert "disarmed"[3..] == "armed";
      WordAtNoNewline("disarmed", data, j, true);
      assert Follows("esc", "armed", data, i, j + 3, true);
    }
  }

  /** The outcome of `_parse_device_status`: the statuses as the handler
      left them, and whether it raised part-way. */
  datatype Step = Step(devices: Devices, raised: bool)

  /** The satellite, LED, servo and speed readings, in source order; a
      ValueError from `int()` stops the handler with the earlier updates in
      place. None of them touches the button, the fix or the arming. */
  function ReadingsAfter(d: Devices, data: string, now: real): (r: Step)
    ensures r.devices.button == d.button && r.devices.fix == d.fix && r.devices.gps.status == d.gps.status
    ensures r.devices.esc.status == d.esc.status && r.devices.armed == d.armed
  {
    var sat := IntReading(NumberPattern(SatPre), data);
    if sat.Raises? then Step(d, true)
    else
      var d2 := if sat.Value? then d.(satellites := sat.n, gps := d.gps.(lastUpdate := now)) else d;
      var d3 := d2.(led := LedAfter(d2.led, data, now));
      var pos := IntReading(NumberPattern(ServoPre), data);
      if pos.Raises? then Step(d3, true)
      else
        var d4 := if pos.Value? then d3.(position := pos.n, servo := Device(IntToStr(pos.n) + "\U{b0}", now)) else d3;
        var speed := IntReading(NumberPattern(SpeedPre), data);
        if speed.Raises? then Step(d4, true)
        else Step(if speed.Value? then d4.(speed := speed.n, esc := d4.esc.(lastUpdate := now)) else d4, false)
  }

  /** `_parse_device_status`: button, fix, the readings, then the arming. */
  function StatusAfter(d: Devices, data: string, now: real): Step
  {
    var r := ReadingsAfter(GpsFixAfter(d.(button := ButtonAfter(d.button, data, now)), data, now), data, now);
    if r.raised then r else Step(EscArmingAfter(r.devices, data, now), false)
  }

  /** The button reading is the first step, so it stands even when a later
      step raises. */
  lemma ButtonSurvivesRaise(d: Devices, data: string, now: real)
    ensures StatusAfter(d, data, now).devices.button == ButtonAfter(d.button, data, now)
  {
  }

  /** Reading a line keeps the statuses consistent. */
  lemma StatusAfterConsistent(d: Devices, data: string, now: real)
    requires Consistent(d)
    ensures Consistent(StatusAfter(d, data, now).devices)
  {
    var r := ReadingsAfter(GpsFixAfter(d.(button := ButtonAfter(d.button, data, now)), data, now), data, now);
    assert Consistent(r.devices);
    DisarmedUnreachable(r.devices, data, now);
  }

  /** Every prefix used before a `(\\d+)` group is plain. */
  lemma NumberPrefixesPlain()
    ensures Plain(SatPre) && Plain(ServoPre) && Plain(SpeedPre) && Plain(LedPre) && Plain(DigitsMid) && Plain(LedMid)
  {
    assert forall j :: 0 <= j < |SatPre| ==> SatPre[j].One? || SatPre[j].Lazy?;
    assert forall j :: 0 <= j < |ServoPre| ==> ServoPre[j].One? || ServoPre[j].Star? || ServoPre[j].Lazy?;
    assert forall j :: 0 <= j < |SpeedPre| ==> SpeedPre[j].One? || SpeedPre[j].Star? || SpeedPre[j].Lazy?;
    assert forall j :: 0 <= j < |LedPre| ==> LedPre[j].One? || LedPre[j].Star? || LedPre[j].Lazy?;
  }

  /** A `(\\d+)` group always begins with a backslash, so `int()` of it
      always raises: the satellite, servo and speed readings never take a
      value. */
  lemma NumberGroupNeverParses(pre: seq<Node>, data: string)
    requires Plain(pre)
    ensures !IntReading(NumberPattern(pre), data).Value?
  {
    NumberPrefixesPlain();
    EscapedGroup(pre, DigitsMid, data, true);
    var g := SearchGroup(NumberPattern(pre), data, 1);
    if g.Some? {
      var t := Strip(g.value);
      assert SkipSpaces(g.value, 0) == 0;
      assert t != [] && t[0] == '\\';
    }
  }

  /** Hence no line ever changes the satellite count, the servo position
      or the ESC speed: a line that reaches one of them raises instead. */
  lemma NumbersNeverChange(d: Devices, data: string, now: real)
    ensures var r := StatusAfter(d, data, now).devices;
      r.satellites == d.satellites && r.position == d.position && r.speed == d.speed
  {
    NumberPrefixesPlain();
    NumberGroupNeverParses(SatPre, data);
    NumberGroupNeverParses(ServoPre, data);
    NumberGroupNeverParses(SpeedPre, data);
  }

  /** The LED status never takes one of the five colour names from a line:
      the captured text begins with a backslash. */
  lemma LedNeverNamed(led: Device, data: string, now: real)
    ensures var r := LedAfter(led, data, now);
      r.status in ["Off", "Red", "Green", "Blue", "White"] ==> r == led
  {
    NumberPrefixesPlain();
    EscapedGroup(LedPre, LedMid, data, true);
  }

  /** A line without a backslash reaches none of the number and colour
      readings, and the handler does not raise on it. */
  lemma NoBackslashNoNumbers(d: Devices, data: string, now: real)
    requires forall j :: 0 <= j < |data| ==> data[j] != '\\'
    ensures var st := StatusAfter(d, data, now).devices;
      && !StatusAfter(d, data, now).raised
      && st.satellites == d.satellites
      && st.led == d.led && st.servo == d.servo && st.position == d.position && st.speed == d.speed
  {
    assert AbsentFrom(data, 0, '\\', true);
    NoEscapedMatch(SatPre, DigitsMid, data);
    NoEscapedMatch(ServoPre, DigitsMid, data);
    NoEscapedMatch(SpeedPre, DigitsMid, data);
    NoEscapedMatch(LedPre, LedMid, data);
  }

  /** Without a backslash, `<pre>(\\<mid>)` finds nothing. */
  lemma NoEscapedMatch(pre: seq<Node>, mid: seq<Node>, data: string)
    requires AbsentFrom(data, 0, '\\', true)
    ensures SearchGroup(Pattern([pre + Escaped(mid)], true), data, 1).None?
  {
    var pat := Pattern([pre + Escaped(mid)], true);
    assert pat.alts[0][|pre| + 1] == One(Chr('\\'));
    SearchNeedsChar(pat, '\\', data);
  }

  /** `(\\w+).*test.*?(pass|fail)`: the result under the upper-cased name. */
  function ResultsAfter(results: map<string, string>, data: string): map<string, string>
  {
    var m := Search(ResultPattern, data);
    if m.None? then results
    else
      var name, result := Group(m.value, data, 1), Group(m.value, data, 2);
      if name.Some? && result.Some? then results[Upper(name.value) := Upper(result.value)] else results
  }

  /** Without a backslash the result table does not change. */
  lemma NoBackslashNoResults(results: map<string, string>, data: string)
    requires forall j :: 0 <= j < |data| ==> data[j] != '\\'
    ensures ResultsAfter(results, data) == results
  {
    assert AbsentFrom(data, 0, '\\', true);
    assert ResultPattern.alts[0][1] == One(Chr('\\'));
    SearchNeedsChar(ResultPattern, '\\', data);
  }

  /** What ends a running test: completion is checked first. */
  function TestEnding(data: string): Option<string>
  {
    if Matches(CompletePattern, data) then Some("COMPLETED")
    else if Matches(FailPattern, data) then Some("FAILED")
    else None
  }

  /** "finished" anywhere on a line completes a test; "fail" after "test"
      fails it when nothing marks completion. */
  lemma TestEndingWords(data: string)
    ensures (exists i: nat :: WordAt("finished", data, i, true)) ==> TestEnding(data) == Some("COMPLETED")
    ensures (exists i: nat, j: nat :: Follows("test", "complete", data, i, j, true)) ==> TestEnding(data) == Some("COMPLETED")
    ensures ((!exists i: nat :: WordAt("finished", data, i, true)) &&
             (!exists i: nat, j: nat :: Follows("test", "complete", data, i, j, true)) &&
             (exists i: nat, j: nat :: Follows("test", "fail", data, i, j, true))) ==> TestEnding(data) == Some("FAILED")
    ensures ((!exists i: nat :: WordAt("finished", data, i, true)) &&
             (!exists i: nat, j: nat :: Follows("test", "complete", data, i, j, true)) &&
             (!exists i: nat, j: nat :: Follows("test", "fail", data, i, j, true))) ==> TestEnding(data).None?
  {
    GapOrWordSearch("test", "complete", "finished", data, true);
    GapSearch("test", "fail", data, true);
  }

  // ---------------------------------------------------------------------
  // The status display

  datatype Labels = Labels(
    buttonStatus: string, buttonState: string,
    gpsStatus: string, gpsFix: string, gpsSats: string,
    ledStatus: string, ledColor: string,
    servoStatus: string, servoPosition: string,
    escStatus: string, escSpeed: string, escArmed: string)

  const InitialLabels: Labels := Labels(
    "Status: Unknown", "State: Released",
    "Status: Unknown", "Fix: No", "Sats: 0",
    "Status: Unknown", "Color: Off",
    "Status: Unknown", "Position: 0\U{b0}",
    "Status: Unknown", "Speed: 0%", "Armed: No")

  /** A reading is fresh when it was ever set and is younger than `limit`
      seconds; one never set has an infinite age. */
  predicate Fresh(dev: Device, now: real, limit: real)
  {
    dev.lastUpdate != 0.0 && now - dev.lastUpdate < limit
  }

  function YesNo(b: bool): string { if b then "Yes" else "No" }

  /** `_update_status_displays`: GPS data stays fresh for 10 s, the rest for 5 s. */
  function Displayed(d: Devices, now: real): Labels
  {
    var button := Fresh(d.button, now, 5.0);
    var gps := Fresh(d.gps, now, 10.0);
    var led := Fresh(d.led, now, 5.0);
    var servo := Fresh(d.servo, now, 5.0);
    var esc := Fresh(d.esc, now, 5.0);
    Labels(
      if button then "Status: " + d.button.status else "Status: Unknown",
      if button then "State: " + d.button.status else "State: Unknown",
      if gps then "Status: " + d.gps.status else "Status: Unknown",
      if gps then "Fix: " + YesNo(d.fix) else "Fix: Unknown",
      if gps then "Sats: " + IntToStr(d.satellites) else "Sats: 0",
      if led then "Status: OK" else "Status: Unknown",
      if led then "Color: " + d.led.status else "Color: Unknown",
      if servo then "Status: OK" else "Status: Unknown",
      if servo then "Position: " + IntToStr(d.position) + "\U{b0}" else "Position: Unknown",
      if esc then "Status: " + d.esc.status else "Status: Unknown",
      if esc then "Speed: " + IntToStr(d.speed) + "%" else "Speed: Unknown",
      if esc then "Armed: " + YesNo(d.armed) else "Armed: Unknown")
  }

  /** Before any reading, every device shows as unknown whatever the clock. */
  lemma NeverReadShowsUnknown(now: real)
    ensures var l := Displayed(InitialDevices, now);
      && l.buttonStatus == "Status: Unknown" && l.gpsStatus == "Status: Unknown" && l.gpsSats == "Sats: 0"
      && l.ledColor == "Color: Unknown" && l.servoPosition == "Position: Unknown" && l.escArmed == "Armed: Unknown"
  {
  }

  /** A button press read at `now` shows at once; five seconds later it
      has gone back to unknown. */
  lemma ButtonShownWhileFresh(d: Devices, data: string, now: real, later: real)
    requires now > 0.0 && Matches(ButtonPress, data)
    requires later >= now + 5.0
    ensures var r := StatusAfter(d, data, now).devices;
      && Displayed(r, now).buttonStatus == "Status: Pressed"
      && Displayed(r, later).buttonStatus == "Status: Unknown"
  {
    ButtonSurvivesRaise(d, data, now);
    PressedShownWhileFresh(StatusAfter(d, data, now).devices, now, later);
  }

  lemma PressedShownWhileFresh(r: Devices, now: real, later: real)
    requires now > 0.0 && later >= now + 5.0 && r.button == Device("Pressed", now)
    ensures Displayed(r, now).buttonStatus == "Status: Pressed"
    ensures Displayed(r, later).buttonStatus == "Status: Unknown"
  {
    ButtonLabel(r, now);
    ButtonLabel(r, later);
  }

  /** The button label shows the reading while it is fresh. */
  lemma ButtonLabel(d: Devices, now: real)
    ensures Displayed(d, now).buttonStatus
            == if Fresh(d.button, now, 5.0) then "Status: " + d.button.status else "Status: Unknown"
  {
  }

  // ---------------------------------------------------------------------
  // The tab

  class DeviceTestTab {
    var isConnected: bool
    var sent: seq<string>
    var messages: seq<string>
    var currentTest: Option<Test>
    var testStartTime: Option<real>
    var testStatus: string
    var testResults: map<string, string>
    var devices: Devices
    var labels: Labels

    /** A running test has a start time and an idle tab has none; the
        device statuses are consistent. */
    predicate Valid()
      reads this
    {
      (currentTest.None? <==> testStartTime.None?) && Consistent(devices)
    }

    constructor (connected: bool)
      ensures Valid()
      ensures isConnected == connected && sent == [] && messages == []
      ensures currentTest == None && testStartTime == None && testResults == map[]
      ensures testStatus == "No test running"
      ensures devices == InitialDevices && labels == InitialLabels
    {
      isConnected := connected;
      sent := [];
      messages := [];
      currentTest := None;
      testStartTime := None;
      testStatus := "No test running";
      testResults := map[];
      devices := InitialDevices;
      labels := InitialLabels;
    }

    /** `_send_command`: sent only while connected; a warning otherwise. */
    method SendCommand(command: string)
      modifies this`sent, this`messages
      ensures isConnected ==> sent == old(sent) + [command] && messages == old(messages)
      ensures !isConnected ==> sent == old(sent) && messages == old(messages) + ["Please connect to Arduino first"]
    {
      if isConnected {
        sent := sent + [command];
      } else {
        messages := messages + ["Please connect to Arduino first"];
      }
    }

    /** `_run_test`: refused while a test runs; otherwise the test starts
        at `now` and its command goes out. */
    method RunTest(t: Test, duration: nat, now: real)
      requires Valid()
      modifies this`currentTest, this`testStartTime, this`testStatus, this`sent, this`messages
      ensures Valid()
      ensures old(currentTest).Some? ==>
        && currentTest == old(currentTest) && testStartTime == old(testStartTime) && sent == old(sent)
        && messages == old(messages) + ["Stop current test before starting a new one"]
      ensures old(currentTest).None? ==>
        && currentTest == Some(t) && testStartTime == Some(now)
        && testStatus == "Running " + TestName(t) + " test..."
        && sent == (if isConnected then old(sent) + [TestCommand(t, duration)] else old(sent))
        && messages == old(messages) + (if isConnected then [] else ["Please connect to Arduino first"])
    {
      if currentTest.Some? {
        messages := messages + ["Stop current test before starting a new one"];
        return;
      }
      currentTest := Some(t);
      testStartTime := Some(now);
      testStatus := "Running " + TestName(t) + " test...";
      SendCommand(TestCommand(t, duration));
    }

    /** `_test_completed`. */
    method TestCompleted(result: string)
      modifies this`currentTest, this`testStartTime, this`testStatus
      ensures currentTest == None && testStartTime == None
      ensures testStatus == "Test completed: " + result
    {
      currentTest := None;
      testStartTime := None;
      testStatus := "Test completed: " + result;
    }

    /** `_stop_test`: only a running test is stopped. */
    method StopTest()
      requires Valid()
      modifies this`currentTest, this`testStartTime, this`testStatus, this`sent, this`messages
      ensures Valid() && currentTest == None
      ensures old(currentTest).None? ==> sent == old(sent) && testStatus == old(testStatus)
      ensures old(currentTest).Some? ==>
        && sent == (if isConnected then old(sent) + ["TEST STOP"] else old(sent))
        && testStatus == "Test completed: " + TestName(old(currentTest).value) + " test stopped by user"
      ensures messages == old(messages)
        + (if old(currentTest).Some? && !isConnected then ["Please connect to Arduino first"] else [])
    {
      if currentTest.Some? {
        var name := TestName(currentTest.value);
        SendCommand("TEST STOP");
        TestCompleted(name + " test stopped by user");
      }
    }

    /** `_set_led_color`. */
    method SetLedColor(rgb: string)
      modifies this`sent, this`messages
      ensures sent == if isConnected then old(sent) + ["LED COLOR " + rgb] else old(sent)
      ensures messages == old(messages)
        + (if !isConnected then ["Please connect to Arduino first"] else [])
    {
      SendCommand("LED COLOR " + rgb);
    }

    /** `_set_servo_position`: the slider value truncated to an integer. */
    method SetServoPosition(position: real)
      modifies this`sent, this`messages
      ensures sent == if isConnected then old(sent) + ["SERVO POS " + IntToStr(Trunc(position))] else old(sent)
      ensures messages == old(messages)
        + (if !isConnected then ["Please connect to Arduino first"] else [])
    {
      SendCommand("SERVO POS " + IntToStr(Trunc(position)));
    }

    /** `_arm_esc`, after the operator's answer to the question. */
    method ArmEsc(confirmed: bool)
      modifies this`sent, this`messages
      ensures sent == if confirmed && isConnected then old(sent) + ["ESC ARM"] else old(sent)
      ensures messages == old(messages)
        + (if confirmed && !isConnected then ["Please connect to Arduino first"] else [])
    {
      if confirmed {
        SendCommand("ESC ARM");
      }
    }

    /** `_disarm_esc`: no question asked. */
    method DisarmEsc()
      modifies this`sent, this`messages
      ensures sent == if isConnected then old(sent) + ["ESC DISARM"] else old(sent)
      ensures messages == old(messages)
        + (if !isConnected then ["Please connect to Arduino first"] else [])
    {
      SendCommand("ESC DISARM");
    }

    /** `_set_esc_speed`: a speed above zero needs the operator's consent,
        zero (or less) goes out at once. */
    method SetEscSpeed(value: real, confirmed: bool)
      modifies this`sent, this`messages
      ensures var speed := Trunc(value);
        sent == if isConnected && (speed <= 0 || confirmed) then old(sent) + ["ESC SPEED " + IntToStr(speed)] else old(sent)
      ensures var speed := Trunc(value);
        messages == old(messages)
        + (if !isConnected && (speed <= 0 || confirmed) then ["Please connect to Arduino first"] else [])
    {
      var speed := Trunc(value);
      if speed > 0 {
        if confirmed {
          SendCommand("ESC SPEED " + IntToStr(speed));
        }
      } else {
        SendCommand("ESC SPEED " + IntToStr(speed));
      }
    }

    /** `_parse_device_status`; `raised` when an `int()` raised part-way. */
    method ParseDeviceStatus(data: string, now: real) returns (raised: bool)
      modifies this`devices
      ensures devices == StatusAfter(old(devices), data, now).devices
      ensures raised == StatusAfter(old(devices), data, now).raised
    {
      devices := devices.(button := ButtonAfter(devices.button, data, now));
      devices := GpsFixAfter(devices, data, now);
      raised := ParseReadings(data, now);
      if !raised {
        devices := EscArmingAfter(devices, data, now);
      }
    }

    /** The number and colour readings of `_parse_device_status`. */
    method ParseReadings(data: string, now: real) returns (raised: bool)
      modifies this`devices
      ensures devices == ReadingsAfter(old(devices), data, now).devices
      ensures raised == ReadingsAfter(old(devices), data, now).raised
    {
      var sat := IntReading(NumberPattern(SatPre), data);
      if sat.Raises? {
        return true;
      } else if sat.Value? {
        devices := devices.(satellites := sat.n, gps := devices.gps.(lastUpdate := now));
      }
      devices := devices.(led := LedAfter(devices.led, data, now));
      var pos := IntReading(NumberPattern(ServoPre), data);
      if pos.Raises? {
        return true;
      } else if pos.Value? {
        devices := devices.(position := pos.n, servo := Device(IntToStr(pos.n) + "\U{b0}", now));
      }
      var speed := IntReading(NumberPattern(SpeedPre), data);
      if speed.Raises? {
        return true;
      } else if speed.Value? {
        devices := devices.(speed := speed.n, esc := devices.esc.(lastUpdate := now));
      }
      raised := false;
    }

    /** `_parse_test_results`: completion or failure ends a running test;
        a result line is recorded either way. */
    method ParseTestResults(data: string)
      modifies this`currentTest, this`testStartTime, this`testStatus, this`testResults
      ensures old(currentTest).Some? && TestEnding(data).Some? ==>
        && currentTest == None && testStartTime == None
        && testStatus == "Test completed: " + TestEnding(data).value
      ensures !(old(currentTest).Some? && TestEnding(data).Some?) ==>
        currentTest == old(currentTest) && testStartTime == old(testStartTime) && testStatus == old(testStatus)
      ensures testResults == ResultsAfter(old(testResults), data)
    {
      if Matches(CompletePattern, data) && currentTest.Some? {
        TestCompleted("COMPLETED");
      }
      if Matches(FailPattern, data) && currentTest.Some? {
        TestCompleted("FAILED");
      }
      testResults := ResultsAfter(testResults, data);
    }

    /** `_update_status_displays`. */
    method UpdateStatusDisplays(now: real)
      modifies this`labels
      ensures labels == Displayed(devices, now)
    {
      labels := Displayed(devices, now);
    }

    /** `handle_serial_data`: statuses, then results, then the display; an
        exception from the status step skips the rest. */
    method HandleSerialData(data: string, now: real) returns (raised: bool)
      requires Valid()
      modifies this`devices, this`currentTest, this`testStartTime, this`testStatus, this`testResults, this`labels
      ensures Valid()
      ensures devices == StatusAfter(old(devices), data, now).devices
      ensures raised == StatusAfter(old(devices), data, now).raised
      ensures raised ==>
        && currentTest == old(currentTest) && testStartTime == old(testStartTime) && testStatus == old(testStatus)
        && testResults == old(testResults) && labels == old(labels)
      ensures !raised ==> testResults == ResultsAfter(old(testResults), data) && labels == Displayed(devices, now)
      ensures !raised && old(currentTest).Some? && TestEnding(data).Some? ==>
        && currentTest == None && testStartTime == None
        && testStatus == "Test completed: " + TestEnding(data).value
      ensures !raised && !(old(currentTest).Some? && TestEnding(data).Some?) ==>
        currentTest == old(currentTest) && testStartTime == old(testStartTime) && testStatus == old(testStatus)
    {
      StatusAfterConsistent(devices, data, now);
      raised := ParseDeviceStatus(data, now);
      if raised {
        return;
      }
      ParseTestResults(data);
      UpdateStatusDisplays(now);
    }
  }
}

=== FILE: flight_sequencer_tab.dfy ===
/** The desktop FlightSequencer tab: three range-checked setters that send
    the operator's text verbatim, named flight profiles with a file of the
    custom ones, and the status line read from the board's output. Message
    boxes are recorded as the texts they show; the serial link is its
    `isConnected` flag and the log of lines sent. */
module DesktopFlightSequencer {
  import opened PyText
  import opened Regex
  import opened ParameterMonitoring

  /** The three settable parameters. */
  datatype Field = MotorTime | FlightTime | MotorSpeed

  function Letter(f: Field): string
  {
    match f
    case MotorTime => "M"
    case FlightTime => "T"
    case MotorSpeed => "S"
  }

  function Low(f: Field): int
  {
    match f
    case MotorTime => 1
    case FlightTime => 10
    case MotorSpeed => 95
  }

  function High(f: Field): int
  {
    match f
    case MotorTime => 300
    case FlightTime => 600
    case MotorSpeed => 200
  }

  /** The text of the ValueError raised for a value outside the range. */
  function RangeMessage(f: Field): string
  {
    match f
    case MotorTime => "Motor time must be 1-300 seconds"
    case FlightTime => "Flight time must be 10-600 seconds"
    case MotorSpeed => "Motor speed must be 95-200"
  }

  /** What a setter does with the entry text. */
  datatype Outcome =
    | Send(command: string)       // the command handed to `_send_command`
    | OutOfRange(message: string) // the range error shown
    | NotAnInteger(text: string)  // `int()` refused the stripped text

  /** `_set_<field>`: strip, `int()`, range check; the command carries the
      stripped text itself, not the parsed number. */
  function SetterOutcome(f: Field, text: string): (o: Outcome)
    ensures o.Send? <==> ParseInt(text).Some? && Low(f) <= ParseInt(text).value <= High(f)
    ensures o.NotAnInteger? <==> ParseInt(text).None?
    ensures o.OutOfRange? ==> o.message == RangeMessage(f)
  {
    // `int()` strips its argument itself, so parsing the raw text is
    // parsing the stripped one.
    var t := Strip(text);
    var n := ParseInt(text);
    if n.None? then NotAnInteger(t)
    else if Low(f) <= n.value <= High(f) then Send(Letter(f) + " " + t)
    else OutOfRange(RangeMessage(f))
  }

  /** The board reads the number in a sent command back as the value that
      passed the range check, and the text after the letter is the entry
      exactly as typed, less surrounding blanks. */
  lemma SetterSendsTextVerbatim(f: Field, text: string)
    requires SetterOutcome(f, text).Send?
    ensures var c := SetterOutcome(f, text).command;
      && c[..|Letter(f)| + 1] == Letter(f) + " "
      && c[|Letter(f)| + 1..] == Strip(text)
      && ParseInt(c[|Letter(f)| + 1..]) == ParseInt(text)
      && Low(f) <= ParseInt(text).value <= High(f)
  {
    var c := SetterOutcome(f, text).command;
    assert c == (Letter(f) + " ") + Strip(text);
    StripIdempotent(text);
  }

  /** A decimal point makes `int()` fail, so "12.5" is refused and nothing
      is sent. */
  lemma DecimalPointRefused(f: Field, text: string)
    requires '.' in Strip(text)
    ensures SetterOutcome(f, text).NotAnInteger?
  {
    var t := Strip(text);
    StripIdempotent(text);
    var i :| 0 <= i < |t| && t[i] == '.';
    if |t| > 0 && (t[0] == '-' || t[0] == '+') {
      assert t[1..][i - 1] == '.';
    }
  }

  // ---------------------------------------------------------------------
  // Flight profiles

  datatype Profile = Profile(motorTime: string, flightTime: string, motorSpeed: string)

  const BuiltInNames: set<string> := {"Test Flight", "Competition", "Max Duration"}

  const BuiltInProfiles: map<string, Profile> := map[
    "Test Flight" := Profile("5", "30", "120"),
    "Competition" := Profile("20", "120", "150"),
    "Max Duration" := Profile("30", "300", "110")]

  /** `_save_profiles`: the profiles written to the file. */
  function CustomProfiles(profiles: map<string, Profile>): (c: map<string, Profile>)
    ensures c.Keys == profiles.Keys - BuiltInNames
    ensures forall k :: k in c ==> c[k] == profiles[k]
  {
    map k | k in profiles && k !in BuiltInNames :: profiles[k]
  }

  /** Saving and loading the file restores every profile, provided the
      built-in entries still hold their built-in values. */
  lemma SaveLoadRoundTrip(profiles: map<string, Profile>)
    requires BuiltInNames <= profiles.Keys
    requires forall k :: k in BuiltInNames ==> profiles[k] == BuiltInProfiles[k]
    ensures BuiltInProfiles + CustomProfiles(profiles) == profiles
  {
    assert BuiltInProfiles.Keys == BuiltInNames;
    var r := BuiltInProfiles + CustomProfiles(profiles);
    forall k | k in profiles ensures k in r && r[k] == profiles[k] {
      if k in BuiltInNames {
        assert k !in CustomProfiles(profiles);
      }
    }
  }

  // ---------------------------------------------------------------------
  // The status line

  /** `Phase.*?([A-Z_]+)` under IGNORECASE. */
  const PhasePattern: Pattern := LabelLazyRun("Phase", UpperOrUnderscore, true)

  /** `Flight.*?(\d+)` under IGNORECASE. */
  const FlightPattern: Pattern := LabelLazyRun("Flight", Digit, true)

  /** `Time.*?(\d+):(\d+)`, case-sensitive. */
  const TimerPattern: Pattern :=
    Pattern([Lit("Time") + [Lazy(AnyChar), Open(1), Plus(Digit), Close(1), One(Chr(':')), Open(2), Plus(Digit), Close(2)]], false)

  /** The three status labels. */
  datatype Status = Status(phase: string, timer: string, flights: string)

  const InitialStatus: Status := Status("Phase: IDLE", "Time: 00:00", "Flights: 0")

  /** The new text of a label whose pattern captured `g`; unchanged otherwise. */
  function Relabel(current: string, prefix: string, g: Option<string>): string
  {
    if g.Some? then prefix + g.value else current
  }

  /** `_update_flight_status(data)`. */
  function UpdateStatus(st: Status, data: string): Status
  {
    var t := Search(TimerPattern, data);
    Status(
      Relabel(st.phase, "Phase: ", SearchGroup(PhasePattern, data, 1)),
      if t.Some? && Group(t.value, data, 1).Some? && Group(t.value, data, 2).Some?
      then "Time: " + Group(t.value, data, 1).value + ":" + Group(t.value, data, 2).value
      else st.timer,
      Relabel(st.flights, "Flights: ", SearchGroup(FlightPattern, data, 1)))
  }

  /** After the first "phase" (any case), the phase label shows the first
      run of letters and underscores, in the case it was received. */
  lemma PhaseRead(st: Status, data: string, at: nat, r0: nat, r1: nat)
    requires WordAt("Phase", data, at, true)
    requires forall j :: 0 <= j < at ==> !ClassMatches(Chr('P'), data[j], true)
    requires at + 5 <= r0 < r1 <= |data|
    requires forall j :: at + 5 <= j < r0 ==> data[j] != '\n' && !ClassMatches(UpperOrUnderscore, data[j], true)
    requires forall j :: r0 <= j < r1 ==> ClassMatches(UpperOrUnderscore, data[j], true)
    requires r1 == |data| || !ClassMatches(UpperOrUnderscore, data[r1], true)
    ensures UpdateStatus(st, data).phase == "Phase: " + data[r0..r1]
  {
    LabelLazyRunGroup("Phase", UpperOrUnderscore, true, data, at, r0, r1);
  }

  /** After the first "flight" (any case), the count label shows the first
      run of digits. */
  lemma FlightCountRead(st: Status, data: string, at: nat, r0: nat, r1: nat)
    requires WordAt("Flight", data, at, true)
    requires forall j :: 0 <= j < at ==> !ClassMatches(Chr('F'), data[j], true)
    requires at + 6 <= r0 < r1 <= |data|
    requires forall j :: at + 6 <= j < r0 ==> data[j] != '\n' && !IsDigit(data[j])
    requires forall j :: r0 <= j < r1 ==> IsDigit(data[j])
    requires r1 == |data| || !IsDigit(data[r1])
    ensures UpdateStatus(st, data).flights == "Flights: " + data[r0..r1]
  {
    LabelLazyRunGroup("Flight", Digit, true, data, at, r0, r1);
  }

  /** The parameter reply "Total Flight Time: <n>" also sets the flight
      counter to `n`, as the count pattern is not anchored to a word. */
  lemma FlightTimeReplySetsCount(st: Status, digits: string, rest: string)
    requires |digits| > 0 && AllDigits(digits)
    requires rest == [] || !IsDigit(rest[0])
    ensures UpdateStatus(st, "Total Flight Time: " + digits + rest).flights == "Flights: " + digits
  {
    var data := "Total Flight Time: " + digits + rest;
    var pre := "Total Flight Time: ";
    assert |pre| == 19;
    assert data[..19] == pre && data[19..19 + |digits|] == digits;
    assert 19 + |digits| < |data| ==> data[19 + |digits|] == rest[0];
    assert data[6..12] == "Flight";
    WordAtOfExact("Flight", data, 6);
    forall j | 0 <= j < 6 ensures !ClassMatches(Chr('F'), data[j], true) {
      assert data[j] == pre[j];
    }
    forall j | 12 <= j < 19 ensures data[j] != '\n' && !IsDigit(data[j]) {
      assert data[j] == pre[j];
    }
    FlightCountRead(st, data, 6, 19, 19 + |digits|);
  }

  /** The timer pattern is case-sensitive: a line without a capital 'T'
      leaves the timer alone, so "time 1:30" does not move it. */
  lemma TimerNeedsCapitalT(st: Status, data: string)
    requires 'T' !in data
    ensures UpdateStatus(st, data).timer == st.timer
  {
    assert TimerPattern.alts[0][0] == One(Chr('T'));
    assert Compulsory(TimerPattern.alts[0], 'T');
    assert AbsentFrom(data, 0, 'T', false);
    SearchNeedsChar(TimerPattern, 'T', data);
  }

  class FlightSequencerTab {
    const paramMonitor: ParameterMonitor
    var isConnected: bool
    var sent: seq<string>
    var messages: seq<string>
    var profiles: map<string, Profile>
    var profileFile: map<string, Profile>
    var motorTimeText: string
    var flightTimeText: string
    var motorSpeedText: string
    var status: Status

    /** `__init__`: the built-in profiles, updated from the saved file. */
    constructor (saved: map<string, Profile>, connected: bool)
      ensures fresh(paramMonitor) && paramMonitor.Valid()
      ensures profiles == BuiltInProfiles + saved && profileFile == saved
      ensures isConnected == connected && sent == [] && messages == []
      ensures status == InitialStatus
      ensures motorTimeText == "20" && flightTimeText == "120" && motorSpeedText == "150"
    {
      paramMonitor := new ParameterMonitor();
      isConnected := connected;
      sent := [];
      messages := [];
      profiles := BuiltInProfiles + saved;
      profileFile := saved;
      motorTimeText := "20";
      flightTimeText := "120";
      motorSpeedText := "150";
      status := InitialStatus;
    }

    /** `_send_command`: sent only while connected; a warning otherwise. */
    method SendCommand(command: string)
      modifies this`sent, this`messages
      ensures isConnected ==> sent == old(sent) + [command] && messages == old(messages)
      ensures !isConnected ==> sent == old(sent) && messages == old(messages) + ["Please connect to Arduino first"]
    {
      if isConnected {
        sent := sent + [command];
      } else {
        messages := messages + ["Please connect to Arduino first"];
      }
    }

    function Entry(f: Field): string
      reads this`motorTimeText, this`flightTimeText, this`motorSpeedText
    {
      match f
      case MotorTime => motorTimeText
      case FlightTime => flightTimeText
      case MotorSpeed => motorSpeedText
    }

    /** `_set_motor_time`, `_set_flight_time` and `_set_motor_speed`. */
    method Set(f: Field)
      modifies this`sent, this`messages
      ensures var o := SetterOutcome(f, Entry(f));
        match o
        case Send(c) =>
          if isConnected then sent == old(sent) + [c] && messages == old(messages)
          else sent == old(sent) && messages == old(messages) + ["Please connect to Arduino first"]
        case OutOfRange(m) => sent == old(sent) && messages == old(messages) + [m]
        case NotAnInteger(t) => sent == old(sent) && messages == old(messages) + [IntErrorMessage(t)]
    {
      SetFrom(f, Entry(f));
    }

    /** The setter's effect for a given entry text. */
    method SetFrom(f: Field, text: string)
      modifies this`sent, this`messages
      ensures var o := SetterOutcome(f, text);
        match o
        case Send(c) =>
          if isConnected then sent == old(sent) + [c] && messages == old(messages)
          else sent == old(sent) && messages == old(messages) + ["Please connect to Arduino first"]
        case OutOfRange(m) => sent == old(sent) && messages == old(messages) + [m]
        case NotAnInteger(t) => sent == old(sent) && messages == old(messages) + [IntErrorMessage(t)]
    {
      match SetterOutcome(f, text)
      case Send(c) => SendCommand(c);
      case OutOfRange(m) => messages := messages + [m];
      case NotAnInteger(t) => messages := messages + [IntErrorMessage(t)];
    }

    /** `_load_profile`: only a known name changes the entries. */
    method LoadProfile(name: string)
      modifies this`motorTimeText, this`flightTimeText, this`motorSpeedText
      ensures name in profiles ==>
        Profile(motorTimeText, flightTimeText, motorSpeedText) == profiles[name]
      ensures name !in profiles ==>
        motorTimeText == old(motorTimeText) && flightTimeText == old(flightTimeText)
        && motorSpeedText == old(motorSpeedText)
    {
      if name in profiles {
        var p := profiles[name];
        motorTimeText := p.motorTime;
        flightTimeText := p.flightTime;
        motorSpeedText := p.motorSpeed;
      }
    }

    /** `_save_custom_profile`: a non-empty name stores the entries and
        rewrites the file. */
    method SaveCustomProfile(name: string)
      modifies this`profiles, this`profileFile
      ensures name == "" ==> profiles == old(profiles) && profileFile == old(profileFile)
      ensures name != "" ==>
        profiles == old(profiles)[name := Profile(motorTimeText, flightTimeText, motorSpeedText)]
        && profileFile == CustomProfiles(profiles)
    {
      if name != "" {
        profiles := profiles[name := Profile(motorTimeText, flightTimeText, motorSpeedText)];
        profileFile := CustomProfiles(profiles);
      }
    }

    /** `_get_parameters`. */
    method GetParameters()
      modifies this`sent, this`messages
      ensures isConnected ==> sent == old(sent) + ["G"] && messages == old(messages)
      ensures !isConnected ==>
        sent == old(sent) && messages == old(messages) + ["Please connect to Arduino first"]
    {
      SendCommand("G");
    }

    /** `_reset_parameters`, after the operator's answer to the question. */
    method ResetParameters(confirmed: bool)
      modifies this`sent, this`messages
      ensures confirmed && isConnected ==> sent == old(sent) + ["R"]
      ensures !(confirmed && isConnected) ==> sent == old(sent)
      ensures messages == old(messages)
        + (if confirmed && !isConnected then ["Please connect to Arduino first"] else [])
    {
      if confirmed {
        SendCommand("R");
      }
    }

    /** `_emergency_stop`, after the operator's answer to the question. */
    method EmergencyStop(confirmed: bool)
      modifies this`sent, this`messages
      ensures confirmed && isConnected ==> sent == old(sent) + ["STOP"]
      ensures !(confirmed && isConnected) ==> sent == old(sent)
      ensures messages == old(messages)
        + (if confirmed && !isConnected then ["Please connect to Arduino first"] else [])
    {
      if confirmed {
        SendCommand("STOP");
      }
    }

    /** `_update_flight_status`. */
    method UpdateFlightStatus(data: string)
      modifies this`status
      ensures status == UpdateStatus(old(status), data)
    {
      var g := SearchGroup(PhasePattern, data, 1);
      if g.Some? {
        status := status.(phase := "Phase: " + g.value);
      }
      var t := Search(TimerPattern, data);
      if t.Some? && Group(t.value, data, 1).Some? && Group(t.value, data, 2).Some? {
        status := status.(timer := "Time: " + Group(t.value, data, 1).value + ":" + Group(t.value, data, 2).value);
      }
      g := SearchGroup(FlightPattern, data, 1);
      if g.Some? {
        status := status.(flights := "Flights: " + g.value);
      }
    }

    /** `handle_serial_data`: the parameter monitor takes the chunk, then
        the status line is read from it. */
    method HandleSerialData(data: string)
      requires paramMonitor.Valid()
      modifies paramMonitor, this`status
      ensures paramMonitor.Valid()
      ensures paramMonitor.State()
              == ProcessLines(old(paramMonitor.State()), CompleteLines(old(paramMonitor.buffer) + data))
      ensures status == UpdateStatus(old(status), data)
    {
      paramMonitor.ProcessSerialData(data);
      UpdateFlightStatus(data);
    }
  }

  /** The text of the ValueError `int()` raises for `t`. */
  function IntErrorMessage(t: string): string
  {
    "invalid literal for int() with base 10: '" + t + "'"
  }
}

=== FILE: gps_autopilot_tab.dfy ===
/** The desktop GpsAutopilot tab: range-checked setters for the navigation,
    control and servo parameters, the parsers that keep the navigation,
    control and servo-configuration records from the autopilot's output,
    and the rate-limited refresh of the status labels. Message boxes are
    recorded as texts; the serial link is `isConnected` and the log of
    commands sent. */
module GpsAutopilotTab {
  import opened PyText
  import opened Regex
  import opened ParameterMonitoring

  // ---------------------------------------------------------------------
  // Setters

  /** The parameters set from a number typed by the operator. */
  datatype Setting = OrbitRadius | Airspeed | OrbitKp | TrackKp | TrackKi | RollKp | ServoCenter | ServoRange

  /** The command text that precedes the number. */
  function Head(s: Setting): string
  {
    match s
    case OrbitRadius => "NAV SET RADIUS"
    case Airspeed => "NAV SET AIRSPEED"
    case OrbitKp => "CTRL SET ORBIT_KP"
    case TrackKp => "CTRL SET TRACK_KP"
    case TrackKi => "CTRL SET TRACK_KI"
    case RollKp => "CTRL SET ROLL_KP"
    case ServoCenter => "SERVO SET CENTER"
    case ServoRange => "SERVO SET RANGE"
  }

  function Low(s: Setting): real
  {
    match s
    case OrbitRadius => 20.0
    case Airspeed => 5.0
    case OrbitKp => 0.001
    case TrackKp => 0.1
    case TrackKi => 0.0
    case RollKp => 0.1
    case ServoCenter => 1400.0
    case ServoRange => 200.0
  }

  function High(s: Setting): real
  {
    match s
    case OrbitRadius => 500.0
    case Airspeed => 25.0
    case OrbitKp => 1.0
    case TrackKp => 10.0
    case TrackKi => 2.0
    case RollKp => 5.0
    case ServoCenter => 1600.0
    case ServoRange => 600.0
  }

  function RangeMessage(s: Setting): string
  {
    match s
    case OrbitRadius => "Orbit radius must be 20-500 meters"
    case Airspeed => "Airspeed must be 5.0-25.0 m/s"
    case OrbitKp => "Orbit Kp must be 0.001-1.0"
    case TrackKp => "Track Kp must be 0.1-10.0"
    case TrackKi => "Track Ki must be 0.0-2.0"
    case RollKp => "Roll Kp must be 0.1-5.0"
    case ServoCenter => "Center must be 1400-1600 \U{3bc}s"
    case ServoRange => "Range must be 200-600 \U{3bc}s"
  }

  /** A command: plain text, or a head followed by a formatted float. */
  datatype Command = Line(text: string) | Numeric(head: string, value: real)

  datatype Outcome = Send(command: Command) | OutOfRange(message: string) | NotANumber(text: string)

  /** `_set_<setting>`: `float()` of the entry, then the inclusive range. */
  function SetterOutcome(s: Setting, text: string): (o: Outcome)
    ensures o.Send? <==> ParseFloat(text).Some? && Low(s) <= ParseFloat(text).value <= High(s)
    ensures o.Send? ==> o.command == Numeric(Head(s), ParseFloat(text).value)
    ensures o.NotANumber? <==> ParseFloat(text).None?
  {
    var x := ParseFloat(text);
    if x.None? then NotANumber(text)
    else if Low(s) <= x.value <= High(s) then Send(Numeric(Head(s), x.value))
    else OutOfRange(RangeMessage(s))
  }

  /** `_set_servo_direction`. */
  function DirectionCommand(selection: string): (c: Command)
    ensures c == Line("SERVO SET DIRECTION 1") <==> selection == "Inverted"
    ensures c == Line("SERVO SET DIRECTION 0") <==> selection != "Inverted"
  {
    if selection == "Inverted" then Line("SERVO SET DIRECTION 1") else Line("SERVO SET DIRECTION 0")
  }

  // ---------------------------------------------------------------------
  // The records kept from the autopilot's output

  datatype NavData = NavData(
    positionN: real, positionE: real, positionU: real,
    rangeToDatum: real, bearingToDatum: real,
    navMode: string, gpsFix: bool, satellites: int)

  const InitialNav: NavData := NavData(0.0, 0.0, 0.0, 0.0, 0.0, "UNKNOWN", false, 0)

  datatype ControlData = ControlData(flightMode: string, controlMode: string, rollCommand: real, motorCommand: real)

  const InitialControl: ControlData := ControlData("IDLE", "MANUAL", 0.0, 0.0)

  datatype ServoConfig = ServoConfig(center: int, range: int, direction: string, updated: bool)

  const InitialServo: ServoConfig := ServoConfig(1500, 400, "Normal", false)

  /** `[-+]?\d*\.?\d+` */
  function SignedNodes(): seq<Node> { [Opt(Either(Chr('-'), Chr('+')))] + DecimalNodes() }

  /** `[=:]?` */
  const EqOrColon: Node := Opt(Either(Chr('='), Chr(':')))

  /** `Fix Status:.*\[OK\]|GPS.*fix.*?(true|false|ok|valid)` */
  const FixOkAlt: seq<Node> := Lit("Fix Status:") + [Star(AnyChar)] + Lit("[OK]")
  const FixWordAlt: seq<Node> :=
    Lit("GPS") + [Star(AnyChar)] + Lit("fix") + [Lazy(AnyChar)] + Cap(1, [Words(["true", "false", "ok", "valid"])])
  const FixPattern: Pattern := Pattern([FixOkAlt, FixWordAlt], true)

  /** `Satellites:\s*(\d+)|sat.*?(\d+)` */
  const SatAlt: seq<Node> := Lit("Satellites:") + [Star(Space)] + Cap(1, [Plus(Digit)])
  const SatPattern: Pattern :=
    Pattern([SatAlt, Lit("sat") + [Lazy(AnyChar)] + Cap(2, [Plus(Digit)])], true)

  /** `pos.*?n[=:]?(num).*?e[=:]?(num).*?u[=:]?(num)` with signed numbers. */
  const PosPattern: Pattern := Pattern([
    Lit("pos") + [Lazy(AnyChar)] + Lit("n") + [EqOrColon] + Cap(1, SignedNodes())
    + [Lazy(AnyChar)] + Lit("e") + [EqOrColon] + Cap(2, SignedNodes())
    + [Lazy(AnyChar)] + Lit("u") + [EqOrColon] + Cap(3, SignedNodes())], true)

  /** `<word>.*?(\d*\.?\d+)` */
  function AfterWord(w: string): Pattern
  {
    Pattern([Lit(w) + [Lazy(AnyChar)] + Cap(1, DecimalNodes())], true)
  }

  /** `<a>.*<b>.*?(<ns>)` */
  function TwoWords(a: string, b: string, ns: seq<Node>): Pattern
  {
    Pattern([Lit(a) + [Star(AnyChar)] + Lit(b) + [Lazy(AnyChar)] + Cap(1, ns)], true)
  }

  /** `<word>.*?(\d+\.?\d*)` */
  function ServoNumber(w: string): Pattern
  {
    Pattern([Lit(w) + [Lazy(AnyChar)] + Cap(1, [Plus(Digit), Opt(Chr('.')), Star(Digit)])], true)
  }

  /** A one-word pattern under IGNORECASE. */
  function Word(w: string): Pattern { Pattern([Lit(w)], true) }

  /** `float()` of group `g` of the first match, if there is one. */
  function FloatGroup(pat: Pattern, data: string, g: nat): Option<real>
  {
    var t := SearchGroup(pat, data, g);
    if t.None? then None else ParseFloat(t.value)
  }

  function Keep<T>(current: T, r: Option<T>): T
  {
    if r.Some? then r.value else current
  }

  /** The GPS fix flag after a line. */
  function FixUpdate(fix: bool, data: string): bool
  {
    var m := Search(FixPattern, data);
    if m.None? then fix
    else if Contains(data, "[OK]") then true
    else
      var g := Group(m.value, data, 1);
      if g.Some? && g.value != "" then Lower(g.value) in ["true", "ok", "valid"] else false
  }

  /** The satellite count after a line: group 1 when it took part, else group 2. */
  function SatUpdate(sats: int, data: string): int
  {
    var m := Search(SatPattern, data);
    if m.None? then sats
    else
      var g1 := Group(m.value, data, 1);
      var g := if g1.Some? && g1.value != "" then g1 else Group(m.value, data, 2);
      if g.Some? then Keep(sats, ParseInt(g.value)) else sats
  }

  /** The three position components change together, on one match. */
  function PosUpdate(nav: NavData, data: string): NavData
  {
    var n, e, u := FloatGroup(PosPattern, data, 1), FloatGroup(PosPattern, data, 2), FloatGroup(PosPattern, data, 3);
    if n.Some? && e.Some? && u.Some? then nav.(positionN := n.value, positionE := e.value, positionU := u.value)
    else nav
  }

  /** `_parse_navigation_data`. */
  function ParseNav(nav: NavData, data: string): NavData
  {
    var p := PosUpdate(nav, data);
    var mode := SearchGroup(TwoWords("nav", "mode", [Plus(UpperOrUnderscore)]), data, 1);
    p.(gpsFix := FixUpdate(nav.gpsFix, data),
       satellites := SatUpdate(nav.satellites, data),
       rangeToDatum := Keep(nav.rangeToDatum, FloatGroup(AfterWord("range"), data, 1)),
       bearingToDatum := Keep(nav.bearingToDatum, FloatGroup(AfterWord("bearing"), data, 1)),
       navMode := if mode.Some? then Upper(mode.value) else nav.navMode)
  }

  /** The control mode after a line: "armed" is looked for first. */
  function ControlModeUpdate(mode: string, data: string): string
  {
    if Matches(Word("armed"), data) then "ARMED"
    else if Matches(Word("disarmed"), data) then "DISARMED"
    else mode
  }

  /** `_parse_control_data`. */
  function ParseControl(c: ControlData, data: string): ControlData
  {
    var mode := SearchGroup(TwoWords("flight", "mode", [Plus(UpperOrUnderscore)]), data, 1);
    ControlData(
      if mode.Some? then Upper(mode.value) else c.flightMode,
      ControlModeUpdate(c.controlMode, data),
      Keep(c.rollCommand, FloatGroup(TwoWords("roll", "cmd", SignedNodes()), data, 1)),
      Keep(c.motorCommand, FloatGroup(TwoWords("motor", "cmd", DecimalNodes()), data, 1)))
  }

  /** `int(float(...))` of the first servo number after `w`. */
  function ServoReading(w: string, data: string): Option<int>
  {
    var t := SearchGroup(ServoNumber(w), data, 1);
    if t.None? then None else IntOfFloatText(t.value)
  }

  /** `_parse_servo_data`: only a line tagged `[SERVO]` counts. */
  function ParseServo(s: ServoConfig, data: string): (r: ServoConfig)
    ensures !Contains(data, "[SERVO]") ==> r == s
    ensures Contains(data, "[SERVO]") ==> r.updated
  {
    if !Contains(data, "[SERVO]") then s
    else
      var low := Lower(data);
      ServoConfig(
        Keep(s.center, ServoReading("center", data)),
        Keep(s.range, ServoReading("range", data)),
        if Contains(low, "inverted") then "Inverted" else if Contains(low, "normal") then "Normal" else s.direction,
        true)
  }

  /** A tagged line that names both directions reads as Inverted, and one
      that names neither keeps the direction. */
  lemma ServoDirectionPriority(s: ServoConfig, data: string)
    requires Contains(data, "[SERVO]")
    ensures Contains(Lower(data), "inverted") ==> ParseServo(s, data).direction == "Inverted"
    ensures !Contains(Lower(data), "inverted") && !Contains(Lower(data), "normal")
            ==> ParseServo(s, data).direction == s.direction
  {
  }

  /** As "disarmed" contains "armed", no line can set DISARMED: a line
      naming either one sets ARMED. */
  lemma ControlModeNeverBecomesDisarmed(mode: string, data: string)
    ensures ControlModeUpdate(mode, data) == "DISARMED" ==> mode == "DISARMED"
    ensures Matches(Word("disarmed"), data) ==> ControlModeUpdate(mode, data) == "ARMED"
  {
    LiteralSearch("disarmed", data, true);
    LiteralSearch("armed", data, true);
    if Matches(Word("disarmed"), data) {
      var i :| 0 <= i <= |data| && WordAt("disarmed", data, i, true);
      WordAtSuffix("disarmed", 3, data, i, true);
      assert "disarmed"[3..] == "armed";
    }
  }

  /** With the case-sensitive "[OK]" anywhere in a matching line, the fix
      is good, whatever word the pattern captured. */
  lemma FixOkAnywhere(fix: bool, data: string)
    requires Matches(FixPattern, data) && Contains(data, "[OK]")
    ensures FixUpdate(fix, data)
  {
  }

  /** The first alternative has no group, so whatever it matches leaves the
      groups empty. */
  lemma FixOkAltNoGroups(s: string, p: nat)
    requires p <= |s|
    ensures var r := MatchHere(FixOkAlt, s, p, true, map[], map[]);
      r.None? || r.value.groups == map[]
  {
    var ok := Lit("[OK]");
    var tail := [Star(AnyChar)] + ok;
    assert FixOkAlt == Lit("Fix Status:") + tail;
    LitThen("Fix Status:", tail, s, p, true, map[], map[]);
    if WordAt("Fix Status:", s, p, true) {
      var q0 := p + 11;
      assert tail[1..] == ok;
      var n := Run(AnyChar, s, q0, true);
      GreedyFirst(ok, s, q0, n, 0, true, map[], map[]);
      if Greedy(ok, s, q0, n, 0, true, map[], map[]).Some? {
        var q :| GreedyPick(ok, s, q0, n, 0, true, map[], map[], q);
        assert ok == ok + [];
        LitThen("[OK]", [], s, q, true, map[], map[]);
      }
    }
  }

  /** A line with no "g" in either case cannot take the GPS alternative;
      so a "Fix Status: [ok]" line with the OK in lower case reports no fix. */
  lemma LowercaseOkMeansNoFix(fix: bool, data: string)
    requires AbsentFrom(data, 0, 'G', true)
    requires !Contains(data, "[OK]")
    ensures FixUpdate(fix, data) == if Matches(FixPattern, data) then false else fix
  {
    if Matches(FixPattern, data) {
      SearchLeftmost(FixPattern, data);
      var m := Search(FixPattern, data).value;
      assert FixWordAlt[0] == One(Chr('G'));
      assert Compulsory(FixWordAlt, 'G');
      CompulsoryMissing(FixWordAlt, 'G', data, m.start, true, map[], map[]);
      FixOkAltNoGroups(data, m.start);
      assert MatchAt(FixPattern, data, m.start, 1).None?;
      assert Group(m, data, 1).None?;
    }
  }

  /** A "Satellites:" line: the count is the digits after the blanks. */
  lemma SatellitesLineRead(sats: int, blanks: string, digits: string, rest: string)
    requires forall j :: 0 <= j < |blanks| ==> IsSpace(blanks[j])
    requires |digits| > 0 && AllDigits(digits)
    requires rest == [] || !IsDigit(rest[0])
    ensures SatUpdate(sats, "Satellites:" + blanks + digits + rest) == DigitsValue(digits)
  {
    var data := "Satellites:" + blanks + digits + rest;
    var q := 11 + |blanks|;
    var e := q + |digits|;
    FourParts("Satellites:", blanks, digits, rest);
    BlankRun(data, 11, blanks);
    DigitRunAt(data, q, digits);
    SatReadFromStart(sats, data, q, e);
    ParseIntOfDigits(digits);
  }

  /** "Satellites:" at the start, blanks up to `q`, digits up to `e`: the
      count is read from those digits. */
  lemma SatReadFromStart(sats: int, data: string, q: nat, e: nat)
    requires 11 <= q < e <= |data| && data[..11] == "Satellites:"
    requires Run(Space, data, 11, true) == q - 11 && Run(Digit, data, q, true) == e - q
    ensures SatUpdate(sats, data) == Keep(sats, ParseInt(data[q..e]))
  {
    SatAltMatches(data, q, e);
    assert MatchAt(SatPattern, data, 0, 0) == Some(Match(0, e, map[1 := (q, e)]));
    assert Search(SatPattern, data) == Some(Match(0, e, map[1 := (q, e)]));
  }

  lemma BlankRun(s: string, p: nat, blanks: string)
    requires p + |blanks| < |s| && s[p..p + |blanks|] == blanks && IsDigit(s[p + |blanks|])
    requires forall j :: 0 <= j < |blanks| ==> IsSpace(blanks[j])
    ensures Run(Space, s, p, true) == |blanks|
  {
    assert !IsSpace(s[p + |blanks|]);
  }

  lemma DigitRunAt(s: string, q: nat, digits: string)
    requires q + |digits| <= |s| && s[q..q + |digits|] == digits && AllDigits(digits)
    requires q + |digits| == |s| || !IsDigit(s[q + |digits|])
    ensures Run(Digit, s, q, true) == |digits|
  {
  }

  /** "Satellites:" at the start, its blanks up to `q`, the digits up to `e`. */
  lemma SatAltMatches(s: string, q: nat, e: nat)
    requires 11 <= q < e <= |s| && s[..11] == "Satellites:"
    requires Run(Space, s, 11, true) == q - 11 && Run(Digit, s, q, true) == e - q
    ensures MatchHere(SatAlt, s, 0, true, map[], map[]) == Some(Found(e, map[1 := (q, e)]))
  {
    var tail := [Star(Space)] + Cap(1, [Plus(Digit)]);
    assert SatAlt == Lit("Satellites:") + tail;
    WordAtOfExact("Satellites:", s, 0);
    LitThen("Satellites:", tail, s, 0, true, map[], map[]);
    BlanksThenDigits(s, 11, q, e);
  }

  /** Blanks from `p` up to `q`, digits up to `e`: `\s*(\d+)` spans them. */
  lemma BlanksThenDigits(s: string, p: nat, q: nat, e: nat)
    requires p <= q < e <= |s|
    requires Run(Space, s, p, true) == q - p && Run(Digit, s, q, true) == e - q
    ensures MatchHere([Star(Space)] + Cap(1, [Plus(Digit)]), s, p, true, map[], map[]) == Some(Found(e, map[1 := (q, e)]))
  {
    var cap := Cap(1, [Plus(Digit)]);
    assert cap == [Open(1), Plus(Digit), Close(1)];
    CapturedRun(Digit, s, q, true);
    StarWholeRun(Space, cap, s, p, true, map[], map[]);
  }

  // ---------------------------------------------------------------------
  // The tab

  /** The minimum time between two refreshes of the status labels. */
  const UpdateInterval: real := 0.1

  /** The arm button's text after a refresh: it follows an ARMED or
      DISARMED mode and is otherwise kept. */
  function ArmLabel(controlMode: string, shown: string): string
  {
    if controlMode == "ARMED" then "DISARM" else if controlMode == "DISARMED" then "ARM" else shown
  }

  function GpsLabel(gpsFix: bool): string
  {
    if gpsFix then "GPS: Fix OK" else "GPS: No Fix"
  }

  /** The servo configuration summary line. */
  function ConfigLabel(servo: ServoConfig): string
  {
    "Config: Center=" + IntToStr(servo.center) + "\U{3bc}s Range=" + IntToStr(servo.range) + "\U{3bc}s Dir=" + servo.direction
  }

  /** What the tab shows: the button, the status labels, the records they
      were drawn from, the servo entries and the configuration line. */
  datatype Display = Display(armText: string, gpsStatusText: string, satellitesText: string,
    flightModeText: string, navModeText: string, shownNav: NavData, shownControl: ControlData,
    centerEntry: string, rangeEntry: string, directionEntry: string, servoConfigText: string)

  /** The widgets as `_create_widgets` builds them. */
  const InitialDisplay: Display := Display("ARM", "GPS: No Fix", "Sats: 0", "Mode: IDLE", "Nav: UNKNOWN",
    InitialNav, InitialControl, "1500", "400", "Normal", "")

  /** The labels of `_update_status_displays`, redrawn from the records. */
  function Relabelled(d: Display, nav: NavData, control: ControlData): (r: Display)
    ensures r.armText == ArmLabel(control.controlMode, d.armText)
    ensures r.gpsStatusText == GpsLabel(nav.gpsFix) && r.satellitesText == "Sats: " + IntToStr(nav.satellites)
    ensures r.flightModeText == "Mode: " + control.flightMode && r.navModeText == "Nav: " + nav.navMode
    ensures r.shownNav == nav && r.shownControl == control
    ensures r.centerEntry == d.centerEntry && r.rangeEntry == d.rangeEntry
    ensures r.directionEntry == d.directionEntry && r.servoConfigText == d.servoConfigText
  {
    d.(armText := ArmLabel(control.controlMode, d.armText), gpsStatusText := GpsLabel(nav.gpsFix),
       satellitesText := "Sats: " + IntToStr(nav.satellites), flightModeText := "Mode: " + control.flightMode,
       navModeText := "Nav: " + nav.navMode, shownNav := nav, shownControl := control)
  }

  /** The servo part of `_update_status_displays`: the entries follow the
      configuration only when a reply updated it; the labels are kept. */
  function WithServo(d: Display, servo: ServoConfig): (r: Display)
    ensures servo.updated ==>
      && r.centerEntry == IntToStr(servo.center) && r.rangeEntry == IntToStr(servo.range)
      && r.directionEntry == servo.direction && r.servoConfigText == ConfigLabel(servo)
    ensures !servo.updated ==> r == d
    ensures r.armText == d.armText && r.gpsStatusText == d.gpsStatusText && r.satellitesText == d.satellitesText
    ensures r.flightModeText == d.flightModeText && r.navModeText == d.navModeText
    ensures r.shownNav == d.shownNav && r.shownControl == d.shownControl
  {
    if servo.updated then
      d.(centerEntry := IntToStr(servo.center), rangeEntry := IntToStr(servo.range),
         directionEntry := servo.direction, servoConfigText := ConfigLabel(servo))
    else d
  }

  /** `_update_status_displays` as a whole. */
  function Refreshed(d: Display, nav: NavData, control: ControlData, servo: ServoConfig): (r: Display)
    ensures r.armText == ArmLabel(control.controlMode, d.armText)
    ensures r.gpsStatusText == GpsLabel(nav.gpsFix) && r.satellitesText == "Sats: " + IntToStr(nav.satellites)
    ensures r.flightModeText == "Mode: " + control.flightMode && r.navModeText == "Nav: " + nav.navMode
    ensures r.shownNav == nav && r.shownControl == control
    ensures servo.updated ==>
      && r.centerEntry == IntToStr(servo.center) && r.rangeEntry == IntToStr(servo.range)
      && r.directionEntry == servo.direction && r.servoConfigText == ConfigLabel(servo)
    ensures !servo.updated ==>
      && r.centerEntry == d.centerEntry && r.rangeEntry == d.rangeEntry
      && r.directionEntry == d.directionEntry && r.servoConfigText == d.servoConfigText
  {
    WithServo(Relabelled(d, nav, control), servo)
  }

  class AutopilotTab {
    var isConnected: bool
    var sent: seq<Command>
    var messages: seq<string>
    var nav: NavData
    var control: ControlData
    var servo: ServoConfig
    var lastUpdateTime: real
    // the arm button, the status labels, the servo entries and the
    // configuration line
    var display: Display

    constructor (connected: bool)
      ensures isConnected == connected && sent == [] && messages == []
      ensures nav == InitialNav && control == InitialControl && servo == InitialServo
      ensures lastUpdateTime == 0.0 && display == InitialDisplay
    {
      isConnected := connected;
      sent := [];
      messages := [];
      nav := InitialNav;
      control := InitialControl;
      servo := InitialServo;
      lastUpdateTime := 0.0;
      display := InitialDisplay;
    }

    /** `_send_command`. */
    method SendCommand(c: Command)
      modifies this`sent, this`messages
      ensures isConnected ==> sent == old(sent) + [c] && messages == old(messages)
      ensures !isConnected ==> sent == old(sent) && messages == old(messages) + ["Please connect to Arduino first"]
    {
      if isConnected {
        sent := sent + [c];
      } else {
        messages := messages + ["Please connect to Arduino first"];
      }
    }

    /** Any of the numeric setters, applied to the entry's text. */
    method Set(s: Setting, text: string)
      modifies this`sent, this`messages
      ensures match SetterOutcome(s, text)
        case Send(c) =>
          if isConnected then sent == old(sent) + [c] && messages == old(messages)
          else sent == old(sent) && messages == old(messages) + ["Please connect to Arduino first"]
        case OutOfRange(m) => sent == old(sent) && messages == old(messages) + [m]
        case NotANumber(t) => sent == old(sent) && messages == old(messages) + ["could not convert string to float: '" + t + "'"]
    {
      match SetterOutcome(s, text)
      case Send(c) => SendCommand(c);
      case OutOfRange(m) => messages := messages + [m];
      case NotANumber(t) => messages := messages + ["could not convert string to float: '" + t + "'"];
    }

    /** `_set_servo_direction`. */
    method SetServoDirection(selection: string)
      modifies this`sent, this`messages
      ensures isConnected ==> sent == old(sent) + [DirectionCommand(selection)] && messages == old(messages)
      ensures !isConnected ==>
        sent == old(sent) && messages == old(messages) + ["Please connect to Arduino first"]
    {
      SendCommand(DirectionCommand(selection));
    }

    /** `_toggle_arm_disarm`, after the operator's answer; the button text
        flips even when the link is down. */
    method ToggleArmDisarm(confirmed: bool)
      modifies this`sent, this`messages, this`display
      ensures !confirmed ==> sent == old(sent) && display == old(display)
      ensures messages == old(messages)
        + (if confirmed && !isConnected then ["Please connect to Arduino first"] else [])
      ensures confirmed && old(display.armText) == "ARM" ==>
        display == old(display).(armText := "DISARM") && sent == old(sent) + (if isConnected then [Line("CTRL ARM")] else [])
      ensures confirmed && old(display.armText) != "ARM" ==>
        display == old(display).(armText := "ARM") && sent == old(sent) + (if isConnected then [Line("CTRL DISARM")] else [])
    {
      if confirmed {
        if display.armText == "ARM" {
          SendCommand(Line("CTRL ARM"));
          display := display.(armText := "DISARM");
        } else {
          SendCommand(Line("CTRL DISARM"));
          display := display.(armText := "ARM");
        }
      }
    }

    /** `_emergency_stop`, after the operator's answer. */
    method EmergencyStop(confirmed: bool)
      modifies this`sent, this`messages, this`display
      ensures !confirmed ==> sent == old(sent) && display == old(display)
      ensures messages == old(messages)
        + (if confirmed && !isConnected then ["Please connect to Arduino first"] else [])
      ensures confirmed ==>
        display == old(display).(armText := "ARM") && sent == old(sent) + (if isConnected then [Line("SYS EMERGENCY")] else [])
    {
      if confirmed {
        SendCommand(Line("SYS EMERGENCY"));
        display := display.(armText := "ARM");
      }
    }

    /** `_parse_navigation_data`: the fields are overwritten one after the
        other, each only when its pattern matched. */
    method ParseNavigationData(data: string)
      modifies this`nav
      ensures nav == ParseNav(old(nav), data)
    {
      var fix := FixUpdate(nav.gpsFix, data);
      var sats := SatUpdate(nav.satellites, data);
      nav := PosUpdate(nav.(gpsFix := fix, satellites := sats), data);
      var r := FloatGroup(AfterWord("range"), data, 1);
      if r.Some? {
        nav := nav.(rangeToDatum := r.value);
      }
      r := FloatGroup(AfterWord("bearing"), data, 1);
      if r.Some? {
        nav := nav.(bearingToDatum := r.value);
      }
      var mode := SearchGroup(TwoWords("nav", "mode", [Plus(UpperOrUnderscore)]), data, 1);
      if mode.Some? {
        nav := nav.(navMode := Upper(mode.value));
      }
    }

    /** `_parse_control_data`. */
    method ParseControlData(data: string)
      modifies this`control
      ensures control == ParseControl(old(control), data)
    {
      var mode := SearchGroup(TwoWords("flight", "mode", [Plus(UpperOrUnderscore)]), data, 1);
      if mode.Some? {
        control := control.(flightMode := Upper(mode.value));
      }
      var r := FloatGroup(TwoWords("roll", "cmd", SignedNodes()), data, 1);
      if r.Some? {
        control := control.(rollCommand := r.value);
      }
      r := FloatGroup(TwoWords("motor", "cmd", DecimalNodes()), data, 1);
      if r.Some? {
        control := control.(motorCommand := r.value);
      }
      if Matches(Word("armed"), data) {
        control := control.(controlMode := "ARMED");
      } else if Matches(Word("disarmed"), data) {
        control := control.(controlMode := "DISARMED");
      }
    }

    /** `_parse_servo_data`. */
    method ParseServoData(data: string)
      modifies this`servo
      ensures servo == ParseServo(old(servo), data)
    {
      if Contains(data, "[SERVO]") {
        var n := ServoReading("center", data);
        if n.Some? {
          servo := servo.(center := n.value);
        }
        n := ServoReading("range", data);
        if n.Some? {
          servo := servo.(range := n.value);
        }
        var low := Lower(data);
        if Contains(low, "inverted") {
          servo := servo.(direction := "Inverted");
        } else if Contains(low, "normal") {
          servo := servo.(direction := "Normal");
        }
        servo := servo.(updated := true);
      }
    }

    /** The labels of `_update_status_displays`. */
    method RefreshLabels()
      modifies this`display
      ensures display == Relabelled(old(display), nav, control)
    {
      if control.controlMode == "ARMED" {
        display := display.(armText := "DISARM");
      } else if control.controlMode == "DISARMED" {
        display := display.(armText := "ARM");
      }
      display := display.(gpsStatusText := GpsLabel(nav.gpsFix));
      display := display.(satellitesText := "Sats: " + IntToStr(nav.satellites));
      display := display.(flightModeText := "Mode: " + control.flightMode, navModeText := "Nav: " + nav.navMode);
      display := display.(shownNav := nav, shownControl := control);
    }

    /** The servo part of `_update_status_displays`: the entries follow a
        configuration reply once, then the flag is cleared. */
    method RefreshServoEntries()
      modifies this`servo, this`display
      ensures display == WithServo(old(display), old(servo))
      ensures servo == old(servo).(updated := false)
    {
      if servo.updated {
        display := display.(centerEntry := IntToStr(servo.center), rangeEntry := IntToStr(servo.range));
        display := display.(directionEntry := servo.direction, servoConfigText := ConfigLabel(servo));
        servo := servo.(updated := false);
      }
    }

    /** The three parsers, in the order `handle_serial_data` runs them. */
    method ParseAll(data: string)
      modifies this`nav, this`control, this`servo
      ensures nav == ParseNav(old(nav), data) && control == ParseControl(old(control), data)
      ensures servo == ParseServo(old(servo), data)
    {
      ParseNavigationData(data);
      ParseControlData(data);
      ParseServoData(data);
    }

    /** The rate limit: refresh only when `UpdateInterval` has passed. */
    method RefreshIfDue(now: real)
      modifies this`servo, this`lastUpdateTime, this`display
      ensures now - old(lastUpdateTime) < UpdateInterval ==>
        lastUpdateTime == old(lastUpdateTime) && servo == old(servo) && display == old(display)
      ensures now - old(lastUpdateTime) >= UpdateInterval ==>
        && lastUpdateTime == now && servo == old(servo).(updated := false)
        && display == Refreshed(old(display), nav, control, old(servo))
    {
      if now - lastUpdateTime >= UpdateInterval {
        RefreshLabels();
        RefreshServoEntries();
        lastUpdateTime := now;
      }
    }

    /** `handle_serial_data` at time `now`: every line is parsed; the
        labels are refreshed only when `UpdateInterval` has passed. */
    method HandleSerialData(data: string, now: real)
      modifies this`nav, this`control, this`servo, this`lastUpdateTime, this`display
      ensures nav == ParseNav(old(nav), data) && control == ParseControl(old(control), data)
      ensures now - old(lastUpdateTime) < UpdateInterval ==>
        lastUpdateTime == old(lastUpdateTime) && servo == ParseServo(old(servo), data) && display == old(display)
      ensures now - old(lastUpdateTime) >= UpdateInterval ==>
        && lastUpdateTime == now && servo == ParseServo(old(servo), data).(updated := false)
        && display == Refreshed(old(display), nav, control, ParseServo(old(servo), data))
    {
      ParseAll(data);
      RefreshIfDue(now);
    }
  }
}

=== FILE: hardware_hal.dfy ===
/** The autopilot's hardware layer, reduced to its arithmetic and state:
    the 50 Hz loop clock over a wrapping millisecond counter, the GPS read
    into a NUL-terminated buffer, the roll-servo pulse mapping, the button
    polarity, the error latch and the GPS baud selection. `millis()`, the
    UART's pending bytes and the raw pin level are parameters. */
module HardwareHal {
  import opened MathUtils
  import opened Config
  import PyText

  /** `HAL_Config_t`. */
  datatype HalConfig = HalConfig(
    servoMinPulse: nat, servoMaxPulse: nat, servoCenterPulse: nat,
    motorMinPulse: nat, motorMaxPulse: nat, gpsBaudRate: nat,
    buttonInverted: bool, batteryScale: real)

  /** The defaults `HAL_Init` installs. */
  const DefaultConfig: HalConfig := HalConfig(1000, 2000, 1500, 1000, 2000, 0, true, 1.0)

  /** `HAL_Error_t`. */
  datatype HalError = ErrorNone | GpsTimeout | ServoFault | MotorFault | MemoryLow | SystemFault

  /** A loop tick is 20 ms. */
  const LoopPeriodMs: nat := 20
  /** The CPU figure is refreshed every 50 ticks. */
  const TicksPerReport: nat := 50

  type Byte = x: int | 0 <= x < 256

  /** `GPS baud index`: 1 is 19200, 2 is 38400, anything else 9600. */
  function BaudRateFor(index: nat): (baud: nat)
    ensures baud == 19200 <==> index == 1
    ensures baud == 38400 <==> index == 2
    ensures baud == 9600 <==> index != 1 && index != 2
  {
    if index == 1 then 19200 else if index == 2 then 38400 else 9600
  }

  /** `HAL_ReadButton`: the pin level, flipped when the button is wired
      active-low. */
  function ReadButton(pinLevel: bool, config: HalConfig): (pressed: bool)
    ensures pressed != pinLevel <==> config.buttonInverted
  {
    if config.buttonInverted then !pinLevel else pinLevel
  }

  /** The pulse width `HAL_SetRollServo` computes before the cast: reversed
      if configured, clamped to `±1`, scaled about the centre, clamped to
      the pulse limits, then snapped to the centre inside the dead band. */
  function RollPulse(rollCommand: real, p: ActuatorParams): (pulse: real)
    ensures p.RollServoMinPulse <= p.RollServoMaxPulse ==>
      (p.RollServoMinPulse <= pulse <= p.RollServoMaxPulse) || pulse == p.RollServoCenter
    ensures pulse == p.RollServoCenter || Abs(pulse - p.RollServoCenter) >= p.RollServoDeadband
  {
    var adjusted := if p.RollServoReversed then -rollCommand else rollCommand;
    SnapToCenter(ScaledPulse(Saturate(adjusted, -1.0, 1.0), p.RollServoCenter, p.RollServoRange, p.RollServoMinPulse, p.RollServoMaxPulse),
                 p.RollServoCenter, p.RollServoDeadband)
  }

  /** A clamped command scaled about the centre and held in the pulse
      limits. */
  function ScaledPulse(clamped: real, center: real, range: real, minPulse: real, maxPulse: real): (width: real)
    ensures minPulse <= maxPulse ==> minPulse <= width <= maxPulse
  {
    Saturate(center + clamped * range / 2.0, minPulse, maxPulse)
  }

  /** The dead band around the centre. */
  function SnapToCenter(width: real, center: real, deadband: real): (pulse: real)
    ensures pulse == width || pulse == center
    ensures pulse == center || Abs(pulse - center) >= deadband
  {
    if Abs(width - center) < deadband then center else width
  }

  /** Reversal mirrors the command: a reversed servo given `-c` moves
      exactly as a normal one given `c`. */
  lemma ReversalMirrors(rollCommand: real, p: ActuatorParams)
    ensures RollPulse(-rollCommand, p.(RollServoReversed := true)) == RollPulse(rollCommand, p.(RollServoReversed := false))
  {
    assert -(-rollCommand) == rollCommand;
  }

  /** A centred command gives the centre pulse whenever the centre lies
      within the pulse limits. */
  lemma ZeroCommandCentres(p: ActuatorParams)
    requires p.RollServoMinPulse <= p.RollServoCenter <= p.RollServoMaxPulse
    ensures RollPulse(0.0, p) == p.RollServoCenter
  {
  }

  /** The HAL's statics. Servo writes are recorded in `rollServoOutput`,
      the UART speed chosen by `HAL_SetConfig` in `gpsBaud`, and calls of
      the error callback in `reportedErrors`. */
  class Hal {
    var config: HalConfig
    var lastLoopTime: nat
    var loopCounter: nat
    var cpuUsageAccumulator: nat
    var cpuUsage: real
    var lastError: HalError
    var hasErrorCallback: bool
    var reportedErrors: seq<HalError>
    var gpsBaud: nat
    var rollServoOutput: int

    predicate Valid()
      reads this
    {
      lastLoopTime < Uint32Modulus && loopCounter < Uint32Modulus && cpuUsageAccumulator < Uint32Modulus
    }

    /** `HAL_Init`, at time `now`. */
    constructor (now: nat)
      requires now < Uint32Modulus
      ensures Valid()
      ensures config == DefaultConfig && lastLoopTime == now && loopCounter == 0 && cpuUsageAccumulator == 0
      ensures lastError == ErrorNone && !hasErrorCallback && reportedErrors == []
    {
      config := DefaultConfig;
      lastLoopTime := now;
      loopCounter := 0;
      cpuUsageAccumulator := 0;
      cpuUsage := 0.0;
      lastError := ErrorNone;
      hasErrorCallback := false;
      reportedErrors := [];
      gpsBaud := 9600;
      rollServoOutput := 1500;
    }

    /** `HAL_ClockMainLoop`: a tick when at least 20 ms (modulo 2^32) have
        passed; only then do the loop time, the counter and the CPU
        accumulator move. `deltaTime` is written only on a tick. */
    method ClockMainLoop(now: nat) returns (ticked: bool, deltaTime: PyText.Option<real>)
      requires Valid() && now < Uint32Modulus
      modifies this`lastLoopTime, this`loopCounter, this`cpuUsageAccumulator, this`cpuUsage
      ensures Valid()
      ensures ticked <==> Elapsed(old(lastLoopTime), now) >= LoopPeriodMs
      ensures ticked ==> deltaTime == PyText.Some(Elapsed(old(lastLoopTime), now) as real / 1000.0)
      ensures !ticked ==> deltaTime == PyText.None
      ensures ticked ==> lastLoopTime == now && loopCounter == (old(loopCounter) + 1) % Uint32Modulus
      ensures !ticked ==>
        (lastLoopTime == old(lastLoopTime) && loopCounter == old(loopCounter)
         && cpuUsageAccumulator == old(cpuUsageAccumulator) && cpuUsage == old(cpuUsage))
      ensures ticked && loopCounter % TicksPerReport == 0 ==>
        (cpuUsageAccumulator == 0
         && cpuUsage == ((old(cpuUsageAccumulator) + Elapsed(old(lastLoopTime), now)) % Uint32Modulus) as real / 1000.0 * 100.0)
      ensures ticked && loopCounter % TicksPerReport != 0 ==>
        (cpuUsage == old(cpuUsage)
         && cpuUsageAccumulator == (old(cpuUsageAccumulator) + Elapsed(old(lastLoopTime), now)) % Uint32Modulus)
    {
      var elapsed := Elapsed(lastLoopTime, now);
      if elapsed >= LoopPeriodMs {
        deltaTime := PyText.Some(elapsed as real / 1000.0);
        lastLoopTime := now;
        loopCounter := (loopCounter + 1) % Uint32Modulus;
        cpuUsageAccumulator := (cpuUsageAccumulator + elapsed) % Uint32Modulus;
        if loopCounter % TicksPerReport == 0 {
          cpuUsage := cpuUsageAccumulator as real / 1000.0 * 100.0;
          cpuUsageAccumulator := 0;
        }
        return true, deltaTime;
      }
      return false, PyText.None;
    }

    /** `HAL_SetRollServo`: the servo receives the pulse truncated to an
        integer. */
    method SetRollServo(rollCommand: real, p: ActuatorParams)
      modifies this`rollServoOutput
      ensures rollServoOutput == PyText.Trunc(RollPulse(rollCommand, p))
    {
      var adjusted := if p.RollServoReversed then -rollCommand else rollCommand;
      adjusted := Saturate(adjusted, -1.0, 1.0);
      var pulseWidth := ScaledPulse(adjusted, p.RollServoCenter, p.RollServoRange, p.RollServoMinPulse, p.RollServoMaxPulse);
      var centerDiff := Abs(pulseWidth - p.RollServoCenter);
      if centerDiff < p.RollServoDeadband {
        pulseWidth := p.RollServoCenter;
      }
      rollServoOutput := PyText.Trunc(pulseWidth);
    }

    /** `HAL_SetConfig`: the record is copied and the GPS UART restarted at
        the selected speed. */
    method SetConfig(c: HalConfig)
      modifies this`config, this`gpsBaud
      ensures config == c && gpsBaud == BaudRateFor(c.gpsBaudRate)
    {
      config := c;
      if c.gpsBaudRate == 1 {
        gpsBaud := 19200;
      } else if c.gpsBaudRate == 2 {
        gpsBaud := 38400;
      } else {
        gpsBaud := 9600;
      }
    }

    /** `HAL_SetErrorCallback`, with or without a callback. */
    method SetErrorCallback(present: bool)
      modifies this`hasErrorCallback
      ensures hasErrorCallback == present
    {
      hasErrorCallback := present;
    }

    /** `HAL_ReportError`: the error is latched and, when a callback is
        installed, handed to it. */
    method ReportError(e: HalError)
      modifies this`lastError, this`reportedErrors
      ensures lastError == e
      ensures reportedErrors == if hasErrorCallback then old(reportedErrors) + [e] else old(reportedErrors)
    {
      lastError := e;
      if hasErrorCallback {
        reportedErrors := reportedErrors + [e];
      }
    }

    /** `HAL_GetLastError`. */
    method GetLastError() returns (e: HalError)
      ensures e == lastError
    {
      e := lastError;
    }

    /** `HAL_ClearError`. */
    method ClearError()
      modifies this`lastError
      ensures lastError == ErrorNone
    {
      lastError := ErrorNone;
    }
  }

  /** `HAL_ReadGPS`: copy pending UART bytes while fewer than `maxBytes - 1`
      have been copied, then write a NUL after them. `maxBytes - 1` wraps
      on `uint32_t` when `maxBytes` is 0, so the caller must pass at least
      1; the buffer must hold `maxBytes` bytes. */
  method ReadGps(pending: seq<Byte>, buffer: array<Byte>, maxBytes: nat) returns (bytesRead: nat)
    requires 1 <= maxBytes <= buffer.Length
    modifies buffer
    ensures bytesRead == if |pending| < maxBytes - 1 then |pending| else maxBytes - 1
    ensures bytesRead < maxBytes
    ensures buffer[..bytesRead] == pending[..bytesRead] && buffer[bytesRead] == 0
    ensures forall j :: bytesRead < j < buffer.Length ==> buffer[j] == old(buffer[j])
  {
    bytesRead := 0;
    while bytesRead < |pending| && bytesRead < maxBytes - 1
      invariant bytesRead <= |pending| && bytesRead <= maxBytes - 1
      invariant buffer[..bytesRead] == pending[..bytesRead]
      invariant forall j :: bytesRead <= j < buffer.Length ==> buffer[j] == old(buffer[j])
    {
      buffer[bytesRead] := pending[bytesRead];
      bytesRead := bytesRead + 1;
    }
    buffer[bytesRead] := 0;
  }
}

=== FILE: math_utils.dfy ===
/** The autopilot's small numeric utilities: saturation, dead band, rate
    limiting, a hysteresis latch, running statistics, a 32-slot circular
    buffer with a running sum, and a one-dimensional lookup table.
    Single-precision floats are modelled as `real`. */
module MathUtils {

  function Abs(x: real): (r: real)
    ensures r >= 0.0 && (r == x || r == -x)
  {
    if x < 0.0 then -x else x
  }

  // ---------------------------------------------------------------------
  // Pure helpers

  /** Clamp `input` to `[min, max]`; below `min` wins when the bounds cross. */
  function Saturate(input: real, min: real, max: real): (r: real)
    ensures min <= max ==> min <= r <= max
    ensures min <= input <= max ==> r == input
    ensures input < min ==> r == min
    ensures min <= input && max < input ==> r == max
  {
    if input < min then min else if input > max then max else input
  }

  /** Clamping twice is clamping once. */
  lemma SaturateIdempotent(x: real, min: real, max: real)
    requires min <= max
    ensures Saturate(Saturate(x, min, max), min, max) == Saturate(x, min, max)
  {
  }

  /** Inputs inside the band give zero; outside it the input is moved
      toward zero by the band's width. */
  function DeadBand(input: real, deadband: real): (r: real)
    ensures Abs(input) < deadband ==> r == 0.0
    ensures deadband >= 0.0 ==> Abs(r) <= Abs(input) && r * input >= 0.0
    ensures deadband >= 0.0 && Abs(input) >= deadband ==> Abs(r) == Abs(input) - deadband
  {
    if Abs(input) < deadband then 0.0
    else if input > 0.0 then input - deadband
    else input + deadband
  }

  /** Move `current` toward `desired` by at most `maxRate * deltaTime`. */
  function RateLimitFilter(desired: real, current: real, maxRate: real, deltaTime: real): (r: real)
    ensures maxRate <= 0.0 || deltaTime <= 0.0 ==> r == desired
    ensures maxRate > 0.0 && deltaTime > 0.0 ==> Abs(r - current) <= maxRate * deltaTime
    ensures Abs(desired - current) <= maxRate * deltaTime ==> r == desired
    ensures (current <= r <= desired) || (desired <= r <= current)
  {
    if maxRate <= 0.0 || deltaTime <= 0.0 then desired
    else
      var error := desired - current;
      var maxChange := maxRate * deltaTime;
      if error > maxChange then current + maxChange
      else if error < -maxChange then current - maxChange
      else desired
  }

  /** The latch's next state: it sets above `threshold` and clears below
      `-threshold`. */
  function NextLatch(state: bool, input: real, threshold: real): (next: bool)
    ensures !state && next ==> input > threshold
    ensures state && !next ==> input < -threshold
    ensures !state && input > threshold ==> next
    ensures state && input < -threshold ==> !next
  {
    if !state && input > threshold then true
    else if state && input < -threshold then false
    else state
  }

  /** Inside the band `[-threshold, threshold]` the latch holds. */
  lemma LatchHoldsInBand(state: bool, input: real, threshold: real)
    requires -threshold <= input <= threshold
    ensures NextLatch(state, input, threshold) == state
  {
  }

  /** Linear interpolation through `(x1, y1)` and `(x2, y2)`; nearly
      coincident abscissae give `y1`. */
  function LinearInterp(x: real, x1: real, y1: real, x2: real, y2: real): real
  {
    if Abs(x2 - x1) < 0.000001 then y1 else y1 + (y2 - y1) * (x - x1) / (x2 - x1)
  }

  /** Between its two abscissae the interpolant stays between the two
      ordinates. */
  lemma InterpBetween(x: real, x1: real, y1: real, x2: real, y2: real)
    requires x1 <= x <= x2
    ensures var r := LinearInterp(x, x1, y1, x2, y2);
      (y1 <= r <= y2) || (y2 <= r <= y1)
  {
    if Abs(x2 - x1) >= 0.000001 {
      var d := x2 - x1;
      var t := (x - x1) / d;
      MulDivAssoc(y2 - y1, x - x1, d);
      FractionInUnit(x - x1, d);
      ScaleBetween(y2 - y1, t);
    }
  }

  /** Dividing after scaling is scaling the quotient. */
  lemma MulDivAssoc(a: real, n: real, d: real)
    requires d != 0.0
    ensures a * n / d == a * (n / d)
  {
    var q := n / d;
    assert q * d == n;
    assert a * n == (a * q) * d;
  }

  /** A part of a positive whole is a fraction between 0 and 1. */
  lemma FractionInUnit(n: real, d: real)
    requires 0.0 <= n <= d && d > 0.0
    ensures 0.0 <= n / d <= 1.0
  {
    var t := n / d;
    assert t * d == n;
  }

  lemma ScaleBetween(a: real, t: real)
    requires 0.0 <= t <= 1.0
    ensures a >= 0.0 ==> 0.0 <= a * t <= a
    ensures a < 0.0 ==> a <= a * t <= 0.0
  {
    if a >= 0.0 {
      assert a * t <= a * 1.0;
    } else {
      assert (-a) * t <= -a;
    }
  }

  // ---------------------------------------------------------------------
  // Lookup table

  /** The first `i >= from` whose interval `[inputs[i], inputs[i+1]]`
      holds `input`, or `size - 1` when there is none. */
  function FirstBracket(inputs: seq<real>, size: int, input: real, from: nat): (j: nat)
    requires 1 <= size <= |inputs| && from <= size - 1
    ensures from <= j <= size - 1
    ensures j < size - 1 ==> inputs[j] <= input <= inputs[j + 1]
    ensures forall i :: from <= i < j ==> !(inputs[i] <= input <= inputs[i + 1])
    decreases size - from
  {
    if from == size - 1 then from
    else if inputs[from] <= input <= inputs[from + 1] then from
    else FirstBracket(inputs, size, input, from + 1)
  }

  /** `LookupTable1D`: clamp outside the table's inputs, otherwise
      interpolate over the first interval that holds the input. */
  method LookupTable1D(table: seq<real>, inputs: seq<real>, size: int, input: real) returns (r: real)
    requires size <= |table| && size <= |inputs|
    ensures size <= 0 ==> r == 0.0
    ensures size == 1 ==> r == table[0]
    ensures size >= 2 && input <= inputs[0] ==> r == table[0]
    ensures size >= 2 && inputs[0] < input && inputs[size - 1] <= input ==> r == table[size - 1]
    ensures size >= 2 && inputs[0] < input < inputs[size - 1] ==>
      var j := FirstBracket(inputs, size, input, 0);
      r == if j < size - 1 then LinearInterp(input, inputs[j], table[j], inputs[j + 1], table[j + 1]) else table[size - 1]
  {
    if size < 2 {
      return if size == 1 then table[0] else 0.0;
    }
    if input <= inputs[0] {
      return table[0];
    }
    if input >= inputs[size - 1] {
      return table[size - 1];
    }
    var i := 0;
    while i < size - 1
      invariant 0 <= i <= size - 1
      invariant FirstBracket(inputs, size, input, 0) == FirstBracket(inputs, size, input, i)
    {
      if input >= inputs[i] && input <= inputs[i + 1] {
        return LinearInterp(input, inputs[i], table[i], inputs[i + 1], table[i + 1]);
      }
      i := i + 1;
    }
    return table[size - 1];
  }

  /** With non-decreasing inputs, an input strictly inside the table's
      range always finds its interval, and the result lies between that
      interval's two table entries. */
  lemma LookupInsideInterpolates(table: seq<real>, inputs: seq<real>, size: int, input: real)
    requires 2 <= size <= |table| && size <= |inputs|
    requires forall i, k :: 0 <= i <= k < size ==> inputs[i] <= inputs[k]
    requires inputs[0] < input < inputs[size - 1]
    ensures var j := FirstBracket(inputs, size, input, 0);
      && j < size - 1
      && var r := LinearInterp(input, inputs[j], table[j], inputs[j + 1], table[j + 1]);
         (table[j] <= r <= table[j + 1]) || (table[j + 1] <= r <= table[j])
  {
    BracketExists(inputs, size, input, 0);
    var j := FirstBracket(inputs, size, input, 0);
    InterpBetween(input, inputs[j], table[j], inputs[j + 1], table[j + 1]);
  }

  lemma {:induction false} BracketExists(inputs: seq<real>, size: int, input: real, from: nat)
    requires 2 <= size <= |inputs| && from < size - 1
    requires forall i, k :: 0 <= i <= k < size ==> inputs[i] <= inputs[k]
    requires inputs[from] <= input < inputs[size - 1]
    ensures FirstBracket(inputs, size, input, from) < size - 1
    decreases size - from
  {
    if !(inputs[from] <= input <= inputs[from + 1]) {
      assert input > inputs[from + 1];
      if from + 1 == size - 1 {
        assert false;
      } else {
        BracketExists(inputs, size, input, from + 1);
      }
    }
  }

  // ---------------------------------------------------------------------
  // Sums over samples

  function Total(s: seq<real>): real
  {
    if |s| == 0 then 0.0 else Total(s[..|s| - 1]) + s[|s| - 1]
  }

  function TotalSquares(s: seq<real>): real
  {
    if |s| == 0 then 0.0 else TotalSquares(s[..|s| - 1]) + s[|s| - 1] * s[|s| - 1]
  }

  /** The sum of squared deviations from `m`. */
  function Deviation(s: seq<real>, m: real): real
  {
    if |s| == 0 then 0.0 else Deviation(s[..|s| - 1], m) + (s[|s| - 1] - m) * (s[|s| - 1] - m)
  }

  /** Overwriting one slot changes the total by the difference. */
  lemma {:induction false} TotalUpdate(s: seq<real>, i: nat, v: real)
    requires i < |s|
    ensures Total(s[i := v]) == Total(s) - s[i] + v
    decreases |s|
  {
    var n := |s| - 1;
    if i < n {
      assert s[i := v][..n] == s[..n][i := v];
      TotalUpdate(s[..n], i, v);
    } else {
      assert s[i := v][..n] == s[..n];
    }
  }

  /** Zero slots after position `k` add nothing. */
  lemma {:induction false} TotalZeroTail(s: seq<real>, k: nat)
    requires k <= |s|
    requires forall i :: k <= i < |s| ==> s[i] == 0.0
    ensures Total(s) == Total(s[..k])
    decreases |s|
  {
    if |s| > k {
      TotalZeroTail(s[..|s| - 1], k);
      assert s[..|s| - 1][..k] == s[..k];
    } else {
      assert s[..k] == s;
    }
  }

  /** The one-pass formula: the squared deviations from `m` expand into
      the sums of squares and of samples. */
  lemma {:induction false} DeviationExpands(s: seq<real>, m: real)
    ensures Deviation(s, m) == TotalSquares(s) - 2.0 * m * Total(s) + |s| as real * m * m
    decreases |s|
  {
    if |s| > 0 {
      var n := |s| - 1;
      DeviationExpands(s[..n], m);
      var init := s[..n];
      ExpandStep(Deviation(init, m), TotalSquares(init), Total(init), n as real, s[n], m,
                 Deviation(s, m), TotalSquares(s), Total(s), |s| as real);
    }
  }

  /** One more sample keeps the expansion: the algebra of a single step,
      from the sums `d`, `q`, `t` over `c` samples to `d'`, `q'`, `t'`
      over `c'`. */
  lemma ExpandStep(d: real, q: real, t: real, c: real, x: real, m: real, d': real, q': real, t': real, c': real)
    requires d == q - 2.0 * m * t + c * m * m
    requires d' == d + (x - m) * (x - m) && q' == q + x * x && t' == t + x && c' == c + 1.0
    ensures d' == q' - 2.0 * m * t' + c' * m * m
  {
    assert (x - m) * (x - m) == x * x - 2.0 * m * x + m * m;
  }

  /** With `m` the mean, the two variance formulas agree: the two-pass sum
      of squared deviations equals `sumSquares - sum * mean`. */
  lemma OnePassVariance(s: seq<real>, m: real)
    requires |s| > 0 && m == Total(s) / |s| as real
    ensures Deviation(s, m) == TotalSquares(s) - Total(s) * m
  {
    DeviationExpands(s, m);
    MeanTimesCount(Total(s), |s| as real, m);
  }

  /** `n * (t / n) == t`, kept apart from the sums. */
  lemma MeanTimesCount(t: real, n: real, m: real)
    requires n > 0.0 && m == t / n
    ensures n * m * m == t * m
  {
    assert n * m == t;
  }

  // ---------------------------------------------------------------------
  // The hysteresis latch

  /** `Hysteresis` with its `bool*` state held by an object. */
  class Latch {
    var state: bool

    constructor (initial: bool)
      ensures state == initial
    {
      state := initial;
    }

    method Hysteresis(input: real, threshold: real) returns (out: real)
      modifies this
      ensures state == NextLatch(old(state), input, threshold)
      ensures out == if state then 1.0 else 0.0
    {
      if !state && input > threshold {
        state := true;
      } else if state && input < -threshold {
        state := false;
      }
      out := if state then 1.0 else 0.0;
    }
  }

  // ---------------------------------------------------------------------
  // uint32_t arithmetic

  const Uint32Modulus: int := 0x1_0000_0000

  /** `now - last` on `uint32_t`: the milliseconds elapsed between two
      readings of `millis()`. */
  function Elapsed(last: nat, now: nat): (e: nat)
    ensures e < Uint32Modulus
  {
    (now - last) % Uint32Modulus
  }

  /** The elapsed time survives the millisecond counter wrapping: a true
      gap below 2^32 ms is recovered exactly. */
  lemma ElapsedAcrossWrap(last: nat, gap: nat)
    requires last < Uint32Modulus && gap < Uint32Modulus
    ensures Elapsed(last, (last + gap) % Uint32Modulus) == gap
  {
    var now := (last + gap) % Uint32Modulus;
    if last + gap >= Uint32Modulus {
      assert now == last + gap - Uint32Modulus;
      assert now - last == gap - Uint32Modulus;
    }
  }

  // ---------------------------------------------------------------------
  // Running statistics

  /** `Statistics_t`: sums kept sample by sample; `samples` is the model's
      record of what was added. */
  class Statistics {
    var sum: real
    var sumSquares: real
    var count: nat
    var mean: real
    var variance: real
    var stdDev: real
    ghost var samples: seq<real>

    ghost predicate Valid()
      reads this
    {
      sum == Total(samples) && sumSquares == TotalSquares(samples)
      && count == |samples| % Uint32Modulus
    }

    constructor ()
      ensures Valid() && samples == []
      ensures mean == 0.0 && variance == 0.0 && stdDev == 0.0
    {
      sum, sumSquares, count := 0.0, 0.0, 0;
      mean, variance, stdDev := 0.0, 0.0, 0.0;
      samples := [];
    }

    /** `Stats_Init` and `Stats_Reset`. */
    method Reset()
      modifies this
      ensures Valid() && samples == []
      ensures mean == 0.0 && variance == 0.0 && stdDev == 0.0
    {
      sum, sumSquares, count := 0.0, 0.0, 0;
      mean, variance, stdDev := 0.0, 0.0, 0.0;
      samples := [];
    }

    /** The sample count is a `uint32_t` and wraps. */
    method AddSample(sample: real)
      requires Valid()
      modifies this
      ensures Valid() && samples == old(samples) + [sample]
      ensures mean == old(mean) && variance == old(variance) && stdDev == old(stdDev)
    {
      sum := sum + sample;
      sumSquares := sumSquares + sample * sample;
      count := (count + 1) % Uint32Modulus;
      samples := samples + [sample];
      assert samples[..|samples| - 1] == old(samples);
    }

    /** `Stats_Compute`; the square root is the C library's and is passed in. */
    method Compute(sqrt: real -> real)
      requires Valid()
      modifies this
      ensures Valid() && samples == old(samples)
      ensures count == 0 ==> mean == old(mean) && variance == old(variance) && stdDev == old(stdDev)
      ensures count > 0 ==> mean == sum / count as real
      ensures count == 1 ==> variance == 0.0 && stdDev == 0.0
      ensures count > 1 ==> variance == OnePass(sumSquares, sum, mean, count) && stdDev == sqrt(variance)
      ensures 1 < count == |samples| ==> variance == Deviation(samples, mean) / (count - 1) as real
    {
      if count > 0 {
        var m := sum / count as real;
        mean := m;
        if count > 1 {
          var v := OnePass(sumSquares, sum, m, count);
          if count == |samples| {
            SampleVariance(samples, sum, sumSquares, m);
          }
          variance := v;
          stdDev := sqrt(v);
        } else {
          variance := 0.0;
          stdDev := 0.0;
        }
      }
    }
  }

  /** The variance as `Stats_Compute` writes it, from the running sums. */
  function OnePass(sumSquares: real, sum: real, mean: real, count: nat): real
    requires count > 1
  {
    (sumSquares - sum * mean) / (count - 1) as real
  }

  lemma SampleVariance(s: seq<real>, sum: real, sumSquares: real, m: real)
    requires |s| > 1 && sum == Total(s) && sumSquares == TotalSquares(s) && m == sum / |s| as real
    ensures OnePass(sumSquares, sum, m, |s|) == Deviation(s, m) / (|s| - 1) as real
  {
    OnePassVariance(s, m);
    OnePassQuotient(sumSquares, sum, m, Deviation(s, m), |s|);
  }

  lemma OnePassQuotient(sumSquares: real, sum: real, m: real, d: real, count: nat)
    requires count > 1 && d == sumSquares - sum * m
    ensures OnePass(sumSquares, sum, m, count) == d / (count - 1) as real
  {
  }

  // ---------------------------------------------------------------------
  // The circular buffer

  const BufferSize: nat := 32

  /** `CircularBuffer_t`: 32 slots, the next write position, the number of
      samples held (at most 32) and their running sum. */
  class CircularBuffer {
    const buffer: array<real>
    var index: nat
    var count: nat
    var sum: real
    var full: bool

    predicate Valid()
      reads this, buffer
    {
      && buffer.Length == BufferSize
      && index < BufferSize && count <= BufferSize
      && (full <==> count == BufferSize)
      && (!full ==> index == count)
      && (forall i :: count <= i < BufferSize ==> buffer[i] == 0.0)
      && sum == Total(buffer[..])
    }

    constructor ()
      ensures Valid() && fresh(buffer)
      ensures count == 0 && sum == 0.0
    {
      buffer := new real[BufferSize];
      new;
      Init();
    }

    /** `CircularBuffer_Init`: every slot zeroed, nothing held. */
    method Init()
      requires buffer.Length == BufferSize
      modifies this, buffer
      ensures Valid()
      ensures count == 0 && index == 0 && sum == 0.0 && !full
      ensures forall i :: 0 <= i < BufferSize ==> buffer[i] == 0.0
    {
      index := 0;
      count := 0;
      sum := 0.0;
      full := false;
      for i := 0 to BufferSize
        invariant index == 0 && count == 0 && sum == 0.0 && !full
        invariant forall j :: 0 <= j < i ==> buffer[j] == 0.0
      {
        buffer[i] := 0.0;
      }
      TotalZeroTail(buffer[..], 0);
    }

    /** `CircularBuffer_Add`: the value goes into the slot at the old index,
        evicting what was there once the buffer is full. */
    method Add(value: real)
      requires Valid()
      modifies this, buffer
      ensures Valid()
      ensures buffer[..] == old(buffer[..])[old(index) := value]
      ensures index == (old(index) + 1) % BufferSize
      ensures count == if old(full) then BufferSize else old(count) + 1
    {
      TotalUpdate(buffer[..], index, value);
      if full {
        sum := sum - buffer[index];
      } else {
        count := count + 1;
        if count == BufferSize {
          full := true;
        }
      }
      buffer[index] := value;
      sum := sum + value;
      index := (index + 1) % BufferSize;
    }

    /** `CircularBuffer_Mean`: the mean of the samples held, 0 when empty. */
    method Mean() returns (m: real)
      requires Valid()
      ensures count == 0 ==> m == 0.0
      ensures count > 0 ==> m == Total(buffer[..count]) / count as real
    {
      TotalZeroTail(buffer[..], count);
      if count == 0 {
        return 0.0;
      }
      m := sum / count as real;
    }

    /** `CircularBuffer_Variance`: two-pass sample variance of the samples
        held, 0 with fewer than two. */
    method Variance() returns (v: real)
      requires Valid()
      ensures count < 2 ==> v == 0.0
      ensures count >= 2 ==> v == Deviation(buffer[..count], Total(buffer[..count]) / count as real) / (count - 1) as real
    {
      if count < 2 {
        return 0.0;
      }
      var mean := Mean();
      var sumSquares := 0.0;
      for i := 0 to count
        invariant sumSquares == Deviation(buffer[..i], mean)
      {
        assert buffer[..i + 1][..i] == buffer[..i];
        var diff := buffer[i] - mean;
        sumSquares := sumSquares + diff * diff;
      }
      v := sumSquares / (count - 1) as real;
    }
  }
}

=== FILE: mobile_flight_sequencer.dfy ===
/** The mobile application's FlightSequencer tab: six range-checked setters
    that send one-letter commands, the buttons that send fixed commands,
    and the parser that keeps a parameter store from the board's replies.
    The widgets are reduced to the texts they show. */
module MobileFlightSequencer {
  import opened PyText
  import opened Regex
  import opened ParameterMonitoring
  import opened SerialComm

  /** The six settable parameters. */
  datatype Setting = MotorTime | FlightTime | MotorSpeed | DtRetracted | DtDeployed | DtDwell

  /** The command letter(s) sent for a setting. */
  function Prefix(s: Setting): string
  {
    match s
    case MotorTime => "M"
    case FlightTime => "T"
    case MotorSpeed => "S"
    case DtRetracted => "DR"
    case DtDeployed => "DD"
    case DtDwell => "DW"
  }

  /** The inclusive range a setting accepts. */
  function Low(s: Setting): int
  {
    match s
    case MotorTime => 1
    case FlightTime => 10
    case MotorSpeed => 95
    case DtRetracted => 950
    case DtDeployed => 950
    case DtDwell => 1
  }

  function High(s: Setting): int
  {
    match s
    case MotorTime => 300
    case FlightTime => 600
    case MotorSpeed => 200
    case DtRetracted => 2050
    case DtDeployed => 2050
    case DtDwell => 60
  }

  /** The status shown for a value outside the range. */
  function RangeError(s: Setting): string
  {
    match s
    case MotorTime => "Error: Motor time must be 1-300 sec"
    case FlightTime => "Error: Flight time must be 10-600 sec"
    case MotorSpeed => "Error: Motor speed must be 95-200"
    case DtRetracted => "Error: DT retracted must be 950-2050 us"
    case DtDeployed => "Error: DT deployed must be 950-2050 us"
    case DtDwell => "Error: DT dwell must be 1-60 sec"
  }

  /** The status shown for text `float()` rejects. */
  function InvalidError(s: Setting): string
  {
    match s
    case MotorTime => "Error: Invalid motor time value"
    case FlightTime => "Error: Invalid flight time value"
    case MotorSpeed => "Error: Invalid motor speed value"
    case DtRetracted => "Error: Invalid DT retracted value"
    case DtDeployed => "Error: Invalid DT deployed value"
    case DtDwell => "Error: Invalid DT dwell value"
  }

  /** What a setter decides: a command to send, or a status to show. */
  datatype Outcome = Send(command: string) | Report(status: string)

  /** `_set_<setting>(value)`: `int(float(value))`, then the range check. */
  function SetterOutcome(s: Setting, value: string): (o: Outcome)
    ensures IntOfFloatText(value).None? ==> o == Report(InvalidError(s))
    ensures o.Send? <==> IntOfFloatText(value).Some? && Low(s) <= IntOfFloatText(value).value <= High(s)
    ensures o.Report? ==> o.status == InvalidError(s) || o.status == RangeError(s)
  {
    var n := IntOfFloatText(value);
    if n.None? then Report(InvalidError(s))
    else if Low(s) <= n.value <= High(s) then Send(Prefix(s) + " " + IntToStr(n.value))
    else Report(RangeError(s))
  }

  /** A sent command is the prefix, a space and a number the board reads
      back as the truncated value, which lies in the setting's range. */
  lemma SetterCommandReadsBack(s: Setting, value: string)
    requires SetterOutcome(s, value).Send?
    ensures var c := SetterOutcome(s, value).command;
      && |c| > |Prefix(s)| + 1
      && c[..|Prefix(s)| + 1] == Prefix(s) + " "
      && ParseInt(c[|Prefix(s)| + 1..]) == IntOfFloatText(value)
      && Low(s) <= IntOfFloatText(value).value <= High(s)
  {
    var n := IntOfFloatText(value).value;
    var c := SetterOutcome(s, value).command;
    assert c == (Prefix(s) + " ") + IntToStr(n);
    assert c[|Prefix(s)| + 1..] == IntToStr(n);
    IntToStrRoundTrip(n);
  }

  // ---------------------------------------------------------------------
  // Parsing the board's replies

  /** The parameter store; `None` until a value has been seen. */
  datatype FlightParams = FlightParams(
    motorRunTime: Option<int>, totalFlightTime: Option<int>, motorSpeed: Option<int>,
    dtRetracted: Option<int>, dtDeployed: Option<int>, dtDwell: Option<int>,
    currentPhase: string)

  const InitialParams: FlightParams := FlightParams(None, None, None, None, None, None, "UNKNOWN")

  /** `[:\s=]` */
  const Separator: Class := Either(Either(Chr(':'), Space), Chr('='))

  /** `<name>[:\s=]+(\d+)` under IGNORECASE. */
  function LabelValue(name: string): Pattern
  {
    Pattern([Lit(name) + [Plus(Separator)] + Cap(1, [Plus(Digit)])], true)
  }

  /** `int(m.group(1))` for the first match of the name's pattern. */
  function Reading(name: string, data: string): Option<int>
  {
    var g := SearchGroup(LabelValue(name), data, 1);
    if g.None? then None else ParseInt(g.value)
  }

  /** A one-word pattern under IGNORECASE. */
  function Word(w: string): Pattern { Pattern([Lit(w)], true) }

  /** The phase chain: the first keyword found decides; none keeps it. */
  function PhaseOf(data: string, current: string): string
  {
    if Matches(Word("READY"), data) then "READY"
    else if Matches(Word("ARMED"), data) then "ARMED"
    else if Matches(Word("MOTOR"), data) then "MOTOR_RUN"
    else if Matches(Word("GLIDE"), data) then "GLIDE"
    else if Matches(Word("DT_DEPLOY"), data) then "DT_DEPLOY"
    else current
  }

  function Update(prev: Option<int>, r: Option<int>): Option<int>
  {
    if r.Some? then r else prev
  }

  /** `_parse_parameters(data)`. */
  function ParseLine(p: FlightParams, data: string): FlightParams
  {
    FlightParams(
      Update(p.motorRunTime, Reading("Motor Run Time", data)),
      Update(p.totalFlightTime, Reading("Total Flight Time", data)),
      Update(p.motorSpeed, Reading("Motor Speed", data)),
      Update(p.dtRetracted, Reading("DT Retracted", data)),
      Update(p.dtDeployed, Reading("DT Deployed", data)),
      Update(p.dtDwell, Reading("DT Dwell", data)),
      PhaseOf(data, p.currentPhase))
  }

  /** A line holding the label, separator characters and a run of digits
      (not followed by another digit) sets the field to those digits'
      value. */
  lemma LabelledValueRead(name: string, sep: string, digits: string, rest: string)
    requires |sep| > 0 && forall j :: 0 <= j < |sep| ==> ClassMatches(Separator, sep[j], true)
    requires |digits| > 0 && AllDigits(digits)
    requires rest == [] || !IsDigit(rest[0])
    ensures Reading(name, name + sep + digits + rest) == Some(DigitsValue(digits))
  {
    var s := name + sep + digits + rest;
    var p, q := |name|, |name| + |sep|;
    var e := q + |digits|;
    FourParts(name, sep, digits, rest);
    SeparatorRun(s, p, sep);
    DigitRun(s, q, digits);
    calc {
      Reading(name, s);
      { ReadingFromStart(name, s, q, e); }
      ParseInt(s[q..e]);
      ParseInt(digits);
      { ParseIntOfDigits(digits); }
      Some(DigitsValue(digits));
    }
  }

  /** The label at the start, then the two runs: the reading is the digits. */
  lemma ReadingFromStart(name: string, s: string, q: nat, e: nat)
    requires |name| < q < e <= |s| && s[..|name|] == name
    requires Run(Separator, s, |name|, true) == q - |name| && Run(Digit, s, q, true) == e - q
    ensures Reading(name, s) == ParseInt(s[q..e])
  {
    var pat := LabelValue(name);
    var tail := [Plus(Separator)] + Cap(1, [Plus(Digit)]);
    assert pat.alts[0] == Lit(name) + tail;
    WordAtOfExact(name, s, 0);
    LitThen(name, tail, s, 0, true, map[], map[]);
    TailMatches(s, |name|, q, e);
    assert MatchAt(pat, s, 0, 0) == Some(Match(0, e, map[1 := (q, e)]));
    assert Search(pat, s) == Some(Match(0, e, map[1 := (q, e)]));
  }

  /** `[:\s=]+` stops at the first digit. */
  lemma SeparatorRun(s: string, p: nat, sep: string)
    requires p + |sep| < |s| && s[p..p + |sep|] == sep && IsDigit(s[p + |sep|])
    requires forall j :: 0 <= j < |sep| ==> ClassMatches(Separator, sep[j], true)
    ensures Run(Separator, s, p, true) == |sep|
  {
    var n := Run(Separator, s, p, true);
    DigitNotSeparator(s[p + |sep|]);
  }

  lemma DigitNotSeparator(c: char)
    requires IsDigit(c)
    ensures !ClassMatches(Separator, c, true)
  {
    assert LowerChar(c) == c && LowerChar(':') == ':' && LowerChar('=') == '=';
    assert !IsSpace(c);
    assert !ClassMatches(Chr(':'), c, true) && !ClassMatches(Space, c, true) && !ClassMatches(Chr('='), c, true);
  }

  /** `\d+` takes every digit of the run. */
  lemma DigitRun(s: string, q: nat, digits: string)
    requires q + |digits| <= |s| && s[q..q + |digits|] == digits && AllDigits(digits)
    requires q + |digits| == |s| || !IsDigit(s[q + |digits|])
    ensures Run(Digit, s, q, true) == |digits|
  {
  }

  /** After the label, the separator run and the captured digit run match. */
  lemma TailMatches(s: string, p: nat, q: nat, e: nat)
    requires p < q < e <= |s|
    requires Run(Separator, s, p, true) == q - p && Run(Digit, s, q, true) == e - q
    ensures MatchHere([Plus(Separator)] + Cap(1, [Plus(Digit)]), s, p, true, map[], map[])
            == Some(Found(e, map[1 := (q, e)]))
  {
    var tail := [Plus(Separator)] + Cap(1, [Plus(Digit)]);
    var close: seq<Node> := [Close(1)];
    assert tail[1..] == [Open(1), Plus(Digit), Close(1)];
    assert [Open(1), Plus(Digit), Close(1)][1..] == [Plus(Digit), Close(1)];
    assert [Plus(Digit), Close(1)][1..] == close;
    assert MatchHere(close, s, e, true, map[1 := q], map[]) == Some(Found(e, map[1 := (q, e)]));
    assert Greedy(close, s, q, e - q, 1, true, map[1 := q], map[]) == Some(Found(e, map[1 := (q, e)]));
    assert MatchHere([Plus(Digit), Close(1)], s, q, true, map[1 := q], map[]) == Some(Found(e, map[1 := (q, e)]));
    assert MatchHere(tail[1..], s, q, true, map[], map[]) == Some(Found(e, map[1 := (q, e)]));
    assert Greedy(tail[1..], s, p, q - p, 1, true, map[], map[]) == Some(Found(e, map[1 := (q, e)]));
  }

  /** A field whose pattern does not match keeps its value. */
  lemma UnmatchedFieldKept(p: FlightParams, data: string)
    requires Reading("Motor Run Time", data).None?
    ensures ParseLine(p, data).motorRunTime == p.motorRunTime
  {
  }

  /** "DISARMED" contains "ARMED": such a line reads as ARMED unless it
      also says READY. */
  lemma DisarmedReadsArmed(data: string, at: nat, current: string)
    requires WordAt("DISARMED", data, at, true)
    requires !Matches(Word("READY"), data)
    ensures PhaseOf(data, current) == "ARMED"
  {
    WordAtSuffix("DISARMED", 3, data, at, true);
    assert "DISARMED"[3..] == "ARMED";
    LiteralSearch("ARMED", data, true);
  }

  /** A line without any of the five keywords leaves the phase alone. */
  lemma PhaseKeptWithoutKeyword(data: string, current: string)
    requires forall i :: 0 <= i <= |data| ==>
      && !WordAt("READY", data, i, true) && !WordAt("ARMED", data, i, true)
      && !WordAt("MOTOR", data, i, true) && !WordAt("GLIDE", data, i, true)
      && !WordAt("DT_DEPLOY", data, i, true)
    ensures PhaseOf(data, current) == current
  {
    LiteralSearch("READY", data, true);
    LiteralSearch("ARMED", data, true);
    LiteralSearch("MOTOR", data, true);
    LiteralSearch("GLIDE", data, true);
    LiteralSearch("DT_DEPLOY", data, true);
  }

  // ---------------------------------------------------------------------
  // The display

  /** The value each parameter row shows; `None` while it was never set. */
  datatype Rows = Rows(
    motorTime: Option<int>, flightTime: Option<int>, motorSpeed: Option<int>,
    dtRetracted: Option<int>, dtDeployed: Option<int>, dtDwell: Option<int>)

  /** `_sync_gui`: a row is written only for a parameter that is not None. */
  function Synced(r: Rows, p: FlightParams): Rows
  {
    Rows(Update(r.motorTime, p.motorRunTime), Update(r.flightTime, p.totalFlightTime),
         Update(r.motorSpeed, p.motorSpeed), Update(r.dtRetracted, p.dtRetracted),
         Update(r.dtDeployed, p.dtDeployed), Update(r.dtDwell, p.dtDwell))
  }

  /** Syncing twice shows the same as syncing once, and every known
      parameter is on display afterwards. */
  lemma SyncedShowsStore(r: Rows, p: FlightParams)
    ensures Synced(Synced(r, p), p) == Synced(r, p)
    ensures p.motorRunTime.Some? ==> Synced(r, p).motorTime == p.motorRunTime
    ensures p.motorRunTime.None? ==> Synced(r, p).motorTime == r.motorTime
  {
  }

  class FlightSequencerTab {
    const monitor: MobileSerialMonitor
    var flightParams: FlightParams
    var rows: Rows
    var statusLabel: string
    var phaseLabel: string

    /** The tab registers its handler (numbered `handlerId`) with the link. */
    constructor (m: MobileSerialMonitor, handlerId: nat)
      modifies m`receiveCallbacks
      ensures monitor == m && m.receiveCallbacks == old(m.receiveCallbacks) + [handlerId]
      ensures flightParams == InitialParams && rows == Rows(None, None, None, None, None, None)
      ensures statusLabel == "Status: Disconnected" && phaseLabel == "Phase: UNKNOWN"
    {
      monitor := m;
      flightParams := InitialParams;
      rows := Rows(None, None, None, None, None, None);
      statusLabel := "Status: Disconnected";
      phaseLabel := "Phase: UNKNOWN";
      new;
      m.AddReceiveCallback(handlerId);
    }

    /** `_send_command`: queued only on a connected link. */
    method SendCommand(command: string)
      modifies monitor`writeQueue, this`statusLabel
      ensures monitor.isConnected ==>
        (monitor.writeQueue == old(monitor.writeQueue) + [command + "\n"] && statusLabel == old(statusLabel))
      ensures !monitor.isConnected ==>
        (monitor.writeQueue == old(monitor.writeQueue) && statusLabel == "Status: Not Connected")
    {
      if monitor.isConnected {
        monitor.SendLine(command);
      } else {
        statusLabel := "Status: Not Connected";
      }
    }

    /** Any of the six setters. */
    method Set(s: Setting, value: string)
      modifies monitor`writeQueue, this`statusLabel
      ensures var o := SetterOutcome(s, value);
        if o.Report? then monitor.writeQueue == old(monitor.writeQueue) && statusLabel == o.status
        else if monitor.isConnected then
          monitor.writeQueue == old(monitor.writeQueue) + [o.command + "\n"] && statusLabel == old(statusLabel)
        else monitor.writeQueue == old(monitor.writeQueue) && statusLabel == "Status: Not Connected"
    {
      var n := IntOfFloatText(value);
      if n.None? {
        statusLabel := InvalidError(s);
      } else if Low(s) <= n.value <= High(s) {
        SendCommand(Prefix(s) + " " + IntToStr(n.value));
      } else {
        statusLabel := RangeError(s);
      }
    }

    /** `_download_data`: the status is overwritten whether or not the
        command went out. */
    method DownloadData()
      modifies monitor`writeQueue, this`statusLabel
      ensures monitor.writeQueue == old(monitor.writeQueue) + (if monitor.isConnected then ["D J\n"] else [])
      ensures statusLabel == "Status: Downloading flight data..."
    {
      SendCommand("D J");
      assert "D J" + "\n" == "D J\n";
      statusLabel := "Status: Downloading flight data...";
    }

    /** `_emergency_stop`. */
    method EmergencyStop()
      modifies monitor`writeQueue, this`statusLabel
      ensures monitor.writeQueue == old(monitor.writeQueue) + (if monitor.isConnected then ["STOP\n"] else [])
      ensures statusLabel == "Status: EMERGENCY STOP SENT"
    {
      SendCommand("STOP");
      assert "STOP" + "\n" == "STOP\n";
      statusLabel := "Status: EMERGENCY STOP SENT";
    }

    /** `_parse_parameters`: each matching name overwrites its field, then
        the phase chain runs. */
    method ParseParameters(data: string)
      modifies this`flightParams
      ensures flightParams == ParseLine(old(flightParams), data)
    {
      var r := Reading("Motor Run Time", data);
      if r.Some? { flightParams := flightParams.(motorRunTime := r); }
      r := Reading("Total Flight Time", data);
      if r.Some? { flightParams := flightParams.(totalFlightTime := r); }
      r := Reading("Motor Speed", data);
      if r.Some? { flightParams := flightParams.(motorSpeed := r); }
      r := Reading("DT Retracted", data);
      if r.Some? { flightParams := flightParams.(dtRetracted := r); }
      r := Reading("DT Deployed", data);
      if r.Some? { flightParams := flightParams.(dtDeployed := r); }
      r := Reading("DT Dwell", data);
      if r.Some? { flightParams := flightParams.(dtDwell := r); }
      flightParams := flightParams.(currentPhase := PhaseOf(data, flightParams.currentPhase));
    }

    /** `_sync_gui`. */
    method SyncGui()
      modifies this`rows, this`phaseLabel, this`statusLabel
      ensures rows == Synced(old(rows), flightParams)
      ensures phaseLabel == "Phase: " + flightParams.currentPhase
      ensures statusLabel == if monitor.isConnected then "Status: Connected" else old(statusLabel)
    {
      if flightParams.motorRunTime.Some? { rows := rows.(motorTime := flightParams.motorRunTime); }
      if flightParams.totalFlightTime.Some? { rows := rows.(flightTime := flightParams.totalFlightTime); }
      if flightParams.motorSpeed.Some? { rows := rows.(motorSpeed := flightParams.motorSpeed); }
      if flightParams.dtRetracted.Some? { rows := rows.(dtRetracted := flightParams.dtRetracted); }
      if flightParams.dtDeployed.Some? { rows := rows.(dtDeployed := flightParams.dtDeployed); }
      if flightParams.dtDwell.Some? { rows := rows.(dtDwell := flightParams.dtDwell); }
      phaseLabel := "Phase: " + flightParams.currentPhase;
      if monitor.isConnected {
        statusLabel := "Status: Connected";
      }
    }

    /** `handle_serial_data`. */
    method HandleSerialData(data: string)
      modifies this`flightParams, this`rows, this`phaseLabel, this`statusLabel
      ensures flightParams == ParseLine(old(flightParams), data)
      ensures rows == Synced(old(rows), flightParams)
      ensures phaseLabel == "Phase: " + flightParams.currentPhase
      ensures statusLabel == if monitor.isConnected then "Status: Connected" else old(statusLabel)
    {
      ParseParameters(data);
      SyncGui();
    }
  }
}

=== FILE: mobile_gps_autopilot.dfy ===
/** The mobile application's GpsAutopilot tab: six buttons that send fixed
    commands (dropped silently while disconnected) and the per-line readout
    of fix, satellites, position, range and bearing. Numbers are kept as
    values; their fixed-point formatting is not modelled. */
module MobileGpsAutopilot {
  import opened PyText
  import opened Regex
  import opened SerialComm
  import opened GpsAutopilotTab

  /** The buttons of the tab. */
  datatype Action = SetDatum | ClearDatum | Arm | Disarm | GetParams | Emergency

  function ActionCommand(a: Action): string
  {
    match a
    case SetDatum => "NAV SET_DATUM"
    case ClearDatum => "NAV CLEAR_DATUM"
    case Arm => "CTRL ARM"
    case Disarm => "CTRL DISARM"
    case GetParams => "GET ALL"
    case Emergency => "SYS EMERGENCY"
  }

  /** What the tab shows. */
  datatype Readout = Readout(
    gpsFix: string, satellites: int,
    n: real, e: real, u: real,
    range: real, bearing: real)

  const InitialReadout: Readout := Readout("No Fix", 0, 0.0, 0.0, 0.0, 0.0, 0.0)

  /** The fix text after a line: plain substring tests, "Fix OK" first.
      The texts "fix.*true" and "fix.*false" are looked for literally. */
  function FixAfter(fix: string, data: string): string
  {
    if Contains(data, "Fix OK") || Contains(Lower(data), "fix.*true") then "Fix OK"
    else if Contains(data, "No Fix") || Contains(Lower(data), "fix.*false") then "No Fix"
    else fix
  }

  /** `Satellites:\s*(\d+)` under IGNORECASE. */
  const SatOnly: Pattern := Pattern([SatAlt], true)

  /** The count after a line: `int()` of the digits, when matched. */
  function SatAfter(sats: int, data: string): int
  {
    var sat := SearchGroup(SatOnly, data, 1);
    if sat.Some? then Keep(sats, ParseInt(sat.value)) else sats
  }

  /** `handle_serial_data`: each reading changes only when its pattern matched. */
  function Step(r: Readout, data: string): Readout
  {
    var n, e, u := FloatGroup(PosPattern, data, 1), FloatGroup(PosPattern, data, 2), FloatGroup(PosPattern, data, 3);
    var rg, br := FloatGroup(AfterWord("range"), data, 1), FloatGroup(AfterWord("bearing"), data, 1);
    var moved := n.Some? && e.Some? && u.Some?;
    Readout(
      FixAfter(r.gpsFix, data),
      SatAfter(r.satellites, data),
      if moved then n.value else r.n,
      if moved then e.value else r.e,
      if moved then u.value else r.u,
      Keep(r.range, rg),
      Keep(r.bearing, br))
  }

  /** Without a '*' in the line, the literal "fix.*..." tests never fire:
      only "Fix OK" and "No Fix", in that order, change the fix text. */
  lemma FixNeedsLiteralStar(fix: string, data: string)
    requires '*' !in data
    ensures FixAfter(fix, data) ==
      if Contains(data, "Fix OK") then "Fix OK" else if Contains(data, "No Fix") then "No Fix" else fix
  {
    NoStarInLower(data, "fix.*true", 4);
    NoStarInLower(data, "fix.*false", 4);
  }

  /** A lowered text contains a word with a '*' only where the text has one. */
  lemma NoStarInLower(data: string, w: string, k: nat)
    requires '*' !in data && k < |w| && w[k] == '*'
    ensures !Contains(Lower(data), w)
  {
  }

  /** A line with both "Fix OK" and "No Fix" reads as Fix OK. */
  lemma FixOkFirst(fix: string, data: string)
    requires Contains(data, "Fix OK")
    ensures FixAfter(fix, data) == "Fix OK"
  {
  }

  /** The position moves as a whole: either all three components keep their
      values, or all three take the captured numbers. */
  lemma PositionMovesTogether(r: Readout, data: string)
    ensures var s := Step(r, data);
      || (s.n == r.n && s.e == r.e && s.u == r.u)
      || (FloatGroup(PosPattern, data, 1) == Some(s.n) && FloatGroup(PosPattern, data, 2) == Some(s.e)
          && FloatGroup(PosPattern, data, 3) == Some(s.u))
  {
  }

  /** A "Satellites:" line sets the count to its digits. */
  lemma SatellitesLineSets(r: Readout, blanks: string, digits: string, rest: string)
    requires forall j :: 0 <= j < |blanks| ==> IsSpace(blanks[j])
    requires |digits| > 0 && AllDigits(digits)
    requires rest == [] || !IsDigit(rest[0])
    ensures SatAfter(r.satellites, "Satellites:" + blanks + digits + rest) == DigitsValue(digits)
  {
    var data := "Satellites:" + blanks + digits + rest;
    var q := 11 + |blanks|;
    var e := q + |digits|;
    FourParts("Satellites:", blanks, digits, rest);
    BlankRun(data, 11, blanks);
    DigitRunAt(data, q, digits);
    SatOnlyFromStart(data, q, e);
    ParseIntOfDigits(digits);
  }

  lemma SatOnlyFromStart(data: string, q: nat, e: nat)
    requires 11 <= q < e <= |data| && data[..11] == "Satellites:"
    requires Run(Space, data, 11, true) == q - 11 && Run(Digit, data, q, true) == e - q
    ensures SearchGroup(SatOnly, data, 1) == Some(data[q..e])
  {
    SatAltMatches(data, q, e);
    assert MatchAt(SatOnly, data, 0, 0) == Some(Match(0, e, map[1 := (q, e)]));
    assert Search(SatOnly, data) == Some(Match(0, e, map[1 := (q, e)]));
  }

  class AutopilotTab {
    const monitor: MobileSerialMonitor
    var readout: Readout
    var gpsLabel: string
    var satLabel: string

    /** The tab registers its handler (numbered `handlerId`) with the link. */
    constructor (m: MobileSerialMonitor, handlerId: nat)
      modifies m`receiveCallbacks
      ensures monitor == m && m.receiveCallbacks == old(m.receiveCallbacks) + [handlerId]
      ensures readout == InitialReadout
      ensures gpsLabel == "GPS: No Fix" && satLabel == "Satellites: 0"
    {
      monitor := m;
      readout := InitialReadout;
      gpsLabel := "GPS: No Fix";
      satLabel := "Satellites: 0";
      new;
      m.AddReceiveCallback(handlerId);
    }

    /** `_send_command` behind every button: nothing happens while the link
        is down. */
    method Press(a: Action)
      modifies monitor`writeQueue
      ensures monitor.writeQueue ==
        if monitor.isConnected then old(monitor.writeQueue) + [ActionCommand(a) + "\n"] else old(monitor.writeQueue)
    {
      if monitor.isConnected {
        monitor.SendLine(ActionCommand(a));
      }
    }

    /** `handle_serial_data`: the readings, then the labels. */
    method HandleSerialData(data: string)
      modifies this`readout, this`gpsLabel, this`satLabel
      ensures readout == Step(old(readout), data)
      ensures gpsLabel == "GPS: " + readout.gpsFix
      ensures satLabel == "Satellites: " + IntToStr(readout.satellites)
    {
      readout := readout.(gpsFix := FixAfter(readout.gpsFix, data));
      var sat := SearchGroup(SatOnly, data, 1);
      if sat.Some? {
        var k := ParseInt(sat.value);
        if k.Some? {
          readout := readout.(satellites := k.value);
        }
      }
      var n, e, u := FloatGroup(PosPattern, data, 1), FloatGroup(PosPattern, data, 2), FloatGroup(PosPattern, data, 3);
      if n.Some? && e.Some? && u.Some? {
        readout := readout.(n := n.value, e := e.value, u := u.value);
      }
      var rg := FloatGroup(AfterWord("range"), data, 1);
      if rg.Some? {
        readout := readout.(range := rg.value);
      }
      var br := FloatGroup(AfterWord("bearing"), data, 1);
      if br.Some? {
        readout := readout.(bearing := br.value);
      }
      gpsLabel := "GPS: " + readout.gpsFix;
      satLabel := "Satellites: " + IntToStr(readout.satellites);
    }
  }
}

=== FILE: navigation.dfy ===
/** The autopilot's GPS front end: NMEA characters are assembled into
    sentences in a static 128-byte buffer, `$GPGGA`/`$GNGGA` and
    `$GPRMC`/`$GNRMC` sentences are tokenised with `strtok` and written
    into the navigation state, and the fix is checked for age and range.
    `millis()` is the parameter `now`; `cos` is a parameter because the
    trigonometry is outside the model. */
module Navigation {
  import opened PyText
  import opened CText
  import opened MathUtils
  import opened Config

  /** `sizeof(gpsBuffer)`. */
  const GpsBufferSize: nat := 128
  /** The longest sentence the buffer keeps (one byte holds the NUL). */
  const MaxSentence: nat := 127
  const GpsTimeoutMs: nat := 5000
  const MetersPerDegreeLat: real := 111320.0
  const DegToRad: real := Pi / 180.0
  const KnotsToMps: real := 0.514444
  const GgaMaxTokens: nat := 15
  const RmcMaxTokens: nat := 12
  /** `Nav_ValidatePosition`'s range limit, in metres. */
  const MaxRangeFromDatum: real := 10000.0

  /** `NavigationState_t`. */
  datatype NavigationState = NavigationState(
    north: real, east: real, altitude: real,
    groundSpeed: real, groundTrack: real, heading: real,
    datumLat: real, datumLon: real, datumAlt: real,
    rangeFromDatum: real, bearingToDatum: real,
    gpsValid: bool, datumSet: bool, lastGpsUpdate: nat)

  /** What a parser returns: whether the sentence was used, and the state
      it leaves behind. */
  datatype ParseResult = ParseResult(ok: bool, st: NavigationState)

  // ---------------------------------------------------------------------
  // Coordinates

  /** `GPS_ConvertDMToDD`: `DDMM.MMMM` to decimal degrees, with the
      degrees taken by the `(int)` cast, which truncates toward zero. */
  function ConvertDMToDD(degMin: real): real
  {
    var degrees := Trunc(degMin / 100.0);
    degrees as real + (degMin - degrees as real * 100.0) / 60.0
  }

  /** Whole degrees and minutes below 100 are read back as degrees plus
      minutes over sixty. */
  lemma DMToDDSplitsDegrees(d: nat, m: real)
    requires 0.0 <= m < 100.0
    ensures ConvertDMToDD(100.0 * d as real + m) == d as real + m / 60.0
  {
    var x := 100.0 * d as real + m;
    assert x / 100.0 == d as real + m / 100.0;
    assert Trunc(x / 100.0) == d;
  }

  /** The conversion is odd: a negated reading converts to the negated
      degrees. */
  lemma DMToDDOdd(x: real)
    ensures ConvertDMToDD(-x) == -ConvertDMToDD(x)
  {
    assert -x / 100.0 == -(x / 100.0);
    TruncOdd(x / 100.0);
  }

  lemma TruncOdd(r: real)
    ensures Trunc(-r) == -Trunc(r)
  {
    if r > 0.0 {
      assert -r < 0.0;
    } else if r < 0.0 {
      assert -r > 0.0;
    }
  }

  /** `GPS_ConvertToMeters`: the flat-earth offsets of a position from a
      datum. */
  function ConvertToMeters(lat: real, lon: real, datumLat: real, datumLon: real, cos: real -> real): (ne: (real, real))
    ensures lat == datumLat && lon == datumLon ==> ne.0 == 0.0 && ne.1 == 0.0
  {
    var scale := MetersPerDegreeLat * cos(datumLat * DegToRad);
    ((lat - datumLat) * MetersPerDegreeLat, (lon - datumLon) * scale)
  }

  // ---------------------------------------------------------------------
  // GGA

  /** The fields of a GGA sentence the parser reads, by token position. */
  datatype GgaFields = GgaFields(lat: real, lon: real, altitude: real, quality: int, satellites: int, hdop: real)

  predicate TokensNonEmpty(tokens: seq<string>) {
    forall i :: 0 <= i < |tokens| ==> |tokens[i]| > 0
  }

  function ReadGga(tokens: seq<string>): (g: GgaFields)
    requires |tokens| >= 10 && TokensNonEmpty(tokens)
  {
    var lat := ConvertDMToDD(Atof(tokens[2]));
    var lon := ConvertDMToDD(Atof(tokens[4]));
    GgaFields(
      if tokens[3][0] == 'S' then -lat else lat,
      if tokens[5][0] == 'W' then -lon else lon,
      Atof(tokens[9]), Atoi(tokens[6]), Atoi(tokens[7]), Atof(tokens[8]))
  }

  /** The fix-quality test: a fix, at least four satellites and an HDOP
      below 3. */
  predicate FixAccepted(g: GgaFields) {
    g.quality > 0 && g.satellites >= GpsMinSatellites && g.hdop < GpsMaxHdop
  }

  /** The state update of `GPS_ParseGGA` once the sentence is tokenised. */
  function ApplyGga(st: NavigationState, tokens: seq<string>, cos: real -> real): (r: ParseResult)
    requires TokensNonEmpty(tokens)
    ensures r.ok <==> |tokens| >= 10 && FixAccepted(ReadGga(tokens))
    ensures !r.ok ==> r.st == st
    ensures r.ok ==>
      (r.st.datumLat == ReadGga(tokens).lat && r.st.datumLon == ReadGga(tokens).lon
       && r.st.altitude == ReadGga(tokens).altitude)
    ensures r.ok && st.datumSet ==> r.st.north == 0.0 && r.st.east == 0.0
    ensures r.ok ==> r.st.(datumLat := st.datumLat, datumLon := st.datumLon, altitude := st.altitude,
                            north := st.north, east := st.east) == st
    ensures r.ok && !st.datumSet ==> r.st.north == st.north && r.st.east == st.east
  {
    if |tokens| < 10 then ParseResult(false, st)
    else
      var g := ReadGga(tokens);
      if FixAccepted(g) then
        var s1 := st.(datumLat := g.lat, datumLon := g.lon, altitude := g.altitude);
        if st.datumSet then
          var ne := ConvertToMeters(g.lat, g.lon, s1.datumLat, s1.datumLon, cos);
          ParseResult(true, s1.(north := ne.0, east := ne.1))
        else ParseResult(true, s1)
      else ParseResult(false, st)
  }

  /** `strncpy` into the 128-byte work buffer keeps at most 127 characters. */
  function WorkCopy(sentence: string): (b: string)
    ensures |b| <= MaxSentence
  {
    Take(sentence, MaxSentence)
  }

  /** What `GPS_ParseGGA` does with a sentence. */
  function GgaStep(st: NavigationState, sentence: string, cos: real -> real): ParseResult
  {
    ApplyGga(st, Take(Tokens(WorkCopy(sentence), ','), GgaMaxTokens), cos)
  }

  /** `GPS_ParseGGA`: copy, tokenise (at most 15 tokens), then update. */
  method ParseGga(sentence: string, st: NavigationState, cos: real -> real) returns (r: ParseResult)
    ensures r == GgaStep(st, sentence, cos)
    ensures r.ok ==> |Tokens(WorkCopy(sentence), ',')| >= 10
  {
    var buffer := WorkCopy(sentence);
    var tokens := Tokenize(buffer, ',', GgaMaxTokens);
    r := ApplyGga(st, tokens, cos);
  }

  // ---------------------------------------------------------------------
  // RMC

  /** The guard `GPS_ParseRMC` applies before reading fields: at least 8
      tokens and a status token starting with `A`. */
  predicate RmcGuardPasses(tokens: seq<string>)
    requires TokensNonEmpty(tokens)
  {
    |tokens| >= 8 && tokens[2][0] == 'A'
  }

  /** `GPS_ParseRMC` as written: after the guard it reads `tokens[8]`, so
      an accepted sentence must have a ninth token. */
  function ApplyRmcAsWritten(st: NavigationState, tokens: seq<string>): (r: ParseResult)
    requires TokensNonEmpty(tokens)
    requires RmcGuardPasses(tokens) ==> |tokens| > 8
    ensures r.ok <==> RmcGuardPasses(tokens)
    ensures !r.ok ==> r.st == st
  {
    if !RmcGuardPasses(tokens) then ParseResult(false, st)
    else
      var track := Atof(tokens[8]) * DegToRad;
      ParseResult(true, st.(groundSpeed := Atof(tokens[7]) * KnotsToMps, groundTrack := track, heading := track))
  }

  /** The guard lets through sentences with exactly eight tokens, whose
      ninth token the parser then reads: any eight non-empty comma-free
      fields with status `A` joined by commas are such a sentence. */
  lemma RmcGuardAdmitsEightTokens(fields: seq<string>)
    requires |fields| == 8 && TokensNonEmpty(fields) && fields[2][0] == 'A'
    requires forall i :: 0 <= i < |fields| ==> ',' !in fields[i]
    ensures Tokens(Join(fields, ","), ',') == fields
    ensures RmcGuardPasses(Tokens(Join(fields, ","), ',')) && |Tokens(Join(fields, ","), ',')| == 8
  {
    TokensOfJoin(fields, ',');
  }

  /** The sentence `$GPRMC,123519,A,4807.038,N,01131.000,E,022.4` is one
      of them. */
  lemma RmcEightTokenWitness()
    ensures var fields := ["$GPRMC", "123519", "A", "4807.038", "N", "01131.000", "E", "022.4"];
      RmcGuardPasses(Tokens(Join(fields, ","), ',')) && |Tokens(Join(fields, ","), ',')| == 8
  {
    var fields := ["$GPRMC", "123519", "A", "4807.038", "N", "01131.000", "E", "022.4"];
    assert forall i :: 0 <= i < |fields| ==> ',' !in fields[i];
    RmcGuardAdmitsEightTokens(fields);
  }

  /** `strtok` gives back exactly the fields that were joined, when none
      is empty or holds the delimiter. */
  lemma TokensOfJoin(fields: seq<string>, d: char)
    requires |fields| >= 1 && TokensNonEmpty(fields)
    requires forall i :: 0 <= i < |fields| ==> d !in fields[i]
    ensures Tokens(Join(fields, [d]), d) == fields
  {
    SplitUnique(Join(fields, [d]), d, fields);
    TokensSkipEmptyFields(Join(fields, [d]), d);
    NonEmptyKeeps(fields);
  }

  lemma {:induction false} NonEmptyKeeps(fields: seq<string>)
    requires TokensNonEmpty(fields)
    ensures NonEmpty(fields) == fields
  {
    if |fields| > 0 {
      assert fields[0] != "";
      NonEmptyKeeps(fields[1..]);
    }
  }

  /** `GPS_ParseRMC` with the evidently intended guard: a sentence without
      a ninth (track) token is rejected like a short one. */
  function ApplyRmc(st: NavigationState, tokens: seq<string>): (r: ParseResult)
    requires TokensNonEmpty(tokens)
    ensures r.ok <==> RmcGuardPasses(tokens) && |tokens| > 8
    ensures !r.ok ==> r.st == st
    ensures r.ok ==> r.st == st.(groundSpeed := Atof(tokens[7]) * KnotsToMps,
                                 groundTrack := Atof(tokens[8]) * DegToRad,
                                 heading := Atof(tokens[8]) * DegToRad)
  {
    if !RmcGuardPasses(tokens) || |tokens| < 9 then ParseResult(false, st)
    else
      var track := Atof(tokens[8]) * DegToRad;
      ParseResult(true, st.(groundSpeed := Atof(tokens[7]) * KnotsToMps, groundTrack := track, heading := track))
  }

  /** Wherever the code as written is defined, the corrected parser does
      the same. */
  lemma RmcCorrectionAgrees(st: NavigationState, tokens: seq<string>)
    requires TokensNonEmpty(tokens)
    requires RmcGuardPasses(tokens) ==> |tokens| > 8
    ensures ApplyRmc(st, tokens) == ApplyRmcAsWritten(st, tokens)
  {
  }

  /** What `GPS_ParseRMC` does with a sentence. */
  function RmcStep(st: NavigationState, sentence: string): ParseResult
  {
    ApplyRmc(st, Take(Tokens(WorkCopy(sentence), ','), RmcMaxTokens))
  }

  /** `GPS_ParseRMC`: copy, tokenise (at most 12 tokens), then update. */
  method ParseRmc(sentence: string, st: NavigationState) returns (r: ParseResult)
    ensures r == RmcStep(st, sentence)
    ensures r.ok ==> |Tokens(WorkCopy(sentence), ',')| >= 9
  {
    var buffer := WorkCopy(sentence);
    var tokens := Tokenize(buffer, ',', RmcMaxTokens);
    r := ApplyRmc(st, tokens);
  }

  // ---------------------------------------------------------------------
  // Sentence dispatch

  datatype SentenceKind = Gga | Rmc | Other

  /** `GPS_ParseNMEA`'s dispatch on the first six characters. No checksum
      is looked at. */
  function Classify(sentence: string): (k: SentenceKind)
    ensures k == Gga <==> StartsWith(sentence, "$GPGGA") || StartsWith(sentence, "$GNGGA")
    ensures k == Rmc <==>
      (!StartsWith(sentence, "$GPGGA") && !StartsWith(sentence, "$GNGGA")
       && (StartsWith(sentence, "$GPRMC") || StartsWith(sentence, "$GNRMC")))
    ensures k != Other ==> |sentence| >= 6 && sentence[0] == '$'
  {
    if StartsWith(sentence, "$GPGGA") || StartsWith(sentence, "$GNGGA") then Gga
    else if StartsWith(sentence, "$GPRMC") || StartsWith(sentence, "$GNRMC") then Rmc
    else Other
  }

  /** The dispatch depends on the first six characters only. */
  lemma ClassifyByPrefix(a: string, b: string)
    requires |a| >= 6 && |b| >= 6 && a[..6] == b[..6]
    ensures Classify(a) == Classify(b)
  {
    assert forall p: string :: |p| == 6 ==> (StartsWith(a, p) <==> StartsWith(b, p));
  }

  function NmeaStep(st: NavigationState, sentence: string, cos: real -> real): (r: ParseResult)
    ensures Classify(sentence) == Other ==> r == ParseResult(false, st)
    ensures !r.ok ==> r.st == st
  {
    match Classify(sentence)
    case Gga => GgaStep(st, sentence, cos)
    case Rmc => RmcStep(st, sentence)
    case Other => ParseResult(false, st)
  }

  /** `GPS_ParseNMEA`. */
  method ParseNmea(sentence: string, st: NavigationState, cos: real -> real) returns (r: ParseResult)
    ensures r == NmeaStep(st, sentence, cos)
  {
    var kind := Classify(sentence);
    if kind == Gga {
      r := ParseGga(sentence, st, cos);
    } else if kind == Rmc {
      r := ParseRmc(sentence, st);
    } else {
      r := ParseResult(false, st);
    }
  }

  // ---------------------------------------------------------------------
  // Validation

  /** `Nav_ValidateGPSFix`: the last accepted sentence is less than 5 s
      old, with the millisecond counter wrapping. */
  function ValidateGpsFix(st: NavigationState, now: nat): (recent: bool)
    ensures recent <==> Elapsed(st.lastGpsUpdate, now) < GpsTimeoutMs
  {
    Elapsed(st.lastGpsUpdate, now) < GpsTimeoutMs
  }

  /** `Nav_ValidatePosition`: any position passes without a datum; with
      one, the range must be under 10 km. */
  function ValidatePosition(st: NavigationState): (ok: bool)
    ensures !st.datumSet ==> ok
    ensures st.datumSet ==> (ok <==> st.rangeFromDatum < MaxRangeFromDatum)
  {
    if st.datumSet then st.rangeFromDatum < MaxRangeFromDatum else true
  }

  /** `Nav_SetDatum`: only a valid fix captures the datum (the altitude;
      latitude and longitude are already those of the last fix). */
  function SetDatum(st: NavigationState): (r: NavigationState)
    ensures st.gpsValid ==> r == st.(datumAlt := st.altitude, datumSet := true)
    ensures !st.gpsValid ==> r == st
  {
    if st.gpsValid then st.(datumAlt := st.altitude, datumSet := true) else st
  }

  // ---------------------------------------------------------------------
  // Sentence assembly

  predicate IsTerminator(c: char) { c == '\r' || c == '\n' }

  /** The assembler's state between characters: the navigation state, the
      sentence collected so far and whether a sentence was used. */
  datatype Feed = Feed(st: NavigationState, partial: string, newData: bool)

  /** One character of `Nav_UpdateGPS`'s loop. A terminator hands a
      non-empty sentence (as a C string) to the parser and empties the
      buffer; other characters are kept while fewer than 127 are held. */
  function FeedChar(f: Feed, c: char, now: nat, cos: real -> real): (g: Feed)
    ensures |f.partial| <= MaxSentence ==> |g.partial| <= MaxSentence
    ensures IsTerminator(c) && f.partial == [] ==> g == f
    ensures IsTerminator(c) ==> g.partial == []
    ensures !IsTerminator(c) ==> g.st == f.st && g.newData == f.newData
    ensures !IsTerminator(c) && |f.partial| < MaxSentence ==> g.partial == f.partial + [c]
    ensures !IsTerminator(c) && |f.partial| >= MaxSentence ==> g == f
  {
    if IsTerminator(c) then
      if |f.partial| > 0 then
        var r := NmeaStep(f.st, CStr(f.partial), cos);
        Feed(if r.ok then r.st.(lastGpsUpdate := now) else r.st, "", f.newData || r.ok)
      else f
    else if |f.partial| < MaxSentence then f.(partial := f.partial + [c])
    else f
  }

  /** The characters fed one by one. */
  function FeedAll(f: Feed, cs: string, now: nat, cos: real -> real): (g: Feed)
    ensures |f.partial| <= MaxSentence ==> |g.partial| <= MaxSentence
    decreases |cs|
  {
    if |cs| == 0 then f else FeedChar(FeedAll(f, cs[..|cs| - 1], now, cos), cs[|cs| - 1], now, cos)
  }

  /** Feeding two chunks in turn is feeding their concatenation: a
      sentence may arrive split across calls. */
  lemma {:induction false} FeedAllAppend(f: Feed, a: string, b: string, now: nat, cos: real -> real)
    ensures FeedAll(f, a + b, now, cos) == FeedAll(FeedAll(f, a, now, cos), b, now, cos)
    decreases |b|
  {
    if |b| == 0 {
      assert a + b == a;
    } else {
      var init := b[..|b| - 1];
      assert (a + b)[..|a + b| - 1] == a + init;
      assert (a + b)[|a + b| - 1] == b[|b| - 1];
      FeedAllAppend(f, a, init, now, cos);
    }
  }

  /** Without a terminator, characters only accumulate, and everything
      past the 127th is dropped. */
  lemma {:induction false} FeedWithoutTerminator(f: Feed, cs: string, now: nat, cos: real -> real)
    requires |f.partial| <= MaxSentence
    requires forall i :: 0 <= i < |cs| ==> !IsTerminator(cs[i])
    ensures FeedAll(f, cs, now, cos) == f.(partial := Take(f.partial + cs, MaxSentence))
    decreases |cs|
  {
    if |cs| == 0 {
      assert f.partial + cs == f.partial;
    } else {
      var init := cs[..|cs| - 1];
      FeedWithoutTerminator(f, init, now, cos);
      var p := Take(f.partial + init, MaxSentence);
      assert (f.partial + cs)[..|f.partial + init|] == f.partial + init;
      if |p| < MaxSentence {
        assert p == f.partial + init;
        assert p + [cs[|cs| - 1]] == f.partial + cs;
      } else {
        assert (f.partial + cs)[..MaxSentence] == (f.partial + init)[..MaxSentence];
      }
    }
  }

  /** A whole line from an empty buffer: its first 127 characters are
      parsed as one sentence and the buffer is empty again. */
  lemma OneSentence(st: NavigationState, line: string, nd: bool, now: nat, cos: real -> real)
    requires |line| > 0 && forall i :: 0 <= i < |line| ==> !IsTerminator(line[i])
    ensures var g := FeedAll(Feed(st, "", nd), line + "\n", now, cos);
      var r := NmeaStep(st, CStr(Take(line, MaxSentence)), cos);
      g.partial == [] && g.newData == (nd || r.ok)
      && g.st == if r.ok then r.st.(lastGpsUpdate := now) else st
  {
    var f := Feed(st, "", nd);
    FeedWithoutTerminator(f, line, now, cos);
    assert [] + line == line;
    assert (line + "\n")[..|line|] == line;
  }

  /** `Nav_UpdateGPS`'s final step: a fix older than 5 s is marked
      invalid. */
  function TimeoutCheck(st: NavigationState, now: nat): (r: NavigationState)
    ensures r.gpsValid == (st.gpsValid && Elapsed(st.lastGpsUpdate, now) <= GpsTimeoutMs)
    ensures r.(gpsValid := st.gpsValid) == st
  {
    if Elapsed(st.lastGpsUpdate, now) > GpsTimeoutMs then st.(gpsValid := false) else st
  }

  /** `navParams`, `gpsBuffer` and `gpsBufferIndex`, the statics of
      navigation.cpp. */
  class GpsReceiver {
    var navParams: NavigationParams
    const gpsBuffer: array<char>
    var gpsBufferIndex: nat

    predicate Valid()
      reads this
    {
      gpsBuffer.Length == GpsBufferSize && gpsBufferIndex <= MaxSentence
    }

    /** The sentence collected so far. */
    function Partial(): string
      reads this, gpsBuffer
      requires Valid()
    {
      gpsBuffer[..gpsBufferIndex]
    }

    /** `Nav_Init`: keep the parameters, clear the buffer. */
    constructor (params: NavigationParams)
      ensures Valid() && fresh(gpsBuffer)
      ensures navParams == params && Partial() == []
      ensures forall i :: 0 <= i < gpsBuffer.Length ==> gpsBuffer[i] == '\0'
    {
      navParams := params;
      gpsBuffer := new char[GpsBufferSize](_ => '\0');
      gpsBufferIndex := 0;
    }

    /** One pass of `Nav_UpdateGPS`'s loop, on character `c`. */
    method FeedOne(c: char, st: NavigationState, newData: bool, now: nat, cos: real -> real)
      returns (newData': bool, st': NavigationState)
      requires Valid()
      modifies gpsBuffer, this`gpsBufferIndex
      ensures Valid()
      ensures Feed(st', Partial(), newData') == FeedChar(Feed(st, old(Partial()), newData), c, now, cos)
    {
      newData', st' := newData, st;
      if c == '\r' || c == '\n' {
        if gpsBufferIndex > 0 {
          gpsBuffer[gpsBufferIndex] := '\0';
          CStrAtNul(gpsBuffer[..], gpsBufferIndex);
          var r := ParseNmea(CStr(gpsBuffer[..]), st, cos);
          if r.ok {
            newData' := true;
            st' := r.st.(lastGpsUpdate := now);
          } else {
            st' := r.st;
          }
          gpsBufferIndex := 0;
        }
      } else if gpsBufferIndex < GpsBufferSize - 1 {
        gpsBuffer[gpsBufferIndex] := c;
        gpsBufferIndex := gpsBufferIndex + 1;
        assert Partial() == old(Partial()) + [c];
      }
    }

    /** `Nav_UpdateGPS`: feed the pending characters, parsing each
        completed sentence into the state, then apply the timeout. */
    method UpdateGps(st: NavigationState, incoming: string, now: nat, cos: real -> real)
      returns (newData: bool, result: NavigationState)
      requires Valid()
      modifies gpsBuffer, this`gpsBufferIndex
      ensures Valid()
      ensures var g := FeedAll(Feed(st, old(Partial()), false), incoming, now, cos);
        Partial() == g.partial && newData == g.newData && result == TimeoutCheck(g.st, now)
    {
      newData := false;
      result := st;
      ghost var start := Feed(st, old(Partial()), false);
      var i := 0;
      while i < |incoming|
        invariant Valid() && i <= |incoming|
        invariant Feed(result, Partial(), newData) == FeedAll(start, incoming[..i], now, cos)
      {
        assert incoming[..i + 1][..i] == incoming[..i];
        newData, result := FeedOne(incoming[i], result, newData, now, cos);
        i := i + 1;
      }
      assert incoming[..i] == incoming;
      result := TimeoutCheck(result, now);
    }
  }

  /** A NUL written after the collected characters ends the C string
      there (or earlier, at a NUL that was received). */
  lemma CStrAtNul(s: string, k: nat)
    requires k < |s| && s[k] == '\0'
    ensures CStr(s) == CStr(s[..k])
  {
    var j := IndexOf(s, '\0');
    assert j <= k;
    var t := s[..k];
    if j < k {
      assert t[j] == '\0';
      assert IndexOf(t, '\0') == j;
    } else {
      assert '\0' !in t;
    }
  }
}

=== FILE: parameter_monitor.dfy ===
/** The host's parameter monitor: it reassembles serial text into lines,
    extracts typed parameter values with an ordered table of patterns per
    firmware application, and guesses which application is talking. */
module ParameterMonitoring {
  import opened PyText
  import opened Regex

  /** The firmware applications the host knows about. */
  datatype AppType = FlightSequencer | GpsAutopilot | DeviceTest | Unknown

  /** A value stored under a parameter name. */
  datatype Value =
    | IntVal(i: int)
    | FloatVal(r: real)
    | StrVal(s: string)
    | BoolVal(b: bool)
    | Results(byTest: map<string, string>)   // the nested `test_results` table

  const TestResultsKey: string := "test_results"

  /** One entry of the parameter table: a key and the pattern that feeds it. */
  datatype Rule = Rule(name: string, pat: Pattern)

  // ---------------------------------------------------------------------
  // Pattern building blocks

  /** `(` nodes `)` as group `g`. */
  function Cap(g: nat, ns: seq<Node>): seq<Node> { [Open(g)] + ns + [Close(g)] }

  /** `\d*\.?\d+` */
  function DecimalNodes(): seq<Node> { [Star(Digit), Opt(Chr('.')), Plus(Digit)] }

  /** `tag.*?(\d*\.?\d+)` under IGNORECASE. */
  function LabelDecimal(tag: string): Pattern
  {
    Pattern([Lit(tag) + [Lazy(AnyChar)] + Cap(1, DecimalNodes())], true)
  }

  /** `tag.*?(-?\d*\.?\d+)` under IGNORECASE. */
  function LabelSignedDecimal(tag: string): Pattern
  {
    Pattern([Lit(tag) + [Lazy(AnyChar)] + Cap(1, [Opt(Chr('-'))] + DecimalNodes())], true)
  }

  /** `tag.*?(\d+)` under IGNORECASE. */
  function LabelInt(tag: string): Pattern
  {
    Pattern([Lit(tag) + [Lazy(AnyChar)] + Cap(1, [Plus(Digit)])], true)
  }

  /** `tag.*?([A-Z_]+)` under IGNORECASE. */
  function LabelName(tag: string): Pattern
  {
    Pattern([Lit(tag) + [Lazy(AnyChar)] + Cap(1, [Plus(UpperOrUnderscore)])], true)
  }

  /** `a.*b.*?(\d+)` under IGNORECASE. */
  function TwoLabelsInt(a: string, b: string): Pattern
  {
    Pattern([Lit(a) + [Star(AnyChar)] + Lit(b) + [Lazy(AnyChar)] + Cap(1, [Plus(Digit)])], true)
  }

  /** `tag:\s*(\d+)\s*seconds?` under IGNORECASE. */
  function SecondsPattern(tag: string): Pattern
  {
    Pattern([Lit(tag) + [Star(Space)] + Cap(1, [Plus(Digit)]) + [Star(Space)] + Lit("second") + [Opt(Chr('s'))]], true)
  }

  /** `ESC.*(armed|disarmed)` under IGNORECASE. */
  function EscArmedPattern(): Pattern
  {
    Pattern([Lit("ESC") + [Star(AnyChar)] + Cap(1, [Words(["armed", "disarmed"])])], true)
  }

  /** `(\w+).*test.*?(pass|fail)` under IGNORECASE. */
  function TestResultPattern(): Pattern
  {
    Pattern([Cap(1, [Plus(WordChar)]) + [Star(AnyChar)] + Lit("test") + [Lazy(AnyChar)] + Cap(2, [Words(["pass", "fail"])])], true)
  }

  /** `GPS.*fix.*?(true|false|ok|valid)` under IGNORECASE. */
  function GpsFixPattern(): Pattern
  {
    Pattern([Lit("GPS") + [Star(AnyChar)] + Lit("fix") + [Lazy(AnyChar)] + Cap(1, [Words(["true", "false", "ok", "valid"])])], true)
  }

  /** `Time.*?(\d+):(\d+)` under IGNORECASE. */
  function FlightTimerPattern(): Pattern
  {
    Pattern([Lit("Time") + [Lazy(AnyChar)] + Cap(1, [Plus(Digit)]) + [One(Chr(':'))] + Cap(2, [Plus(Digit)])], true)
  }

  /** The parameter table, in the order the monitor tries it. */
  function Rules(app: AppType): seq<Rule>
  {
    match app
    case FlightSequencer => [
      Rule("motor_run_time", SecondsPattern("Motor Run Time:")),
      Rule("total_flight_time", SecondsPattern("Total Flight Time:")),
      Rule("motor_speed", Pattern([Lit("Motor Speed:") + [Star(Space)] + Cap(1, [Plus(Digit)])], true)),
      Rule("current_phase", LabelName("Phase")),
      Rule("flight_timer", FlightTimerPattern()),
      Rule("flights_completed", LabelInt("Flight"))]
    case GpsAutopilot => [
      Rule("orbit_radius", LabelDecimal("Orbit Radius")),
      Rule("airspeed", LabelDecimal("Airspeed")),
      Rule("gps_rate", LabelInt("GPS Rate")),
      Rule("orbit_kp", LabelDecimal("Orbit Kp")),
      Rule("track_kp", LabelDecimal("Track Kp")),
      Rule("track_ki", LabelDecimal("Track Ki")),
      Rule("roll_kp", LabelDecimal("Roll Kp")),
      Rule("nav_mode", LabelName("Nav Mode")),
      Rule("flight_mode", LabelName("Flight Mode")),
      Rule("gps_fix", GpsFixPattern()),
      Rule("satellites", LabelInt("Satellite")),
      Rule("position_n", LabelSignedDecimal("North")),
      Rule("position_e", LabelSignedDecimal("East")),
      Rule("range_to_datum", LabelDecimal("Range")),
      Rule("bearing_to_datum", LabelDecimal("Bearing"))]
    case DeviceTest => [
      Rule("test_status", LabelName("Test")),
      Rule("test_result", TestResultPattern()),
      Rule("button_state", Pattern([Lit("Button") + [Lazy(AnyChar)] + Cap(1, [Words(["pressed", "released"])])], true)),
      Rule("gps_satellites", TwoLabelsInt("GPS", "satellites")),
      Rule("servo_position", TwoLabelsInt("Servo", "position")),
      Rule("esc_speed", TwoLabelsInt("ESC", "speed")),
      Rule("esc_armed", EscArmedPattern())]
    case Unknown => []
  }

  /** Keys whose captured text is stored upper-cased. */
  const NameKeys: seq<string> := ["current_phase", "nav_mode", "flight_mode", "test_status", "button_state", "esc_armed"]

  /** The effect one successful pattern match has on the map. */
  datatype Update =
    | Put(key: string, v: Value)
    | PutResult(test: string, result: string)
    | Skip      // the conversion raised ValueError/IndexError, which is swallowed

  /** Turn a match of the pattern for `name` into an update, following the
      type rules of the monitor. */
  function Convert(name: string, m: Match, line: string): (u: Update)
    ensures u.Put? ==> u.key == name && !u.v.Results?
    ensures Group(m, line, 1).None? ==> u == Skip
    ensures u.PutResult? <==> name == "test_result" && Group(m, line, 1).Some? && Group(m, line, 2).Some?
    ensures u.PutResult? ==> u.test == Upper(Group(m, line, 1).value) && u.result == Upper(Group(m, line, 2).value)
  {
    var g1 := Group(m, line, 1);
    if g1.None? then Skip
    else if name == "gps_fix" then Put(name, BoolVal(Lower(g1.value) in ["true", "ok", "valid"]))
    else if name in NameKeys then Put(name, StrVal(Upper(g1.value)))
    else if name == "flight_timer" then
      var g2 := Group(m, line, 2);
      if g2.None? then Skip else Put(name, StrVal(g1.value + ":" + g2.value))
    else if name == "test_result" then
      var g2 := Group(m, line, 2);
      if g2.None? then Skip else PutResult(Upper(g1.value), Upper(g2.value))
    else if '.' in g1.value then
      var f := ParseFloat(g1.value);
      if f.None? then Skip else Put(name, FloatVal(f.value))
    else
      var n := ParseInt(g1.value);
      if n.None? then Skip else Put(name, IntVal(n.value))
  }

  /** Only `test_results` holds the nested table, and it always does. */
  predicate WellFormed(params: map<string, Value>)
  {
    && (forall k :: k in params && params[k].Results? ==> k == TestResultsKey)
    && (TestResultsKey in params ==> params[TestResultsKey].Results?)
  }

  function ApplyUpdate(params: map<string, Value>, u: Update): map<string, Value>
    requires WellFormed(params)
    requires u.Put? ==> u.key != TestResultsKey && !u.v.Results?
  {
    match u
    case Put(k, v) => params[k := v]
    case PutResult(t, r) =>
      var table := if TestResultsKey in params then params[TestResultsKey].byTest else map[];
      params[TestResultsKey := Results(table[t := r])]
    case Skip => params
  }

  lemma ApplyUpdateWellFormed(params: map<string, Value>, u: Update)
    requires WellFormed(params)
    requires u.Put? ==> u.key != TestResultsKey && !u.v.Results?
    ensures WellFormed(ApplyUpdate(params, u))
  {
  }

  predicate RuleNamesOk(rules: seq<Rule>)
  {
    forall i :: 0 <= i < |rules| ==> rules[i].name != TestResultsKey
  }

  lemma RulesNamesOk(app: AppType)
    ensures RuleNamesOk(Rules(app))
  {
  }

  /** The map after trying one table entry on `line`. */
  function ApplyRule(params: map<string, Value>, r: Rule, line: string): (res: map<string, Value>)
    requires WellFormed(params) && r.name != TestResultsKey
    ensures WellFormed(res)
  {
    var m := Search(r.pat, line);
    if m.None? then params
    else
      var u := Convert(r.name, m.value, line);
      ApplyUpdateWellFormed(params, u);
      ApplyUpdate(params, u)
  }

  /** The map after trying every entry of `rules`, first to last. */
  function ApplyRules(params: map<string, Value>, rules: seq<Rule>, line: string): (res: map<string, Value>)
    requires WellFormed(params) && RuleNamesOk(rules)
    ensures WellFormed(res)
  {
    if rules == [] then params
    else ApplyRule(ApplyRules(params, rules[..|rules| - 1], line), rules[|rules| - 1], line)
  }

  /** `_check_for_parameters`: nothing is read while the application is
      unknown; otherwise every pattern of the current application is tried. */
  function CheckLine(params: map<string, Value>, app: AppType, line: string): (res: map<string, Value>)
    requires WellFormed(params)
    ensures WellFormed(res)
  {
    RulesNamesOk(app);
    if app == Unknown then params else ApplyRules(params, Rules(app), line)
  }

  // ---------------------------------------------------------------------
  // Application detection

  function FlightSequencerSigns(): Pattern
  {
    Pattern([Lit("FlightSequencer"), Lit("Motor Run Time"), Lit("Flight Time") + [Star(AnyChar)] + Lit("complete")], true)
  }

  function GpsAutopilotSigns(): Pattern
  {
    Pattern([Lit("GpsAutopilot"), Lit("Orbit") + [Star(AnyChar)] + Lit("Radius"),
             Lit("Nav") + [Star(AnyChar)] + Lit("Mode"), Lit("GPS") + [Star(AnyChar)] + Lit("fix")], true)
  }

  function DeviceTestSigns(): Pattern
  {
    Pattern([Lit("Device") + [Star(AnyChar)] + Lit("Test"), Lit("Running") + [Star(AnyChar)] + Lit("test"),
             Lit("Test") + [Star(AnyChar)] + Lit("PASS"), Lit("Test") + [Star(AnyChar)] + Lit("FAIL")], true)
  }

  /** Which application a line announces; the first family that matches
      wins. */
  function Detect(line: string): (t: AppType)
    ensures t == FlightSequencer <==> Matches(FlightSequencerSigns(), line)
    ensures t == GpsAutopilot <==> !Matches(FlightSequencerSigns(), line) && Matches(GpsAutopilotSigns(), line)
    ensures t == DeviceTest <==>
              !Matches(FlightSequencerSigns(), line) && !Matches(GpsAutopilotSigns(), line) && Matches(DeviceTestSigns(), line)
  {
    if Matches(FlightSequencerSigns(), line) then FlightSequencer
    else if Matches(GpsAutopilotSigns(), line) then GpsAutopilot
    else if Matches(DeviceTestSigns(), line) then DeviceTest
    else Unknown
  }

  // ---------------------------------------------------------------------
  // The monitor's observable state as a value

  datatype MonitorState = MonitorState(params: map<string, Value>, app: AppType)

  /** `set_application_type`: a change of type empties the map. */
  function SwitchTo(st: MonitorState, t: AppType): (r: MonitorState)
    ensures r.app == t
    ensures r.params == if t == st.app then st.params else map[]
  {
    if t != st.app then MonitorState(map[], t) else st
  }

  /** One complete line: stripped, skipped when blank, otherwise checked for
      parameters and then for an application announcement. */
  function ProcessLine(st: MonitorState, raw: string): MonitorState
    requires WellFormed(st.params)
  {
    var line := Strip(raw);
    if line == "" then st
    else
      var checked := MonitorState(CheckLine(st.params, st.app, line), st.app);
      var d := Detect(line);
      if d == Unknown then checked else SwitchTo(checked, d)
  }

  lemma ProcessLineWellFormed(st: MonitorState, raw: string)
    requires WellFormed(st.params)
    ensures WellFormed(ProcessLine(st, raw).params)
  {
  }

  function ProcessLines(st: MonitorState, lines: seq<string>): (r: MonitorState)
    requires WellFormed(st.params)
    ensures WellFormed(r.params)
  {
    if lines == [] then st
    else
      var before := ProcessLines(st, lines[..|lines| - 1]);
      ProcessLineWellFormed(before, lines[|lines| - 1]);
      ProcessLine(before, lines[|lines| - 1])
  }

  /** The complete lines carried by `text` (all but the last piece). */
  function CompleteLines(text: string): seq<string>
  {
    var pieces := Split(text, '\n');
    pieces[..|pieces| - 1]
  }

  /** The unterminated tail of `text`. */
  function Tail(text: string): string
  {
    var pieces := Split(text, '\n');
    pieces[|pieces| - 1]
  }

  // ---------------------------------------------------------------------
  // The monitor object

  class ParameterMonitor {
    var currentParameters: map<string, Value>
    var buffer: string
    var appType: AppType

    predicate Valid()
      reads this
    {
      WellFormed(currentParameters)
    }

    function State(): MonitorState
      reads this
    {
      MonitorState(currentParameters, appType)
    }

    constructor ()
      ensures Valid()
      ensures currentParameters == map[] && buffer == "" && appType == Unknown
    {
      currentParameters := map[];
      buffer := "";
      appType := Unknown;
    }

    method SetApplicationType(t: AppType)
      requires Valid()
      modifies this
      ensures Valid()
      ensures State() == SwitchTo(old(State()), t)
      ensures buffer == old(buffer)
    {
      if t != appType {
        appType := t;
        currentParameters := map[];
      }
    }

    method ProcessSerialData(data: string)
      requires Valid()
      modifies this
      ensures Valid()
      ensures buffer == Tail(old(buffer) + data) && '\n' !in buffer
      ensures old(buffer) + data == Terminated(CompleteLines(old(buffer) + data), "\n") + buffer
      ensures State() == ProcessLines(old(State()), CompleteLines(old(buffer) + data))
    {
      var text := buffer + data;
      var lines := Split(text, '\n');
      buffer := lines[|lines| - 1];
      LineReassembly(text);
      HandleLines(lines[..|lines| - 1]);
    }

    /** The loop over the complete lines, in order. */
    method HandleLines(complete: seq<string>)
      requires Valid()
      modifies this
      ensures Valid()
      ensures State() == ProcessLines(old(State()), complete)
      ensures buffer == old(buffer)
    {
      ghost var start := State();
      for i := 0 to |complete|
        invariant Valid()
        invariant buffer == old(buffer)
        invariant State() == ProcessLines(start, complete[..i])
      {
        assert complete[..i + 1][..i] == complete[..i];
        HandleLine(complete[i]);
      }
      assert complete[..|complete|] == complete;
    }

    /** The body of the line loop: a stripped, non-empty line is checked
        for parameters and then for an application announcement. */
    method HandleLine(raw: string)
      requires Valid()
      modifies this
      ensures Valid()
      ensures State() == ProcessLine(old(State()), raw)
      ensures buffer == old(buffer)
    {
      var line := Strip(raw);
      if line != "" {
        CheckForParameters(line);
        AutoDetectAppType(line);
      }
    }

    method AutoDetectAppType(line: string)
      requires Valid()
      modifies this
      ensures Valid()
      ensures var d := Detect(line);
              State() == if d == Unknown then old(State()) else SwitchTo(old(State()), d)
      ensures buffer == old(buffer)
    {
      if Matches(FlightSequencerSigns(), line) {
        if appType != FlightSequencer {
          SetApplicationType(FlightSequencer);
        }
      } else if Matches(GpsAutopilotSigns(), line) {
        if appType != GpsAutopilot {
          SetApplicationType(GpsAutopilot);
        }
      } else if Matches(DeviceTestSigns(), line) {
        if appType != DeviceTest {
          SetApplicationType(DeviceTest);
        }
      }
    }

    method CheckForParameters(line: string)
      requires Valid()
      modifies this
      ensures Valid()
      ensures currentParameters == CheckLine(old(currentParameters), old(appType), line)
      ensures appType == old(appType) && buffer == old(buffer)
    {
      if appType == Unknown {
        return;
      }
      RulesNamesOk(appType);
      ApplyTable(Rules(appType), line);
    }

    /** Try every entry of `rules` on `line`, in order. */
    method ApplyTable(rules: seq<Rule>, line: string)
      requires Valid() && RuleNamesOk(rules)
      modifies this
      ensures Valid()
      ensures currentParameters == ApplyRules(old(currentParameters), rules, line)
      ensures appType == old(appType) && buffer == old(buffer)
    {
      for i := 0 to |rules|
        invariant Valid()
        invariant currentParameters == ApplyRules(old(currentParameters), rules[..i], line)
        invariant appType == old(appType) && buffer == old(buffer)
      {
        assert rules[..i + 1][..i] == rules[..i];
        ApplyEntry(rules[i], line);
      }
      assert rules[..|rules|] == rules;
    }

    /** One entry of the table: search, convert, store. */
    method ApplyEntry(r: Rule, line: string)
      requires Valid() && r.name != TestResultsKey
      modifies this`currentParameters
      ensures Valid()
      ensures currentParameters == ApplyRule(old(currentParameters), r, line)
    {
      var m := Search(r.pat, line);
      if m.Some? {
        var u := Convert(r.name, m.value, line);
        match u
        case Put(k, v) =>
          currentParameters := currentParameters[k := v];
        case PutResult(t, res) =>
          if TestResultsKey !in currentParameters {
            currentParameters := currentParameters[TestResultsKey := Results(map[])];
          }
          var table := currentParameters[TestResultsKey].byTest;
          currentParameters := currentParameters[TestResultsKey := Results(table[t := res])];
        case Skip =>
      }
    }

    /** A copy of the map. */
    method GetParameters() returns (r: map<string, Value>)
      ensures r == currentParameters
    {
      r := currentParameters;
    }

    method GetParameter(name: string) returns (r: Option<Value>)
      ensures name in currentParameters ==> r == Some(currentParameters[name])
      ensures name !in currentParameters ==> r == None
    {
      r := if name in currentParameters then Some(currentParameters[name]) else None;
    }

    method ClearParameters()
      modifies this
      ensures Valid()
      ensures currentParameters == map[] && buffer == "" && appType == old(appType)
    {
      currentParameters := map[];
      buffer := "";
    }
  }

  // ---------------------------------------------------------------------
  // Properties

  /** Reassembly: the carried text is the complete lines, each followed by
      its newline, then the unterminated tail, which holds no newline. */
  lemma LineReassembly(text: string)
    ensures text == Terminated(CompleteLines(text), "\n") + Tail(text)
    ensures '\n' !in Tail(text)
  {
    var pieces := Split(text, '\n');
    assert pieces == pieces[..|pieces| - 1] + [pieces[|pieces| - 1]];
    JoinSnoc(pieces[..|pieces| - 1], pieces[|pieces| - 1], "\n");
  }

  /** Feeding text in two pieces yields the same complete lines as feeding
      it at once: the carried tail glues the pieces together. */
  lemma ReassemblyAcrossReads(a: string, b: string)
    ensures CompleteLines(a) + CompleteLines(Tail(a) + b) == CompleteLines(a + b)
    ensures Tail(Tail(a) + b) == Tail(a + b)
  {
    var pa := Split(a, '\n');
    var ta := pa[|pa| - 1];
    var tb := Split(ta + b, '\n');
    LineReassembly(a);
    LineReassembly(ta + b);
    var la, lb, tl := pa[..|pa| - 1], tb[..|tb| - 1], tb[|tb| - 1];
    var parts := GlueSplits(a, b, la, ta, lb, tl);
    SplitUnique(a + b, '\n', parts);
    InitAndLast(parts, la, lb, tl);
  }

  lemma InitAndLast(parts: seq<string>, la: seq<string>, lb: seq<string>, tl: string)
    requires parts == la + lb + [tl]
    ensures parts[..|parts| - 1] == la + lb && parts[|parts| - 1] == tl
  {
  }

  /** Gluing the pieces of `a` to the pieces of its tail followed by `b`
      gives separator-free pieces that join to `a + b`. */
  lemma GlueSplits(a: string, b: string, la: seq<string>, ta: string, lb: seq<string>, tl: string)
    returns (parts: seq<string>)
    requires a == Terminated(la, "\n") + ta
    requires ta + b == Terminated(lb, "\n") + tl
    requires forall i :: 0 <= i < |la| ==> '\n' !in la[i]
    requires forall i :: 0 <= i < |lb| ==> '\n' !in lb[i]
    requires '\n' !in tl
    ensures parts == la + lb + [tl]
    ensures Join(parts, "\n") == a + b
    ensures forall i :: 0 <= i < |parts| ==> '\n' !in parts[i]
  {
    parts := la + lb + [tl];
    TerminatedAppend(la, lb, "\n");
    JoinSnoc(la + lb, tl, "\n");
    var A := Terminated(la, "\n");
    var B := Terminated(lb, "\n");
    calc {
      a + b;
      (A + ta) + b;
      A + (ta + b);
      A + (B + tl);
      (A + B) + tl;
      Join(parts, "\n");
    }
    forall i | 0 <= i < |parts| ensures '\n' !in parts[i] {
      if i < |la| {
        assert parts[i] == la[i];
      } else if i < |la| + |lb| {
        assert parts[i] == lb[i - |la|];
      }
    }
  }

  lemma {:induction false} TerminatedAppend(xs: seq<string>, ys: seq<string>, sep: string)
    ensures Terminated(xs + ys, sep) == Terminated(xs, sep) + Terminated(ys, sep)
    decreases |xs|
  {
    if xs != [] {
      assert (xs + ys)[1..] == xs[1..] + ys;
      TerminatedAppend(xs[1..], ys, sep);
    } else {
      assert xs + ys == ys;
    }
  }

  /** Blank lines change nothing. */
  lemma BlankLineIgnored(st: MonitorState, raw: string)
    requires WellFormed(st.params)
    requires forall j :: 0 <= j < |raw| ==> IsSpace(raw[j])
    ensures ProcessLine(st, raw) == st
  {
    StripEmptyIff(raw);
  }

  /** A line that switches the application contributes no parameter: it is
      read under the old type, and then the map is emptied. */
  lemma SwitchingLineLeavesEmptyMap(st: MonitorState, raw: string)
    requires WellFormed(st.params)
    requires Strip(raw) != "" && Detect(Strip(raw)) != Unknown && Detect(Strip(raw)) != st.app
    ensures ProcessLine(st, raw) == MonitorState(map[], Detect(Strip(raw)))
  {
  }

  /** A line that announces nothing leaves the application type alone. */
  lemma NoAnnouncementKeepsType(st: MonitorState, raw: string)
    requires WellFormed(st.params)
    requires Strip(raw) == "" || Detect(Strip(raw)) == Unknown
    ensures ProcessLine(st, raw).app == st.app
  {
  }

  /** While the application is unknown, no key is ever written. */
  lemma {:induction false} UnknownReadsNothing(params: map<string, Value>, lines: seq<string>)
    requires WellFormed(params)
    requires forall i :: 0 <= i < |lines| ==> Strip(lines[i]) == "" || Detect(Strip(lines[i])) == Unknown
    ensures ProcessLines(MonitorState(params, Unknown), lines) == MonitorState(params, Unknown)
    decreases |lines|
  {
    if lines != [] {
      UnknownReadsNothing(params, lines[..|lines| - 1]);
    }
  }

  function Names(rules: seq<Rule>): seq<string>
  {
    seq(|rules|, i requires 0 <= i < |rules| => rules[i].name)
  }

  /** Trying a list of rules writes only their own keys and the nested
      results table. */
  lemma {:induction false} ApplyRulesFrame(params: map<string, Value>, rules: seq<Rule>, line: string, k: string)
    requires WellFormed(params) && RuleNamesOk(rules)
    requires k !in Names(rules) && k != TestResultsKey
    ensures k in ApplyRules(params, rules, line) <==> k in params
    ensures k in params ==> ApplyRules(params, rules, line)[k] == params[k]
    decreases |rules|
  {
    if rules != [] {
      var init := rules[..|rules| - 1];
      assert forall i :: 0 <= i < |init| ==> init[i].name == Names(rules)[i];
      assert Names(rules)[|rules| - 1] == rules[|rules| - 1].name;
      ApplyRulesFrame(params, init, line, k);
    }
  }

  /** No two table entries of one application share a key. */
  lemma RuleNamesDistinct(app: AppType)
    ensures forall i, j :: 0 <= i < j < |Rules(app)| ==> Rules(app)[i].name != Rules(app)[j].name
  {
    NamesAreKeys(app);
    KeysDistinct(app);
    forall i, j | 0 <= i < j < |Rules(app)|
      ensures Rules(app)[i].name != Rules(app)[j].name
    {
      assert Rules(app)[i].name == Keys(app)[i] && Rules(app)[j].name == Keys(app)[j];
    }
  }

  /** The keys of each application's table, in table order. */
  function Keys(app: AppType): seq<string>
  {
    match app
    case FlightSequencer => ["motor_run_time", "total_flight_time", "motor_speed", "current_phase", "flight_timer",
      "flights_completed"]
    case GpsAutopilot => ["orbit_radius", "airspeed", "gps_rate", "orbit_kp", "track_kp", "track_ki", "roll_kp",
      "nav_mode", "flight_mode", "gps_fix", "satellites", "position_n", "position_e", "range_to_datum",
      "bearing_to_datum"]
    case DeviceTest => ["test_status", "test_result", "button_state", "gps_satellites", "servo_position",
      "esc_speed", "esc_armed"]
    case Unknown => []
  }

  lemma NamesAreKeys(app: AppType)
    ensures Names(Rules(app)) == Keys(app)
  {
  }

  lemma KeysDistinct(app: AppType)
    ensures forall i, j :: 0 <= i < j < |Keys(app)| ==> Keys(app)[i] != Keys(app)[j]
  {
  }

  /** Last write wins: when entry `k` matches and converts to a value, that
      value is what the key holds after the whole table has been tried,
      because no later entry writes the same key. */
  lemma MatchedRuleStored(params: map<string, Value>, app: AppType, line: string, k: nat)
    requires WellFormed(params) && app != Unknown && k < |Rules(app)|
    requires var r := Rules(app)[k];
             var m := Search(r.pat, line);
             m.Some? && Convert(r.name, m.value, line).Put?
    ensures var r := Rules(app)[k];
            var u := Convert(r.name, Search(r.pat, line).value, line);
            r.name in CheckLine(params, app, line) && CheckLine(params, app, line)[r.name] == u.v
  {
    var rules := Rules(app);
    RulesNamesOk(app);
    RuleNamesDistinct(app);
    var r := rules[k];
    ApplyRulesAfter(params, rules, line, k);
  }

  lemma ApplyRulesAfter(params: map<string, Value>, rules: seq<Rule>, line: string, k: nat)
    requires WellFormed(params) && RuleNamesOk(rules) && k < |rules|
    requires forall i, j :: 0 <= i < j < |rules| ==> rules[i].name != rules[j].name
    requires var m := Search(rules[k].pat, line);
             m.Some? && Convert(rules[k].name, m.value, line).Put?
    ensures var u := Convert(rules[k].name, Search(rules[k].pat, line).value, line);
            rules[k].name in ApplyRules(params, rules, line) && ApplyRules(params, rules, line)[rules[k].name] == u.v
  {
    var head, tail := rules[..k + 1], rules[k + 1..];
    assert RuleNamesOk(head) && RuleNamesOk(tail);
    ApplyRulesSplit(params, rules, line, k + 1);
    var before := ApplyRules(params, head[..k], line);
    assert ApplyRules(params, head, line) == ApplyRule(before, rules[k], line);
    ApplyRuleStores(before, rules[k], line);
    LaterNamesDiffer(rules, k);
    ApplyRulesFrame(ApplyRules(params, head, line), tail, line, rules[k].name);
  }

  /** With distinct names, no entry after `k` carries entry `k`'s name. */
  lemma LaterNamesDiffer(rules: seq<Rule>, k: nat)
    requires k < |rules|
    requires forall i, j :: 0 <= i < j < |rules| ==> rules[i].name != rules[j].name
    ensures rules[k].name !in Names(rules[k + 1..])
  {
    var tail := rules[k + 1..];
    forall j | 0 <= j < |tail|
      ensures Names(tail)[j] != rules[k].name
    {
      assert tail[j] == rules[k + 1 + j];
    }
  }

  /** Trying a table is trying its first `n` entries, then the rest. */
  lemma {:induction false} ApplyRulesSplit(params: map<string, Value>, rules: seq<Rule>, line: string, n: nat)
    requires WellFormed(params) && RuleNamesOk(rules) && n <= |rules|
    ensures RuleNamesOk(rules[..n]) && RuleNamesOk(rules[n..])
    ensures ApplyRules(params, rules, line) == ApplyRules(ApplyRules(params, rules[..n], line), rules[n..], line)
    decreases |rules|
  {
    assert RuleNamesOk(rules[..n]) && RuleNamesOk(rules[n..]);
    if n == |rules| {
      assert rules[..n] == rules && rules[n..] == [];
    } else {
      var init := rules[..|rules| - 1];
      var rest, last := rules[n..], rules[|rules| - 1];
      SlicesOk(rules, n);
      ApplyRulesSplit(params, init, line, n);
      var mid := ApplyRules(params, rules[..n], line);
      calc {
        ApplyRules(mid, rest, line);
        ApplyRule(ApplyRules(mid, init[n..], line), last, line);
        ApplyRule(ApplyRules(params, init, line), last, line);
        ApplyRules(params, rules, line);
      }
    }
  }

  /** The pieces of a table cut at `n` and before its last entry. */
  lemma SlicesOk(rules: seq<Rule>, n: nat)
    requires RuleNamesOk(rules) && n < |rules|
    ensures var init, rest := rules[..|rules| - 1], rules[n..];
      && RuleNamesOk(init) && RuleNamesOk(rest) && RuleNamesOk(rules[..n]) && RuleNamesOk(init[n..])
      && init[..n] == rules[..n] && rest[..|rest| - 1] == init[n..] && rest[|rest| - 1] == rules[|rules| - 1]
  {
    var init, rest := rules[..|rules| - 1], rules[n..];
    assert init[..n] == rules[..n] && rest[..|rest| - 1] == init[n..];
  }

  /** One entry leaves every other plain key as it was. */
  lemma ApplyRuleKeeps(params: map<string, Value>, r: Rule, line: string, key: string)
    requires WellFormed(params) && r.name != TestResultsKey
    requires key != r.name && key != TestResultsKey
    ensures key in ApplyRule(params, r, line) <==> key in params
    ensures key in params ==> ApplyRule(params, r, line)[key] == params[key]
  {
  }

  /** An entry that matches and converts stores its value under its key. */
  lemma ApplyRuleStores(params: map<string, Value>, r: Rule, line: string)
    requires WellFormed(params) && r.name != TestResultsKey
    requires var m := Search(r.pat, line); m.Some? && Convert(r.name, m.value, line).Put?
    ensures var u := Convert(r.name, Search(r.pat, line).value, line);
            r.name in ApplyRule(params, r, line) && ApplyRule(params, r, line)[r.name] == u.v
  {
  }

  // ---------------------------------------------------------------------
  // The `esc_armed` entry can only ever store "ARMED".

  /** The node list of `ESC.*(armed|disarmed)` after the literal. */
  function EscTail(): seq<Node> { [Star(AnyChar)] + Cap(1, [Words(["armed", "disarmed"])]) }

  /** Matching the group `(armed|disarmed)` at `q`. */
  lemma GroupAt(s: string, q: nat, open: map<nat, nat>, caps: Spans)
    requires q <= |s|
    ensures var r := MatchHere(Cap(1, [Words(["armed", "disarmed"])]), s, q, true, open, caps);
            && (WordAt("armed", s, q, true) ==> r == Some(Found(q + 5, caps[1 := (q, q + 5)])))
            && (!WordAt("armed", s, q, true) && WordAt("disarmed", s, q, true) ==> r == Some(Found(q + 8, caps[1 := (q, q + 8)])))
            && (!WordAt("armed", s, q, true) && !WordAt("disarmed", s, q, true) ==> r.None?)
  {
    var ns := Cap(1, [Words(["armed", "disarmed"])]);
    var o := open[1 := q];
    assert ns[1..] == [Words(["armed", "disarmed"]), Close(1)];
    assert [Words(["armed", "disarmed"]), Close(1)][1..] == [Close(1)];
    assert [Close(1)][1..] == [];
    if WordAt("armed", s, q, true) {
      assert MatchHere([Close(1)], s, q + 5, true, o, caps) == Some(Found(q + 5, caps[1 := (q, q + 5)]));
    }
    if WordAt("disarmed", s, q, true) {
      assert MatchHere([Close(1)], s, q + 8, true, o, caps) == Some(Found(q + 8, caps[1 := (q, q + 8)]));
    }
  }

  /** Wherever "disarmed" occurs, "armed" occurs three characters later. */
  lemma ArmedInsideDisarmed(s: string, q: nat)
    requires WordAt("disarmed", s, q, true)
    ensures WordAt("armed", s, q + 3, true)
  {
    WordAtSuffix("disarmed", 3, s, q, true);
    assert "disarmed"[3..] == "armed";
  }

  /** After the literal `ESC`, the greedy `.*` always settles on an
      occurrence of "armed", never on the "dis" in front of one. */
  lemma EscTailCapturesArmed(s: string, p: nat)
    requires p <= |s|
    requires MatchHere(EscTail(), s, p, true, map[], map[]).Some?
    ensures var f := MatchHere(EscTail(), s, p, true, map[], map[]).value;
            1 in f.groups && f.groups[1].0 + 5 == f.groups[1].1 <= |s|
            && WordAt("armed", s, f.groups[1].0, true)
  {
    var rest := Cap(1, [Words(["armed", "disarmed"])]);
    var n := Run(AnyChar, s, p, true);
    assert EscTail()[0] == Star(AnyChar) && EscTail()[1..] == rest;
    assert MatchHere(EscTail(), s, p, true, map[], map[]) == Greedy(rest, s, p, n, 0, true, map[], map[]);
    GreedyFirst(rest, s, p, n, 0, true, map[], map[]);
    var q: nat :| GreedyPick(rest, s, p, n, 0, true, map[], map[], q);
    GroupAt(s, q, map[], map[]);
    PickedIsArmed(s, p, n, q);
  }

  /** The position the greedy `.*` settles on starts "armed": were it the
      start of "disarmed", the longer run ending at its "armed" would match
      as well. */
  lemma PickedIsArmed(s: string, p: nat, n: nat, q: nat)
    requires p + n <= |s| && n == Run(AnyChar, s, p, true)
    requires GreedyPick(Cap(1, [Words(["armed", "disarmed"])]), s, p, n, 0, true, map[], map[], q)
    requires MatchHere(Cap(1, [Words(["armed", "disarmed"])]), s, q, true, map[], map[]).Some?
    ensures WordAt("armed", s, q, true)
  {
    GroupAt(s, q, map[], map[]);
    if !WordAt("armed", s, q, true) {
      assert WordAt("disarmed", s, q, true);
      ArmedInsideDisarmed(s, q);
      WordAtNoNewline("disarmed", s, q, true);
      assert q + 3 <= p + n;
      GroupAt(s, q + 3, map[], map[]);
      assert false;
    }
  }

  /** The `esc_armed` entry stores "ARMED" or nothing: the alternative
      "disarmed" can never be the one captured. */
  lemma EscArmedAlwaysArmed(line: string)
    requires Matches(EscArmedPattern(), line)
    ensures Convert("esc_armed", Search(EscArmedPattern(), line).value, line) == Put("esc_armed", StrVal("ARMED"))
  {
    EscArmedCaptured(line);
    var m := Search(EscArmedPattern(), line).value;
    ArmedUpper(Group(m, line, 1).value);
  }

  /** The group captured by `ESC.*(armed|disarmed)` folds to "armed". */
  lemma EscArmedCaptured(line: string)
    requires Matches(EscArmedPattern(), line)
    ensures var m := Search(EscArmedPattern(), line).value;
            Group(m, line, 1).Some? && Lower(Group(m, line, 1).value) == "armed"
  {
    var pat := EscArmedPattern();
    SearchLeftmost(pat, line);
    var m := Search(pat, line).value;
    var i := m.start;
    assert pat.alts[0] == Lit("ESC") + EscTail();
    LitThen("ESC", EscTail(), line, i, true, map[], map[]);
    assert MatchAt(pat, line, i, 1) == None;
    assert MatchAt(pat, line, i, 0).Some?;
    assert MatchHere(pat.alts[0], line, i, true, map[], map[]).Some?;
    EscTailCapturesArmed(line, i + 3);
    var g := line[m.groups[1].0..m.groups[1].1];
    assert Group(m, line, 1) == Some(g);
    WordAtFolded("armed", line, m.groups[1].0);
  }

  /** Text that folds to "armed" upper-cases to "ARMED". */
  lemma ArmedUpper(g: string)
    requires Lower(g) == "armed"
    ensures Upper(g) == "ARMED"
  {
    forall j | 0 <= j < 5 ensures Upper(g)[j] == "ARMED"[j] {
      assert LowerChar(g[j]) == "armed"[j];
    }
  }

  // ---------------------------------------------------------------------
  // The conversion rules, stated on the map a line leaves behind.

  /** `gps_fix` is stored as true exactly when the capture, lower-cased, is
      "true", "ok" or "valid". */
  lemma GpsFixStored(params: map<string, Value>, line: string)
    requires WellFormed(params)
    requires var m := Search(GpsFixPattern(), line); m.Some? && Group(m.value, line, 1).Some?
    ensures var g := Group(Search(GpsFixPattern(), line).value, line, 1).value;
            var res := CheckLine(params, GpsAutopilot, line);
            "gps_fix" in res && res["gps_fix"].BoolVal?
            && (res["gps_fix"].b <==> Lower(g) in ["true", "ok", "valid"])
  {
    assert Rules(GpsAutopilot)[9] == Rule("gps_fix", GpsFixPattern());
    MatchedRuleStored(params, GpsAutopilot, line, 9);
  }

  /** A key of `NameKeys` stores its capture upper-cased. */
  lemma NameRuleStored(params: map<string, Value>, app: AppType, line: string, k: nat)
    requires WellFormed(params) && app != Unknown && k < |Rules(app)| && Rules(app)[k].name in NameKeys
    requires var m := Search(Rules(app)[k].pat, line); m.Some? && Group(m.value, line, 1).Some?
    ensures var r := Rules(app)[k];
            var g := Group(Search(r.pat, line).value, line, 1).value;
            var res := CheckLine(params, app, line);
            r.name in res && res[r.name] == StrVal(Upper(g))
  {
    var name := Rules(app)[k].name;
    assert name != "gps_fix";
    MatchedRuleStored(params, app, line, k);
  }

  /** `flight_timer` stores the two captures as "minutes:seconds". */
  lemma FlightTimerStored(params: map<string, Value>, line: string)
    requires WellFormed(params)
    requires var m := Search(FlightTimerPattern(), line);
             m.Some? && Group(m.value, line, 1).Some? && Group(m.value, line, 2).Some?
    ensures var m := Search(FlightTimerPattern(), line).value;
            var res := CheckLine(params, FlightSequencer, line);
            "flight_timer" in res
            && res["flight_timer"] == StrVal(Group(m, line, 1).value + ":" + Group(m, line, 2).value)
  {
    assert Rules(FlightSequencer)[4] == Rule("flight_timer", FlightTimerPattern());
    MatchedRuleStored(params, FlightSequencer, line, 4);
  }

  /** Every other key is numeric: a capture holding '.' is read as a
      float, any other as an int. */
  lemma NumberRuleStored(params: map<string, Value>, app: AppType, line: string, k: nat)
    requires WellFormed(params) && app != Unknown && k < |Rules(app)|
    requires var name := Rules(app)[k].name;
             name !in NameKeys && name != "gps_fix" && name != "flight_timer" && name != "test_result"
    requires var m := Search(Rules(app)[k].pat, line); m.Some? && Group(m.value, line, 1).Some?
    ensures var r := Rules(app)[k];
            var g := Group(Search(r.pat, line).value, line, 1).value;
            var res := CheckLine(params, app, line);
            && ('.' in g && ParseFloat(g).Some? ==> r.name in res && res[r.name] == FloatVal(ParseFloat(g).value))
            && ('.' !in g && ParseInt(g).Some? ==> r.name in res && res[r.name] == IntVal(ParseInt(g).value))
  {
    var r := Rules(app)[k];
    var m := Search(r.pat, line).value;
    var g := Group(m, line, 1).value;
    if ('.' in g && ParseFloat(g).Some?) || ('.' !in g && ParseInt(g).Some?) {
      MatchedRuleStored(params, app, line, k);
    }
  }

  /** Rules other than `test_result` never touch the nested table. */
  lemma {:induction false} ApplyRulesKeepResults(params: map<string, Value>, rules: seq<Rule>, line: string)
    requires WellFormed(params) && RuleNamesOk(rules)
    requires forall i :: 0 <= i < |rules| ==> rules[i].name != "test_result"
    ensures var res := ApplyRules(params, rules, line);
            TestResultsKey in params ==> TestResultsKey in res && res[TestResultsKey] == params[TestResultsKey]
    decreases |rules|
  {
    if rules != [] {
      var init := rules[..|rules| - 1];
      assert RuleNamesOk(init);
      ApplyRulesKeepResults(params, init, line);
    }
  }

  /** `test_result` files the upper-cased outcome under the upper-cased
      test name in the nested `test_results` table. */
  lemma TestResultStored(params: map<string, Value>, line: string)
    requires WellFormed(params)
    requires var m := Search(TestResultPattern(), line);
             m.Some? && Group(m.value, line, 1).Some? && Group(m.value, line, 2).Some?
    ensures var m := Search(TestResultPattern(), line).value;
            var res := CheckLine(params, DeviceTest, line);
            var test := Upper(Group(m, line, 1).value);
            && TestResultsKey in res && test in res[TestResultsKey].byTest
            && res[TestResultsKey].byTest[test] == Upper(Group(m, line, 2).value)
  {
    RulesNamesOk(DeviceTest);
    LaterRulesNotResults();
    ResultRuleWins(params, Rules(DeviceTest), line, 1);
  }

  /** In any table, a `test_result` entry that no later entry repeats
      leaves its result in the nested table. */
  lemma ResultRuleWins(params: map<string, Value>, rules: seq<Rule>, line: string, k: nat)
    requires WellFormed(params) && RuleNamesOk(rules) && k < |rules|
    requires rules[k] == Rule("test_result", TestResultPattern())
    requires forall i :: k < i < |rules| ==> rules[i].name != "test_result"
    requires var m := Search(TestResultPattern(), line);
             m.Some? && Group(m.value, line, 1).Some? && Group(m.value, line, 2).Some?
    ensures var m := Search(TestResultPattern(), line).value;
            var res := ApplyRules(params, rules, line);
            var test := Upper(Group(m, line, 1).value);
            && TestResultsKey in res && test in res[TestResultsKey].byTest
            && res[TestResultsKey].byTest[test] == Upper(Group(m, line, 2).value)
  {
    LaterRulesKeepResults(params, rules, line, k);
    var before := ApplyRules(params, rules[..k], line);
    ResultRuleStores(before, line);
  }

  /** Whatever the first `k + 1` entries leave in the nested table, later
      entries other than `test_result` keep. */
  lemma LaterRulesKeepResults(params: map<string, Value>, rules: seq<Rule>, line: string, k: nat)
    requires WellFormed(params) && RuleNamesOk(rules) && k < |rules|
    requires forall i :: k < i < |rules| ==> rules[i].name != "test_result"
    ensures RuleNamesOk(rules[..k])
    ensures var mid := ApplyRule(ApplyRules(params, rules[..k], line), rules[k], line);
            var res := ApplyRules(params, rules, line);
            TestResultsKey in mid ==> TestResultsKey in res && res[TestResultsKey] == mid[TestResultsKey]
  {
    var head, rest := rules[..k + 1], rules[k + 1..];
    ApplyRulesSplit(params, rules, line, k + 1);
    assert head[..k] == rules[..k] && head[k] == rules[k];
    assert RuleNamesOk(rules[..k]);
    var mid := ApplyRules(params, head, line);
    assert mid == ApplyRule(ApplyRules(params, rules[..k], line), rules[k], line);
    assert ApplyRules(params, rules, line) == ApplyRules(mid, rest, line);
    forall i | 0 <= i < |rest| ensures rest[i].name != "test_result" {
      assert rest[i] == rules[k + 1 + i];
    }
    ApplyRulesKeepResults(mid, rest, line);
  }

  /** The `test_result` entry on its own files the result. */
  lemma ResultRuleStores(params: map<string, Value>, line: string)
    requires WellFormed(params)
    requires var m := Search(TestResultPattern(), line);
             m.Some? && Group(m.value, line, 1).Some? && Group(m.value, line, 2).Some?
    ensures var m := Search(TestResultPattern(), line).value;
            var res := ApplyRule(params, Rule("test_result", TestResultPattern()), line);
            var test := Upper(Group(m, line, 1).value);
            && TestResultsKey in res && test in res[TestResultsKey].byTest
            && res[TestResultsKey].byTest[test] == Upper(Group(m, line, 2).value)
  {
  }

  /** No DeviceTest entry after `test_result` is another `test_result`. */
  lemma LaterRulesNotResults()
    ensures Rules(DeviceTest)[1] == Rule("test_result", TestResultPattern())
    ensures forall i :: 1 < i < |Rules(DeviceTest)| ==> Rules(DeviceTest)[i].name != "test_result"
  {
    NamesAreKeys(DeviceTest);
    KeysDistinct(DeviceTest);
    forall i | 1 < i < |Rules(DeviceTest)| ensures Rules(DeviceTest)[i].name != "test_result" {
      assert Rules(DeviceTest)[i].name == Keys(DeviceTest)[i];
    }
  }
}

=== FILE: parameter_panel.dfy ===
/** The reusable parameter panel: groups of parameters, each with a text
    or check-box variable, checked against its description before a
    `SET <NAME> <value>` command goes out through the send callback. */
module ParameterPanelWidget {
  import opened PyText

  /** What a variable's `get()` returns: the text of a string variable or
      the flag of a boolean one. */
  datatype Value = Text(s: string) | Flag(b: bool)

  /** `str(value)`. */
  function Str(v: Value): string
  {
    match v
    case Text(s) => s
    case Flag(b) => if b then "True" else "False"
  }

  /** A parameter's description: `type`, `range`, `choices` and the text of
      `str(default)`, each possibly absent (absent choices act as `[]`). */
  datatype ParamInfo = ParamInfo(kind: Option<string>, range: Option<(real, real)>, choices: seq<string>, default: Option<string>)

  /** `param_info.get('type', 'float')`. */
  function TypeOf(info: ParamInfo): string
  {
    if info.kind.None? then "float" else info.kind.value
  }

  /** The range check of `_validate_parameter_value`: inclusive, and passed
      when no range is given. */
  predicate InRange(x: real, range: Option<(real, real)>)
  {
    range.None? || range.value.0 <= x <= range.value.1
  }

  /** `int(value)`: text through `int()`, a flag as 1 or 0. */
  function IntOf(v: Value): Option<int>
  {
    match v
    case Text(s) => ParseInt(s)
    case Flag(b) => Some(if b then 1 else 0)
  }

  /** `float(value)`. */
  function FloatOf(v: Value): Option<real>
  {
    match v
    case Text(s) => ParseFloat(s)
    case Flag(b) => Some(if b then 1.0 else 0.0)
  }

  /** `_validate_parameter_value`. */
  predicate ValidValue(v: Value, info: ParamInfo)
  {
    var t := TypeOf(info);
    if t == "int" then IntOf(v).Some? && InRange(IntOf(v).value as real, info.range)
    else if t == "float" then FloatOf(v).Some? && InRange(FloatOf(v).value, info.range)
    else if t == "choice" then v.Text? && v.s in info.choices
    else if t == "bool" then v.Flag?
    else true
  }

  /** The validation rules: a missing type counts as float; int and float
      values must parse and lie inside the inclusive range when there is
      one; a choice must be listed; a boolean must be a flag; any other
      type passes. */
  lemma ValidRules(v: Value, info: ParamInfo)
    ensures info.kind.None? ==> (ValidValue(v, info) <==> ValidValue(v, info.(kind := Some("float"))))
    ensures TypeOf(info) == "int" ==>
      (ValidValue(v, info) <==> exists n :: IntOf(v) == Some(n) && (info.range.None? || info.range.value.0 <= n as real <= info.range.value.1))
    ensures TypeOf(info) == "float" ==>
      (ValidValue(v, info) <==> exists x :: FloatOf(v) == Some(x) && (info.range.None? || info.range.value.0 <= x <= info.range.value.1))
    ensures TypeOf(info) == "choice" ==> (ValidValue(v, info) <==> exists c :: c in info.choices && v == Text(c))
    ensures TypeOf(info) == "bool" ==> (ValidValue(v, info) <==> exists b :: v == Flag(b))
    ensures TypeOf(info) !in ["int", "float", "choice", "bool"] ==> ValidValue(v, info)
  {
    if TypeOf(info) == "int" && ValidValue(v, info) {
      assert IntOf(v) == Some(IntOf(v).value);
    }
    if TypeOf(info) == "float" && ValidValue(v, info) {
      assert FloatOf(v) == Some(FloatOf(v).value);
    }
    if TypeOf(info) == "bool" && ValidValue(v, info) {
      assert v == Flag(v.b);
    }
  }

  /** The range matters only to int and float parameters. */
  lemma RangeOnlyForNumbers(v: Value, info: ParamInfo, range: Option<(real, real)>)
    requires TypeOf(info) != "int" && TypeOf(info) != "float"
    ensures ValidValue(v, info) == ValidValue(v, info.(range := range))
  {
  }

  /** Both ends of an integer range are accepted, as written by `str()`. */
  lemma IntRangeInclusive(info: ParamInfo, lo: int, hi: int)
    requires TypeOf(info) == "int" && lo <= hi && info.range == Some((lo as real, hi as real))
    ensures ValidValue(Text(IntToStr(lo)), info) && ValidValue(Text(IntToStr(hi)), info)
    ensures !ValidValue(Text(IntToStr(lo - 1)), info) && !ValidValue(Text(IntToStr(hi + 1)), info)
  {
    IntToStrRoundTrip(lo);
    IntToStrRoundTrip(hi);
    IntToStrRoundTrip(lo - 1);
    IntToStrRoundTrip(hi + 1);
  }

  /** Text that `int()` refuses is invalid for an int parameter, whatever
      its range. */
  lemma UnparsableIntRefused(t: string, info: ParamInfo)
    requires TypeOf(info) == "int" && ParseInt(t).None?
    ensures !ValidValue(Text(t), info)
  {
  }

  // ---------------------------------------------------------------------
  // Variables and groups

  /** A `StringVar` holding text or a `BooleanVar` holding a flag. */
  datatype Var = StrVar(text: string) | BoolVar(flag: bool)

  function Get(x: Var): Value
  {
    match x
    case StrVar(t) => Text(t)
    case BoolVar(b) => Flag(b)
  }

  /** Tcl's reading of a text as a boolean, for the forms the program
      writes: a decimal integer (true when not zero) or one of the words
      true/false, yes/no, on/off in any case. */
  function TclBoolean(t: string): Option<bool>
  {
    var w := Lower(t);
    if |t| > 0 && AllDigits(t) then Some(DigitsValue(t) != 0)
    else if w in ["true", "yes", "on"] then Some(true)
    else if w in ["false", "no", "off"] then Some(false)
    else None
  }

  /** The variable `_create_parameter_widget` makes: a check box for a
      bool parameter (its default read as a boolean, false when absent),
      text holding `str(default)` or nothing for every other type. */
  function InitialVar(info: ParamInfo): (x: Var)
    ensures x.BoolVar? <==> TypeOf(info) == "bool"
  {
    if TypeOf(info) == "bool" then
      BoolVar(info.default.Some? && TclBoolean(info.default.value) == Some(true))
    else StrVar(if info.default.Some? then info.default.value else "")
  }

  /** A `ParameterGroup`: its name, descriptions and variables. */
  datatype Group = Group(name: string, parameters: map<string, ParamInfo>, variables: map<string, Var>)

  /** `add_parameter_group`'s group: one variable per parameter. */
  function NewGroup(name: string, parameters: map<string, ParamInfo>): (g: Group)
    ensures g.variables.Keys == parameters.Keys
    ensures forall p :: p in parameters ==> (g.variables[p].BoolVar? <==> TypeOf(parameters[p]) == "bool")
  {
    Group(name, parameters, map p | p in parameters :: InitialVar(parameters[p]))
  }

  /** Each group is filed under its own name, has a variable for exactly
      its parameters, and uses a check box exactly for the bool ones. */
  predicate WellFormed(groups: map<string, Group>)
  {
    forall g :: g in groups ==>
      && groups[g].name == g
      && groups[g].variables.Keys == groups[g].parameters.Keys
      && forall p :: p in groups[g].parameters ==>
           (groups[g].variables[p].BoolVar? <==> TypeOf(groups[g].parameters[p]) == "bool")
  }

  predicate Known(groups: map<string, Group>, g: string, p: string)
  {
    g in groups && p in groups[g].variables
  }

  /** `get_parameter_value`: `None` for an unknown group or parameter. */
  function Lookup(groups: map<string, Group>, g: string, p: string): Option<Value>
  {
    if Known(groups, g, p) then Some(Get(groups[g].variables[p])) else None
  }

  /** What `update_parameter_value` does to the groups. */
  datatype Update = Ignored | Stored(groups: map<string, Group>) | SetRaises

  /** `variables[p].set(str(value))`: text is stored as it is, a check box
      takes the text as a boolean and raises on anything else. */
  function Store(groups: map<string, Group>, g: string, p: string, text: string): Update
  {
    if !Known(groups, g, p) then Ignored
    else
      var grp := groups[g];
      match grp.variables[p]
      case StrVar(_) => Stored(groups[g := grp.(variables := grp.variables[p := StrVar(text)])])
      case BoolVar(_) =>
        var b := TclBoolean(text);
        if b.None? then SetRaises else Stored(groups[g := grp.(variables := grp.variables[p := BoolVar(b.value)])])
  }

  /** Only a known group and parameter are touched; a text variable reads
      back exactly what was stored, a check box the boolean it was given. */
  lemma StoreThenLookup(groups: map<string, Group>, g: string, p: string, text: string)
    ensures !Known(groups, g, p) <==> Store(groups, g, p, text) == Ignored
    ensures Known(groups, g, p) && groups[g].variables[p].StrVar? ==>
      Store(groups, g, p, text).Stored? && Lookup(Store(groups, g, p, text).groups, g, p) == Some(Text(text))
    ensures Known(groups, g, p) && groups[g].variables[p].BoolVar? ==>
      match TclBoolean(text)
      case None => Store(groups, g, p, text) == SetRaises
      case Some(b) => Store(groups, g, p, text).Stored? && Lookup(Store(groups, g, p, text).groups, g, p) == Some(Flag(b))
  {
  }

  /** A store leaves every other variable as it was and keeps the groups
      well formed. */
  lemma StoreKeepsOthers(groups: map<string, Group>, g: string, p: string, text: string, g2: string, p2: string)
    requires WellFormed(groups) && Store(groups, g, p, text).Stored?
    ensures WellFormed(Store(groups, g, p, text).groups)
    ensures (g2, p2) != (g, p) ==> Lookup(Store(groups, g, p, text).groups, g2, p2) == Lookup(groups, g2, p2)
  {
  }

  /** A check box never fails validation. */
  lemma CheckBoxAlwaysValid(groups: map<string, Group>, g: string, p: string)
    requires WellFormed(groups) && Known(groups, g, p) && TypeOf(groups[g].parameters[p]) == "bool"
    ensures ValidValue(Get(groups[g].variables[p]), groups[g].parameters[p])
  {
  }

  /** The command `_set_parameter` sends. */
  function SetCommand(p: string, v: Value): string
  {
    "SET " + Upper(p) + " " + Str(v)
  }

  /** The command splits back into "SET", the upper-cased name and the
      value's text when the name has no blank. */
  lemma SetCommandParts(p: string, v: Value)
    ensures var c := SetCommand(p, v);
      c[..4] == "SET " && c[4..4 + |p|] == Upper(p) && c[4 + |p|] == ' ' && c[5 + |p|..] == Str(v)
  {
    var c := SetCommand(p, v);
    assert c == "SET " + (Upper(p) + (" " + Str(v)));
  }

  // ---------------------------------------------------------------------
  // The panel

  class ParameterPanel {
    var groups: map<string, Group>
    var hasSendCallback: bool
    var hasUpdateCallback: bool
    var sent: seq<string>                       // commands given to the send callback
    var updates: seq<(string, string, string)>  // calls of the update callback
    var messages: seq<string>                   // message boxes shown

    predicate Valid()
      reads this
    {
      WellFormed(groups)
    }

    constructor ()
      ensures Valid() && groups == map[] && !hasSendCallback && !hasUpdateCallback
      ensures sent == [] && updates == [] && messages == []
    {
      groups := map[];
      hasSendCallback := false;
      hasUpdateCallback := false;
      sent := [];
      updates := [];
      messages := [];
    }

    /** `add_parameter_group`: a group of the same name is replaced. */
    method AddParameterGroup(name: string, parameters: map<string, ParamInfo>)
      requires Valid()
      modifies this`groups
      ensures Valid() && groups == old(groups)[name := NewGroup(name, parameters)]
    {
      groups := groups[name := NewGroup(name, parameters)];
    }

    method SetSendCallback()
      modifies this`hasSendCallback
      ensures hasSendCallback
    {
      hasSendCallback := true;
    }

    method SetUpdateCallback()
      modifies this`hasUpdateCallback
      ensures hasUpdateCallback
    {
      hasUpdateCallback := true;
    }

    /** `_set_parameter`, behind the Set button of a parameter the panel
        made: nothing without a send callback, an error for an invalid
        value, otherwise the command. */
    method SetParameter(g: string, p: string)
      requires Valid() && (hasSendCallback ==> Known(groups, g, p))
      modifies this`sent, this`messages
      ensures !hasSendCallback ==> sent == old(sent) && messages == old(messages) + ["Please connect to device first"]
      ensures hasSendCallback ==>
        var v := Get(groups[g].variables[p]);
        if ValidValue(v, groups[g].parameters[p]) then sent == old(sent) + [SetCommand(p, v)] && messages == old(messages)
        else sent == old(sent) && messages == old(messages) + ["Invalid value for " + p + ": " + Str(v)]
    {
      if !hasSendCallback {
        messages := messages + ["Please connect to device first"];
        return;
      }
      var v := Get(groups[g].variables[p]);
      if !ValidValue(v, groups[g].parameters[p]) {
        messages := messages + ["Invalid value for " + p + ": " + Str(v)];
        return;
      }
      sent := sent + [SetCommand(p, v)];
    }

    /** `update_parameter_value` with the text `str(value)`; `raised` when
        a check box refuses the text. */
    method UpdateParameterValue(g: string, p: string, text: string) returns (raised: bool)
      requires Valid()
      modifies this`groups, this`updates
      ensures Valid()
      ensures var u := Store(old(groups), g, p, text);
        && raised == u.SetRaises?
        && groups == (if u.Stored? then u.groups else old(groups))
        && updates == (if u.Stored? && hasUpdateCallback then old(updates) + [(g, p, text)] else old(updates))
    {
      var u := Store(groups, g, p, text);
      raised := u.SetRaises?;
      if u.Stored? {
        StoreKeepsOthers(groups, g, p, text, g, p);
        groups := u.groups;
        if hasUpdateCallback {
          updates := updates + [(g, p, text)];
        }
      }
    }

    /** `get_parameter_value`. */
    function GetParameterValue(g: string, p: string): Option<Value>
      reads this
    {
      Lookup(groups, g, p)
    }

    /** `_get_all_parameters`. */
    method GetAllParameters()
      modifies this`sent
      ensures sent == if hasSendCallback then old(sent) + ["GET ALL"] else old(sent)
    {
      if hasSendCallback {
        sent := sent + ["GET ALL"];
      }
    }

    /** `_reset_all_parameters`, after the operator's answer to the question. */
    method ResetAllParameters(confirmed: bool)
      modifies this`sent
      ensures sent == if confirmed && hasSendCallback then old(sent) + ["RESET ALL"] else old(sent)
    {
      if confirmed && hasSendCallback {
        sent := sent + ["RESET ALL"];
      }
    }

    /** `_save_profile` and `_load_profile` only announce that they are not
        implemented. */
    method SaveProfile()
      modifies this`messages
      ensures messages == old(messages) + ["Profile saving not yet implemented"]
    {
      messages := messages + ["Profile saving not yet implemented"];
    }

    method LoadProfile()
      modifies this`messages
      ensures messages == old(messages) + ["Profile loading not yet implemented"]
    {
      messages := messages + ["Profile loading not yet implemented"];
    }
  }
}

=== FILE: pytext.dfy ===
/** Python `str` primitives the host-side tools rely on: `str.isspace`,
    `strip`, `split` on one character, `join`, `startswith`, `in`,
    `lower`/`upper`, `int(...)`, `float(...)`, `str(int)` and the truncation
    performed by `int(float(...))`. */
module PyText {

  datatype Option<T> = None | Some(value: T)

  /** Two sequence facts stated once, so that long concatenations of
      strings are regrouped without the solver searching for it. */
  lemma AppendAssociates<T>(a: seq<T>, b: seq<T>, c: seq<T>)
    ensures a + (b + c) == (a + b) + c
  {
  }

  lemma SliceAround<T>(s: seq<T>, k: nat)
    requires k < |s|
    ensures s == (s[..k] + [s[k]]) + s[k + 1..]
  {
  }

  /** Where the four pieces of `a + b + c + d` sit. */
  lemma FourParts<T>(a: seq<T>, b: seq<T>, c: seq<T>, d: seq<T>)
    ensures var s, p, q := a + b + c + d, |a|, |a| + |b|;
            && s[..p] == a && s[p..q] == b && s[q..q + |c|] == c
            && (|c| > 0 ==> s[q] == c[0]) && (|d| > 0 ==> s[q + |c|] == d[0])
  {
  }

  /** The characters for which Python's `str.isspace()` holds (and which
      `strip()` and the regular-expression class `\s` use). */
  predicate IsSpace(c: char) {
    || c == ' '
    || ('\t' <= c <= '\r')
    || ('\U{1c}' <= c <= '\U{1f}')
    || c == '\U{85}' || c == '\U{a0}' || c == '\U{1680}'
    || ('\U{2000}' <= c <= '\U{200a}')
    || c == '\U{2028}' || c == '\U{2029}' || c == '\U{202f}'
    || c == '\U{205f}' || c == '\U{3000}'
  }

  predicate IsDigit(c: char) { '0' <= c <= '9' }

  predicate IsUpper(c: char) { 'A' <= c <= 'Z' }

  predicate IsLower(c: char) { 'a' <= c <= 'z' }

  predicate IsWordChar(c: char) { IsUpper(c) || IsLower(c) || IsDigit(c) || c == '_' }

  function LowerChar(c: char): (r: char)
    ensures IsUpper(c) ==> IsLower(r) && r as int == c as int + 32
    ensures !IsUpper(c) ==> r == c
  {
    if IsUpper(c) then (c as int + 32) as char else c
  }

  function UpperChar(c: char): (r: char)
    ensures IsLower(c) ==> IsUpper(r) && r as int == c as int - 32
    ensures !IsLower(c) ==> r == c
  {
    if IsLower(c) then (c as int - 32) as char else c
  }

  /** `s.lower()` restricted to ASCII letters. */
  function Lower(s: string): (r: string)
    ensures |r| == |s|
    ensures forall i :: 0 <= i < |s| ==> r[i] == LowerChar(s[i])
  {
    seq(|s|, i requires 0 <= i < |s| => LowerChar(s[i]))
  }

  /** `s.upper()` restricted to ASCII letters. */
  function Upper(s: string): (r: string)
    ensures |r| == |s|
    ensures forall i :: 0 <= i < |s| ==> r[i] == UpperChar(s[i])
  {
    seq(|s|, i requires 0 <= i < |s| => UpperChar(s[i]))
  }

  predicate StartsWith(s: string, prefix: string) {
    |prefix| <= |s| && s[..|prefix|] == prefix
  }

  predicate OccursAt(s: string, w: string, i: nat) {
    i + |w| <= |s| && s[i..i + |w|] == w
  }

  /** Python's `w in s` for strings. */
  predicate Contains(s: string, w: string) {
    exists i | 0 <= i <= |s| :: OccursAt(s, w, i)
  }

  lemma ContainsWitness(s: string, w: string, i: nat)
    requires OccursAt(s, w, i)
    ensures Contains(s, w)
  {
  }

  // ---------------------------------------------------------------------
  // strip()

  /** The first index at or after `i` that does not hold whitespace. */
  function SkipSpaces(s: string, i: nat): (k: nat)
    requires i <= |s|
    ensures i <= k <= |s|
    ensures k == |s| || !IsSpace(s[k])
    ensures forall j :: i <= j < k ==> IsSpace(s[j])
    decreases |s| - i
  {
    if i == |s| || !IsSpace(s[i]) then i else SkipSpaces(s, i + 1)
  }

  /** The smallest `k >= lo` such that `s[k..j]` is all whitespace. */
  function TrimEnd(s: string, lo: nat, j: nat): (k: nat)
    requires lo <= j <= |s|
    ensures lo <= k <= j
    ensures k == lo || !IsSpace(s[k - 1])
    ensures forall m :: k <= m < j ==> IsSpace(s[m])
    decreases j
  {
    if j == lo || !IsSpace(s[j - 1]) then j else TrimEnd(s, lo, j - 1)
  }

  /** Python's `s.strip()`: drop leading and trailing whitespace. */
  function Strip(s: string): (r: string)
    ensures r == s[SkipSpaces(s, 0)..TrimEnd(s, SkipSpaces(s, 0), |s|)]
    ensures r == [] || (!IsSpace(r[0]) && !IsSpace(r[|r| - 1]))
  {
    var a := SkipSpaces(s, 0);
    s[a..TrimEnd(s, a, |s|)]
  }

  /** A line is blank after `strip()` exactly when every character is
      whitespace. */
  lemma StripEmptyIff(s: string)
    ensures Strip(s) == [] <==> forall j :: 0 <= j < |s| ==> IsSpace(s[j])
  {
    var a := SkipSpaces(s, 0);
    if Strip(s) == [] {
      var b := TrimEnd(s, a, |s|);
      assert b == a;
    }
  }

  /** A text that neither starts nor ends with whitespace is its own
      `strip()`. */
  lemma StripKeepsTrimmed(s: string)
    requires |s| > 0 && !IsSpace(s[0]) && !IsSpace(s[|s| - 1])
    ensures Strip(s) == s
  {
    assert SkipSpaces(s, 0) == 0;
    assert TrimEnd(s, 0, |s|) == |s|;
  }

  lemma StripIdempotent(s: string)
    ensures Strip(Strip(s)) == Strip(s)
  {
    var r := Strip(s);
    if r != [] {
      assert SkipSpaces(r, 0) == 0;
      assert TrimEnd(r, 0, |r|) == |r|;
    }
  }

  // ---------------------------------------------------------------------
  // split() and join()

  /** Index of the first `c` in `s`, or `|s|` when there is none. */
  function IndexOf(s: string, c: char): (k: nat)
    ensures k <= |s|
    ensures k < |s| ==> s[k] == c
    ensures forall j :: 0 <= j < k ==> s[j] != c
    ensures k == |s| <==> c !in s
    decreases |s|
  {
    if |s| == 0 then 0 else if s[0] == c then 0 else 1 + IndexOf(s[1..], c)
  }

  /** Python's `sep.join(parts)`. */
  function Join(parts: seq<string>, sep: string): string
  {
    if |parts| == 0 then ""
    else if |parts| == 1 then parts[0]
    else parts[0] + sep + Join(parts[1..], sep)
  }

  /** Python's `s.split(sep)` for a one-character separator. */
  function Split(s: string, sep: char): (parts: seq<string>)
    ensures |parts| >= 1
    ensures forall i :: 0 <= i < |parts| ==> sep !in parts[i]
    ensures Join(parts, [sep]) == s
    ensures |parts| == 1 <==> sep !in s
    decreases |s|
  {
    var k := IndexOf(s, sep);
    if k == |s| then [s]
    else
      var tail := Split(s[k + 1..], sep);
      SplitCons(s, sep, k, tail);
      [s[..k]] + tail
  }

  /** The first piece, the separator and the pieces of the rest join back
      to the whole. */
  lemma SplitCons(s: string, sep: char, k: nat, tail: seq<string>)
    requires k < |s| && s[k] == sep && forall j :: 0 <= j < k ==> s[j] != sep
    requires |tail| >= 1 && forall i :: 0 <= i < |tail| ==> sep !in tail[i]
    requires Join(tail, [sep]) == s[k + 1..]
    ensures var parts := [s[..k]] + tail;
      && |parts| > 1 && sep in s
      && (forall i :: 0 <= i < |parts| ==> sep !in parts[i])
      && Join(parts, [sep]) == s
  {
    var parts := [s[..k]] + tail;
    assert parts[0] == s[..k] && parts[1..] == tail;
    assert s == s[..k] + [sep] + s[k + 1..];
  }

  /** `split` is the only way to cut a string into separator-free pieces
      that join back to it. */
  lemma {:induction false} SplitUnique(s: string, sep: char, parts: seq<string>)
    requires |parts| >= 1
    requires forall i :: 0 <= i < |parts| ==> sep !in parts[i]
    requires Join(parts, [sep]) == s
    ensures parts == Split(s, sep)
    decreases |parts|
  {
    if |parts| == 1 {
      assert s == parts[0];
    } else {
      var rest := Join(parts[1..], [sep]);
      assert s == parts[0] + [sep] + rest;
      SplitUnique(rest, sep, parts[1..]);
      SplitAtFirst(s, sep, parts[0], rest);
      assert parts == [parts[0]] + parts[1..];
    }
  }

  /** A separator-free head followed by the separator is the first piece. */
  lemma SplitAtFirst(s: string, sep: char, head: string, rest: string)
    requires sep !in head && s == head + [sep] + rest
    ensures Split(s, sep) == [head] + Split(rest, sep)
  {
    var k := |head|;
    assert s[k] == sep;
    assert forall j :: 0 <= j < k ==> s[j] == head[j];
    assert IndexOf(s, sep) == k;
    assert s[..k] == head;
    assert s[k + 1..] == rest;
  }

  /** Joining with a separator and appending it once more is the same as
      appending the separator after every piece. */
  function Terminated(parts: seq<string>, sep: string): string
  {
    if |parts| == 0 then "" else parts[0] + sep + Terminated(parts[1..], sep)
  }

  lemma {:induction false} JoinSnoc(parts: seq<string>, last: string, sep: string)
    ensures Join(parts + [last], sep) == Terminated(parts, sep) + last
    decreases |parts|
  {
    if |parts| == 0 {
      assert parts + [last] == [last];
    } else {
      assert (parts + [last])[1..] == parts[1..] + [last];
      JoinSnoc(parts[1..], last, sep);
    }
  }

  // ---------------------------------------------------------------------
  // Numbers

  predicate AllDigits(s: string) { forall i :: 0 <= i < |s| ==> IsDigit(s[i]) }

  function DigitValue(c: char): nat
    requires IsDigit(c)
  {
    c as int - '0' as int
  }

  /** The value of a string of decimal digits. */
  function DigitsValue(s: string): nat
    requires AllDigits(s)
  {
    if |s| == 0 then 0 else 10 * DigitsValue(s[..|s| - 1]) + DigitValue(s[|s| - 1])
  }

  function DigitChar(d: nat): (c: char)
    requires d < 10
    ensures IsDigit(c) && DigitValue(c) == d
  {
    ('0' as int + d) as char
  }

  /** `str(n)` for a non-negative integer. */
  function NatToStr(n: nat): (r: string)
    ensures |r| >= 1 && AllDigits(r)
    ensures DigitsValue(r) == n
  {
    if n < 10 then [DigitChar(n)]
    else
      var r := NatToStr(n / 10) + [DigitChar(n % 10)];
      assert r[..|r| - 1] == NatToStr(n / 10);
      r
  }

  /** `str(n)` for an integer. */
  function IntToStr(n: int): string
  {
    if n < 0 then "-" + NatToStr(-n) else NatToStr(n)
  }

  /** Python's `int(text)`: optional surrounding whitespace, an optional
      sign and at least one decimal digit. */
  function ParseInt(text: string): Option<int>
  {
    var t := Strip(text);
    if |t| > 0 && (t[0] == '-' || t[0] == '+') then
      var d := t[1..];
      if |d| > 0 && AllDigits(d) then Some(if t[0] == '-' then -(DigitsValue(d) as int) else DigitsValue(d))
      else None
    else if |t| > 0 && AllDigits(t) then Some(DigitsValue(t))
    else None
  }

  /** `int(str(n)) == n`. */
  lemma IntToStrRoundTrip(n: int)
    ensures ParseInt(IntToStr(n)) == Some(n)
  {
    var s := IntToStr(n);
    assert forall j :: 0 <= j < |s| ==> !IsSpace(s[j]);
    assert SkipSpaces(s, 0) == 0;
    assert TrimEnd(s, 0, |s|) == |s|;
    assert Strip(s) == s;
    if n < 0 {
      assert s[1..] == NatToStr(-n);
    }
  }

  /** `str(n)` never holds whitespace, so `strip()` keeps it whole. */
  lemma IntToStrNoSpace(n: int)
    ensures forall j :: 0 <= j < |IntToStr(n)| ==> !IsSpace(IntToStr(n)[j]) && IntToStr(n)[j] != '.'
  {
  }

  /** `int()` of a run of ASCII digits is its decimal value. */
  lemma ParseIntOfDigits(digits: string)
    requires |digits| > 0 && AllDigits(digits)
    ensures ParseInt(digits) == Some(DigitsValue(digits))
  {
    assert !IsSpace(digits[0]) && !IsSpace(digits[|digits| - 1]);
    StripKeepsTrimmed(digits);
  }

  function Pow10(e: nat): (r: real)
    ensures r >= 1.0
  {
    if e == 0 then 1.0 else 10.0 * Pow10(e - 1)
  }

  /** `digits [ '.' digits ]` or `'.' digits` with at least one digit. */
  function ParseMantissa(t: string): Option<real>
  {
    var k := IndexOf(t, '.');
    FixedPoint(t[..k], if k < |t| then t[k + 1..] else "")
  }

  /** The value of the integer and fraction digits either side of a point. */
  function FixedPoint(ip: string, fp: string): Option<real>
  {
    if AllDigits(ip) && AllDigits(fp) && (|ip| > 0 || |fp| > 0)
    then Some(DigitsValue(ip) as real + DigitsValue(fp) as real / Pow10(|fp|))
    else None
  }

  /** Scale a value by ten to the given (possibly negative) power. */
  function Scale10(m: real, e: int): real
  {
    if e >= 0 then m * Pow10(e) else m / Pow10(-e)
  }

  /** Index of the first exponent marker `e` or `E`, or `|t|`. */
  function ExponentIndex(t: string): (k: nat)
    ensures k <= |t|
    ensures k < |t| ==> t[k] == 'e' || t[k] == 'E'
    ensures forall j :: 0 <= j < k ==> t[j] != 'e' && t[j] != 'E'
    decreases |t|
  {
    if |t| == 0 then 0 else if t[0] == 'e' || t[0] == 'E' then 0 else 1 + ExponentIndex(t[1..])
  }

  /** An unsigned decimal literal with an optional exponent. */
  function ParseUnsignedFloat(t: string): Option<real>
  {
    var k := ExponentIndex(t);
    var m := ParseMantissa(t[..k]);
    if m.None? then None
    else if k == |t| then m
    else
      var e := ParseInt(t[k + 1..]);
      // the exponent is a bare signed digit string: no inner whitespace
      if e.Some? && t[k + 1..] == Strip(t[k + 1..]) then Some(Scale10(m.value, e.value)) else None
  }

  /** Python's `float(text)` for finite decimal literals: optional
      surrounding whitespace, an optional sign, digits with at most one
      decimal point, an optional exponent. */
  function ParseFloat(text: string): Option<real>
  {
    var t := Strip(text);
    if |t| > 0 && (t[0] == '-' || t[0] == '+') then
      var v := ParseUnsignedFloat(t[1..]);
      if v.None? then None else Some(if t[0] == '-' then -v.value else v.value)
    else ParseUnsignedFloat(t)
  }

  /** A digit string denotes the same number for `int()` and `float()`. */
  lemma MantissaOfDigits(t: string)
    requires |t| > 0 && AllDigits(t)
    ensures ParseMantissa(t) == Some(DigitsValue(t) as real)
  {
    assert '.' !in t by {
      forall j | 0 <= j < |t| ensures t[j] != '.' { assert IsDigit(t[j]); }
    }
    var k := IndexOf(t, '.');
    assert k == |t| && t[..k] == t;
    calc {
      ParseMantissa(t);
      FixedPoint(t, "");
      { WholeFixedPoint(t); }
      Some(DigitsValue(t) as real);
    }
  }

  /** Digits without a fraction denote their integer value. */
  lemma WholeFixedPoint(ip: string)
    requires |ip| > 0 && AllDigits(ip)
    ensures FixedPoint(ip, "") == Some(DigitsValue(ip) as real)
  {
    var fp: string := "";
    assert AllDigits(fp) && DigitsValue(fp) == 0 && Pow10(|fp|) == 1.0;
  }

  lemma FloatOfDigits(t: string)
    requires |t| > 0 && AllDigits(t)
    ensures ParseUnsignedFloat(t) == Some(DigitsValue(t) as real)
  {
    assert ExponentIndex(t) == |t| by {
      forall j | 0 <= j < |t| ensures t[j] != 'e' && t[j] != 'E' { assert IsDigit(t[j]); }
      ExponentAbsent(t);
    }
    assert t[..|t|] == t;
    MantissaOfDigits(t);
  }

  lemma {:induction false} ExponentAbsent(t: string)
    requires forall j :: 0 <= j < |t| ==> t[j] != 'e' && t[j] != 'E'
    ensures ExponentIndex(t) == |t|
    decreases |t|
  {
    if |t| > 0 {
      ExponentAbsent(t[1..]);
    }
  }

  /** The truncation toward zero that Python's `int(x)` applies to a float. */
  function Trunc(r: real): (n: int)
    ensures r >= 0.0 ==> 0 <= n && n as real <= r < n as real + 1.0
    ensures r < 0.0 ==> n <= 0 && n as real - 1.0 < r <= n as real
  {
    if r >= 0.0 then r.Floor else -((-r).Floor)
  }

  /** Python's `int(float(text))`; `None` when `float` rejects the text. */
  function IntOfFloatText(text: string): Option<int>
  {
    var f := ParseFloat(text);
    if f.None? then None else Some(Trunc(f.value))
  }

  /** A minus sign in front of an unsigned literal without surrounding
      whitespace negates what `float` reads. */
  lemma NegatedLiteral(t: string, m: real)
    requires |t| > 0 && IsDigit(t[0]) && !IsSpace(t[|t| - 1]) && ParseFloat(t) == Some(m)
    ensures ParseFloat("-" + t) == Some(-m)
  {
    StripKeepsTrimmed(t);
    assert ParseUnsignedFloat(t) == Some(m);
    TrimmedFloat(t, m);
  }

  /** For a text without surrounding whitespace that starts with a digit,
      `float` reads it as the unsigned literal, and with a minus sign in
      front as its negation. */
  lemma TrimmedFloat(t: string, m: real)
    requires |t| > 0 && IsDigit(t[0]) && !IsSpace(t[|t| - 1]) && ParseUnsignedFloat(t) == Some(m)
    ensures ParseFloat(t) == Some(m) && ParseFloat("-" + t) == Some(-m)
  {
    StripKeepsTrimmed(t);
    UnsignedFloat(t, m);
    var u := "-" + t;
    StripKeepsTrimmed(u);
    assert u[1..] == t;
    NegatedFloat(u, m);
  }

  lemma UnsignedFloat(u: string, m: real)
    requires Strip(u) == u && |u| > 0 && IsDigit(u[0]) && ParseUnsignedFloat(u) == Some(m)
    ensures ParseFloat(u) == Some(m)
  {
  }

  lemma NegatedFloat(u: string, m: real)
    requires Strip(u) == u && |u| > 0 && u[0] == '-' && ParseUnsignedFloat(u[1..]) == Some(m)
    ensures ParseFloat(u) == Some(-m)
  {
    var t := Strip(u);
    assert t[0] == '-' && t[1..] == u[1..];
  }
}

=== FILE: regex.dfy ===
/** The fragment of Python's `re` module that the host-side parsers use, as
    a backtracking matcher that explores alternatives in the same order as
    `re.search`: the leftmost starting position wins; at a position the
    top-level alternatives are tried left to right; greedy repetitions try
    the longest run first and give back one character at a time; lazy
    repetitions try the shortest first; a group of literal words tries the
    words in the order written.  `re.IGNORECASE` compares letters after
    ASCII case folding. */
module Regex {
  import opened PyText

  /** A single-character class. */
  datatype Class =
    | Chr(c: char)          // one literal character
    | AnyChar               // `.`: anything but a newline
    | Digit                 // `\d`
    | WordChar              // `\w`
    | Space                 // `\s`
    | UpperOrUnderscore     // `[A-Z_]`
    | Either(a: Class, b: Class)   // a set such as `[:\s=]`

  predicate ClassMatches(k: Class, c: char, ic: bool)
  {
    match k
    case Chr(x) => if ic then LowerChar(x) == LowerChar(c) else x == c
    case AnyChar => c != '\n'
    case Digit => IsDigit(c)
    case WordChar => IsWordChar(c)
    case Space => IsSpace(c)
    case UpperOrUnderscore => IsUpper(c) || c == '_' || (ic && IsLower(c))
    case Either(a, b) => ClassMatches(a, c, ic) || ClassMatches(b, c, ic)
  }

  /** One element of a pattern. */
  datatype Node =
    | One(k: Class)          // exactly one character of the class
    | Opt(k: Class)          // `k?`
    | Star(k: Class)         // `k*`
    | Lazy(k: Class)         // `k*?`
    | Plus(k: Class)         // `k+`
    | Open(g: nat)           // `(` of group g
    | Close(g: nat)          // `)` of group g
    | Words(ws: seq<string>) // `(w1|w2|...)` body: literal words in order

  /** Top-level alternatives `a1|a2|...` and the IGNORECASE flag. */
  datatype Pattern = Pattern(alts: seq<seq<Node>>, ic: bool)

  type Spans = map<nat, (nat, nat)>

  /** Where a match attempt from a fixed start ended, with its groups. */
  datatype Found = Found(end: nat, groups: Spans)

  datatype Match = Match(start: nat, end: nat, groups: Spans)

  /** The literal text `w` as a sequence of one-character nodes. */
  function Lit(w: string): (ns: seq<Node>)
    ensures |ns| == |w|
    ensures forall i :: 0 <= i < |w| ==> ns[i] == One(Chr(w[i]))
  {
    seq(|w|, i requires 0 <= i < |w| => One(Chr(w[i])))
  }

  /** The text `w` occurs at position `p` of `s` (under folding if `ic`). */
  predicate WordAt(w: string, s: string, p: nat, ic: bool)
  {
    p + |w| <= |s| && forall j :: 0 <= j < |w| ==> ClassMatches(Chr(w[j]), s[p + j], ic)
  }

  /** Length of the longest run of `k` characters starting at `p`. */
  function Run(k: Class, s: string, p: nat, ic: bool): (n: nat)
    requires p <= |s|
    ensures p + n <= |s|
    ensures forall j :: p <= j < p + n ==> ClassMatches(k, s[j], ic)
    ensures p + n == |s| || !ClassMatches(k, s[p + n], ic)
    decreases |s| - p
  {
    if p < |s| && ClassMatches(k, s[p], ic) then 1 + Run(k, s, p + 1, ic) else 0
  }

  /** Match the node sequence `ns` against `s` starting exactly at `p`;
      `open` holds where each open group started. */
  function MatchHere(ns: seq<Node>, s: string, p: nat, ic: bool, open: map<nat, nat>, caps: Spans): Option<Found>
    requires p <= |s|
    decreases |ns|, 0, 0
  {
    if ns == [] then Some(Found(p, caps))
    else
      var rest := ns[1..];
      match ns[0]
      case One(k) =>
        if p < |s| && ClassMatches(k, s[p], ic) then MatchHere(rest, s, p + 1, ic, open, caps) else None
      case Opt(k) =>
        if p < |s| && ClassMatches(k, s[p], ic) && MatchHere(rest, s, p + 1, ic, open, caps).Some?
        then MatchHere(rest, s, p + 1, ic, open, caps)
        else MatchHere(rest, s, p, ic, open, caps)
      case Star(k) => Greedy(rest, s, p, Run(k, s, p, ic), 0, ic, open, caps)
      case Plus(k) =>
        var n := Run(k, s, p, ic);
        if n == 0 then None else Greedy(rest, s, p, n, 1, ic, open, caps)
      case Lazy(k) => Reluctant(rest, s, p, 0, Run(k, s, p, ic), ic, open, caps)
      case Open(g) => MatchHere(rest, s, p, ic, open[g := p], caps)
      case Close(g) => MatchHere(rest, s, p, ic, open, if g in open then caps[g := (open[g], p)] else caps)
      case Words(ws) => Alternatives(rest, ws, 0, s, p, ic, open, caps)
  }

  /** Try the continuation after `n`, `n - 1`, ..., `lo` repetitions. */
  function Greedy(rest: seq<Node>, s: string, p: nat, n: nat, lo: nat, ic: bool, open: map<nat, nat>, caps: Spans): Option<Found>
    requires p + n <= |s| && lo <= n
    decreases |rest|, 1, n
  {
    var r := MatchHere(rest, s, p + n, ic, open, caps);
    if r.Some? || n == lo then r else Greedy(rest, s, p, n - 1, lo, ic, open, caps)
  }

  /** Try the continuation after `n`, `n + 1`, ..., `max` repetitions. */
  function Reluctant(rest: seq<Node>, s: string, p: nat, n: nat, max: nat, ic: bool, open: map<nat, nat>, caps: Spans): Option<Found>
    requires n <= max && p + max <= |s|
    decreases |rest|, 1, max - n
  {
    var r := MatchHere(rest, s, p + n, ic, open, caps);
    if r.Some? || n == max then r else Reluctant(rest, s, p, n + 1, max, ic, open, caps)
  }

  /** Try the words `ws[i..]` in order, each followed by the continuation. */
  function Alternatives(rest: seq<Node>, ws: seq<string>, i: nat, s: string, p: nat, ic: bool, open: map<nat, nat>, caps: Spans): Option<Found>
    requires i <= |ws| && p <= |s|
    decreases |rest|, 1, |ws| - i
  {
    if i == |ws| then None
    else if WordAt(ws[i], s, p, ic) then
      var r := MatchHere(rest, s, p + |ws[i]|, ic, open, caps);
      if r.Some? then r else Alternatives(rest, ws, i + 1, s, p, ic, open, caps)
    else Alternatives(rest, ws, i + 1, s, p, ic, open, caps)
  }

  /** The first top-level alternative, from index `a` on, matching at `i`. */
  function MatchAt(pat: Pattern, s: string, i: nat, a: nat): Option<Match>
    requires i <= |s| && a <= |pat.alts|
    decreases |pat.alts| - a
  {
    if a == |pat.alts| then None
    else
      var r := MatchHere(pat.alts[a], s, i, pat.ic, map[], map[]);
      if r.Some? then Some(Match(i, r.value.end, r.value.groups)) else MatchAt(pat, s, i, a + 1)
  }

  function SearchFrom(pat: Pattern, s: string, i: nat): Option<Match>
    requires i <= |s|
    decreases |s| - i
  {
    var m := MatchAt(pat, s, i, 0);
    if m.Some? || i == |s| then m else SearchFrom(pat, s, i + 1)
  }

  /** Python's `re.search(pattern, s)`. */
  function Search(pat: Pattern, s: string): Option<Match>
  {
    SearchFrom(pat, s, 0)
  }

  predicate Matches(pat: Pattern, s: string)
  {
    Search(pat, s).Some?
  }

  /** `m.group(g)`; `None` for a group that did not take part. */
  function Group(m: Match, s: string, g: nat): Option<string>
  {
    if g in m.groups && m.groups[g].0 <= m.groups[g].1 <= |s| then Some(s[m.groups[g].0..m.groups[g].1])
    else None
  }

  /** `re.search(pat, s).group(g)` when there is a match and the group took
      part in it. */
  function SearchGroup(pat: Pattern, s: string, g: nat): Option<string>
  {
    var m := Search(pat, s);
    if m.None? then None else Group(m.value, s, g)
  }

  // ---------------------------------------------------------------------
  // Search finds the leftmost start at which some alternative matches.

  predicate MatchesAt(pat: Pattern, s: string, i: nat)
  {
    i <= |s| && MatchAt(pat, s, i, 0).Some?
  }

  lemma {:induction false} SearchFromLeftmost(pat: Pattern, s: string, i: nat)
    requires i <= |s|
    ensures SearchFrom(pat, s, i).Some? <==> exists j :: i <= j <= |s| && MatchesAt(pat, s, j)
    ensures SearchFrom(pat, s, i).Some? ==>
              var m := SearchFrom(pat, s, i).value;
              && i <= m.start <= |s|
              && MatchAt(pat, s, m.start, 0) == Some(m)
              && forall j :: i <= j < m.start ==> !MatchesAt(pat, s, j)
    decreases |s| - i
  {
    if MatchAt(pat, s, i, 0).Some? {
      MatchAtStart(pat, s, i, 0);
      assert MatchesAt(pat, s, i);
    } else if i < |s| {
      SearchFromLeftmost(pat, s, i + 1);
      assert !MatchesAt(pat, s, i);
      if exists j :: i <= j <= |s| && MatchesAt(pat, s, j) {
        var j :| i <= j <= |s| && MatchesAt(pat, s, j);
        assert j != i;
      }
    } else {
      assert !MatchesAt(pat, s, i);
    }
  }

  lemma {:induction false} MatchAtStart(pat: Pattern, s: string, i: nat, a: nat)
    requires i <= |s| && a <= |pat.alts|
    ensures MatchAt(pat, s, i, a).Some? ==> MatchAt(pat, s, i, a).value.start == i
    decreases |pat.alts| - a
  {
    if a < |pat.alts| && MatchHere(pat.alts[a], s, i, pat.ic, map[], map[]).None? {
      MatchAtStart(pat, s, i, a + 1);
    }
  }

  /** `re.search` succeeds exactly when some start position admits a match,
      and it reports the leftmost such position. */
  lemma SearchLeftmost(pat: Pattern, s: string)
    ensures Matches(pat, s) <==> exists j :: 0 <= j <= |s| && MatchesAt(pat, s, j)
    ensures Matches(pat, s) ==>
              var m := Search(pat, s).value;
              && m.start <= |s|
              && MatchAt(pat, s, m.start, 0) == Some(m)
              && forall j :: 0 <= j < m.start ==> !MatchesAt(pat, s, j)
  {
    SearchFromLeftmost(pat, s, 0);
  }

  /** Some alternative, tried from index `a`, matches at `i` as soon as the
      alternative `b >= a` does. */
  lemma {:induction false} MatchAtSome(pat: Pattern, s: string, i: nat, a: nat, b: nat)
    requires i <= |s| && a <= b < |pat.alts|
    requires MatchHere(pat.alts[b], s, i, pat.ic, map[], map[]).Some?
    ensures MatchAt(pat, s, i, a).Some?
    decreases b - a
  {
    if a < b && MatchHere(pat.alts[a], s, i, pat.ic, map[], map[]).None? {
      MatchAtSome(pat, s, i, a + 1, b);
    }
  }

  /** A match of alternative `b` anywhere means `re.search` succeeds. */
  lemma AlternativeFound(pat: Pattern, s: string, i: nat, b: nat)
    requires i <= |s| && b < |pat.alts|
    requires MatchHere(pat.alts[b], s, i, pat.ic, map[], map[]).Some?
    ensures Matches(pat, s)
  {
    MatchAtSome(pat, s, i, 0, b);
    assert MatchesAt(pat, s, i);
    SearchLeftmost(pat, s);
  }

  /** When `re.search` fails, no alternative matches anywhere. */
  lemma NoAlternativeFound(pat: Pattern, s: string, i: nat, b: nat)
    requires i <= |s| && b < |pat.alts|
    requires !Matches(pat, s)
    ensures MatchHere(pat.alts[b], s, i, pat.ic, map[], map[]).None?
  {
    if MatchHere(pat.alts[b], s, i, pat.ic, map[], map[]).Some? {
      AlternativeFound(pat, s, i, b);
    }
  }

  // ---------------------------------------------------------------------
  // Literal text

  /** A literal prefix matches exactly where the text occurs. */
  lemma {:induction false} LitThen(w: string, rest: seq<Node>, s: string, p: nat, ic: bool, open: map<nat, nat>, caps: Spans)
    requires p <= |s|
    ensures MatchHere(Lit(w) + rest, s, p, ic, open, caps)
            == if WordAt(w, s, p, ic) then MatchHere(rest, s, p + |w|, ic, open, caps) else None
    decreases |w|
  {
    if |w| > 0 {
      var ns := Lit(w) + rest;
      assert ns[0] == One(Chr(w[0]));
      assert ns[1..] == Lit(w[1..]) + rest;
      if p < |s| && ClassMatches(Chr(w[0]), s[p], ic) {
        LitThen(w[1..], rest, s, p + 1, ic, open, caps);
        assert WordAt(w, s, p, ic) <==> WordAt(w[1..], s, p + 1, ic) by {
          if WordAt(w[1..], s, p + 1, ic) {
            forall j | 0 <= j < |w| ensures ClassMatches(Chr(w[j]), s[p + j], ic) {
              if j > 0 { assert w[j] == w[1..][j - 1]; }
            }
          }
          if WordAt(w, s, p, ic) {
            forall j | 0 <= j < |w| - 1 ensures ClassMatches(Chr(w[1..][j]), s[p + 1 + j], ic) {
              assert w[1..][j] == w[j + 1];
            }
          }
        }
      }
    } else {
      assert Lit(w) + rest == rest;
    }
  }

  /** A pattern that is one literal word matches exactly the texts that
      contain the word (under folding when IGNORECASE is set). */
  lemma LiteralSearch(w: string, s: string, ic: bool)
    ensures Matches(Pattern([Lit(w)], ic), s) <==> exists i :: 0 <= i <= |s| && WordAt(w, s, i, ic)
  {
    var pat := Pattern([Lit(w)], ic);
    assert Lit(w) == Lit(w) + [];
    forall i | 0 <= i <= |s|
      ensures MatchesAt(pat, s, i) <==> WordAt(w, s, i, ic)
    {
      LitThen(w, [], s, i, ic, map[], map[]);
      assert pat.alts[0] == Lit(w) + [];
      assert MatchAt(pat, s, i, 1).None?;
    }
    SearchLeftmost(pat, s);
  }

  /** A word found with folding: equal to the pattern word after lowering. */
  lemma WordAtFolded(w: string, s: string, p: nat)
    requires WordAt(w, s, p, true)
    ensures Lower(s[p..p + |w|]) == Lower(w)
  {
  }

  lemma WordAtExact(w: string, s: string, p: nat)
    requires WordAt(w, s, p, false)
    ensures s[p..p + |w|] == w
  {
  }

  lemma WordAtOfExact(w: string, s: string, p: nat)
    requires p + |w| <= |s| && s[p..p + |w|] == w
    ensures WordAt(w, s, p, false) && WordAt(w, s, p, true)
  {
    assert forall j :: 0 <= j < |w| ==> s[p + j] == w[j];
  }

  /** A word found case-sensitively is also found under folding. */
  lemma WordAtFoldWeaker(w: string, s: string, p: nat)
    requires WordAt(w, s, p, false)
    ensures WordAt(w, s, p, true)
  {
  }

  /** A word found at `p` has its tail found further on. */
  lemma WordAtSuffix(w: string, k: nat, s: string, p: nat, ic: bool)
    requires WordAt(w, s, p, ic) && k <= |w|
    ensures WordAt(w[k..], s, p + k, ic)
  {
    forall j | 0 <= j < |w| - k ensures ClassMatches(Chr(w[k..][j]), s[p + k + j], ic) {
      assert w[k..][j] == w[k + j];
    }
  }

  /** No character of a found word is a newline unless the word has one. */
  lemma WordAtNoNewline(w: string, s: string, p: nat, ic: bool)
    requires WordAt(w, s, p, ic) && '\n' !in w
    ensures forall j :: p <= j < p + |w| ==> s[j] != '\n'
  {
    forall j | p <= j < p + |w| ensures s[j] != '\n' {
      assert ClassMatches(Chr(w[j - p]), s[j], ic);
      assert w[j - p] in w;
    }
  }

  // ---------------------------------------------------------------------
  // Greedy repetition: the longest successful count wins.

  /** `q` is the end of the repetition that greedy matching settles on:
      the continuation succeeds there and at no longer count. */
  predicate GreedyPick(rest: seq<Node>, s: string, p: nat, n: nat, lo: nat, ic: bool, open: map<nat, nat>, caps: Spans, q: nat)
    requires p + n <= |s| && lo <= n
  {
    && p + lo <= q <= p + n
    && Greedy(rest, s, p, n, lo, ic, open, caps) == MatchHere(rest, s, q, ic, open, caps)
    && forall q' :: q < q' <= p + n ==> MatchHere(rest, s, q', ic, open, caps).None?
  }

  lemma {:induction false} GreedyFirst(rest: seq<Node>, s: string, p: nat, n: nat, lo: nat, ic: bool, open: map<nat, nat>, caps: Spans)
    requires p + n <= |s| && lo <= n
    ensures Greedy(rest, s, p, n, lo, ic, open, caps).Some? ==>
              exists q :: GreedyPick(rest, s, p, n, lo, ic, open, caps, q)
    ensures Greedy(rest, s, p, n, lo, ic, open, caps).None? ==>
              forall q :: p + lo <= q <= p + n ==> MatchHere(rest, s, q, ic, open, caps).None?
    decreases n
  {
    if MatchHere(rest, s, p + n, ic, open, caps).None? && n > lo {
      GreedyFirst(rest, s, p, n - 1, lo, ic, open, caps);
      if Greedy(rest, s, p, n - 1, lo, ic, open, caps).Some? {
        var q :| GreedyPick(rest, s, p, n - 1, lo, ic, open, caps, q);
        assert GreedyPick(rest, s, p, n, lo, ic, open, caps, q);
      }
    } else if MatchHere(rest, s, p + n, ic, open, caps).Some? {
      assert GreedyPick(rest, s, p, n, lo, ic, open, caps, p + n);
    }
  }

  /** A star whose continuation succeeds after the whole run takes the
      whole run. */
  lemma StarWholeRun(k: Class, rest: seq<Node>, s: string, p: nat, ic: bool, open: map<nat, nat>, caps: Spans)
    requires p <= |s|
    requires MatchHere(rest, s, p + Run(k, s, p, ic), ic, open, caps).Some?
    ensures MatchHere([Star(k)] + rest, s, p, ic, open, caps) == MatchHere(rest, s, p + Run(k, s, p, ic), ic, open, caps)
  {
    var ns := [Star(k)] + rest;
    assert ns[0] == Star(k) && ns[1..] == rest;
  }

  /** `q` is the end of the repetition that lazy matching settles on: the
      continuation succeeds there and at no shorter count. */
  predicate ReluctantPick(rest: seq<Node>, s: string, p: nat, n: nat, max: nat, ic: bool, open: map<nat, nat>, caps: Spans, q: nat)
    requires n <= max && p + max <= |s|
  {
    && p + n <= q <= p + max
    && Reluctant(rest, s, p, n, max, ic, open, caps) == MatchHere(rest, s, q, ic, open, caps)
    && forall q' :: p + n <= q' < q ==> MatchHere(rest, s, q', ic, open, caps).None?
  }

  lemma {:induction false} ReluctantFirst(rest: seq<Node>, s: string, p: nat, n: nat, max: nat, ic: bool, open: map<nat, nat>, caps: Spans)
    requires n <= max && p + max <= |s|
    ensures Reluctant(rest, s, p, n, max, ic, open, caps).Some? ==>
              exists q :: ReluctantPick(rest, s, p, n, max, ic, open, caps, q)
    ensures Reluctant(rest, s, p, n, max, ic, open, caps).None? ==>
              forall q :: p + n <= q <= p + max ==> MatchHere(rest, s, q, ic, open, caps).None?
    decreases max - n
  {
    if MatchHere(rest, s, p + n, ic, open, caps).None? && n < max {
      ReluctantFirst(rest, s, p, n + 1, max, ic, open, caps);
      if Reluctant(rest, s, p, n + 1, max, ic, open, caps).Some? {
        var q :| ReluctantPick(rest, s, p, n + 1, max, ic, open, caps, q);
        assert ReluctantPick(rest, s, p, n, max, ic, open, caps, q);
      }
    } else if MatchHere(rest, s, p + n, ic, open, caps).Some? {
      assert ReluctantPick(rest, s, p, n, max, ic, open, caps, p + n);
    }
  }

  lemma {:induction false} AlternativesFirst(rest: seq<Node>, ws: seq<string>, i: nat, s: string, p: nat, ic: bool, open: map<nat, nat>, caps: Spans)
    requires i <= |ws| && p <= |s|
    ensures Alternatives(rest, ws, i, s, p, ic, open, caps).Some? ==>
              exists k :: i <= k < |ws| && WordAt(ws[k], s, p, ic)
                && Alternatives(rest, ws, i, s, p, ic, open, caps) == MatchHere(rest, s, p + |ws[k]|, ic, open, caps)
    ensures Alternatives(rest, ws, i, s, p, ic, open, caps).None? ==>
              forall k :: i <= k < |ws| && WordAt(ws[k], s, p, ic) ==> MatchHere(rest, s, p + |ws[k]|, ic, open, caps).None?
    decreases |ws| - i
  {
    if i < |ws| {
      AlternativesFirst(rest, ws, i + 1, s, p, ic, open, caps);
    }
  }

  // ---------------------------------------------------------------------
  // A pattern with a compulsory literal character cannot match a text that
  // lacks it.

  /** Some element of `ns` is the compulsory single character `c`. */
  predicate Compulsory(ns: seq<Node>, c: char)
  {
    exists j :: 0 <= j < |ns| && ns[j] == One(Chr(c))
  }

  /** No character of `s` from `p` on is `c` (folded when `ic`). */
  predicate AbsentFrom(s: string, p: nat, c: char, ic: bool)
  {
    forall j :: p <= j < |s| ==> !ClassMatches(Chr(c), s[j], ic)
  }

  lemma {:induction false} CompulsoryMissing(ns: seq<Node>, c: char, s: string, p: nat, ic: bool, open: map<nat, nat>, caps: Spans)
    requires p <= |s| && Compulsory(ns, c) && AbsentFrom(s, p, c, ic)
    ensures MatchHere(ns, s, p, ic, open, caps).None?
    decreases |ns|, 0, 0
  {
    var j :| 0 <= j < |ns| && ns[j] == One(Chr(c));
    var rest := ns[1..];
    if j == 0 {
      return;
    }
    assert rest[j - 1] == One(Chr(c));
    match ns[0]
    case One(k) =>
      if p < |s| && ClassMatches(k, s[p], ic) {
        CompulsoryMissing(rest, c, s, p + 1, ic, open, caps);
      }
    case Opt(k) =>
      if p < |s| {
        CompulsoryMissing(rest, c, s, p + 1, ic, open, caps);
      }
      CompulsoryMissing(rest, c, s, p, ic, open, caps);
    case Star(k) =>
      GreedyMissing(rest, c, s, p, Run(k, s, p, ic), 0, ic, open, caps);
    case Plus(k) =>
      var n := Run(k, s, p, ic);
      if n > 0 {
        GreedyMissing(rest, c, s, p, n, 1, ic, open, caps);
      }
    case Lazy(k) =>
      ReluctantMissing(rest, c, s, p, 0, Run(k, s, p, ic), ic, open, caps);
    case Open(g) =>
      CompulsoryMissing(rest, c, s, p, ic, open[g := p], caps);
    case Close(g) =>
      CompulsoryMissing(rest, c, s, p, ic, open, if g in open then caps[g := (open[g], p)] else caps);
    case Words(ws) =>
      AlternativesMissing(rest, ws, 0, c, s, p, ic, open, caps);
  }

  lemma {:induction false} GreedyMissing(rest: seq<Node>, c: char, s: string, p: nat, n: nat, lo: nat, ic: bool, open: map<nat, nat>, caps: Spans)
    requires p + n <= |s| && lo <= n && Compulsory(rest, c) && AbsentFrom(s, p, c, ic)
    ensures Greedy(rest, s, p, n, lo, ic, open, caps).None?
    decreases |rest|, 1, n
  {
    CompulsoryMissing(rest, c, s, p + n, ic, open, caps);
    if n > lo {
      GreedyMissing(rest, c, s, p, n - 1, lo, ic, open, caps);
    }
  }

  lemma {:induction false} ReluctantMissing(rest: seq<Node>, c: char, s: string, p: nat, n: nat, max: nat, ic: bool, open: map<nat, nat>, caps: Spans)
    requires n <= max && p + max <= |s| && Compulsory(rest, c) && AbsentFrom(s, p, c, ic)
    ensures Reluctant(rest, s, p, n, max, ic, open, caps).None?
    decreases |rest|, 1, max - n
  {
    CompulsoryMissing(rest, c, s, p + n, ic, open, caps);
    if n < max {
      ReluctantMissing(rest, c, s, p, n + 1, max, ic, open, caps);
    }
  }

  lemma {:induction false} AlternativesMissing(rest: seq<Node>, ws: seq<string>, i: nat, c: char, s: string, p: nat, ic: bool, open: map<nat, nat>, caps: Spans)
    requires i <= |ws| && p <= |s| && Compulsory(rest, c) && AbsentFrom(s, p, c, ic)
    ensures Alternatives(rest, ws, i, s, p, ic, open, caps).None?
    decreases |rest|, 1, |ws| - i
  {
    if i < |ws| {
      if WordAt(ws[i], s, p, ic) {
        CompulsoryMissing(rest, c, s, p + |ws[i]|, ic, open, caps);
      }
      AlternativesMissing(rest, ws, i + 1, c, s, p, ic, open, caps);
    }
  }

  /** `re.search` fails on a text without the character that every
      alternative of the pattern demands. */
  lemma SearchNeedsChar(pat: Pattern, c: char, s: string)
    requires forall a :: 0 <= a < |pat.alts| ==> Compulsory(pat.alts[a], c)
    requires AbsentFrom(s, 0, c, pat.ic)
    ensures !Matches(pat, s)
  {
    forall i | 0 <= i <= |s| ensures !MatchesAt(pat, s, i) {
      NoAltAt(pat, c, s, i, 0);
    }
    SearchLeftmost(pat, s);
  }

  lemma {:induction false} NoAltAt(pat: Pattern, c: char, s: string, i: nat, a: nat)
    requires forall a :: 0 <= a < |pat.alts| ==> Compulsory(pat.alts[a], c)
    requires AbsentFrom(s, 0, c, pat.ic) && i <= |s| && a <= |pat.alts|
    ensures MatchAt(pat, s, i, a).None?
    decreases |pat.alts| - a
  {
    if a < |pat.alts| {
      CompulsoryMissing(pat.alts[a], c, s, i, pat.ic, map[], map[]);
      NoAltAt(pat, c, s, i, a + 1);
    }
  }

  // ---------------------------------------------------------------------
  // `<word>.*?(k+)`: the group is the first run of `k` after the word.

  /** `word.*?(k+)` with group 1 around the run. */
  function LabelLazyRun(word: string, k: Class, ic: bool): Pattern
  {
    Pattern([Lit(word) + [Lazy(AnyChar), Open(1), Plus(k), Close(1)]], ic)
  }

  /** `(k+)` captures the whole run of `k` from `q`, and fails on an empty one. */
  lemma CapturedRun(k: Class, s: string, q: nat, ic: bool)
    requires q <= |s|
    ensures var n := Run(k, s, q, ic);
      MatchHere([Open(1), Plus(k), Close(1)], s, q, ic, map[], map[])
      == if n == 0 then None else Some(Found(q + n, map[1 := (q, q + n)]))
  {
    var n := Run(k, s, q, ic);
    var close: seq<Node> := [Close(1)];
    assert [Open(1), Plus(k), Close(1)][1..] == [Plus(k), Close(1)];
    assert [Plus(k), Close(1)][1..] == close;
    if n > 0 {
      assert MatchHere(close, s, q + n, ic, map[1 := q], map[]) == Some(Found(q + n, map[1 := (q, q + n)]));
      assert Greedy(close, s, q, n, 1, ic, map[1 := q], map[]) == Some(Found(q + n, map[1 := (q, q + n)]));
    }
  }

  /** The lazy gap stops at the first character of the class. */
  lemma LazyGapStops(k: Class, s: string, m0: nat, r0: nat, r1: nat, ic: bool)
    requires m0 <= r0 < r1 <= |s|
    requires forall j :: m0 <= j < r0 ==> s[j] != '\n' && !ClassMatches(k, s[j], ic)
    requires Run(k, s, r0, ic) == r1 - r0
    ensures var cap := [Open(1), Plus(k), Close(1)];
      MatchHere([Lazy(AnyChar)] + cap, s, m0, ic, map[], map[]) == Some(Found(r1, map[1 := (r0, r1)]))
  {
    var cap := [Open(1), Plus(k), Close(1)];
    var ns := [Lazy(AnyChar)] + cap;
    assert ns[0] == Lazy(AnyChar) && ns[1..] == cap;
    var max := Run(AnyChar, s, m0, ic);
    assert MatchHere(ns, s, m0, ic, map[], map[]) == Reluctant(cap, s, m0, 0, max, ic, map[], map[]);
    assert max >= r0 - m0;
    CapturedRun(k, s, r0, ic);
    forall j | m0 <= j < r0
      ensures MatchHere(cap, s, j, ic, map[], map[]).None?
    {
      CapturedRun(k, s, j, ic);
    }
    ReluctantSettles(cap, s, m0, max, r0 - m0, ic);
  }

  /** A reluctant repetition settles on the first position where the rest
      matches. */
  lemma ReluctantSettles(rest: seq<Node>, s: string, p: nat, max: nat, n: nat, ic: bool)
    requires n <= max && p + max <= |s|
    requires MatchHere(rest, s, p + n, ic, map[], map[]).Some?
    requires forall j :: p <= j < p + n ==> MatchHere(rest, s, j, ic, map[], map[]).None?
    ensures Reluctant(rest, s, p, 0, max, ic, map[], map[]) == MatchHere(rest, s, p + n, ic, map[], map[])
  {
    ReluctantFirst(rest, s, p, 0, max, ic, map[], map[]);
    var q: nat :| ReluctantPick(rest, s, p, 0, max, ic, map[], map[], q);
  }

  /** In a text where the word first occurs at `at`, followed by a gap
      with no newline and no `k` character and then the run `s[r0..r1]`,
      the search captures exactly that run. */
  lemma LabelLazyRunGroup(word: string, k: Class, ic: bool, s: string, at: nat, r0: nat, r1: nat)
    requires word != [] && WordAt(word, s, at, ic)
    requires forall j :: 0 <= j < at ==> !ClassMatches(Chr(word[0]), s[j], ic)
    requires at + |word| <= r0 < r1 <= |s|
    requires forall j :: at + |word| <= j < r0 ==> s[j] != '\n' && !ClassMatches(k, s[j], ic)
    requires forall j :: r0 <= j < r1 ==> ClassMatches(k, s[j], ic)
    requires r1 == |s| || !ClassMatches(k, s[r1], ic)
    ensures SearchGroup(LabelLazyRun(word, k, ic), s, 1) == Some(s[r0..r1])
  {
    var pat := LabelLazyRun(word, k, ic);
    var tail := [Lazy(AnyChar), Open(1), Plus(k), Close(1)];
    assert tail == [Lazy(AnyChar)] + [Open(1), Plus(k), Close(1)];
    assert pat.alts[0] == Lit(word) + tail && |pat.alts| == 1;
    assert Run(k, s, r0, ic) == r1 - r0;
    LitThen(word, tail, s, at, ic, map[], map[]);
    LazyGapStops(k, s, at + |word|, r0, r1, ic);
    assert MatchAt(pat, s, at, 0) == Some(Match(at, r1, map[1 := (r0, r1)]));
    NoLabelBefore(pat, word, tail, s, at);
    SearchLeftmost(pat, s);
    assert MatchesAt(pat, s, at);
  }

  /** A one-alternative pattern that starts with a word matches nowhere
      before the first place the word's first character can occur. */
  lemma NoLabelBefore(pat: Pattern, word: string, tail: seq<Node>, s: string, at: nat)
    requires pat.alts == [Lit(word) + tail] && word != [] && at <= |s|
    requires forall j :: 0 <= j < at ==> !ClassMatches(Chr(word[0]), s[j], pat.ic)
    ensures forall j :: 0 <= j < at ==> !MatchesAt(pat, s, j)
  {
    forall j | 0 <= j < at ensures !MatchesAt(pat, s, j) {
      LitThen(word, tail, s, j, pat.ic, map[], map[]);
      assert !WordAt(word, s, j, pat.ic) by {
        assert !ClassMatches(Chr(word[0]), s[j + 0], pat.ic);
      }
      assert MatchAt(pat, s, j, 1).None?;
    }
  }

  // ---------------------------------------------------------------------
  // `a.*b`: the second word later on the same line as the first.

  /** The node sequence of `a.*b`. */
  function Gap(a: string, b: string): seq<Node>
  {
    Lit(a) + [Star(AnyChar)] + Lit(b)
  }

  /** `b` starts at `j`, after `a` at `i`, with no newline in between. */
  predicate Follows(a: string, b: string, s: string, i: nat, j: nat, ic: bool)
  {
    && WordAt(a, s, i, ic) && i + |a| <= j && WordAt(b, s, j, ic)
    && forall k :: i + |a| <= k < j ==> s[k] != '\n'
  }

  /** A literal word alone matches exactly where it occurs. */
  lemma LitAlone(w: string, s: string, q: nat, ic: bool)
    requires q <= |s|
    ensures MatchHere(Lit(w), s, q, ic, map[], map[]).Some? <==> WordAt(w, s, q, ic)
  {
    LitThen(w, [], s, q, ic, map[], map[]);
    assert Lit(w) + [] == Lit(w);
  }

  /** `a.*b` matches at `i` exactly when some `b` follows the `a` there. */
  lemma GapHere(a: string, b: string, s: string, i: nat, ic: bool)
    requires i <= |s|
    ensures MatchHere(Gap(a, b), s, i, ic, map[], map[]).Some? <==> exists j: nat :: Follows(a, b, s, i, j, ic)
  {
    var tail := [Star(AnyChar)] + Lit(b);
    assert Gap(a, b) == Lit(a) + tail;
    LitThen(a, tail, s, i, ic, map[], map[]);
    if WordAt(a, s, i, ic) {
      var p := i + |a|;
      var n := Run(AnyChar, s, p, ic);
      assert tail[1..] == Lit(b);
      assert MatchHere(tail, s, p, ic, map[], map[]) == Greedy(Lit(b), s, p, n, 0, ic, map[], map[]);
      GreedyFirst(Lit(b), s, p, n, 0, ic, map[], map[]);
      if exists j: nat :: Follows(a, b, s, i, j, ic) {
        var j: nat :| Follows(a, b, s, i, j, ic);
        assert j <= p + n;
        LitAlone(b, s, j, ic);
      }
      if Greedy(Lit(b), s, p, n, 0, ic, map[], map[]).Some? {
        var q: nat :| GreedyPick(Lit(b), s, p, n, 0, ic, map[], map[], q);
        LitAlone(b, s, q, ic);
        assert Follows(a, b, s, i, q, ic);
      }
    }
  }

  /** `re.search("a.*b")` succeeds exactly when `b` follows `a` on a line. */
  lemma GapSearch(a: string, b: string, s: string, ic: bool)
    ensures Matches(Pattern([Gap(a, b)], ic), s) <==> exists i: nat, j: nat :: Follows(a, b, s, i, j, ic)
  {
    var pat := Pattern([Gap(a, b)], ic);
    forall i | 0 <= i <= |s|
      ensures MatchesAt(pat, s, i) <==> exists j: nat :: Follows(a, b, s, i, j, ic)
    {
      GapHere(a, b, s, i, ic);
      assert MatchAt(pat, s, i, 1).None?;
    }
    SearchLeftmost(pat, s);
    if exists i: nat, j: nat :: Follows(a, b, s, i, j, ic) {
      var i: nat, j: nat :| Follows(a, b, s, i, j, ic);
      assert MatchesAt(pat, s, i);
    }
  }

  /** `re.search("a.*b|w")`: `b` follows `a` on a line, or `w` occurs. */
  lemma GapOrWordSearch(a: string, b: string, w: string, s: string, ic: bool)
    ensures Matches(Pattern([Gap(a, b), Lit(w)], ic), s)
            <==> (exists i: nat, j: nat :: Follows(a, b, s, i, j, ic)) || exists i: nat :: WordAt(w, s, i, ic)
  {
    var pat := Pattern([Gap(a, b), Lit(w)], ic);
    forall i | 0 <= i <= |s|
      ensures MatchesAt(pat, s, i) <==> (exists j: nat :: Follows(a, b, s, i, j, ic)) || WordAt(w, s, i, ic)
    {
      GapHere(a, b, s, i, ic);
      LitAlone(w, s, i, ic);
      assert pat.alts[0] == Gap(a, b) && pat.alts[1] == Lit(w);
      assert MatchAt(pat, s, i, 2).None?;
      assert MatchAt(pat, s, i, 1).Some? <==> WordAt(w, s, i, ic);
    }
    SearchLeftmost(pat, s);
    if exists i: nat, j: nat :: Follows(a, b, s, i, j, ic) {
      var i: nat, j: nat :| Follows(a, b, s, i, j, ic);
      assert MatchesAt(pat, s, i);
    }
    if exists i: nat :: WordAt(w, s, i, ic) {
      var i: nat :| WordAt(w, s, i, ic);
      assert MatchesAt(pat, s, i);
    }
  }

  // ---------------------------------------------------------------------
  // Groups that open on a literal backslash.

  /** Repetitions of character classes only: no groups, no word lists. */
  predicate Plain(ns: seq<Node>)
  {
    forall j :: 0 <= j < |ns| ==> ns[j].One? || ns[j].Opt? || ns[j].Star? || ns[j].Lazy? || ns[j].Plus?
  }

  /** A plain prefix only moves the position: whatever `ns + rest` finds,
      `rest` finds from some later position with the same groups. */
  lemma {:induction false} PlainThen(ns: seq<Node>, rest: seq<Node>, s: string, p: nat, ic: bool, open: map<nat, nat>, caps: Spans)
    requires p <= |s| && Plain(ns)
    ensures MatchHere(ns + rest, s, p, ic, open, caps).Some? ==>
      exists q: nat :: p <= q <= |s| && MatchHere(ns + rest, s, p, ic, open, caps) == MatchHere(rest, s, q, ic, open, caps)
    decreases |ns|
  {
    if ns == [] {
      assert ns + rest == rest;
      return;
    }
    var all := ns + rest;
    var tail := ns[1..] + rest;
    assert all[0] == ns[0] && all[1..] == tail;
    assert Plain(ns[1..]) by {
      forall j | 0 <= j < |ns[1..]| ensures ns[1..][j] == ns[j + 1] { }
    }
    var r := MatchHere(all, s, p, ic, open, caps);
    if r.Some? {
      var k := ns[0].k;
      if ns[0].One? {
        PlainThen(ns[1..], rest, s, p + 1, ic, open, caps);
      } else if ns[0].Opt? {
        if p < |s| && ClassMatches(k, s[p], ic) && MatchHere(tail, s, p + 1, ic, open, caps).Some? {
          PlainThen(ns[1..], rest, s, p + 1, ic, open, caps);
        } else {
          PlainThen(ns[1..], rest, s, p, ic, open, caps);
        }
      } else if ns[0].Star? || ns[0].Plus? {
        var n := Run(k, s, p, ic);
        var lo := if ns[0].Star? then 0 else 1;
        assert r == Greedy(tail, s, p, n, lo, ic, open, caps);
        GreedyFirst(tail, s, p, n, lo, ic, open, caps);
        var q: nat :| GreedyPick(tail, s, p, n, lo, ic, open, caps, q);
        PlainThen(ns[1..], rest, s, q, ic, open, caps);
      } else {
        var n := Run(k, s, p, ic);
        assert r == Reluctant(tail, s, p, 0, n, ic, open, caps);
        ReluctantFirst(tail, s, p, 0, n, ic, open, caps);
        var q: nat :| ReluctantPick(tail, s, p, 0, n, ic, open, caps, q);
        PlainThen(ns[1..], rest, s, q, ic, open, caps);
      }
    }
  }

  /** `(\\<mid>)`: group 1 opening on a literal backslash. */
  function Escaped(mid: seq<Node>): seq<Node>
  {
    [Open(1), One(Chr('\\'))] + mid + [Close(1)]
  }

  /** A match of `(\\<mid>)` from `q` starts on a backslash and captures
      from `q` to where it ends. */
  lemma EscapedHere(mid: seq<Node>, s: string, q: nat, ic: bool)
    requires q <= |s| && Plain(mid)
    ensures var r := MatchHere(Escaped(mid), s, q, ic, map[], map[]);
      r.Some? ==> q < r.value.end <= |s| && s[q] == '\\' && r.value.groups == map[1 := (q, r.value.end)]
  {
    var e := Escaped(mid);
    var r := MatchHere(e, s, q, ic, map[], map[]);
    if r.Some? {
      var body := [One(Chr('\\'))] + mid + [Close(1)];
      assert e[0] == Open(1) && e[1..] == body;
      assert body[0] == One(Chr('\\')) && body[1..] == mid + [Close(1)];
      assert r == MatchHere(body, s, q, ic, map[1 := q], map[]);
      assert q < |s| && ClassMatches(Chr('\\'), s[q], ic);
      assert r == MatchHere(mid + [Close(1)], s, q + 1, ic, map[1 := q], map[]);
      PlainThen(mid, [Close(1)], s, q + 1, ic, map[1 := q], map[]);
      var q2: nat :| q + 1 <= q2 <= |s| && r == MatchHere([Close(1)], s, q2, ic, map[1 := q], map[]);
      assert [Close(1)][1..] == [];
      assert r == Some(Found(q2, map[1 := (q, q2)]));
    }
  }

  /** In `<pre>(\\<mid>)` with plain `pre` and `mid`, the captured text
      starts with a backslash. */
  lemma EscapedGroup(pre: seq<Node>, mid: seq<Node>, s: string, ic: bool)
    requires Plain(pre) && Plain(mid)
    ensures var g := SearchGroup(Pattern([pre + Escaped(mid)], ic), s, 1);
      g.Some? ==> |g.value| > 0 && g.value[0] == '\\'
  {
    var pat := Pattern([pre + Escaped(mid)], ic);
    var m := Search(pat, s);
    if m.Some? {
      SearchLeftmost(pat, s);
      var i := m.value.start;
      var r := MatchHere(pre + Escaped(mid), s, i, ic, map[], map[]);
      assert MatchAt(pat, s, i, 1).None?;
      assert r.Some? && m.value.groups == r.value.groups;
      PlainThen(pre, Escaped(mid), s, i, ic, map[], map[]);
      var q: nat :| i <= q <= |s| && r == MatchHere(Escaped(mid), s, q, ic, map[], map[]);
      EscapedHere(mid, s, q, ic);
    }
  }
}

=== FILE: serial_comm.dfy ===
/** The mobile application's serial link, `MobileSerialMonitor`, reduced to
    its flags, its write queue and the line splitting of its read loop.
    Opening the port, the reader thread and UTF-8 decoding are outside the
    model: `Connect` is told whether the port opened, and each read-loop
    iteration is given the text the port delivered. Registered callbacks
    are identified by number; a delivery is recorded as the pair of a
    callback and a line. */
module SerialComm {
  import opened PyText
  import opened ParameterMonitoring

  /** One call `callback(line)`. */
  datatype Delivery = Delivery(callback: nat, line: string)

  /** The calls made for one line: every callback, in registration order. */
  function Deliver(callbacks: seq<nat>, line: string): (ds: seq<Delivery>)
    ensures |ds| == |callbacks|
    ensures forall i :: 0 <= i < |ds| ==> ds[i] == Delivery(callbacks[i], line)
  {
    seq(|callbacks|, i requires 0 <= i < |callbacks| => Delivery(callbacks[i], line))
  }

  /** The calls made for a run of complete lines: each is stripped, and
      those left empty are skipped. */
  function Deliveries(callbacks: seq<nat>, lines: seq<string>): seq<Delivery>
  {
    if lines == [] then [] else LineCalls(callbacks, lines[0]) + Deliveries(callbacks, lines[1..])
  }

  /** The calls made for one complete line. */
  function LineCalls(callbacks: seq<nat>, line: string): seq<Delivery>
  {
    if Strip(line) != "" then Deliver(callbacks, Strip(line)) else []
  }

  /** Callbacks only ever see stripped, non-empty lines. */
  lemma {:induction false} DeliveredLinesStripped(callbacks: seq<nat>, lines: seq<string>)
    ensures forall d :: d in Deliveries(callbacks, lines) ==> d.line != "" && Strip(d.line) == d.line
  {
    if lines != [] {
      DeliveredLinesStripped(callbacks, lines[1..]);
      StripIdempotent(lines[0]);
    }
  }

  /** Newline-free lines, each followed by a newline, then a newline-free
      tail: splitting gives those lines back as the complete lines and the
      tail as the tail. */
  lemma LinesOfTerminated(done: seq<string>, tail: string)
    requires forall i :: 0 <= i < |done| ==> '\n' !in done[i]
    requires '\n' !in tail
    ensures CompleteLines(Terminated(done, "\n") + tail) == done
    ensures Tail(Terminated(done, "\n") + tail) == tail
  {
    var parts := done + [tail];
    JoinSnoc(done, tail, "\n");
    forall i | 0 <= i < |parts| ensures '\n' !in parts[i] {
      if i < |done| {
        assert parts[i] == done[i];
      }
    }
    SplitUnique(Terminated(done, "\n") + tail, '\n', parts);
    assert parts[..|parts| - 1] == done;
  }

  /** Cutting the first line off the rest of the text moves it, newline
      and all, to the lines already cut. */
  lemma CutLine(text: string, done: seq<string>, rest: string, k: nat)
    requires text == Terminated(done, "\n") + rest
    requires k == IndexOf(rest, '\n') && k < |rest|
    ensures text == Terminated(done + [rest[..k]], "\n") + rest[k + 1..]
    ensures '\n' !in rest[..k]
  {
    var line, after := rest[..k], rest[k + 1..];
    SliceAround(rest, k);
    TerminatedSnoc(done, line);
    AppendAssociates(Terminated(done, "\n"), line + "\n", after);
  }

  lemma TerminatedSnoc(done: seq<string>, line: string)
    ensures Terminated(done + [line], "\n") == Terminated(done, "\n") + (line + "\n")
  {
    TerminatedAppend(done, [line], "\n");
    assert Terminated([line], "\n") == line + "\n" + Terminated([], "\n");
  }

  /** The calls made so far extend by those for one more line. */
  lemma DeliveriesStep(done: seq<string>, line: string, before: seq<Delivery>,
                       sofar: seq<Delivery>, after: seq<Delivery>, callbacks: seq<nat>)
    requires sofar == before + Deliveries(callbacks, done)
    requires after == sofar + LineCalls(callbacks, line)
    ensures after == before + Deliveries(callbacks, done + [line])
  {
    DeliveriesAppendOne(callbacks, done, line);
    AppendAssociates(before, Deliveries(callbacks, done), LineCalls(callbacks, line));
  }

  lemma DeliveriesAppendOne(callbacks: seq<nat>, lines: seq<string>, line: string)
    ensures Deliveries(callbacks, lines + [line]) == Deliveries(callbacks, lines) + LineCalls(callbacks, line)
  {
    DeliveriesAppend(callbacks, lines, [line]);
    assert Deliveries(callbacks, [line]) == LineCalls(callbacks, line) + Deliveries(callbacks, []);
  }

  /** The calls for two runs of lines are those for the runs together. */
  lemma {:induction false} DeliveriesAppend(callbacks: seq<nat>, xs: seq<string>, ys: seq<string>)
    ensures Deliveries(callbacks, xs + ys) == Deliveries(callbacks, xs) + Deliveries(callbacks, ys)
    decreases |xs|
  {
    if xs == [] {
      assert xs + ys == ys;
    } else {
      assert (xs + ys)[1..] == xs[1..] + ys;
      DeliveriesAppend(callbacks, xs[1..], ys);
    }
  }

  /** However the port splits the incoming text into reads, the callbacks
      see the same calls: two reads in turn deliver what one read of both
      would, and leave the same buffer. */
  lemma ChunkingInvisible(callbacks: seq<nat>, a: string, b: string)
    ensures Deliveries(callbacks, CompleteLines(a)) + Deliveries(callbacks, CompleteLines(Tail(a) + b))
      == Deliveries(callbacks, CompleteLines(a + b))
    ensures Tail(Tail(a) + b) == Tail(a + b)
  {
    ReassemblyAcrossReads(a, b);
    DeliveriesAppend(callbacks, CompleteLines(a), CompleteLines(Tail(a) + b));
  }

  class MobileSerialMonitor {
    var isConnected: bool
    var running: bool
    /** `serial_port is not None`. */
    var portOpen: bool
    var portName: Option<string>
    var baudRate: nat
    var lastError: Option<string>
    var writeQueue: seq<string>
    var receiveCallbacks: seq<nat>
    /** The read loop's carry-over text. */
    var buffer: string
    /** What has been written to the port, in order. */
    var written: seq<string>
    /** The callback calls made, in order. */
    var delivered: seq<Delivery>

    constructor ()
      ensures !isConnected && !running && !portOpen && portName == None && baudRate == 9600
      ensures lastError == None && writeQueue == [] && receiveCallbacks == []
      ensures buffer == "" && written == [] && delivered == []
    {
      isConnected := false;
      running := false;
      portOpen := false;
      portName := None;
      baudRate := 9600;
      lastError := None;
      writeQueue := [];
      receiveCallbacks := [];
      buffer := "";
      written := [];
      delivered := [];
    }

    /** `connect`: `portOpened` says whether `serial.Serial` succeeded, `error`
        is the text of its exception otherwise. On success the reader loop
        starts with an empty buffer. */
    method Connect(port: string, baud: nat, portOpened: bool, error: string) returns (ok: bool)
      modifies this`isConnected, this`running, this`portOpen, this`portName, this`baudRate,
        this`lastError, this`buffer
      ensures ok == portOpened
      ensures portOpened ==>
        (isConnected && running && portOpen && portName == Some(port) && baudRate == baud
         && buffer == "" && lastError == old(lastError))
      ensures !portOpened ==>
        (lastError == Some(error) && isConnected == old(isConnected)
         && running == old(running) && portOpen == old(portOpen) && portName == old(portName)
         && baudRate == old(baudRate) && buffer == old(buffer))
    {
      if !portOpened {
        lastError := Some(error);
        return false;
      }
      portOpen := true;
      portName := Some(port);
      baudRate := baud;
      isConnected := true;
      running := true;
      buffer := "";
      return true;
    }

    /** `disconnect`: stop the loop, clear the flag, drop the port. */
    method Disconnect()
      modifies this`running, this`isConnected, this`portOpen
      ensures !running && !isConnected && !portOpen
    {
      running := false;
      isConnected := false;
      portOpen := false;
    }

    /** `send_line`: queue the data with a newline, only when connected. */
    method SendLine(data: string)
      modifies this`writeQueue
      ensures writeQueue == if isConnected then old(writeQueue) + [data + "\n"] else old(writeQueue)
    {
      if !isConnected {
        return;
      }
      writeQueue := writeQueue + [data + "\n"];
    }

    /** `add_receive_callback`. */
    method AddReceiveCallback(callback: nat)
      modifies this`receiveCallbacks
      ensures receiveCallbacks == old(receiveCallbacks) + [callback]
    {
      receiveCallbacks := receiveCallbacks + [callback];
    }

    /** One iteration of `_read_loop` while it runs: drain the write queue
        in order, then append the received text and deliver every complete
        line, keeping the unterminated tail. */
    method ReadIteration(chunk: string)
      requires running && portOpen && '\n' !in buffer
      modifies this`writeQueue, this`written, this`buffer, this`delivered
      ensures writeQueue == [] && written == old(written) + old(writeQueue)
      ensures buffer == Tail(old(buffer) + chunk) && '\n' !in buffer
      ensures old(buffer) + chunk == Terminated(CompleteLines(old(buffer) + chunk), "\n") + buffer
      ensures delivered == old(delivered) + Deliveries(receiveCallbacks, CompleteLines(old(buffer) + chunk))
    {
      DrainWrites();
      ReceiveChunk(chunk);
    }

    /** The write half: every queued line goes to the port, oldest first. */
    method DrainWrites()
      modifies this`writeQueue, this`written
      ensures writeQueue == [] && written == old(written) + old(writeQueue)
    {
      while writeQueue != []
        invariant written + writeQueue == old(written) + old(writeQueue)
        decreases |writeQueue|
      {
        var data := writeQueue[0];
        writeQueue := writeQueue[1..];
        written := written + [data];
      }
      assert written + [] == written;
    }

    /** The read half: nothing happens without data; otherwise the data
        joins the buffer, and each complete line is cut off in turn. */
    method ReceiveChunk(chunk: string)
      requires '\n' !in buffer
      modifies this`buffer, this`delivered
      ensures buffer == Tail(old(buffer) + chunk) && '\n' !in buffer
      ensures old(buffer) + chunk == Terminated(CompleteLines(old(buffer) + chunk), "\n") + buffer
      ensures delivered == old(delivered) + Deliveries(receiveCallbacks, CompleteLines(old(buffer) + chunk))
    {
      if |chunk| == 0 {
        assert old(buffer) + chunk == Terminated([], "\n") + buffer;
        LinesOfTerminated([], buffer);
        return;
      }
      buffer := buffer + chunk;
      CutLines();
    }

    /** `while '\n' in buffer`: cut off the first line, strip it, and hand
        it to the callbacks unless it is empty. */
    method CutLines()
      modifies this`buffer, this`delivered
      ensures buffer == Tail(old(buffer)) && '\n' !in buffer
      ensures old(buffer) == Terminated(CompleteLines(old(buffer)), "\n") + buffer
      ensures delivered == old(delivered) + Deliveries(receiveCallbacks, CompleteLines(old(buffer)))
    {
      ghost var done: seq<string> := [];
      while '\n' in buffer
        invariant old(buffer) == Terminated(done, "\n") + buffer
        invariant forall i :: 0 <= i < |done| ==> '\n' !in done[i]
        invariant delivered == old(delivered) + Deliveries(receiveCallbacks, done)
        decreases |buffer|
      {
        ghost var rest := buffer;
        ghost var sofar := delivered;
        var line := CutFirstLine();
        CutLine(old(buffer), done, rest, |line|);
        DeliveriesStep(done, line, old(delivered), sofar, delivered, receiveCallbacks);
        done := done + [line];
      }
      LinesOfTerminated(done, buffer);
    }

    /** One pass of that loop: the text up to the first newline is cut off
        the buffer and, stripped, passed to the callbacks unless empty. */
    method CutFirstLine() returns (line: string)
      requires '\n' in buffer
      modifies this`buffer, this`delivered
      ensures |line| == IndexOf(old(buffer), '\n') && line == old(buffer)[..|line|]
      ensures buffer == old(buffer)[|line| + 1..]
      ensures delivered == old(delivered) + LineCalls(receiveCallbacks, line)
    {
      var k := IndexOf(buffer, '\n');
      line := buffer[..k];
      buffer := buffer[k + 1..];
      var stripped := Strip(line);
      if stripped != "" {
        CallBack(stripped);
      }
    }

    /** Every registered callback is called with the line, in order. */
    method CallBack(line: string)
      modifies this`delivered
      ensures delivered == old(delivered) + Deliver(receiveCallbacks, line)
    {
      for i := 0 to |receiveCallbacks|
        invariant delivered == old(delivered) + Deliver(receiveCallbacks[..i], line)
      {
        delivered := delivered + [Delivery(receiveCallbacks[i], line)];
        assert Deliver(receiveCallbacks[..i + 1], line)
          == Deliver(receiveCallbacks[..i], line) + [Delivery(receiveCallbacks[i], line)];
      }
      assert receiveCallbacks[..|receiveCallbacks|] == receiveCallbacks;
    }
  }
}

=== FILE: tab_manager.dfy ===
/** The host's tab manager: it recognises which firmware application is
    talking from an ordered table of patterns (with a two-second
    debounce) and hands every message to every registered tab. */
module TabManagement {
  import opened PyText
  import opened Regex
  import opened ParameterMonitoring

  /** `a.*b.*c...`: the words in order, anything but a newline between them. */
  function Chain(words: seq<string>): seq<Node>
    requires |words| >= 1
  {
    if |words| == 1 then Lit(words[0]) else Chain(words[..|words| - 1]) + [Star(AnyChar)] + Lit(words[|words| - 1])
  }

  /** A single-alternative pattern under IGNORECASE. */
  function P(ns: seq<Node>): Pattern { Pattern([ns], true) }

  function FlightSequencerPatterns(): seq<Pattern>
  {
    [ P(Lit("[APP] FlightSequencer")),
      P(Chain(["FlightSequencer", "starting"])),
      P(Chain(["FlightSequencer", "ready"])),
      P(Lit("Motor Run Time") + [Star(AnyChar), Plus(Digit)]),
      P(Lit("Total Flight Time") + [Star(AnyChar), Plus(Digit)]),
      P(Chain(["Phase", "COMPLETE"])) ]
  }

  function GpsAutopilotPatterns(): seq<Pattern>
  {
    [ P(Lit("[APP] GpsAutopilot")),
      P(Chain(["GpsAutopilot", "starting"])),
      P(Chain(["GpsAutopilot", "initialized"])),
      P(Lit("GPS Status Report")),
      P(Chain(["Navigation", "datum", "set"])),
      P(Chain(["Control", "autonomous", "mode"])),
      P(Chain(["GPS", "fix", "acquired"])),
      P(Chain(["Fix Status:", "[OK]"])),
      P(Lit("Satellites:") + [Star(AnyChar), Plus(Digit), Star(AnyChar)] + Lit("tracked")),
      P(Lit("Position:") + [Star(AnyChar), Plus(Digit), One(Chr('.')), Plus(Digit), Star(AnyChar)] + Lit("deg")),
      P(Lit("NMEA Sentences:") + [Star(AnyChar), Plus(Digit)]),
      P(Lit("[GPS_RAW]")),
      P(Lit("[GPS_PARSE]")),
      P(Chain(["GPS", "ready", "for", "datum"])),
      P(Chain(["System", "ready", "GPS", "acquiring"])),
      P(Chain(["NAV", "Navigation", "system"])) ]
  }

  /** `Test.*PASS|FAIL`: the alternation splits the whole pattern, so the
      second alternative is the bare word FAIL. */
  function TestPassOrFail(): Pattern
  {
    Pattern([Chain(["Test", "PASS"]), Lit("FAIL")], true)
  }

  function DeviceTestPatterns(): seq<Pattern>
  {
    [ P(Lit("[APP] ButtonTest")),
      P(Lit("[APP] LedTest")),
      P(Lit("[APP] ServoTest")),
      P(Lit("[APP] GpsTest")),
      P(Lit("[APP] LedButton")),
      P(Chain(["Device", "Test", "Suite"])),
      P(Chain(["Running", "test"]) + [Star(AnyChar), Plus(WordChar)]),
      TestPassOrFail(),
      P(Chain(["Hardware", "validation"])) ]
  }

  datatype Family = Family(app: AppType, patterns: seq<Pattern>)

  /** The detection table, in the order it is walked. */
  function Table(): seq<Family>
  {
    [ Family(FlightSequencer, FlightSequencerPatterns()),
      Family(GpsAutopilot, GpsAutopilotPatterns()),
      Family(DeviceTest, DeviceTestPatterns()) ]
  }

  predicate AnyMatches(pats: seq<Pattern>, msg: string)
  {
    exists j :: 0 <= j < |pats| && Matches(pats[j], msg)
  }

  /** The application of the first family, from index `i` on, that has a
      matching pattern. */
  function FirstFrom(table: seq<Family>, msg: string, i: nat): AppType
    requires i <= |table|
    decreases |table| - i
  {
    if i == |table| then Unknown
    else if AnyMatches(table[i].patterns, msg) then table[i].app
    else FirstFrom(table, msg, i + 1)
  }

  /** The scan of `_detect_application`: the index of the first family
      with a matching pattern, or the table's length when none matches. */
  method FindFamily(table: seq<Family>, msg: string) returns (i: nat)
    ensures i <= |table|
    ensures i < |table| ==> AnyMatches(table[i].patterns, msg) && FirstFrom(table, msg, 0) == table[i].app
    ensures i == |table| ==> FirstFrom(table, msg, 0) == Unknown
  {
    i := 0;
    while i < |table|
      invariant i <= |table|
      invariant FirstFrom(table, msg, 0) == FirstFrom(table, msg, i)
    {
      var pats := table[i].patterns;
      for j := 0 to |pats|
        invariant forall j' :: 0 <= j' < j ==> !Matches(pats[j'], msg)
      {
        if Matches(pats[j], msg) {
          return;
        }
      }
      i := i + 1;
    }
  }

  /** The minimum time, in seconds, between two detections. */
  const Debounce: real := 2.0

  /** What `_detect_application` returns and the debounce timer afterwards. */
  function Detection(last: real, now: real, msg: string): (AppType, real)
  {
    if now - last < Debounce then (Unknown, last)
    else
      var t := FirstFrom(Table(), msg, 0);
      (t, if t == Unknown then last else now)
  }

  /** One registered tab: its application key and an identity for its handler. */
  datatype Handler = Handler(app: AppType, id: nat)

  /** `handler(message)` for every registered tab, in registration order. */
  function Deliveries(hs: seq<Handler>, msg: string): seq<(nat, string)>
  {
    seq(|hs|, i requires 0 <= i < |hs| => (hs[i].id, msg))
  }

  /** The tabs whose handlers raise, in registration order. */
  function Failures(hs: seq<Handler>, failing: set<nat>): seq<AppType>
  {
    if hs == [] then []
    else Failures(hs[..|hs| - 1], failing) + (if hs[|hs| - 1].id in failing then [hs[|hs| - 1].app] else [])
  }

  /** Index of the handler registered for `app`, or `|hs|`. */
  function KeyIndex(hs: seq<Handler>, app: AppType): (k: nat)
    ensures k <= |hs|
    ensures k < |hs| ==> hs[k].app == app
    ensures forall j :: 0 <= j < k ==> hs[j].app != app
    decreases |hs|
  {
    if hs == [] then 0 else if hs[0].app == app then 0 else 1 + KeyIndex(hs[1..], app)
  }

  class TabManager {
    var activeApp: AppType
    var lastDetectionTime: real
    var handlers: seq<Handler>          // `tab_handlers`, in insertion order
    var hasCallback: bool               // a detection callback is set
    var notifications: seq<AppType>     // every call of the detection callback
    var delivered: seq<(nat, string)>   // every call of a tab handler
    var errors: seq<AppType>            // every handler that raised

    /** No two handlers share an application key. */
    predicate Valid()
      reads this
    {
      forall i, j :: 0 <= i < j < |handlers| ==> handlers[i].app != handlers[j].app
    }

    constructor ()
      ensures Valid()
      ensures activeApp == Unknown && lastDetectionTime == 0.0 && handlers == [] && !hasCallback
      ensures notifications == [] && delivered == [] && errors == []
    {
      activeApp := Unknown;
      lastDetectionTime := 0.0;
      handlers := [];
      hasCallback := false;
      notifications := [];
      delivered := [];
      errors := [];
    }

    /** `register_tab`: a new key is appended; an existing key keeps its
        place and gets the new handler. */
    method RegisterTab(app: AppType, id: nat)
      requires Valid()
      modifies this
      ensures Valid()
      ensures var k := KeyIndex(old(handlers), app);
              handlers == if k < |old(handlers)| then old(handlers)[k := Handler(app, id)] else old(handlers) + [Handler(app, id)]
      ensures activeApp == old(activeApp) && lastDetectionTime == old(lastDetectionTime) && hasCallback == old(hasCallback)
      ensures notifications == old(notifications) && delivered == old(delivered) && errors == old(errors)
    {
      var k := KeyIndex(handlers, app);
      if k < |handlers| {
        handlers := handlers[k := Handler(app, id)];
      } else {
        handlers := handlers + [Handler(app, id)];
      }
    }

    method SetDetectionCallback()
      modifies this
      ensures hasCallback
      ensures activeApp == old(activeApp) && lastDetectionTime == old(lastDetectionTime) && handlers == old(handlers)
      ensures notifications == old(notifications) && delivered == old(delivered) && errors == old(errors)
    {
      hasCallback := true;
    }

    /** `_detect_application` at wall-clock time `now`. */
    method DetectApplication(msg: string, now: real) returns (t: AppType)
      modifies this
      ensures (t, lastDetectionTime) == Detection(old(lastDetectionTime), now, msg)
      ensures activeApp == old(activeApp) && handlers == old(handlers) && hasCallback == old(hasCallback)
      ensures notifications == old(notifications) && delivered == old(delivered) && errors == old(errors)
    {
      if now - lastDetectionTime < Debounce {
        return Unknown;
      }
      var table := Table();
      var i := FindFamily(table, msg);
      if i == |table| {
        return Unknown;
      }
      assert table[i].app != Unknown;
      lastDetectionTime := now;
      return table[i].app;
    }

    /** `route_message`: detect, switch and notify on a new application,
        then hand the message to every tab; `failing` names the handlers
        that raise, which are reported and skipped over. */
    method RouteMessage(msg: string, now: real, failing: set<nat>)
      requires Valid()
      modifies this
      ensures Valid()
      ensures var (d, timer) := Detection(old(lastDetectionTime), now, msg);
              && lastDetectionTime == timer
              && activeApp == (if d != Unknown then d else old(activeApp))
              && notifications == old(notifications) + (if d != Unknown && d != old(activeApp) && hasCallback then [d] else [])
      ensures handlers == old(handlers) && hasCallback == old(hasCallback)
      ensures delivered == old(delivered) + Deliveries(handlers, msg)
      ensures errors == old(errors) + Failures(handlers, failing)
    {
      var d := DetectApplication(msg, now);
      if d != Unknown {
        if d != activeApp {
          activeApp := d;
          if hasCallback {
            notifications := notifications + [d];
          }
        }
      }
      Dispatch(msg, failing);
    }

    /** The handler loop of `route_message`: every handler sees the
        message, in registration order, and a failing handler's error is
        recorded without stopping the others. */
    method Dispatch(msg: string, failing: set<nat>)
      modifies this`delivered, this`errors
      ensures delivered == old(delivered) + Deliveries(handlers, msg)
      ensures errors == old(errors) + Failures(handlers, failing)
    {
      for i := 0 to |handlers|
        invariant delivered == old(delivered) + Deliveries(handlers[..i], msg)
        invariant errors == old(errors) + Failures(handlers[..i], failing)
      {
        assert handlers[..i + 1][..i] == handlers[..i];
        delivered := delivered + [(handlers[i].id, msg)];
        if handlers[i].id in failing {
          errors := errors + [handlers[i].app];
        }
      }
      assert handlers[..|handlers|] == handlers;
    }

    /** `force_application_type`: switch and notify only on a change; the
        debounce timer is left alone. */
    method ForceApplicationType(t: AppType)
      modifies this
      ensures activeApp == t
      ensures notifications == old(notifications) + (if t != old(activeApp) && hasCallback then [t] else [])
      ensures lastDetectionTime == old(lastDetectionTime) && handlers == old(handlers) && hasCallback == old(hasCallback)
      ensures delivered == old(delivered) && errors == old(errors)
    {
      if t != activeApp {
        activeApp := t;
        if hasCallback {
          notifications := notifications + [t];
        }
      }
    }

    method ResetDetection()
      modifies this
      ensures activeApp == Unknown && lastDetectionTime == 0.0
      ensures handlers == old(handlers) && hasCallback == old(hasCallback)
      ensures notifications == old(notifications) && delivered == old(delivered) && errors == old(errors)
    {
      activeApp := Unknown;
      lastDetectionTime := 0.0;
    }
  }

  // ---------------------------------------------------------------------
  // Properties

  /** Within two seconds of the last detection nothing is detected and the
      timer stays put, whatever the message says. */
  lemma DebounceSuppresses(last: real, now: real, msg: string)
    requires now - last < Debounce
    ensures Detection(last, now, msg) == (Unknown, last)
  {
  }

  /** The table walk returns the first family with a matching pattern, and
      only a detection moves the timer. */
  lemma {:induction false} FirstFromIsFirst(table: seq<Family>, msg: string, i: nat)
    requires i <= |table|
    ensures var t := FirstFrom(table, msg, i);
            t == Unknown || exists k :: i <= k < |table| && table[k].app == t && AnyMatches(table[k].patterns, msg)
                                     && forall k' :: i <= k' < k ==> !AnyMatches(table[k'].patterns, msg)
    ensures (forall k :: i <= k < |table| ==> !AnyMatches(table[k].patterns, msg)) ==> FirstFrom(table, msg, i) == Unknown
    decreases |table| - i
  {
    if i < |table| && !AnyMatches(table[i].patterns, msg) {
      FirstFromIsFirst(table, msg, i + 1);
    }
  }

  /** A message matching a FlightSequencer pattern is never taken for
      another application; one matching a GpsAutopilot pattern is never
      taken for DeviceTest. */
  lemma TableOrder(last: real, now: real, msg: string)
    requires now - last >= Debounce
    ensures AnyMatches(FlightSequencerPatterns(), msg) ==> Detection(last, now, msg) == (FlightSequencer, now)
    ensures (!AnyMatches(FlightSequencerPatterns(), msg) && AnyMatches(GpsAutopilotPatterns(), msg))
              ==> Detection(last, now, msg) == (GpsAutopilot, now)
    ensures (!AnyMatches(FlightSequencerPatterns(), msg) && !AnyMatches(GpsAutopilotPatterns(), msg)
              && AnyMatches(DeviceTestPatterns(), msg)) ==> Detection(last, now, msg) == (DeviceTest, now)
    ensures (!AnyMatches(FlightSequencerPatterns(), msg) && !AnyMatches(GpsAutopilotPatterns(), msg)
              && !AnyMatches(DeviceTestPatterns(), msg)) ==> Detection(last, now, msg) == (Unknown, last)
  {
    var table := Table();
    assert table[0].patterns == FlightSequencerPatterns();
    assert table[1].patterns == GpsAutopilotPatterns();
    assert table[2].patterns == DeviceTestPatterns();
  }

  /** Because `Test.*PASS|FAIL` splits at the bar, any message containing
      "fail" in any letter case is a DeviceTest announcement, unless an
      earlier family claims it or the debounce holds. */
  lemma AnyFailIsDeviceTest(last: real, now: real, msg: string, i: nat)
    requires now - last >= Debounce
    requires WordAt("FAIL", msg, i, true)
    requires !AnyMatches(FlightSequencerPatterns(), msg) && !AnyMatches(GpsAutopilotPatterns(), msg)
    ensures Detection(last, now, msg) == (DeviceTest, now)
  {
    var pat := TestPassOrFail();
    assert pat.alts[1] == Lit("FAIL") + [];
    LitThen("FAIL", [], msg, i, true, map[], map[]);
    AlternativeFound(pat, msg, i, 1);
    assert DeviceTestPatterns()[7] == pat;
    assert AnyMatches(DeviceTestPatterns(), msg);
    TableOrder(last, now, msg);
    var table := Table();
    assert table[2].patterns == DeviceTestPatterns();
  }
}
